=== FILE: README.md ===
# CAP 5405 image-processing projects: a verified model of their core logic

This project models, in Dafny, the parts of the course's image-processing tools that are logic rather than GUI wiring or calls into numerical libraries. Each module follows one source file or component.

- **Weighted Voronoi stippling (T12).**
  - `StipplePreprocess`: inversion, normalisation by the maximum, and digitize quantisation.
  - `StippleCentroid`: the density centroid of a Voronoi cell. It covers the clamped bounding box, exhaustive or random candidates, the point-in-polygon filter, the two fallbacks to the vertex mean, and the weighted mean.
  - `StippleLloyd`: the Lloyd relaxation loop and its point history, as a method over the history.
  - `StippleDriver`: weight normalisation, flat index to (x, y), the display name and the GIF name.
  - `StippleGui`: the entry clamps, the quantisation and seed toggles, and argument forwarding. The Tk variables are a class.
- **Undo/redo state machines.**
  - `AdjustHistory` and `AdjustTool` (T22): the `History` stacks and the `Adjustments` factor fields, both as classes.
  - `EditShared`, `Sepia` and `EditScreen` (T18): the logo whitening map, the popup clamp, the sepia pixel map, and `EditingScreen`'s history/future stacks with crop-box normalisation.
  - `ImageFilters` and `FiltersTool` (T27): the filter functions' guards, the vignette mask and the watercolor pass count, and the tool's ordered `filter_states` pipeline with its undo stack.
- **Matching and ranking.**
  - `Mosaic` (T02): the tile choice and the grid fill.
  - `HistCore`, `HistogramGui` and `FreehandMatching` (T35, T32): histograms, CDFs, the lookup table, and the two applications' guards and state.
  - `Ranking`: Python's stable descending sort and `[:n]`, shared by `FrequencyMatching` (T21) and `EdgeMatching` (T25).
  - `MorphologicalMatching` (T24): the Jaccard similarity, conversions and display grid.
- **Dataset references.** `DatasetReference` (T03): reference and name parsing, paths, and the duplicate check.
- **Shared helpers.** `Common`: Option/Result, Python's `int()` truncation, `np.round`'s half-to-even rounding, ASCII lowering, path joining and sums.

Images are opaque symbolic values wherever only their identity matters: undo stacks, and filters that start from the original. Where a per-pixel map is checked, images are sequences of rows. Foreign operations become function parameters carrying only the properties the code relies on. These include the Voronoi diagram, `Path.contains_points`, random draws, blurs, colour conversions, Canny/Sobel, FFT, SSIM, Pearson correlation, Otsu thresholding, skeletonisation and resizing. Floats are exact reals.

Two details of the code shape what the model states:
- The stippling quantisation is ⌊v·(q-1)⌋/q: `np.digitize` over `linspace(0, 1, q)`, minus one, divided by q.
- T03 counts only ".jpg" names, because its extension setting `('.jpg')` is a string, not a tuple.

## Model

| member | source | states |
|---|---|---|
| StipplePreprocess.Preprocess | Projects/T12_Weighted_Voronoi_image_stippling/preprocess_image.py:7-20 | one density per pixel; an empty image fails (`np.max` of nothing) and so does a zero maximum |
| StipplePreprocess.PreprocessFailsIffBlank | Projects/T12_Weighted_Voronoi_image_stippling/preprocess_image.py:12-13 | for grey values in [0, 1], preprocessing fails exactly when the image is empty or pure white |
| StipplePreprocess.NormalizedDensity | Projects/T12_Weighted_Voronoi_image_stippling/preprocess_image.py:12-13 | without quantisation each density is (1 - g) / max(1 - g), lies in [0, 1] and 1 is reached |
| StipplePreprocess.EdgeBelow | Projects/T12_Weighted_Voronoi_image_stippling/preprocess_image.py:16 | edge k of `linspace(0, 1, q)` is at most v exactly when k ≤ ⌊v·(q-1)⌋ |
| StipplePreprocess.CountEdgesClosed | Projects/T12_Weighted_Voronoi_image_stippling/preprocess_image.py:16-17 | `digitize` counts min(n, ⌊v·(q-1)⌋ + 1) edges at or below v |
| StipplePreprocess.QuantizeFormula | Projects/T12_Weighted_Voronoi_image_stippling/preprocess_image.py:15-18 | a quantised density in [0, 1] is ⌊v·(q-1)⌋ / q with the level in 0 … q-1 |
| StipplePreprocess.QuantizeSingleLevel | Projects/T12_Weighted_Voronoi_image_stippling/preprocess_image.py:15-18 | with one grey level every density quantises to 0 |
| StipplePreprocess.QuantizeBound | Projects/T12_Weighted_Voronoi_image_stippling/preprocess_image.py:15-18 | quantised densities lie in [0, (q-1)/q] |
| StipplePreprocess.QuantizeMonotone | Projects/T12_Weighted_Voronoi_image_stippling/preprocess_image.py:15-18 | quantisation never reverses the order of two densities |
| StipplePreprocess.QuantizeAfterNormalize | Projects/T12_Weighted_Voronoi_image_stippling/preprocess_image.py:13-18 | quantisation is applied pixel by pixel to the normalised density |
| StipplePreprocess.QuantizedPixels | Projects/T12_Weighted_Voronoi_image_stippling/preprocess_image.py:16-18 | every quantised pixel is its level over q and lies in [0, (q-1)/q] |
| StipplePreprocess.QuantizedDensity | Projects/T12_Weighted_Voronoi_image_stippling/preprocess_image.py:7-20 | with q ≥ 2 levels the output is ⌊d·(q-1)⌋/q of the normalised density d and (q-1)/q is reached |
| StipplePreprocess.Invert | Projects/T12_Weighted_Voronoi_image_stippling/preprocess_image.py:12 | `1 - gray_img`, pixel by pixel |
| StipplePreprocess.Normalize | Projects/T12_Weighted_Voronoi_image_stippling/preprocess_image.py:13 | the division by the maximum, pixel by pixel (its range is NormalizedDensity) |
| StipplePreprocess.Bin | Projects/T12_Weighted_Voronoi_image_stippling/preprocess_image.py:16 | edge k of `np.linspace(0, 1, q)`: k/(q-1), and 0 for a single edge |
| StipplePreprocess.Level | Projects/T12_Weighted_Voronoi_image_stippling/preprocess_image.py:16-17 | ⌊v·(q-1)⌋, the index of the last edge at or below v (EdgeBelow) |
| StipplePreprocess.CountEdges | Projects/T12_Weighted_Voronoi_image_stippling/preprocess_image.py:17 | how many of the first n edges are at most v (CountEdgesClosed gives its closed form) |
| StipplePreprocess.Digitize | Projects/T12_Weighted_Voronoi_image_stippling/preprocess_image.py:17 | `np.digitize` on increasing edges: the number of edges at most v |
| StipplePreprocess.CountEdgesMonotone | Projects/T12_Weighted_Voronoi_image_stippling/preprocess_image.py:17 | `np.digitize` never gives a larger value a smaller bin |
| StipplePreprocess.Quantize | Projects/T12_Weighted_Voronoi_image_stippling/preprocess_image.py:17-18 | `(np.digitize(v, bins) - 1) / gray_levels` (QuantizeFormula, QuantizeBound and QuantizeMonotone state its properties) |
| StipplePreprocess.QuantizeAll | Projects/T12_Weighted_Voronoi_image_stippling/preprocess_image.py:17-18 | the quantisation applied pixel by pixel |
| StipplePreprocess.UnitRange | Projects/T12_Weighted_Voronoi_image_stippling/preprocess_image.py:9 | every grey value lies in [0, 1], as `rgb2gray` produces them |
| StippleCentroid.ClampBoxIsIntersection | Projects/T12_Weighted_Voronoi_image_stippling/get_density_centroid.py:10-16 | the clamped box lies in the image and holds exactly the image columns and rows between the truncated extreme vertex coordinates |
| StippleCentroid.GridSamplesEnumerateBox | Projects/T12_Weighted_Voronoi_image_stippling/get_density_centroid.py:24-27 | exhaustive mode lists every integer pixel of the box exactly once, row by row, nx·ny of them |
| StippleCentroid.Within | Projects/T12_Weighted_Voronoi_image_stippling/get_density_centroid.py:30-31 | a sample is kept exactly when it is inside the polygon: every kept sample is an inside sample, every inside sample is kept, and none is kept when none is inside |
| StippleCentroid.WithinSingle | Projects/T12_Weighted_Voronoi_image_stippling/get_density_centroid.py:30-31 | a single sample is kept exactly when it is inside |
| StippleCentroid.WithinAppend | Projects/T12_Weighted_Voronoi_image_stippling/get_density_centroid.py:30-31 | the boolean-mask indexing keeps the samples' order: filtering a concatenation concatenates the filtered parts |
| StippleCentroid.RoundAll | Projects/T12_Weighted_Voronoi_image_stippling/get_density_centroid.py:38 | one rounded pixel per kept sample |
| StippleCentroid.ReadPixelInImage | Projects/T12_Weighted_Voronoi_image_stippling/get_density_centroid.py:39 | reading a pixel of the image returns its own density; a pixel beyond the right or bottom edge raises IndexError |
| StippleCentroid.Weights | Projects/T12_Weighted_Voronoi_image_stippling/get_density_centroid.py:39 | one weight per pixel, each the density read at that pixel; pixels inside the image never fail |
| StippleCentroid.CandidatesInBox | Projects/T12_Weighted_Voronoi_image_stippling/get_density_centroid.py:18-27 | both sampling modes draw every candidate between the box corners |
| StippleCentroid.RoundedInBox | Projects/T12_Weighted_Voronoi_image_stippling/get_density_centroid.py:38 | rounded candidates of a box inside the image are pixels of the box |
| StippleCentroid.WeightsInImage | Projects/T12_Weighted_Voronoi_image_stippling/get_density_centroid.py:39 | the weights of pixels inside the image are densities of the image |
| StippleCentroid.CandidatePixels | Projects/T12_Weighted_Voronoi_image_stippling/get_density_centroid.py:10-38 | every pixel the estimator weighs lies in the clamped box and the image |
| StippleCentroid.NonEmptyBoxSucceeds | Projects/T12_Weighted_Voronoi_image_stippling/get_density_centroid.py:9-47 | with a non-empty clamped box the estimator never raises |
| StippleCentroid.NothingInsideGivesVertexMean | Projects/T12_Weighted_Voronoi_image_stippling/get_density_centroid.py:18-35 | in either sampling mode, a polygon containing none of its box's candidates gives the vertex mean |
| StippleCentroid.FlatBoxGivesVertexMean | Projects/T12_Weighted_Voronoi_image_stippling/get_density_centroid.py:18-35 | in random mode a box of zero width or height draws no samples and gives the vertex mean |
| StippleCentroid.ZeroDensityGivesVertexMean | Projects/T12_Weighted_Voronoi_image_stippling/get_density_centroid.py:41-43 | on an all-zero density the weights sum to zero and the vertex mean is returned |
| StippleCentroid.WeightedSumBounds | Projects/T12_Weighted_Voronoi_image_stippling/get_density_centroid.py:45-46 | a non-negatively weighted sum of values in [lo, hi] lies between lo·Σw and hi·Σw |
| StippleCentroid.AxisMeanInRange | Projects/T12_Weighted_Voronoi_image_stippling/get_density_centroid.py:45-46 | a weighted mean of values in [lo, hi] lies in [lo, hi] |
| StippleCentroid.WeightedMeanInBox | Projects/T12_Weighted_Voronoi_image_stippling/get_density_centroid.py:45-46 | the weighted mean of pixels of a box lies in the box |
| StippleCentroid.CentroidInBoxOrVertexMean | Projects/T12_Weighted_Voronoi_image_stippling/get_density_centroid.py:9-47 | on a non-negative density the result is the vertex mean or a point of the clamped box |
| StippleCentroid.WellShaped | Projects/T12_Weighted_Voronoi_image_stippling/get_density_centroid.py:9 | `gray_img` holds height·width values, row by row |
| StippleCentroid.NonEmpty | Projects/T12_Weighted_Voronoi_image_stippling/get_density_centroid.py:13-16 | the clamped box holds at least one pixel |
| StippleCentroid.InBox | Projects/T12_Weighted_Voronoi_image_stippling/get_density_centroid.py:13-16 | a pixel lies between the clamped bounds |
| StippleCentroid.InImage | Projects/T12_Weighted_Voronoi_image_stippling/get_density_centroid.py:39 | a pixel indexes `gray_img` without wrapping |
| StippleCentroid.BoxInImage | Projects/T12_Weighted_Voronoi_image_stippling/get_density_centroid.py:13-16 | the box lies within the image |
| StippleCentroid.CoveredBy | Projects/T12_Weighted_Voronoi_image_stippling/get_density_centroid.py:20-27 | every candidate lies between the box corners |
| StippleCentroid.AllIn | Projects/T12_Weighted_Voronoi_image_stippling/get_density_centroid.py:38-39 | every rounded pixel lies in the box and the image |
| StippleCentroid.Spans | Projects/T12_Weighted_Voronoi_image_stippling/get_density_centroid.py:21 | a point lies between `[min_x, min_y]` and `[max_x, max_y]`, in whichever order the corners are |
| StippleCentroid.UniformDraws | Projects/T12_Weighted_Voronoi_image_stippling/get_density_centroid.py:21 | what `np.random.uniform(low, high, (n, 2))` guarantees: n points between the two corners |
| StippleCentroid.Xs | Projects/T12_Weighted_Voronoi_image_stippling/get_density_centroid.py:10-11 | the x coordinates of the vertices |
| StippleCentroid.Ys | Projects/T12_Weighted_Voronoi_image_stippling/get_density_centroid.py:10-11 | the y coordinates of the vertices |
| StippleCentroid.ClampBox | Projects/T12_Weighted_Voronoi_image_stippling/get_density_centroid.py:10-16 | the vertex bounding box truncated with `int()` and clamped to the image (ClampBoxIsIntersection states what it holds) |
| StippleCentroid.ColumnInBox | Projects/T12_Weighted_Voronoi_image_stippling/get_density_centroid.py:13-14 | a column lies between `min_x` and `max_x` |
| StippleCentroid.RowInBox | Projects/T12_Weighted_Voronoi_image_stippling/get_density_centroid.py:15-16 | a row lies between `min_y` and `max_y` |
| StippleCentroid.SampleCount | Projects/T12_Weighted_Voronoi_image_stippling/get_density_centroid.py:20 | `(max_x - min_x) * (max_y - min_y) * 10`, negative when one side is reversed |
| StippleCentroid.GridRow | Projects/T12_Weighted_Voronoi_image_stippling/get_density_centroid.py:24-27 | one row of the meshgrid holds the box's columns, maxX - minX + 1 of them |
| StippleCentroid.GridFrom | Projects/T12_Weighted_Voronoi_image_stippling/get_density_centroid.py:24-27 | the meshgrid rows from one row down to `max_y`, row after row |
| StippleCentroid.GridSamples | Projects/T12_Weighted_Voronoi_image_stippling/get_density_centroid.py:24-27 | the raveled meshgrid, empty for an empty box (GridSamplesEnumerateBox states its contents) |
| StippleCentroid.PixelOf | Projects/T12_Weighted_Voronoi_image_stippling/get_density_centroid.py:24-27 | an integral point whose pixel lies in the box |
| StippleCentroid.GridFromLength | Projects/T12_Weighted_Voronoi_image_stippling/get_density_centroid.py:24-27 | the rows from y on hold (maxY - y + 1)·nx points |
| StippleCentroid.GridFromInBox | Projects/T12_Weighted_Voronoi_image_stippling/get_density_centroid.py:24-27 | every point of the rows from y on is an integral pixel of the box |
| StippleCentroid.GridFromAt | Projects/T12_Weighted_Voronoi_image_stippling/get_density_centroid.py:24-27 | pixel (x, y') sits at position (y' - y)·nx + (x - minX) of the rows from y on |
| StippleCentroid.Candidates | Projects/T12_Weighted_Voronoi_image_stippling/get_density_centroid.py:18-27 | random mode draws `SampleCount` points, raising numpy's ValueError when the count is negative; exhaustive mode takes the grid (CandidatesInBox states where they lie) |
| StippleCentroid.Wrap | Projects/T12_Weighted_Voronoi_image_stippling/get_density_centroid.py:39 | numpy's negative index counts from the end of the axis |
| StippleCentroid.ReadPixel | Projects/T12_Weighted_Voronoi_image_stippling/get_density_centroid.py:39 | `gray_img[y, x]` with numpy's wrap and `IndexError` (ReadPixelInImage states its results) |
| StippleCentroid.Cols | Projects/T12_Weighted_Voronoi_image_stippling/get_density_centroid.py:46 | the x coordinates of the rounded pixels |
| StippleCentroid.Rows | Projects/T12_Weighted_Voronoi_image_stippling/get_density_centroid.py:46 | the y coordinates of the rounded pixels |
| StippleCentroid.Products | Projects/T12_Weighted_Voronoi_image_stippling/get_density_centroid.py:46 | the products coordinate·weight, one per pixel |
| StippleCentroid.WeightedSum | Projects/T12_Weighted_Voronoi_image_stippling/get_density_centroid.py:46 | the numerator of `np.average`: Σ coordinate·weight |
| StippleCentroid.VertexMean | Projects/T12_Weighted_Voronoi_image_stippling/get_density_centroid.py:35 | `vertices.mean(axis=0)`: the sums of the x and y coordinates over the vertex count |
| StippleCentroid.WeightedMean | Projects/T12_Weighted_Voronoi_image_stippling/get_density_centroid.py:46 | `np.average(coords, axis=0, weights=weights)` (AxisMeanInRange and WeightedMeanInBox state its range) |
| StippleCentroid.PixelCentroid | Projects/T12_Weighted_Voronoi_image_stippling/get_density_centroid.py:38-47 | the weights read at the rounded pixels; a zero total gives the vertex mean, otherwise the weighted mean |
| StippleCentroid.DensityCentroid | Projects/T12_Weighted_Voronoi_image_stippling/get_density_centroid.py:9-47 | the whole estimator: candidates, the polygon filter, the two fallbacks and the weighted mean (the lemmas above state its cases) |
| StippleCentroid.FlatSampleCount | Projects/T12_Weighted_Voronoi_image_stippling/get_density_centroid.py:20 | a box of zero width or height asks for 0 samples |
| StippleCentroid.ZeroSum | Projects/T12_Weighted_Voronoi_image_stippling/get_density_centroid.py:42 | the sum of all-zero weights is 0 |
| StippleLloyd.CellVertices | Projects/T12_Weighted_Voronoi_image_stippling/lloyds_method.py:24 | one vertex per index of the region |
| StippleLloyd.PassUpTo | Projects/T12_Weighted_Voronoi_image_stippling/lloyds_method.py:18-27 | a successful pass prefix holds one new position per point visited |
| StippleLloyd.PassErrorPersists | Projects/T12_Weighted_Voronoi_image_stippling/lloyds_method.py:18-27 | once a position fails, the whole pass fails with that error |
| StippleLloyd.Reposition | Projects/T12_Weighted_Voronoi_image_stippling/lloyds_method.py:19-27 | an unbounded or empty cell keeps the input point; a bounded one gets the estimated centroid |
| StippleLloyd.RunPass | Projects/T12_Weighted_Voronoi_image_stippling/lloyds_method.py:15-27 | the inner loop returns exactly Pass, the function whose lemmas state the per-point policy |
| StippleLloyd.LloydsMethodDensity | Projects/T12_Weighted_Voronoi_image_stippling/lloyds_method.py:10-33 | the relaxation loop returns exactly Lloyd (diagram and history, or the first error) |
| StippleLloyd.HistoryStep | Projects/T12_Weighted_Voronoi_image_stippling/lloyds_method.py:29-31 | one more pass extends a history of t passes to one of t + 1 |
| StippleLloyd.LloydFromShape | Projects/T12_Weighted_Voronoi_image_stippling/lloyds_method.py:14-33 | the remaining passes keep the history shape |
| StippleLloyd.LloydHistory | Projects/T12_Weighted_Voronoi_image_stippling/lloyds_method.py:10-33 | a run returns iterations + 1 point sets, the input first, all as long as the input, each one pass over the diagram of the one before, and the diagram of the last |
| StippleLloyd.PassUpToAt | Projects/T12_Weighted_Voronoi_image_stippling/lloyds_method.py:18-27 | a successful pass prefix is built position by position |
| StippleLloyd.PassPolicy | Projects/T12_Weighted_Voronoi_image_stippling/lloyds_method.py:18-27 | in every pass, a point whose cell is unbounded or empty returns to its position in the original input; any other point becomes its cell's estimated centroid |
| StippleLloyd.DiagramOf | Projects/T12_Weighted_Voronoi_image_stippling/lloyds_method.py:12 | what scipy's `Voronoi` promises for n points: one region index per point, and region entries that are vertex indices or -1 |
| StippleLloyd.ScipyVoronoi | Projects/T12_Weighted_Voronoi_image_stippling/lloyds_method.py:12 | every diagram `Voronoi` builds is a diagram of its input points |
| StippleLloyd.Region | Projects/T12_Weighted_Voronoi_image_stippling/lloyds_method.py:18-19 | `vor.regions[vor.point_region[i]]` |
| StippleLloyd.Bounded | Projects/T12_Weighted_Voronoi_image_stippling/lloyds_method.py:20 | a region that is neither empty nor contains -1 |
| StippleLloyd.NewPosition | Projects/T12_Weighted_Voronoi_image_stippling/lloyds_method.py:19-27 | an unbounded or empty cell keeps the input point, a bounded one takes the centroid of its vertices (PassPolicy states both cases) |
| StippleLloyd.Pass | Projects/T12_Weighted_Voronoi_image_stippling/lloyds_method.py:15-27 | one pass: the new positions of every point in index order, or the first failure |
| StippleLloyd.LloydFrom | Projects/T12_Weighted_Voronoi_image_stippling/lloyds_method.py:14-31 | the remaining passes, each rebuilding the diagram and appending its points to the history; a Qhull failure is an error |
| StippleLloyd.Lloyd | Projects/T12_Weighted_Voronoi_image_stippling/lloyds_method.py:10-33 | the initial diagram and `max(iterations, 0)` passes with the history starting at the input (LloydHistory states its shape) |
| StippleLloyd.HistoryShape | Projects/T12_Weighted_Voronoi_image_stippling/lloyds_method.py:13-31 | after t passes the history holds t + 1 point sets, starting with the input, each as long as the input and each later one a pass over the diagram of the one before |
| StippleDriver.SamplingWeights | Projects/T12_Weighted_Voronoi_image_stippling/weighted_voronoi_stippling.py:25-26 | one weight per pixel; an all-zero weight total is the division by zero |
| StippleDriver.SumDivided | Projects/T12_Weighted_Voronoi_image_stippling/weighted_voronoi_stippling.py:26 | dividing every weight by the total divides their sum by it |
| StippleDriver.WeightsSumToOne | Projects/T12_Weighted_Voronoi_image_stippling/weighted_voronoi_stippling.py:25-26 | for a non-negative density the weights are a probability vector: non-negative, summing to 1 |
| StippleDriver.ZeroDensityHasNoWeights | Projects/T12_Weighted_Voronoi_image_stippling/weighted_voronoi_stippling.py:25-26 | an all-zero density with a positive exponent has no weights |
| StippleDriver.UnitGrayGivesProbabilityWeights | Projects/T12_Weighted_Voronoi_image_stippling/weighted_voronoi_stippling.py:19-27 | for grey values in [0, 1], with or without quantisation, the weights handed to `np.random.choice` are a probability vector, so its non-negativity check never fires |
| StippleDriver.Pow | Projects/T12_Weighted_Voronoi_image_stippling/weighted_voronoi_stippling.py:25 | `density ** weight_scale` for a natural exponent is never negative for a non-negative density |
| StippleDriver.Powers | Projects/T12_Weighted_Voronoi_image_stippling/weighted_voronoi_stippling.py:25 | the element-wise power has one entry per pixel |
| StippleDriver.Divided | Projects/T12_Weighted_Voronoi_image_stippling/weighted_voronoi_stippling.py:26 | the division by the total has one entry per pixel |
| StippleDriver.ZeroSumOfZeros | Projects/T12_Weighted_Voronoi_image_stippling/weighted_voronoi_stippling.py:26 | `np.sum` of all-zero weights is 0 |
| StippleDriver.IndexToPixel | Projects/T12_Weighted_Voronoi_image_stippling/weighted_voronoi_stippling.py:30 | the pixel `(idx % width, idx // width)` of a flat index (its properties are the two round-trip lemmas) |
| StippleDriver.PixelPoint | Projects/T12_Weighted_Voronoi_image_stippling/weighted_voronoi_stippling.py:30 | a pixel as an integer-valued point (x, y) |
| StippleDriver.ProbabilityVector | Projects/T12_Weighted_Voronoi_image_stippling/weighted_voronoi_stippling.py:26-27 | what `np.random.choice` demands of `p`: no negative entry and a total of 1 |
| StippleDriver.WeightedChoice | Projects/T12_Weighted_Voronoi_image_stippling/weighted_voronoi_stippling.py:27 | what `np.random.choice(indices, size=n, p=p)` guarantees for a probability vector: n indices, each into p and of positive probability |
| StippleDriver.FirstPositive | Projects/T12_Weighted_Voronoi_image_stippling/weighted_voronoi_stippling.py:27 | the first index of positive probability, or the length when none is positive |
| StippleDriver.ProbabilityVectorHasPositiveEntry | Projects/T12_Weighted_Voronoi_image_stippling/weighted_voronoi_stippling.py:26-27 | a probability vector has an entry of positive probability, so a draw is possible |
| StippleDriver.ChooseFirstPositive | Projects/T12_Weighted_Voronoi_image_stippling/weighted_voronoi_stippling.py:27 | a deterministic draw: n copies of the first index of positive probability |
| StippleDriver.WeightedChoiceSatisfiable | Projects/T12_Weighted_Voronoi_image_stippling/weighted_voronoi_stippling.py:27 | the draw that repeats the first positive index meets WeightedChoice, so StippleRun's premise can be met |
| StippleDriver.CentroidEstimator | Projects/T12_Weighted_Voronoi_image_stippling/weighted_voronoi_stippling.py:34-35 | the estimator the relaxation is run with: `get_density_centroid` on the preprocessed image, with the random-sampling flag and the draws of each pass |
| StippleDriver.VoronoiStipple | Projects/T12_Weighted_Voronoi_image_stippling/weighted_voronoi_stippling.py:14-35 | preprocessing, the weights, `np.random.choice`'s checks (negative weights, then a negative size), the initial points and the relaxation, each failure propagated; its properties are StippleRun and UnitGrayGivesProbabilityWeights |
| StippleDriver.IndexToPixelRoundTrip | Projects/T12_Weighted_Voronoi_image_stippling/weighted_voronoi_stippling.py:30 | a flat index maps to a pixel of the image whose row-major index is that index |
| StippleDriver.PixelToIndexRoundTrip | Projects/T12_Weighted_Voronoi_image_stippling/weighted_voronoi_stippling.py:30 | every pixel is reached from its own row-major index |
| StippleDriver.InitialPoints | Projects/T12_Weighted_Voronoi_image_stippling/weighted_voronoi_stippling.py:30 | one initial point per chosen index |
| StippleDriver.InitialPointsOnWeightedPixels | Projects/T12_Weighted_Voronoi_image_stippling/weighted_voronoi_stippling.py:27-30 | indices drawn with positive weight become integer points on image pixels whose weight is positive |
| StippleDriver.StippleRun | Projects/T12_Weighted_Voronoi_image_stippling/weighted_voronoi_stippling.py:14-35 | for any `np.random.choice` that draws only indices of positive probability from a probability vector, a run draws stipple_points points at the integer coordinates `(idx % width, idx // width)` of image pixels whose sampling weight is positive, keeps lloyd_iters + 1 point sets starting with them, each a pass over the diagram of the one before |
| StippleDriver.DriverPassUsesDensityCentroid | Projects/T12_Weighted_Voronoi_image_stippling/weighted_voronoi_stippling.py:34-35 | a bounded cell's point moves to the density centroid of its vertices on the preprocessed image |
| StippleDriver.RFind | Projects/T12_Weighted_Voronoi_image_stippling/weighted_voronoi_stippling.py:40 | `rfind` gives the last index of the character, or -1 |
| StippleDriver.SliceBound | Projects/T12_Weighted_Voronoi_image_stippling/weighted_voronoi_stippling.py:40 | a Python slice bound, negative ones counted from the end, lands in [0, n] |
| StippleDriver.Slice | Projects/T12_Weighted_Voronoi_image_stippling/weighted_voronoi_stippling.py:40 | Python's `s[a:b]`, empty when the bounds cross |
| StippleDriver.DisplayName | Projects/T12_Weighted_Voronoi_image_stippling/weighted_voronoi_stippling.py:40 | `img_path[img_path.rfind("/") + 1:]` (its properties are DisplayNameIsLastSegment) |
| StippleDriver.GifStem | Projects/T12_Weighted_Voronoi_image_stippling/weighted_voronoi_stippling.py:109 | `img_path[img_path.rfind("/") + 1: img_path.rfind(".")]` (its cases are GifStemCases) |
| StippleDriver.GifName | Projects/T12_Weighted_Voronoi_image_stippling/weighted_voronoi_stippling.py:110 | the GIF name: the stem, `_voronoi_stippled_`, the point count, `_`, the iteration count and `.gif` |
| StippleDriver.DisplayNameIsLastSegment | Projects/T12_Weighted_Voronoi_image_stippling/weighted_voronoi_stippling.py:40 | the displayed name is the text after the last '/', the whole path without one, and holds no '/' |
| StippleDriver.GifStemCases | Projects/T12_Weighted_Voronoi_image_stippling/weighted_voronoi_stippling.py:109-110 | the GIF stem lies between the last '/' and the last '.'; with no '.' the slice end -1 drops the name's last character; a '.' before the last '/' gives an empty stem |
| StippleGui.Strip | Projects/T12_Weighted_Voronoi_image_stippling/Voronoi_Gui.py:47 | `int()` ignores surrounding whitespace: the stripped text has none at either end |
| StippleGui.StripIsSlice | Projects/T12_Weighted_Voronoi_image_stippling/Voronoi_Gui.py:47 | what stripping keeps is a contiguous piece of the text |
| StippleGui.DigitsOfNat | Projects/T12_Weighted_Voronoi_image_stippling/Voronoi_Gui.py:47 | the digits printed for n read back as n |
| StippleGui.ParsePrinted | Projects/T12_Weighted_Voronoi_image_stippling/Voronoi_Gui.py:47 | `int(str(n)) == n` for every integer |
| StippleGui.ParseIgnoresPadding | Projects/T12_Weighted_Voronoi_image_stippling/Voronoi_Gui.py:47 | whitespace around the entry's text does not change what `int()` reads |
| StippleGui.NoDigitsNoInt | Projects/T12_Weighted_Voronoi_image_stippling/Voronoi_Gui.py:46-50 | text without a digit is rejected |
| StippleGui.IsSpace | Projects/T12_Weighted_Voronoi_image_stippling/Voronoi_Gui.py:47 | the whitespace `int()` skips, among ASCII characters |
| StippleGui.IsDigit | Projects/T12_Weighted_Voronoi_image_stippling/Voronoi_Gui.py:47 | the decimal digits `int()` reads, among ASCII characters |
| StippleGui.AllDigits | Projects/T12_Weighted_Voronoi_image_stippling/Voronoi_Gui.py:47 | every character is a decimal digit |
| StippleGui.AllSpace | Projects/T12_Weighted_Voronoi_image_stippling/Voronoi_Gui.py:47 | every character is whitespace |
| StippleGui.TrimStart | Projects/T12_Weighted_Voronoi_image_stippling/Voronoi_Gui.py:47 | leading whitespace removed: the result does not start with whitespace |
| StippleGui.TrimEnd | Projects/T12_Weighted_Voronoi_image_stippling/Voronoi_Gui.py:47 | trailing whitespace removed: the result does not end with whitespace |
| StippleGui.TrimStartIsSuffix | Projects/T12_Weighted_Voronoi_image_stippling/Voronoi_Gui.py:47 | trimming the start keeps a suffix of the text |
| StippleGui.TrimEndIsPrefix | Projects/T12_Weighted_Voronoi_image_stippling/Voronoi_Gui.py:47 | trimming the end keeps a prefix of the text |
| StippleGui.TrimUnpadded | Projects/T12_Weighted_Voronoi_image_stippling/Voronoi_Gui.py:47 | text with no whitespace at either end is left as it is |
| StippleGui.TrimStartSpaces | Projects/T12_Weighted_Voronoi_image_stippling/Voronoi_Gui.py:47 | whitespace put in front of a text is trimmed away |
| StippleGui.TrimEndSpaces | Projects/T12_Weighted_Voronoi_image_stippling/Voronoi_Gui.py:47 | whitespace put after a text is trimmed away |
| StippleGui.TrimStartAppendSpaces | Projects/T12_Weighted_Voronoi_image_stippling/Voronoi_Gui.py:47 | trimming the start commutes with appending whitespace |
| StippleGui.TrimStartAllSpace | Projects/T12_Weighted_Voronoi_image_stippling/Voronoi_Gui.py:47 | a text of whitespace only trims to nothing |
| StippleGui.DigitsValue | Projects/T12_Weighted_Voronoi_image_stippling/Voronoi_Gui.py:47 | the decimal value of a string of digits |
| StippleGui.ParseSigned | Projects/T12_Weighted_Voronoi_image_stippling/Voronoi_Gui.py:47 | an optional sign and one or more digits give their value; anything else is rejected |
| StippleGui.ParseInt | Projects/T12_Weighted_Voronoi_image_stippling/Voronoi_Gui.py:47 | `int(text)`: the stripped text as a signed decimal, None for ValueError (ParsePrinted, ParseIgnoresPadding and NoDigitsNoInt state its properties) |
| StippleGui.ParseNatText | Projects/T12_Weighted_Voronoi_image_stippling/Voronoi_Gui.py:47 | the digits printed for n read back as n |
| StippleGui.ParseNegativeText | Projects/T12_Weighted_Voronoi_image_stippling/Voronoi_Gui.py:47 | a minus sign before the digits of n reads back as -n |
| StippleGui.Validated | Projects/T12_Weighted_Voronoi_image_stippling/Voronoi_Gui.py:45-51 | text `int()` reads is clamped into [lo, hi] and kept when already inside; other text falls back to Tcl's own reading of it, stored unclamped when Tcl reads an integer and unreadable (a `TclError`) when it does not |
| StippleGui.ValidatedInRangeIff | Projects/T12_Weighted_Voronoi_image_stippling/Voronoi_Gui.py:45-51 | the stored value is in [lo, hi] exactly when `int()` reads the text or Tcl reads it as an in-range integer |
| StippleGui.FallbackIsUnclamped | Projects/T12_Weighted_Voronoi_image_stippling/Voronoi_Gui.py:49-51 | "5.5" read by Tcl as 5 is stored as 5 although the range starts at 100 |
| StippleGui.ValidatedPrinted | Projects/T12_Weighted_Voronoi_image_stippling/Voronoi_Gui.py:45-51 | typing a printed number stores that number, clamped, whatever Tcl would read |
| StippleGui.EntryText | Projects/T12_Weighted_Voronoi_image_stippling/Voronoi_Gui.py:101-103 | an entry bound to a variable holding an integer shows text that `int()` reads back as that integer |
| StippleGui.Read | Projects/T12_Weighted_Voronoi_image_stippling/Voronoi_Gui.py:80-82 | `variable.get()`: the integer held, or Tcl's reading of the typed text, None for TclError |
| StippleGui.AfterValidation | Projects/T12_Weighted_Voronoi_image_stippling/Voronoi_Gui.py:50-51 | the variable after `validate_and_clamp`: the stored integer, or unchanged when the TclError escaped before `variable.set` |
| StippleGui.InRange | Projects/T12_Weighted_Voronoi_image_stippling/Voronoi_Gui.py:98-118 | the variable holds an integer in the range its label and slider give |
| StippleGui.FocusOutRange | Projects/T12_Weighted_Voronoi_image_stippling/Voronoi_Gui.py:45-51 | after leaving an entry its variable is in range exactly when `int()` or Tcl reads the text in range; a variable holding an integer ends up holding it clamped |
| StippleGui.StippleSettings.constructor | Projects/T12_Weighted_Voronoi_image_stippling/Voronoi_Gui.py:13-22 | the variables start at 8000 points, 30 iterations, 0 levels, seed 111, random sampling and plot on, save and both toggles off |
| StippleGui.StippleSettings.Valid | Projects/T12_Weighted_Voronoi_image_stippling/Voronoi_Gui.py:98-118 | the three integer variables hold integers within their sliders' ranges |
| StippleGui.StippleSettings.Get | Projects/T12_Weighted_Voronoi_image_stippling/Voronoi_Gui.py:103-118 | the variable behind a given entry |
| StippleGui.StippleSettings.TypeText | Projects/T12_Weighted_Voronoi_image_stippling/Voronoi_Gui.py:101-103 | typing into an entry puts that text in its variable and changes nothing else |
| StippleGui.StippleSettings.ValidateAndClamp | Projects/T12_Weighted_Voronoi_image_stippling/Voronoi_Gui.py:45-51 | the named variable's text is validated; it takes the stored value or keeps the text when Tcl cannot read it; nothing else changes |
| StippleGui.StippleSettings.StipplePointsFocusOut | Projects/T12_Weighted_Voronoi_image_stippling/Voronoi_Gui.py:103 | the stipple-point entry is validated against [100, 50000]; an integer already held is clamped; the other variables stay |
| StippleGui.StippleSettings.LloydItersFocusOut | Projects/T12_Weighted_Voronoi_image_stippling/Voronoi_Gui.py:110 | the iteration entry is validated against [0, 100]; an integer already held is clamped; the other variables stay |
| StippleGui.StippleSettings.QuantizationFocusOut | Projects/T12_Weighted_Voronoi_image_stippling/Voronoi_Gui.py:118 | the level entry is validated against [0, 128]; an integer already held is clamped; the other variables stay |
| StippleGui.StippleSettings.ToggleQuantization | Projects/T12_Weighted_Voronoi_image_stippling/Voronoi_Gui.py:54-61 | enabling unlocks the level widgets; disabling locks them and resets the levels to 0; in-range settings stay in range |
| StippleGui.StippleSettings.ToggleSeed | Projects/T12_Weighted_Voronoi_image_stippling/Voronoi_Gui.py:64-69 | enabling unlocks the seed entry; disabling locks it and resets the seed to 111 |
| StippleGui.StippleSettings.GenerateVoronoi | Projects/T12_Weighted_Voronoi_image_stippling/Voronoi_Gui.py:72-88 | an empty image path is refused; a variable Tcl cannot read makes the call fail; otherwise the stippler gets the variables' values (never the seed), all in range when the settings are |
| AdjustHistory.Last | Projects/T22_Image_Adjustment_Tool/components/history.py:12-14 | the top of a non-empty stack |
| AdjustHistory.DropLast | Projects/T22_Image_Adjustment_Tool/components/history.py:12-14 | a non-empty stack without its top, as `pop()` leaves it |
| AdjustHistory.UndoStep | Projects/T22_Image_Adjustment_Tool/components/history.py:10-16 | with two or more entries the top moves to the redo stack and the new top is shown; otherwise nothing changes; no image is lost |
| AdjustHistory.RedoStep | Projects/T22_Image_Adjustment_Tool/components/history.py:18-23 | the redo stack's top goes back on the history and is shown; an empty redo stack changes nothing |
| AdjustHistory.SaveStep | Projects/T22_Image_Adjustment_Tool/components/history.py:25-29 | a real image is pushed and the redo stack emptied; None changes nothing |
| AdjustHistory.RedoUndoes | Projects/T22_Image_Adjustment_Tool/components/history.py:10-23 | undo then redo restores both stacks and shows the old top |
| AdjustHistory.UndoUndoesRedo | Projects/T22_Image_Adjustment_Tool/components/history.py:10-23 | redo then undo restores both stacks |
| AdjustHistory.Undos | Projects/T22_Image_Adjustment_Tool/components/history.py:10-16 | n presses of Undo |
| AdjustHistory.SaveForgetsRedo | Projects/T22_Image_Adjustment_Tool/components/history.py:10-29 | after a save, redo changes nothing and undo returns to the image before |
| AdjustHistory.UndoKeepsBottom | Projects/T22_Image_Adjustment_Tool/components/history.py:10-16 | any number of undos keeps the first image at the bottom |
| AdjustHistory.History.constructor | Projects/T22_Image_Adjustment_Tool/components/history.py:5-8 | both stacks start empty |
| AdjustHistory.History.State | Projects/T22_Image_Adjustment_Tool/components/history.py:5-8 | both stacks and the image last shown, as one value |
| AdjustHistory.History.Undo | Projects/T22_Image_Adjustment_Tool/components/history.py:10-16 | the new state is UndoStep of the old |
| AdjustHistory.History.Redo | Projects/T22_Image_Adjustment_Tool/components/history.py:18-23 | the new state is RedoStep of the old |
| AdjustHistory.History.SaveToHistory | Projects/T22_Image_Adjustment_Tool/components/history.py:25-29 | the new state is SaveStep of the old |
| AdjustTool.Stride | Projects/T22_Image_Adjustment_Tool/components/adjustments.py:35-42 | bytes per pixel: 4 for RGB32, 3 for RGB888 |
| AdjustTool.PixelAt | Projects/T22_Image_Adjustment_Tool/components/adjustments.py:39-42 | the pixel at a byte offset: its first three bytes in reverse order |
| AdjustTool.Reversed3 | Projects/T22_Image_Adjustment_Tool/components/adjustments.py:37-42 | one pixel per stride-sized group of bytes |
| AdjustTool.DecodeBuffer | Projects/T22_Image_Adjustment_Tool/components/adjustments.py:35-46 | formats other than RGB32 and RGB888 raise ValueError; a decoded image has the viewer's width and height and width·height pixels |
| AdjustTool.Reversed3At | Projects/T22_Image_Adjustment_Tool/components/adjustments.py:37-42 | pixel k is the first three bytes of group k in reverse order |
| AdjustTool.MulMono | Projects/T22_Image_Adjustment_Tool/components/adjustments.py:37 | a larger pixel index starts at a larger byte offset |
| AdjustTool.DecodedPixel | Projects/T22_Image_Adjustment_Tool/components/adjustments.py:35-42 | pixel k is bytes 4k+2, 4k+1 and 4k for RGB32, or 3k+2, 3k+1 and 3k for RGB888, which exchanges red and blue |
| AdjustTool.ClipByte | Projects/T22_Image_Adjustment_Tool/components/adjustments.py:128-131 | clipping then the uint8 cast gives a byte |
| AdjustTool.SepiaPixel | Projects/T22_Image_Adjustment_Tool/components/adjustments.py:128-131 | every sepia channel is a byte |
| AdjustTool.ClipByteMonotone | Projects/T22_Image_Adjustment_Tool/components/adjustments.py:128-131 | clipping keeps the order of two values |
| AdjustTool.SepiaIsWarm | Projects/T22_Image_Adjustment_Tool/components/adjustments.py:128-131 | for non-negative channels the sepia red is at least the green, and the green at least the blue |
| AdjustTool.SepiaOfWhite | Projects/T22_Image_Adjustment_Tool/components/adjustments.py:128-131 | white becomes (255, 255, 238) |
| AdjustTool.SepiaPixels | Projects/T22_Image_Adjustment_Tool/components/adjustments.py:127-132 | the sepia matrix is applied pixel by pixel, keeping the pixel count |
| AdjustTool.BrightnessFactor | Projects/T22_Image_Adjustment_Tool/components/adjustments.py:71 | `1 + value / 100` |
| AdjustTool.ExposureFactor | Projects/T22_Image_Adjustment_Tool/components/adjustments.py:91 | `value / 100` |
| AdjustTool.TenthFactor | Projects/T22_Image_Adjustment_Tool/components/adjustments.py:76-86 | `value / 10` for contrast, saturation and sharpness |
| AdjustTool.Filtered | Projects/T22_Image_Adjustment_Tool/components/adjustments.py:116-160 | each filter on an image; sepia is computed pixel by pixel |
| AdjustTool.NeutralSliders | Projects/T22_Image_Adjustment_Tool/components/adjustments.py:71-91 | brightness 0 and contrast, saturation or sharpness 10 give the neutral factor 1; exposure 0 gives gain 1 and exposure 100 gives gain 2 |
| AdjustTool.Adjustments.constructor | Projects/T22_Image_Adjustment_Tool/components/adjustments.py:9-18 | nothing is loaded and all five factors start at 1.0 |
| AdjustTool.Adjustments.AdjustedImage | Projects/T22_Image_Adjustment_Tool/components/adjustments.py:55-62 | the four enhancers and the exposure gain applied to the loaded image |
| AdjustTool.Adjustments.LoadImage | Projects/T22_Image_Adjustment_Tool/components/adjustments.py:20-48 | a decoded buffer becomes the loaded and the shown image and is saved to the history; a refused one changes nothing |
| AdjustTool.Adjustments.ApplyAdjustments | Projects/T22_Image_Adjustment_Tool/components/adjustments.py:50-66 | with an image loaded, the shown image is the loaded one under all five factors and is saved; otherwise nothing changes |
| AdjustTool.Adjustments.AdjustBrightness | Projects/T22_Image_Adjustment_Tool/components/adjustments.py:69-72 | the factor becomes 1 + value/100 and the shown image is recomputed from the loaded one |
| AdjustTool.Adjustments.AdjustContrast | Projects/T22_Image_Adjustment_Tool/components/adjustments.py:74-77 | the factor becomes value/10 and the shown image is recomputed |
| AdjustTool.Adjustments.AdjustSaturation | Projects/T22_Image_Adjustment_Tool/components/adjustments.py:79-82 | the factor becomes value/10 and the shown image is recomputed |
| AdjustTool.Adjustments.AdjustSharpness | Projects/T22_Image_Adjustment_Tool/components/adjustments.py:84-87 | the factor becomes value/10 and the shown image is recomputed |
| AdjustTool.Adjustments.AdjustExposure | Projects/T22_Image_Adjustment_Tool/components/adjustments.py:89-92 | the factor becomes value/100 and the shown image is recomputed |
| AdjustTool.Adjustments.ApplyFilter | Projects/T22_Image_Adjustment_Tool/components/adjustments.py:116-160 | a filter applies to the loaded image, never to the shown one, and the result is saved; the factors stay |
| EditShared.PopupPosition | Projects/T18_Basic_Editing_GUI_with_Preset_Filters_and_Simple_Adjustments/CAP-5405-Digital-Image-Processing.-Project/EdiNity/src/shared.py:36-37 | `create_menu`'s placement: `min(x, screen_width - 210)`, `min(y, screen_height - 190)` |
| EditShared.PopupStaysOnScreen | Projects/T18_Basic_Editing_GUI_with_Preset_Filters_and_Simple_Adjustments/CAP-5405-Digital-Image-Processing.-Project/EdiNity/src/shared.py:32-37 | the popup ends at least 10 pixels inside the screen on both axes, only moves left or up, and a position already clear stays |
| EditShared.NearWhite | Projects/T18_Basic_Editing_GUI_with_Preset_Filters_and_Simple_Adjustments/CAP-5405-Digital-Image-Processing.-Project/EdiNity/src/shared.py:112 | strictly brighter than 200 in all three colour channels |
| EditShared.WhitenPixel | Projects/T18_Basic_Editing_GUI_with_Preset_Filters_and_Simple_Adjustments/CAP-5405-Digital-Image-Processing.-Project/EdiNity/src/shared.py:112 | a near-white pixel becomes transparent white, any other stays |
| EditShared.WhitenLogo | Projects/T18_Basic_Editing_GUI_with_Preset_Filters_and_Simple_Adjustments/CAP-5405-Digital-Image-Processing.-Project/EdiNity/src/shared.py:111-114 | one output pixel per logo pixel |
| EditShared.WhitenLogoPixels | Projects/T18_Basic_Editing_GUI_with_Preset_Filters_and_Simple_Adjustments/CAP-5405-Digital-Image-Processing.-Project/EdiNity/src/shared.py:111-114 | a pixel becomes transparent white exactly when R, G and B all exceed 200; the others stay, alpha included |
| EditShared.ThresholdIsStrict | Projects/T18_Basic_Editing_GUI_with_Preset_Filters_and_Simple_Adjustments/CAP-5405-Digital-Image-Processing.-Project/EdiNity/src/shared.py:112 | a channel at exactly 200 keeps the pixel |
| EditShared.WhitenIdempotent | Projects/T18_Basic_Editing_GUI_with_Preset_Filters_and_Simple_Adjustments/CAP-5405-Digital-Image-Processing.-Project/EdiNity/src/shared.py:111-115 | whitening twice is whitening once |
| Sepia.SepiaTone | Projects/T27_Filters_tool/filters.py:18-20 | `min(int(weighted sum), 255)` per channel |
| Sepia.IsByte | Projects/T27_Filters_tool/filters.py:16-25 | a value between 0 and 255 |
| Sepia.SepiaToneIsByte | Projects/T27_Filters_tool/filters.py:16-23 | on 8-bit pixels each channel of the sepia map (`min(int(weighted sum), 255)`) is again between 0 and 255 |
| Sepia.SepiaCapsWhite | Projects/T18_Basic_Editing_GUI_with_Preset_Filters_and_Simple_Adjustments/CAP-5405-Digital-Image-Processing.-Project/EdiNity/src/editing_screen3.py:259-262 | the cap is needed: white's red sum truncates to 344, and white maps to (255, 255, 238) |
| EditScreen.Size | Projects/T18_Basic_Editing_GUI_with_Preset_Filters_and_Simple_Adjustments/CAP-5405-Digital-Image-Processing.-Project/EdiNity/src/editing_screen3.py:369 | `image.size` of a picture, derived from how it was made |
| EditScreen.Edited | Projects/T18_Basic_Editing_GUI_with_Preset_Filters_and_Simple_Adjustments/CAP-5405-Digital-Image-Processing.-Project/EdiNity/src/editing_screen3.py:249-308 | every filter and effect keeps the image size |
| EditScreen.SepiaInPlace | Projects/T18_Basic_Editing_GUI_with_Preset_Filters_and_Simple_Adjustments/CAP-5405-Digital-Image-Processing.-Project/EdiNity/src/editing_screen3.py:252-263 | after the nested loop every pixel of the array is the sepia tone of its old value |
| EditScreen.FitRatio | Projects/T18_Basic_Editing_GUI_with_Preset_Filters_and_Simple_Adjustments/CAP-5405-Digital-Image-Processing.-Project/EdiNity/src/editing_screen3.py:126 | `min(max_w / w, max_h / h, 1)` is at most 1, scales both sides into the room, is non-negative when the room is, and is 1 for an image that already fits |
| EditScreen.FitAxis | Projects/T18_Basic_Editing_GUI_with_Preset_Filters_and_Simple_Adjustments/CAP-5405-Digital-Image-Processing.-Project/EdiNity/src/editing_screen3.py:126-128 | one truncated side scaled by such a ratio is between 0 and the old side and within the room; ratio 1 keeps it |
| EditScreen.ScaledSizeFits | Projects/T18_Basic_Editing_GUI_with_Preset_Filters_and_Simple_Adjustments/CAP-5405-Digital-Image-Processing.-Project/EdiNity/src/editing_screen3.py:126-128 | both truncated sides fit their room and are never enlarged; ratio 1 keeps the size |
| EditScreen.ScaledSize | Projects/T18_Basic_Editing_GUI_with_Preset_Filters_and_Simple_Adjustments/CAP-5405-Digital-Image-Processing.-Project/EdiNity/src/editing_screen3.py:127-128 | both sides times the ratio, truncated by `int()` |
| EditScreen.FitSizeFits | Projects/T18_Basic_Editing_GUI_with_Preset_Filters_and_Simple_Adjustments/CAP-5405-Digital-Image-Processing.-Project/EdiNity/src/editing_screen3.py:121-130 | a zero-sized image divides by zero; a displayed image is at least one pixel on each side, never enlarged and within the room, so a room under one pixel is refused; an image that fits is shown at its own size |
| EditScreen.FitSize | Projects/T18_Basic_Editing_GUI_with_Preset_Filters_and_Simple_Adjustments/CAP-5405-Digital-Image-Processing.-Project/EdiNity/src/editing_screen3.py:121-130 | the displayed size, a division by zero for a zero-sized image, or PIL's refusal of a side below one pixel |
| EditScreen.CropBox | Projects/T18_Basic_Editing_GUI_with_Preset_Filters_and_Simple_Adjustments/CAP-5405-Digital-Image-Processing.-Project/EdiNity/src/editing_screen3.py:360-365 | the drag's corners sorted and cut to the canvas |
| EditScreen.Within | Projects/T18_Basic_Editing_GUI_with_Preset_Filters_and_Simple_Adjustments/CAP-5405-Digital-Image-Processing.-Project/EdiNity/src/editing_screen3.py:360-365 | a box starts at or after 0 and ends at or before the given size |
| EditScreen.CropBoxNormalises | Projects/T18_Basic_Editing_GUI_with_Preset_Filters_and_Simple_Adjustments/CAP-5405-Digital-Image-Processing.-Project/EdiNity/src/editing_screen3.py:359-365 | the canvas crop box lies on the canvas, does not depend on the drag direction, and is the drag's ordered rectangle when the drag stays on the canvas |
| EditScreen.ScaledBox | Projects/T18_Basic_Editing_GUI_with_Preset_Filters_and_Simple_Adjustments/CAP-5405-Digital-Image-Processing.-Project/EdiNity/src/editing_screen3.py:373-389 | the canvas box in image coordinates: each side times the image/canvas ratio, truncated, then cut to the image |
| EditScreen.Croppable | Projects/T18_Basic_Editing_GUI_with_Preset_Filters_and_Simple_Adjustments/CAP-5405-Digital-Image-Processing.-Project/EdiNity/src/editing_screen3.py:391 | the crop is applied only to a box of positive width and height |
| EditScreen.ScaledBoxInImage | Projects/T18_Basic_Editing_GUI_with_Preset_Filters_and_Simple_Adjustments/CAP-5405-Digital-Image-Processing.-Project/EdiNity/src/editing_screen3.py:369-391 | a scaled box the crop accepts lies inside the image with positive width and height |
| EditScreen.PushStep | Projects/T18_Basic_Editing_GUI_with_Preset_Filters_and_Simple_Adjustments/CAP-5405-Digital-Image-Processing.-Project/EdiNity/src/editing_screen3.py:268-269 | an edit appends the new image to the history, shows it, and keeps the future |
| EditScreen.RedoAfterEditReturnsUndone | Projects/T18_Basic_Editing_GUI_with_Preset_Filters_and_Simple_Adjustments/CAP-5405-Digital-Image-Processing.-Project/EdiNity/src/editing_screen3.py:444-460 | since an edit keeps the future, redo after undo and an edit brings the undone image back on top of the edit; the edit push is at line 269 |
| EditScreen.EditingScreen.constructor | Projects/T18_Basic_Editing_GUI_with_Preset_Filters_and_Simple_Adjustments/CAP-5405-Digital-Image-Processing.-Project/EdiNity/src/editing_screen3.py:15-22 | no image, empty history and future, crop tool off |
| EditScreen.EditingScreen.State | Projects/T18_Basic_Editing_GUI_with_Preset_Filters_and_Simple_Adjustments/CAP-5405-Digital-Image-Processing.-Project/EdiNity/src/editing_screen3.py:15-22 | the history, the redo list and the current image as one value |
| EditScreen.EditingScreen.DisplayImage | Projects/T18_Basic_Editing_GUI_with_Preset_Filters_and_Simple_Adjustments/CAP-5405-Digital-Image-Processing.-Project/EdiNity/src/editing_screen3.py:105-144 | with no image nothing changes; otherwise the opened image is recorded, and the display succeeds exactly when its fitted size is accepted, showing and pushing the image fitted to the canvas less 100 pixels of height; a failure leaves the display and history unchanged |
| EditScreen.EditingScreen.UpdateAdjustments | Projects/T18_Basic_Editing_GUI_with_Preset_Filters_and_Simple_Adjustments/CAP-5405-Digital-Image-Processing.-Project/EdiNity/src/editing_screen3.py:230-238 | the shown image is recomputed from the opened image with the three slider values; the history is untouched |
| EditScreen.EditingScreen.ApplyEdit | Projects/T18_Basic_Editing_GUI_with_Preset_Filters_and_Simple_Adjustments/CAP-5405-Digital-Image-Processing.-Project/EdiNity/src/editing_screen3.py:247-315 | with an image shown, the edited image is shown and pushed (PushStep); without one nothing changes |
| EditScreen.EditingScreen.ResetTool | Projects/T18_Basic_Editing_GUI_with_Preset_Filters_and_Simple_Adjustments/CAP-5405-Digital-Image-Processing.-Project/EdiNity/src/editing_screen3.py:428-442 | the opened image is shown and becomes the whole history |
| EditScreen.EditingScreen.UndoAction | Projects/T18_Basic_Editing_GUI_with_Preset_Filters_and_Simple_Adjustments/CAP-5405-Digital-Image-Processing.-Project/EdiNity/src/editing_screen3.py:444-452 | the state after undo is the adjustment tool's UndoStep of the state before |
| EditScreen.EditingScreen.RedoAction | Projects/T18_Basic_Editing_GUI_with_Preset_Filters_and_Simple_Adjustments/CAP-5405-Digital-Image-Processing.-Project/EdiNity/src/editing_screen3.py:454-462 | the state after redo is RedoStep of the state before |
| EditScreen.EditingScreen.ActivateCropTool | Projects/T18_Basic_Editing_GUI_with_Preset_Filters_and_Simple_Adjustments/CAP-5405-Digital-Image-Processing.-Project/EdiNity/src/editing_screen3.py:327-334 | the crop tool is on afterwards |
| EditScreen.EditingScreen.StartCrop | Projects/T18_Basic_Editing_GUI_with_Preset_Filters_and_Simple_Adjustments/CAP-5405-Digital-Image-Processing.-Project/EdiNity/src/editing_screen3.py:343-349 | the drag start is remembered only while the tool is on |
| EditScreen.EditingScreen.FinishCrop | Projects/T18_Basic_Editing_GUI_with_Preset_Filters_and_Simple_Adjustments/CAP-5405-Digital-Image-Processing.-Project/EdiNity/src/editing_screen3.py:356-426 | tool off: nothing changes; a missing start, image or canvas size fails without change; otherwise the crop is applied exactly when the scaled, clamped drag box has positive area, the crop of the opened image is pushed and shown or, when not saved, the previous history top (or the opened image) is shown; an invalid area changes nothing but turns the tool off |
| ImageFilters.SepiaData | Projects/T27_Filters_tool/filters.py:16-23 | one sepia-toned pixel per input pixel, in order |
| ImageFilters.SepiaDataIsByte | Projects/T27_Filters_tool/filters.py:16-25 | 8-bit pixels give 8-bit sepia data, which `putdata` accepts |
| ImageFilters.Size | Projects/T27_Filters_tool/filters.py:5-133 | the size of a picture, which every operation takes from its first source |
| ImageFilters.VignetteFails | Projects/T27_Filters_tool/filters.py:59-68 | `max_radius` is 0 while there is a pixel to draw |
| ImageFilters.VignetteFailsOnSinglePixel | Projects/T27_Filters_tool/filters.py:59-68 | `max_radius` is 0 with a pixel to draw, so the division fails, exactly on a 1×1 image |
| ImageFilters.MaskValue | Projects/T27_Filters_tool/filters.py:68-69 | each mask value is a byte between 0 and 255, and 255 at distance 0 |
| ImageFilters.Factor | Projects/T27_Filters_tool/filters.py:68 | `1 - intensity * (distance / max_radius)`, which is 1 at distance 0 |
| ImageFilters.MaskOfFactor | Projects/T27_Filters_tool/filters.py:69 | `int(255 * max(0, min(1, factor)))` is a byte, and 255 for a factor of 1 |
| ImageFilters.UnitClamp | Projects/T27_Filters_tool/filters.py:69 | `max(0, min(1, factor))` lies in [0, 1] and keeps a factor already there |
| ImageFilters.TruncMonotone | Projects/T27_Filters_tool/filters.py:69 | `int()` of non-negative values keeps their order |
| ImageFilters.FactorMonotone | Projects/T27_Filters_tool/filters.py:67-68 | with a non-negative intensity the factor never grows with the distance |
| ImageFilters.MaskOfFactorMonotone | Projects/T27_Filters_tool/filters.py:69 | a smaller factor never gives a larger mask value |
| ImageFilters.MaskDarkensOutward | Projects/T27_Filters_tool/filters.py:67-69 | with a non-negative intensity the mask never gets brighter farther from the centre |
| ImageFilters.MaskCentreIsOpaque | Projects/T27_Filters_tool/filters.py:60-69 | the centre pixel `(width // 2, height // 2)` of the mask is 255 |
| ImageFilters.IsSqrt | Projects/T27_Filters_tool/filters.py:61 | `math.sqrt` on the non-negative reals |
| ImageFilters.SqrtZero | Projects/T27_Filters_tool/filters.py:61 | a square root is 0 exactly for 0 |
| ImageFilters.Square | Projects/T27_Filters_tool/filters.py:61 | `x**2` of an integer is non-negative, and positive for a non-zero integer |
| ImageFilters.MaxRadius | Projects/T27_Filters_tool/filters.py:60-61 | `sqrt(x_center**2 + y_center**2)` with the centre at `(width // 2, height // 2)` |
| ImageFilters.MaskAt | Projects/T27_Filters_tool/filters.py:65-69 | the mask value drawn at (x, y) is a byte |
| ImageFilters.VignetteMask | Projects/T27_Filters_tool/filters.py:59-69 | fails with a division by zero exactly on a 1×1 image; otherwise a fresh width×height mask with the mask value at every pixel |
| ImageFilters.DrawMaskRow | Projects/T27_Filters_tool/filters.py:66-69 | the inner loop sets row y to its mask values and leaves the other rows alone |
| ImageFilters.ApplyVignette | Projects/T27_Filters_tool/filters.py:55-72 | intensity 0 or below returns the image; above it fails exactly on a 1×1 image |
| ImageFilters.EnhanceFactor | Projects/T27_Filters_tool/filters.py:43-53 | the enhancer factor is positive, and is the intensity when that is positive |
| ImageFilters.ApplyFilter | Projects/T27_Filters_tool/filters.py:5-94 | the dropdown filter of the given kind at an intensity, as its function in filters.py computes it |
| ImageFilters.IsEnhancer | Projects/T27_Filters_tool/filters.py:40-53 | the three filters built on `ImageEnhance` |
| ImageFilters.FilterGuards | Projects/T27_Filters_tool/filters.py:7-92 | at intensity 0 or below every filter but the three enhancers returns its input, and the enhancers run with factor 1 |
| ImageFilters.GrayscaleBlends | Projects/T27_Filters_tool/filters.py:9-10 | grayscale at intensity 1 or above is the pure grayscale image; between 0 and 1 a blend towards it |
| ImageFilters.FilterKeepsSize | Projects/T27_Filters_tool/filters.py:5-94 | every filter keeps the image size, and the only failure is the vignette on a 1×1 image at positive intensity |
| ImageFilters.WatercolorPasses | Projects/T27_Filters_tool/filters.py:131 | `int(1 + intensity * 0.2)` is at least one pass for a non-negative intensity, and exactly one below 5 |
| ImageFilters.SmoothTimes | Projects/T27_Filters_tool/filters.py:131-132 | n rounds of `SMOOTH_MORE` |
| ImageFilters.WatercolorImage | Projects/T27_Filters_tool/filters.py:128-133 | what `apply_watercolor_effect` returns: the smoothing passes, then a blur of `intensity * 0.2` |
| ImageFilters.Watercolor | Projects/T27_Filters_tool/filters.py:128-133 | the loop smooths the image `int(1 + intensity * 0.2)` times and then blurs it |
| ImageFilters.ApplyPredefined | Projects/T27_Filters_tool/filters.py:96-133 | each effect returns the image its function builds |
| ImageFilters.PredefinedImage | Projects/T27_Filters_tool/filters.py:96-133 | the four predefined effects at an intensity |
| ImageFilters.SmoothKeepsSize | Projects/T27_Filters_tool/filters.py:131-132 | any number of smoothing passes keeps the size |
| ImageFilters.PredefinedKeepsSize | Projects/T27_Filters_tool/filters.py:96-133 | every effect keeps the size, and watercolor at the default intensity 1 smooths exactly once before blurring by 0.2 |
| FiltersTool.Intensity | Projects/T27_Filters_tool/image_filters_tool.py:139 | the intensity is the slider value over 10, so the slider's 0..20 gives 0..2; the slider range is set at line 380 |
| FiltersTool.FilterFunction | Projects/T27_Filters_tool/image_filters_tool.py:24-36 | `filter_functions`: the eleven dropdown names and the filters they run |
| FiltersTool.Names | Projects/T27_Filters_tool/image_filters_tool.py:148 | the names of `filter_states` in insertion order |
| FiltersTool.DistinctNames | Projects/T27_Filters_tool/image_filters_tool.py:144 | a dict holds each key once |
| FiltersTool.IndexOf | Projects/T27_Filters_tool/image_filters_tool.py:144 | the first position holding the name, or -1 exactly when the name is not stored |
| FiltersTool.Put | Projects/T27_Filters_tool/image_filters_tool.py:144 | `filter_states[name] = v`: an existing key keeps its place and gets the new value, a new key is appended, other entries stay, and keys stay distinct |
| FiltersTool.Step | Projects/T27_Filters_tool/image_filters_tool.py:148-150 | one loop step: a known name runs its filter at its intensity, an unknown one is skipped |
| FiltersTool.Pipeline | Projects/T27_Filters_tool/image_filters_tool.py:145-152 | the loop over `filter_states.items()` from the loaded image, ending at the first exception |
| FiltersTool.Known | Projects/T27_Filters_tool/image_filters_tool.py:149 | the stored entries whose names are in `filter_functions`, in order, never more than the entries |
| FiltersTool.Raises | Projects/T27_Filters_tool/image_filters_tool.py:149-150 | an entry that makes the vignette raise on an image of the given size |
| FiltersTool.AnyRaises | Projects/T27_Filters_tool/image_filters_tool.py:148-150 | some entry raises on an image of the given size |
| FiltersTool.PipelineStopsAtError | Projects/T27_Filters_tool/image_filters_tool.py:148-150 | once a filter raises, the rest of the loop does not run and the same error comes out |
| FiltersTool.PipelineSkipsUnknown | Projects/T27_Filters_tool/image_filters_tool.py:149 | names outside `filter_functions` are skipped: the loop gives the same as over the known entries alone |
| FiltersTool.StepFails | Projects/T27_Filters_tool/image_filters_tool.py:149-150 | one loop step keeps the size and raises exactly on a vignette entry over a 1×1 image |
| FiltersTool.SomeRaises | Projects/T27_Filters_tool/image_filters_tool.py:148-150 | some entry raises exactly when an earlier entry or the last one does |
| FiltersTool.PipelineFails | Projects/T27_Filters_tool/image_filters_tool.py:145-152 | the loop raises exactly when some stored entry raises on the loaded image's size, and otherwise keeps the size |
| FiltersTool.FilterChangeRecomputes | Projects/T27_Filters_tool/image_filters_tool.py:128-154 | without an image nothing changes; otherwise the shown image is recorded and the new one is computed from the loaded image alone, whatever was shown before; a raising filter leaves the shown image |
| FiltersTool.UndoRestoresFilterChange | Projects/T27_Filters_tool/image_filters_tool.py:141-272 | undo right after a filter change that added a new filter restores the shown image, the history and the filters |
| FiltersTool.UndoAfterPredefinedDropsFilter | Projects/T27_Filters_tool/image_filters_tool.py:76-272 | undo after a predefined effect restores the shown image but still drops the last stored filter |
| FiltersTool.ChangeKeepsOrder | Projects/T27_Filters_tool/image_filters_tool.py:144 | changing the intensity of a stored filter keeps the filters' order |
| FiltersTool.HistoryOnlyShrinksByUndo | Projects/T27_Filters_tool/image_filters_tool.py:76-275 | reset and load never touch the history and clear the filters; a filter change or an effect adds at most one image; undo removes exactly one, and with an empty history does nothing |
| FiltersTool.RunFilters | Projects/T27_Filters_tool/image_filters_tool.py:145-152 | the loop over the stored filters returns the pipeline's result |
| FiltersTool.Pushed | Projects/T27_Filters_tool/image_filters_tool.py:142-143 | `history.append(processed_img.copy())` when there is a shown image |
| FiltersTool.FilterChange | Projects/T27_Filters_tool/image_filters_tool.py:128-154 | `on_filter_change` as a function of the tool's state |
| FiltersTool.PredefinedStep | Projects/T27_Filters_tool/image_filters_tool.py:76-91 | `apply_predefined_filter` as a function of the tool's state |
| FiltersTool.ResetStep | Projects/T27_Filters_tool/image_filters_tool.py:252-260 | `reset_filters` as a function of the tool's state |
| FiltersTool.UndoStep | Projects/T27_Filters_tool/image_filters_tool.py:262-276 | `undo_last_action` as a function of the tool's state |
| FiltersTool.LoadStep | Projects/T27_Filters_tool/image_filters_tool.py:167-183 | `load_image` as a function of the tool's state and the opened picture |
| FiltersTool.FilterTool.constructor | Projects/T27_Filters_tool/image_filters_tool.py:11-20 | nothing loaded, no filters, empty history, slider 0, "Grayscale" selected; the slider and dropdown start values are set at lines 307 and 380 |
| FiltersTool.FilterTool.State | Projects/T27_Filters_tool/image_filters_tool.py:11-20 | the tool's globals as one value |
| FiltersTool.FilterTool.OnFilterChange | Projects/T27_Filters_tool/image_filters_tool.py:128-154 | the new state and the raised error are those of FilterChange |
| FiltersTool.FilterTool.OnSliderChange | Projects/T27_Filters_tool/image_filters_tool.py:158-163 | moving the slider is a filter change at the new slider value |
| FiltersTool.FilterTool.OnFilterSelected | Projects/T27_Filters_tool/image_filters_tool.py:376 | selecting a name in the dropdown is a filter change under that name; the handler it triggers starts at line 138 |
| FiltersTool.FilterTool.ApplyPredefinedFilter | Projects/T27_Filters_tool/image_filters_tool.py:76-91 | the new state is PredefinedStep of the old one |
| FiltersTool.FilterTool.ResetFilters | Projects/T27_Filters_tool/image_filters_tool.py:252-260 | the new state is ResetStep of the old one |
| FiltersTool.FilterTool.UndoLastAction | Projects/T27_Filters_tool/image_filters_tool.py:262-275 | the new state is UndoStep of the old one |
| FiltersTool.FilterTool.LoadImage | Projects/T27_Filters_tool/image_filters_tool.py:167-183 | the new state is LoadStep of the old one |
| Mosaic.Tiles.constructor | Projects/T02_Mosaic_from_dataset/mosaic_gui.py:49-55 | the tile list holds the given records with the given `used` flags |
| Mosaic.Tiles.Valid | Projects/T02_Mosaic_from_dataset/mosaic_gui.py:49-55 | one `used` flag per tile record |
| Mosaic.Tiles.MatchTile | Projects/T02_Mosaic_from_dataset/mosaic_gui.py:77-107 | on failure nothing changes; otherwise returns the chosen tile's image, sets only that tile's `used` flag, and adds its path to the tracked set when one is passed |
| Mosaic.ParseMode | Projects/T02_Mosaic_from_dataset/mosaic_gui.py:92-97 | exactly "average" and "histogram" are accepted modes |
| Mosaic.SquaredDistance | Projects/T02_Mosaic_from_dataset/mosaic_gui.py:93 | the average-colour score is never negative |
| Mosaic.AbsDistance | Projects/T02_Mosaic_from_dataset/mosaic_gui.py:95 | the histogram score is never negative |
| Mosaic.AgreeOnZip | Projects/T02_Mosaic_from_dataset/mosaic_gui.py:93-95 | two lists agree on every position `zip` pairs up |
| Mosaic.AgreeOnZipStep | Projects/T02_Mosaic_from_dataset/mosaic_gui.py:93-95 | agreement over `zip` is agreement of the heads and agreement of the tails |
| Mosaic.DistanceZeroIffAgree | Projects/T02_Mosaic_from_dataset/mosaic_gui.py:93-95 | either score is 0 exactly when the two lists agree over the pairs `zip` forms |
| Mosaic.DistanceSymmetric | Projects/T02_Mosaic_from_dataset/mosaic_gui.py:93-95 | both scores are symmetric in block and tile |
| Mosaic.Score | Projects/T02_Mosaic_from_dataset/mosaic_gui.py:92-95 | the score of a tile in the selected mode: the squared colour distance or the absolute histogram distance |
| Mosaic.Eligible | Projects/T02_Mosaic_from_dataset/mosaic_gui.py:88 | a used tile is skipped only when the caller passes a set of used tiles |
| Mosaic.Best | Projects/T02_Mosaic_from_dataset/mosaic_gui.py:87-101 | the loop's best tile after the first n tiles is one of them; a later tile replaces it only with a strictly smaller score |
| Mosaic.BestIsFirstMinimum | Projects/T02_Mosaic_from_dataset/mosaic_gui.py:87-101 | `best_match` is eligible, no eligible tile scores less, every eligible tile before it scores more, and it is None exactly when no tile is eligible |
| Mosaic.MatchSpec | Projects/T02_Mosaic_from_dataset/mosaic_gui.py:87-107 | a chosen index is a tile of the list |
| Mosaic.MatchChoosesFirstBest | Projects/T02_Mosaic_from_dataset/mosaic_gui.py:87-107 | a match is the first eligible tile of least score; `best_match["image"]` on None fails exactly when no tile is eligible; a bad mode raises exactly when some tile is eligible |
| Mosaic.SelectTile | Projects/T02_Mosaic_from_dataset/mosaic_gui.py:81-107 | the loop returns MatchSpec's outcome |
| Mosaic.MarkUsed | Projects/T02_Mosaic_from_dataset/mosaic_gui.py:104 | `best_match["used"] = True` |
| Mosaic.FloorDiv | Projects/T02_Mosaic_from_dataset/mosaic_gui.py:118-119 | Python's `//`: floor division for either sign of the divisor |
| Mosaic.Fitted | Projects/T02_Mosaic_from_dataset/mosaic_gui.py:118-119 | the side rounded down to a multiple of the block side, never above the side for a positive block side |
| Mosaic.FittedZero | Projects/T02_Mosaic_from_dataset/mosaic_gui.py:118-120 | the rounded side is 0, which the resize refuses, exactly when the side is shorter than the block side |
| Mosaic.RangeLen | Projects/T02_Mosaic_from_dataset/mosaic_gui.py:125-126 | `len(range(0, stop, step))`: the least count of steps reaching `stop`, and 0 for a negative step |
| Mosaic.GridOf | Projects/T02_Mosaic_from_dataset/mosaic_gui.py:118-126 | the resized input and the block counts, or the zero-division or resize error |
| Mosaic.GridIsLargestMultiple | Projects/T02_Mosaic_from_dataset/mosaic_gui.py:118-126 | a zero block side divides by zero; with positive sides and a non-empty input the resize succeeds exactly when the input is at least one block wide and high, and then the resized input is the largest multiple of the block not above the input and holds `(W // bw) · (H // bh)` blocks; a negative side gives no blocks |
| Mosaic.ExactMultiple | Projects/T02_Mosaic_from_dataset/mosaic_gui.py:118-126 | `(n // b) · b` is the largest multiple of b not above n, and `range` over it has `n // b` steps |
| Mosaic.Cell | Projects/T02_Mosaic_from_dataset/mosaic_gui.py:125-126 | the column of a block is within the grid |
| Mosaic.BlocksBefore | Projects/T02_Mosaic_from_dataset/mosaic_gui.py:125-126 | the blocks in the rows above a row, counted row by row |
| Mosaic.Origin | Projects/T02_Mosaic_from_dataset/mosaic_gui.py:125-127 | the top-left corner of the k-th block, counted row by row |
| Mosaic.BlocksBeforeIsProduct | Projects/T02_Mosaic_from_dataset/mosaic_gui.py:125-126 | the blocks before row r number `r · cols` |
| Mosaic.BlocksBeforeMonotone | Projects/T02_Mosaic_from_dataset/mosaic_gui.py:125-126 | later rows start later |
| Mosaic.CellOfIndex | Projects/T02_Mosaic_from_dataset/mosaic_gui.py:125-126 | the block counted at `r · cols + c` is at row r, column c |
| Mosaic.OriginRowMajor | Projects/T02_Mosaic_from_dataset/mosaic_gui.py:125-127 | that block's origin is `(c · bw, r · bh)`, and with positive sides the block lies inside the resized input |
| Mosaic.UnusedCount | Projects/T02_Mosaic_from_dataset/mosaic_gui.py:88 | at most one unused tile per tile |
| Mosaic.MarkUsedCounts | Projects/T02_Mosaic_from_dataset/mosaic_gui.py:104 | marking an unused tile takes exactly one tile off the unused count |
| Mosaic.UnusedCountPositive | Projects/T02_Mosaic_from_dataset/mosaic_gui.py:88 | some tile is unused exactly when the count is positive |
| Mosaic.BlockFeatures | Projects/T02_Mosaic_from_dataset/mosaic_gui.py:125-127 | one block per grid cell |
| Mosaic.Placed | Projects/T02_Mosaic_from_dataset/mosaic_gui.py:125-129 | the walk keeps one flag per tile and, when it succeeds over n blocks, has chosen n tiles |
| Mosaic.PlacedStep | Projects/T02_Mosaic_from_dataset/mosaic_gui.py:128 | each block is matched against the flags the earlier blocks left |
| Mosaic.PlacedErrStays | Projects/T02_Mosaic_from_dataset/mosaic_gui.py:125-129 | after a failing block nothing more changes |
| Mosaic.PlacedTilesDistinct | Projects/T02_Mosaic_from_dataset/mosaic_gui.py:88-129 | the chosen tiles were unused, are pairwise different, and exactly they become used |
| Mosaic.PlacedSucceedsIff | Projects/T02_Mosaic_from_dataset/mosaic_gui.py:123-129 | after n blocks exactly n fewer tiles are unused, and the walk succeeds exactly when there are no blocks or the mode is valid and enough tiles are unused |
| Mosaic.Pastes | Projects/T02_Mosaic_from_dataset/mosaic_gui.py:129 | one paste per chosen tile |
| Mosaic.PastesStep | Projects/T02_Mosaic_from_dataset/mosaic_gui.py:129 | each further tile is pasted at the next block's origin |
| Mosaic.MosaicSpec | Projects/T02_Mosaic_from_dataset/mosaic_gui.py:110-132 | `create_mosaic`'s outcome and the `used` flags afterwards |
| Mosaic.FillSpec | Projects/T02_Mosaic_from_dataset/mosaic_gui.py:122-132 | the block loops' outcome once the grid is known |
| Mosaic.Walked | Projects/T02_Mosaic_from_dataset/mosaic_gui.py:125-129 | the loop invariant: the blocks visited so far were matched with the chosen tiles and pasted at their origins |
| Mosaic.MosaicNeedsOneTilePerBlock | Projects/T02_Mosaic_from_dataset/mosaic_gui.py:110-132 | with positive block sides the mosaic succeeds exactly when the resize succeeds and there are no blocks or the mode is valid and an unused tile exists per block; for a non-empty input that is: at least one block wide and high, a valid mode and enough unused tiles; then it has one paste per block, the resized input's size, and uses up one tile per block |
| Mosaic.CreateMosaic | Projects/T02_Mosaic_from_dataset/mosaic_gui.py:110-132 | the result and the tiles' flags afterwards are MosaicSpec's |
| Mosaic.FillGrid | Projects/T02_Mosaic_from_dataset/mosaic_gui.py:122-132 | the nested loops give FillSpec's result and flags |
| Mosaic.MatchRow | Projects/T02_Mosaic_from_dataset/mosaic_gui.py:126-129 | one pass of the inner loop extends the walk by one row of blocks, or stops it at the first failure |
| Mosaic.PlaceBlock | Projects/T02_Mosaic_from_dataset/mosaic_gui.py:127-129 | one block extends the walk by one match and one paste, or stops it with its error |
| HistCore.Plane | Projects/T32_Histogram_Matching_with_Freehand_Drawing_Tool/Histogram_Project.py:175 | plane i of a three-plane image (`lab[:, :, i]`) |
| HistCore.WithPlane | Projects/T32_Histogram_Matching_with_Freehand_Drawing_Tool/Histogram_Project.py:186 | writing plane i back changes that plane only and keeps the size |
| HistCore.EmptyBins | Projects/T35_Histogram_matching_GUI/Histogram_Matching_GUI.py:148 | 256 bins, all zero |
| HistCore.Histogram | Projects/T35_Histogram_matching_GUI/Histogram_Matching_GUI.py:148-149 | a histogram has 256 bins |
| HistCore.HistogramCounts | Projects/T35_Histogram_matching_GUI/Histogram_Matching_GUI.py:148-149 | bin v counts exactly the pixels at level v |
| HistCore.SumUpdate | Projects/T35_Histogram_matching_GUI/Histogram_Matching_GUI.py:148 | adding d to one bin adds d to the total |
| HistCore.EmptyBinsSum | Projects/T35_Histogram_matching_GUI/Histogram_Matching_GUI.py:148 | the empty histogram totals 0 |
| HistCore.HistogramTotal | Projects/T35_Histogram_matching_GUI/Histogram_Matching_GUI.py:148-151 | the bins total the number of pixels |
| HistCore.Picked | Projects/T32_Histogram_Matching_with_Freehand_Drawing_Tool/Histogram_Project.py:175 | the masked pixels are at most all pixels, and none exactly when the mask is all zero |
| HistCore.MaskedHistogram | Projects/T32_Histogram_Matching_with_Freehand_Drawing_Tool/Histogram_Project.py:175 | a masked histogram has 256 bins |
| HistCore.MaskedHistogramTotal | Projects/T32_Histogram_Matching_with_Freehand_Drawing_Tool/Histogram_Project.py:175-179 | the masked histogram totals the number of masked pixels, and 0 exactly when the mask is all zero |
| HistCore.PrefixSumMonotone | Projects/T35_Histogram_matching_GUI/Histogram_Matching_GUI.py:151 | running sums of counts are non-negative and grow |
| HistCore.SumZeroIff | Projects/T35_Histogram_matching_GUI/Histogram_Matching_GUI.py:151 | a histogram totals 0 exactly when every bin is 0 |
| HistCore.Shares | Projects/T35_Histogram_matching_GUI/Histogram_Matching_GUI.py:151 | one running share per bin |
| HistCore.SharesOrdered | Projects/T35_Histogram_matching_GUI/Histogram_Matching_GUI.py:151 | two running shares are in order within [0, 1] |
| HistCore.SharesBounded | Projects/T35_Histogram_matching_GUI/Histogram_Matching_GUI.py:151 | the running shares are nondecreasing, within [0, 1], and end at 1 |
| HistCore.Cdf | Projects/T35_Histogram_matching_GUI/Histogram_Matching_GUI.py:151-152 | the CDF (also computed at line 179-180 of the freehand tool) divides by zero exactly on an all-zero histogram; otherwise it is nondecreasing, within [0, 1], and ends at 1 |
| HistCore.LastAtMost | Projects/T35_Histogram_matching_GUI/Histogram_Matching_GUI.py:155 | the last point before j at or below x, or -1; every later point is above x |
| HistCore.Interp | Projects/T35_Histogram_matching_GUI/Histogram_Matching_GUI.py:155 | `np.interp` against `arange(n)` gives a position in [0, n - 1] |
| HistCore.InterpBracket | Projects/T35_Histogram_matching_GUI/Histogram_Matching_GUI.py:155 | inside the points the result lies in [j, j + 1) for the last point j at or below x |
| HistCore.InterpMonotone | Projects/T35_Histogram_matching_GUI/Histogram_Matching_GUI.py:155 | interpolation is monotone in the query |
| HistCore.ToLevel | Projects/T35_Histogram_matching_GUI/Histogram_Matching_GUI.py:156 | `astype(uint8)` of a position in [0, 255] truncates it to a level |
| HistCore.Lut | Projects/T35_Histogram_matching_GUI/Histogram_Matching_GUI.py:155-156 | one table entry per source level |
| HistCore.LutMonotone | Projects/T35_Histogram_matching_GUI/Histogram_Matching_GUI.py:155-156 | a nondecreasing source CDF gives a nondecreasing table |
| HistCore.LevelMap | Projects/T35_Histogram_matching_GUI/Histogram_Matching_GUI.py:148-156 | the table has 256 entries, and its only failure is the division by zero |
| HistCore.LevelMapProperties | Projects/T35_Histogram_matching_GUI/Histogram_Matching_GUI.py:148-156 | the table exists exactly when both histograms count a pixel, and then it is nondecreasing |
| HistCore.ApplyLut | Projects/T35_Histogram_matching_GUI/Histogram_Matching_GUI.py:156 | `cv2.LUT` keeps the number of pixels |
| HistCore.ApplyLutPointwise | Projects/T35_Histogram_matching_GUI/Histogram_Matching_GUI.py:156 | each pixel becomes the table entry of its level, equal levels stay equal, and a nondecreasing table keeps the order of levels |
| HistogramGui.MatchHistogramsProperties | Projects/T35_Histogram_matching_GUI/Histogram_Matching_GUI.py:136-157 | matching fails exactly when a channel is empty; otherwise it keeps the pixel count, maps equal levels alike, and never makes a brighter pixel darker |
| HistogramGui.MatchHistograms | Projects/T35_Histogram_matching_GUI/Histogram_Matching_GUI.py:136-157 | `match_histograms`: the level table from the source histogram to the target's, applied to the source |
| HistogramGui.MatchedLab | Projects/T35_Histogram_matching_GUI/Histogram_Matching_GUI.py:119-131 | the LAB image merged from the matched luminance and the source's colour planes |
| HistogramGui.HistogramMatching | Projects/T35_Histogram_matching_GUI/Histogram_Matching_GUI.py:108-133 | `histogram_matching`: the merged LAB image converted back to RGB |
| HistogramGui.OnlyLuminanceRemapped | Projects/T35_Histogram_matching_GUI/Histogram_Matching_GUI.py:108-133 | only the luminance plane is remapped: the size and both colour planes of the source's LAB image are kept |
| HistogramGui.HistogramMatchingApp.constructor | Projects/T35_Histogram_matching_GUI/Histogram_Matching_GUI.py:57-59 | no source, reference or result |
| HistogramGui.HistogramMatchingApp.LoadSourceImage | Projects/T35_Histogram_matching_GUI/Histogram_Matching_GUI.py:67-75 | a chosen file replaces the source and nothing else |
| HistogramGui.HistogramMatchingApp.LoadTargetImage | Projects/T35_Histogram_matching_GUI/Histogram_Matching_GUI.py:77-85 | a chosen file replaces the reference and nothing else |
| HistogramGui.HistogramMatchingApp.ApplyHistogramMatching | Projects/T35_Histogram_matching_GUI/Histogram_Matching_GUI.py:87-102 | refused unless both images are loaded; otherwise the reference is resized to the source and the match becomes the result; the loaded images never change |
| FreehandMatching.Scale | Projects/T32_Histogram_Matching_with_Freehand_Drawing_Tool/Histogram_Project.py:121-125 | a canvas coordinate times `image side / canvas side` |
| FreehandMatching.ScaleMapsCanvasOntoImage | Projects/T32_Histogram_Matching_with_Freehand_Drawing_Tool/Histogram_Project.py:121-125 | the canvas is stretched onto the image: its ends land on the image's ends, inner points stay inside, and order is kept |
| FreehandMatching.MatchPlaneMaskedProperties | Projects/T32_Histogram_Matching_with_Freehand_Drawing_Tool/Histogram_Project.py:173-186 | a plane is matched exactly when the mask fits and selects a pixel and the reference has one; a blank mask divides by zero; every pixel, masked or not, is remapped by its level alone, keeping the order of levels |
| FreehandMatching.MatchPlaneMasked | Projects/T32_Histogram_Matching_with_Freehand_Drawing_Tool/Histogram_Project.py:174-186 | one plane: the table from the masked histogram to the reference plane's histogram, applied to every pixel |
| FreehandMatching.MaskedMatchSpec | Projects/T32_Histogram_Matching_with_Freehand_Drawing_Tool/Histogram_Project.py:172-186 | the LAB image after the loop, each plane matched on its own, the first failing plane deciding the error |
| FreehandMatching.MaskedMatching | Projects/T32_Histogram_Matching_with_Freehand_Drawing_Tool/Histogram_Project.py:164-189 | `histogram_match`: the matched LAB image in RGB |
| FreehandMatching.HistogramMatch | Projects/T32_Histogram_Matching_with_Freehand_Drawing_Tool/Histogram_Project.py:164-189 | the loop matches the three LAB planes in turn and returns MaskedMatching's result |
| FreehandMatching.RasterLaw | Projects/T32_Histogram_Matching_with_Freehand_Drawing_Tool/Histogram_Project.py:101-152 | `np.array` of a mask holds one value per pixel of the mask, and a mask no stroke was drawn into (`Image.new("L", ..., 0)`) is all zero |
| FreehandMatching.BlankMaskFails | Projects/T32_Histogram_Matching_with_Freehand_Drawing_Tool/Histogram_Project.py:164-190 | an all-zero mask makes the match fail, by the zero-total division when the mask has the plane's size |
| FreehandMatching.FreehandApp.constructor | Projects/T32_Histogram_Matching_with_Freehand_Drawing_Tool/Histogram_Project.py:55-60 | no image, reference or mask, and not drawing |
| FreehandMatching.FreehandApp.Valid | Projects/T32_Histogram_Matching_with_Freehand_Drawing_Tool/Histogram_Project.py:91-109 | a loaded image always has a mask of its own size, a stroke in progress has a start point, and masks rasterise as PIL draws them |
| FreehandMatching.FreehandApp.DisplayImage | Projects/T32_Histogram_Matching_with_Freehand_Drawing_Tool/Histogram_Project.py:91-101 | with an image, the mask becomes a blank mask of the image's size |
| FreehandMatching.FreehandApp.LoadImage | Projects/T32_Histogram_Matching_with_Freehand_Drawing_Tool/Histogram_Project.py:67-77 | a chosen file replaces the image and resets the mask to blank |
| FreehandMatching.FreehandApp.LoadReferenceImage | Projects/T32_Histogram_Matching_with_Freehand_Drawing_Tool/Histogram_Project.py:79-89 | a chosen file replaces the reference and nothing else |
| FreehandMatching.FreehandApp.StartDraw | Projects/T32_Histogram_Matching_with_Freehand_Drawing_Tool/Histogram_Project.py:103-109 | drawing starts at the pressed point |
| FreehandMatching.FreehandApp.Draw | Projects/T32_Histogram_Matching_with_Freehand_Drawing_Tool/Histogram_Project.py:111-129 | while drawing over an image, the scaled segment from the last point is drawn into the mask and the point moves on; otherwise nothing changes |
| FreehandMatching.FreehandApp.EndDraw | Projects/T32_Histogram_Matching_with_Freehand_Drawing_Tool/Histogram_Project.py:131-135 | drawing stops |
| FreehandMatching.FreehandApp.ClearDrawing | Projects/T32_Histogram_Matching_with_Freehand_Drawing_Tool/Histogram_Project.py:137-142 | the mask is blank again |
| FreehandMatching.FreehandApp.ProcessImage | Projects/T32_Histogram_Matching_with_Freehand_Drawing_Tool/Histogram_Project.py:144-162 | nothing without an image, a reference and a mask; otherwise the masked match of the image against the resized reference replaces the image and blanks the mask; a blank mask always fails and changes nothing, by the zero-total division whenever the LAB conversion keeps the pixel count |
| Ranking.SortedDesc | Projects/T21_Frequency_Matching_Tool/frequency_matching_tool_with_gui.py:169 | a list whose scores never increase |
| Ranking.WithScore | Projects/T21_Frequency_Matching_Tool/frequency_matching_tool_with_gui.py:169 | the entries of a given score are drawn from the list |
| Ranking.WithScoreAppend | Projects/T21_Frequency_Matching_Tool/frequency_matching_tool_with_gui.py:169 | selecting by score distributes over concatenation |
| Ranking.Insert | Projects/T21_Frequency_Matching_Tool/frequency_matching_tool_with_gui.py:169 | inserting adds one entry |
| Ranking.InsertAddsOne | Projects/T21_Frequency_Matching_Tool/frequency_matching_tool_with_gui.py:169 | inserting adds exactly that entry |
| Ranking.InsertSorted | Projects/T21_Frequency_Matching_Tool/frequency_matching_tool_with_gui.py:169 | inserting into a descending list keeps it descending |
| Ranking.InsertStable | Projects/T21_Frequency_Matching_Tool/frequency_matching_tool_with_gui.py:169 | the inserted entry goes after every entry of its own score |
| Ranking.InsertStableFront | Projects/T21_Frequency_Matching_Tool/frequency_matching_tool_with_gui.py:169 | an entry placed before a lower-scored sorted list comes first among its score |
| Ranking.SortedTail | Projects/T21_Frequency_Matching_Tool/frequency_matching_tool_with_gui.py:169 | the tail of a descending list is descending |
| Ranking.WithScoreAbove | Projects/T21_Frequency_Matching_Tool/frequency_matching_tool_with_gui.py:169 | a descending list that starts below v has no entry of score v |
| Ranking.SortDesc | Projects/T21_Frequency_Matching_Tool/frequency_matching_tool_with_gui.py:169 | sorting keeps the length |
| Ranking.SortDescSorted | Projects/T21_Frequency_Matching_Tool/frequency_matching_tool_with_gui.py:169 | `sorted(..., key=score, reverse=True)` is descending by score |
| Ranking.SortDescPermutes | Projects/T21_Frequency_Matching_Tool/frequency_matching_tool_with_gui.py:169 | the sort is a permutation of its input |
| Ranking.SortDescStable | Projects/T21_Frequency_Matching_Tool/frequency_matching_tool_with_gui.py:169 | the sort is stable: entries of equal score keep their input order |
| Ranking.Prefix | Projects/T21_Frequency_Matching_Tool/frequency_matching_tool_with_gui.py:169 | Python's `[:n]`: the first `min(n, len)` entries, or for a negative n all but the last `-n` |
| Ranking.PrefixOfSorted | Projects/T21_Frequency_Matching_Tool/frequency_matching_tool_with_gui.py:169 | a prefix of a descending list is descending, drawn from it, and beats every entry after it |
| Ranking.TopIsBest | Projects/T21_Frequency_Matching_Tool/frequency_matching_tool_with_gui.py:169 | the top n hold `min(n, len)` entries of the input, best first, and none left out beats one kept |
| FrequencyMatching.ResizeAndPad | Projects/T21_Frequency_Matching_Tool/frequency_matching_tool_with_gui.py:38-50 | an empty image divides by zero |
| FrequencyMatching.FittedSize | Projects/T21_Frequency_Matching_Tool/frequency_matching_tool_with_gui.py:41-43 | the resized image fits the target and fills it along one side |
| FrequencyMatching.ScaledSide | Projects/T21_Frequency_Matching_Tool/frequency_matching_tool_with_gui.py:41-43 | a side scaled by at most `target / side` and truncated stays within the target, and reaches it at that factor |
| FrequencyMatching.PadSplit | Projects/T21_Frequency_Matching_Tool/frequency_matching_tool_with_gui.py:45-48 | the two pads add up to the space left, and the second is the first or one more |
| FrequencyMatching.ResizeAndPadLayout | Projects/T21_Frequency_Matching_Tool/frequency_matching_tool_with_gui.py:38-50 | the resized image fits the target and fills it along a side, and the pads are non-negative, add up to the target, and differ by at most one, the larger at the bottom or right |
| FrequencyMatching.QuotientNonNegative | Projects/T21_Frequency_Matching_Tool/frequency_matching_tool_with_gui.py:41-43 | a non-negative value over a positive one is non-negative |
| FrequencyMatching.Step | Projects/T21_Frequency_Matching_Tool/frequency_matching_tool_with_gui.py:98 | for an overlap in [0, 1] the step lies in [0, window size]; above 1 it is not positive |
| FrequencyMatching.WindowFor | Projects/T21_Frequency_Matching_Tool/frequency_matching_tool_with_gui.py:102-109 | only "hann", "gaussian" and "boxcar" are accepted, the Gaussian with std `window_size / 6` |
| FrequencyMatching.RangeSeq | Projects/T21_Frequency_Matching_Tool/frequency_matching_tool_with_gui.py:111-112 | the values of `range(start, stop, step)` for a non-zero step |
| FrequencyMatching.Range | Projects/T21_Frequency_Matching_Tool/frequency_matching_tool_with_gui.py:111-112 | `range` refuses exactly a zero step |
| FrequencyMatching.RangeMembers | Projects/T21_Frequency_Matching_Tool/frequency_matching_tool_with_gui.py:111-112 | with a positive step the range holds exactly the points from start below stop a whole number of steps apart |
| FrequencyMatching.RangeIncreasing | Projects/T21_Frequency_Matching_Tool/frequency_matching_tool_with_gui.py:111-112 | with a positive step the range is strictly increasing |
| FrequencyMatching.RangeLength | Projects/T21_Frequency_Matching_Tool/frequency_matching_tool_with_gui.py:111-112 | with a positive step the range has ⌈(stop - start) / step⌉ values |
| FrequencyMatching.Origins | Projects/T21_Frequency_Matching_Tool/frequency_matching_tool_with_gui.py:111-112 | one origin per row start and column start |
| FrequencyMatching.RowOrigins | Projects/T21_Frequency_Matching_Tool/frequency_matching_tool_with_gui.py:112 | one row's origins pair its start with every column start, in order |
| FrequencyMatching.OriginsMembers | Projects/T21_Frequency_Matching_Tool/frequency_matching_tool_with_gui.py:111-112 | a pair is visited exactly when its row is a row start and its column a column start |
| FrequencyMatching.ComputeSpectrogram | Projects/T21_Frequency_Matching_Tool/frequency_matching_tool_with_gui.py:96-120 | the nested loops visit the windows TilingSpec describes, refusing an unknown window type and then a zero step |
| FrequencyMatching.WindowsInside | Projects/T21_Frequency_Matching_Tool/frequency_matching_tool_with_gui.py:111-118 | with a positive step the visited windows are exactly those that lie inside the image and start at multiples of the step |
| FrequencyMatching.DefaultTiling | Projects/T21_Frequency_Matching_Tool/frequency_matching_tool_with_gui.py:96-98 | the defaults step by 16 and visit 15×15 Hann windows of the padded 256×256 image; the defaults are passed at lines 151-152 |
| FrequencyMatching.TilingSpec | Projects/T21_Frequency_Matching_Tool/frequency_matching_tool_with_gui.py:96-118 | the window and the origins of the windows, an unknown window type refused first, then a zero step by `range` |
| FrequencyMatching.Round3 | Projects/T21_Frequency_Matching_Tool/frequency_matching_tool_with_gui.py:132 | `round(x, 3)` is within half a thousandth of x |
| FrequencyMatching.Round3Within | Projects/T21_Frequency_Matching_Tool/frequency_matching_tool_with_gui.py:129-132 | a correlation in [-1, 1] stays in [-1, 1] after rounding |
| FrequencyMatching.MatchSpectrograms | Projects/T21_Frequency_Matching_Tool/frequency_matching_tool_with_gui.py:123-132 | exactly "ssim" and "pearson" are accepted, each giving its measure rounded to three decimals |
| FrequencyMatching.IsImageName | Projects/T21_Frequency_Matching_Tool/frequency_matching_tool_with_gui.py:157 | the lower-cased name ends with .png, .jpg or .jpeg |
| FrequencyMatching.EntryPath | Projects/T21_Frequency_Matching_Tool/frequency_matching_tool_with_gui.py:158 | `os.path.join(root, file_name)` |
| FrequencyMatching.Visit | Projects/T21_Frequency_Matching_Tool/frequency_matching_tool_with_gui.py:156-165 | a score is recorded under the file's joined path |
| FrequencyMatching.Outcomes | Projects/T21_Frequency_Matching_Tool/frequency_matching_tool_with_gui.py:155-165 | one contribution per walked file, in walk order |
| FrequencyMatching.ScanDataset | Projects/T21_Frequency_Matching_Tool/frequency_matching_tool_with_gui.py:154-165 | the walk returns Scan's result: the scores in walk order, or the first error |
| FrequencyMatching.Collect | Projects/T21_Frequency_Matching_Tool/frequency_matching_tool_with_gui.py:154-165 | the results list after appending the contributions in order, or the first error raised |
| FrequencyMatching.Scan | Projects/T21_Frequency_Matching_Tool/frequency_matching_tool_with_gui.py:154-165 | the results list after the walk, or the first error raised |
| FrequencyMatching.FrequencyMatchingSpec | Projects/T21_Frequency_Matching_Tool/frequency_matching_tool_with_gui.py:147-169 | `frequency_matching` as a function of the target path, the walk, `top_n` and the outside world |
| FrequencyMatching.FrequencyMatching | Projects/T21_Frequency_Matching_Tool/frequency_matching_tool_with_gui.py:147-169 | an unreadable target is refused; otherwise the top_n best of the walk's scores, best first |
| FrequencyMatching.CollectErrorSticks | Projects/T21_Frequency_Matching_Tool/frequency_matching_tool_with_gui.py:155-165 | once the walk has raised, later files change nothing |
| FrequencyMatching.CollectComplete | Projects/T21_Frequency_Matching_Tool/frequency_matching_tool_with_gui.py:165 | every score contributed is collected |
| FrequencyMatching.CollectSound | Projects/T21_Frequency_Matching_Tool/frequency_matching_tool_with_gui.py:165 | every collected score was contributed |
| FrequencyMatching.CollectFails | Projects/T21_Frequency_Matching_Tool/frequency_matching_tool_with_gui.py:155-165 | the walk fails exactly when some file's contribution is an error |
| FrequencyMatching.Scores | Projects/T21_Frequency_Matching_Tool/frequency_matching_tool_with_gui.py:157-165 | a file that contributes a score: an accepted name and a readable, resizable image |
| FrequencyMatching.ScanCollects | Projects/T21_Frequency_Matching_Tool/frequency_matching_tool_with_gui.py:155-165 | the walk collects exactly the scores of the files with an accepted name and a readable image, and fails exactly when resizing one of them fails |
| FrequencyMatching.FrequencyMatchingRanks | Projects/T21_Frequency_Matching_Tool/frequency_matching_tool_with_gui.py:147-169 | the answer holds `min(top_n, n)` results, best first, each scored by the walk, and none left out beats one kept |
| EdgeMatching.AdaptiveThresholds | Projects/T25_Edge_Matching_Analysis/Edge_Detection_Python_Tool.py:19-21 | the thresholds are 0.66 and 1.33 times the mean, truncated and clamped to 0 and 255, and for a mean in the pixel range they are ordered bytes |
| EdgeMatching.WellFormed | Projects/T25_Edge_Matching_Analysis/Edge_Detection_Python_Tool.py:74-77 | a grey-scale read is a width·height array of bytes |
| EdgeMatching.SameShape | Projects/T25_Edge_Matching_Analysis/Edge_Detection_Python_Tool.py:31 | an image of the same width and height as another |
| EdgeMatching.ValidOps | Projects/T25_Edge_Matching_Analysis/Edge_Detection_Python_Tool.py:18-65 | what the code relies on from OpenCV, numpy and scikit-image: shapes kept, a mean in the byte range, and a resize by a factor rejected exactly when a rounded side is 0 |
| EdgeMatching.ScaledSide | Projects/T25_Edge_Matching_Analysis/Edge_Detection_Python_Tool.py:29 | the side `cv2.resize` computes from a factor: the product rounded to the nearest integer |
| EdgeMatching.EmptyResize | Projects/T25_Edge_Matching_Analysis/Edge_Detection_Python_Tool.py:29 | OpenCV's assertion for an empty target size |
| EdgeMatching.ScalesTo | Projects/T25_Edge_Matching_Analysis/Edge_Detection_Python_Tool.py:28-29 | the first k scales can resize the image |
| EdgeMatching.ScaledSidePositive | Projects/T25_Edge_Matching_Analysis/Edge_Detection_Python_Tool.py:26-29 | halving keeps a side exactly when it is at least 2; the factors 1 and 1.5 keep every positive side |
| EdgeMatching.ScalableIff | Projects/T25_Edge_Matching_Analysis/Edge_Detection_Python_Tool.py:26-29 | all three scales can resize the image exactly when both of its sides are at least 2 |
| EdgeMatching.AdaptiveCanny | Projects/T25_Edge_Matching_Analysis/Edge_Detection_Python_Tool.py:18-22 | Canny with those thresholds keeps the image's shape |
| EdgeMatching.ScaleEdges | Projects/T25_Edge_Matching_Analysis/Edge_Detection_Python_Tool.py:29-31 | one scale's edges are resized back to the image's shape |
| EdgeMatching.PixelSum | Projects/T25_Edge_Matching_Analysis/Edge_Detection_Python_Tool.py:28-32 | after k scales that could resize the image, each pixel's float sum lies in [0, 255·k] |
| EdgeMatching.MultiScaleSpec | Projects/T25_Edge_Matching_Analysis/Edge_Detection_Python_Tool.py:25-34 | the result is an error exactly when some scale's resize is rejected, which happens exactly for an image narrower or lower than 2 pixels, and the error is OpenCV's empty-dsize assertion; otherwise the combined edges keep the image's shape |
| EdgeMatching.MultiScaleEdges | Projects/T25_Edge_Matching_Analysis/Edge_Detection_Python_Tool.py:25-34 | the accumulation loop gives the per-pixel mean of the three scales' edges, truncated to a byte, and raises at the first scale whose resize OpenCV rejects |
| EdgeMatching.MultiScaleAgreement | Projects/T25_Edge_Matching_Analysis/Edge_Detection_Python_Tool.py:32-33 | when the multi-scale result exists, a combined pixel is 255 exactly when all three scales found an edge there |
| EdgeMatching.AddWeighted | Projects/T25_Edge_Matching_Analysis/Edge_Detection_Python_Tool.py:65 | the hybrid blend keeps the shape, and each pixel lies between its Sobel and Canny values |
| EdgeMatching.Rank | Projects/T25_Edge_Matching_Analysis/Edge_Detection_Python_Tool.py:62-65 | the termination measure of Hybrid's two recursive calls |
| EdgeMatching.DetectEdges | Projects/T25_Edge_Matching_Analysis/Edge_Detection_Python_Tool.py:42-67 | every successful method keeps the image's shape; it raises exactly for "Multi-Scale" on an image narrower or lower than 2 pixels; an unknown method returns the blurred image |
| EdgeMatching.Visit | Projects/T25_Edge_Matching_Analysis/Edge_Detection_Python_Tool.py:111-150 | a recorded score is for an accepted image name under its joined path; an unreadable file, a raising edge detection or a raising SSIM contributes nothing |
| EdgeMatching.Outcomes | Projects/T25_Edge_Matching_Analysis/Edge_Detection_Python_Tool.py:111-150 | one contribution per listed file, in listing order |
| EdgeMatching.IsImageName | Projects/T25_Edge_Matching_Analysis/Edge_Detection_Python_Tool.py:113 | the lower-cased name ends with .jpg, .jpeg or .png |
| EdgeMatching.Gather | Projects/T25_Edge_Matching_Analysis/Edge_Detection_Python_Tool.py:133-146 | the two lists after appending the contributions in order |
| EdgeMatching.Scan | Projects/T25_Edge_Matching_Analysis/Edge_Detection_Python_Tool.py:111-150 | the two lists after the scan of a listing |
| EdgeMatching.Above | Projects/T25_Edge_Matching_Analysis/Edge_Detection_Python_Tool.py:145-146 | the scored entries above 0.55, in order |
| EdgeMatching.Paths | Projects/T25_Edge_Matching_Analysis/Edge_Detection_Python_Tool.py:156 | the paths of the entries, in order |
| EdgeMatching.GatherSimilar | Projects/T25_Edge_Matching_Analysis/Edge_Detection_Python_Tool.py:133-146 | `similar_images` holds exactly the paths of the recorded scores above 0.55, in order |
| EdgeMatching.GatherScores | Projects/T25_Edge_Matching_Analysis/Edge_Detection_Python_Tool.py:133 | `list_similarityscore` holds exactly the contributed scores |
| EdgeMatching.ScanLists | Projects/T25_Edge_Matching_Analysis/Edge_Detection_Python_Tool.py:104-150 | the similar paths are the scored paths above the threshold, in scan order; the scores are exactly those of the accepted, readable files SSIM could compare |
| EdgeMatching.ScanFolder | Projects/T25_Edge_Matching_Analysis/Edge_Detection_Python_Tool.py:111-150 | the loop builds the two lists Scan describes |
| EdgeMatching.TopTen | Projects/T25_Edge_Matching_Analysis/Edge_Detection_Python_Tool.py:153-156 | the displayed paths are the best ten of the ranking, best first; the ranking is a descending permutation of the scores, and none left out beats one shown |
| EdgeMatching.SearchSpec | Projects/T25_Edge_Matching_Analysis/Edge_Detection_Python_Tool.py:90-162 | `find_similar_images` as a function: refused without an image, without edges or without a folder, and otherwise the sorted ranking, the similar list and the first ten paths |
| EdgeMatching.EdgeTool.constructor | Projects/T25_Edge_Matching_Analysis/Edge_Detection_Python_Tool.py:14-15 | no image and no edges, with "Canny" selected; the method menu default is set at line 209 |
| EdgeMatching.EdgeTool.Valid | Projects/T25_Edge_Matching_Analysis/Edge_Detection_Python_Tool.py:14-15 | the operators behave as relied on, and any image and edges held are well formed |
| EdgeMatching.EdgeTool.OpenImage | Projects/T25_Edge_Matching_Analysis/Edge_Detection_Python_Tool.py:70-78 | a chosen file replaces the image with its grey-scale read and clears the edges; a cancelled dialog changes nothing |
| EdgeMatching.EdgeTool.SelectMethod | Projects/T25_Edge_Matching_Analysis/Edge_Detection_Python_Tool.py:209-210 | the option menu sets the selected method |
| EdgeMatching.EdgeTool.ApplyEdgeDetection | Projects/T25_Edge_Matching_Analysis/Edge_Detection_Python_Tool.py:81-87 | with an image, the edges become that image's edges under the selected method, or the call raises and the edges stay as they were; without an image nothing changes |
| EdgeMatching.EdgeTool.FindSimilarImages | Projects/T25_Edge_Matching_Analysis/Edge_Detection_Python_Tool.py:90-162 | the search result is SearchSpec's: refused without an image, without edges or without a folder, and otherwise the ranking, the similar list and the top ten |
| MorphologicalMatching.ToGrayScale | Projects/T24_Morphological_matching/main.py:58-62 | a grey image exists exactly for a three-dimensional (colour) input; otherwise the function returns None |
| MorphologicalMatching.Shaped | Projects/T24_Morphological_matching/main.py:96 | a binary image's pixels fill its (rows, columns) shape |
| MorphologicalMatching.ToBinary | Projects/T24_Morphological_matching/main.py:65-68 | one mask pixel per grey pixel |
| MorphologicalMatching.BinaryStrict | Projects/T24_Morphological_matching/main.py:67 | a pixel is foreground exactly when strictly above the threshold, so one equal to it is background, and a higher threshold only removes foreground |
| MorphologicalMatching.Binary | Projects/T24_Morphological_matching/main.py:58-68 | a binary image exists exactly for a colour (three-dimensional) image, with that image's rows and columns as its shape and one pixel per grey pixel, foreground exactly above Otsu's threshold; any other image makes `threshold_otsu(None)` raise |
| MorphologicalMatching.Count | Projects/T24_Morphological_matching/main.py:108 | `np.sum` of a mask counts at most its length |
| MorphologicalMatching.And | Projects/T24_Morphological_matching/main.py:102 | the intersection keeps the shape |
| MorphologicalMatching.Or | Projects/T24_Morphological_matching/main.py:103 | the union keeps the shape |
| MorphologicalMatching.Jaccard | Projects/T24_Morphological_matching/main.py:102-108 | `np.sum(intersection) / np.sum(union)`, NaN (None) when the union is empty |
| MorphologicalMatching.CountMonotone | Projects/T24_Morphological_matching/main.py:108 | a pointwise smaller mask counts no more, and equally only when it is the same mask |
| MorphologicalMatching.CountZero | Projects/T24_Morphological_matching/main.py:108 | a mask counts 0 exactly when it has no foreground |
| MorphologicalMatching.InclusionExclusion | Projects/T24_Morphological_matching/main.py:102-108 | the two counts add up to the intersection's plus the union's |
| MorphologicalMatching.JaccardNaN | Projects/T24_Morphological_matching/main.py:108 | the similarity is 0/0 (NaN) exactly when neither skeleton has a foreground pixel |
| MorphologicalMatching.JaccardRange | Projects/T24_Morphological_matching/main.py:102-108 | a defined similarity lies in [0, 1] |
| MorphologicalMatching.RatioInUnit | Projects/T24_Morphological_matching/main.py:108 | a count over a larger count is in [0, 1], and 1 only when they are equal |
| MorphologicalMatching.SelfRatio | Projects/T24_Morphological_matching/main.py:108 | a positive count over itself is 1 |
| MorphologicalMatching.JaccardOne | Projects/T24_Morphological_matching/main.py:102-108 | the similarity is 1 exactly when the two skeletons are equal and not empty |
| MorphologicalMatching.JaccardSymmetric | Projects/T24_Morphological_matching/main.py:102-108 | the similarity does not depend on the order of the two skeletons |
| MorphologicalMatching.Ceil | Projects/T24_Morphological_matching/main.py:37 | `math.ceil` is the least integer not below x |
| MorphologicalMatching.DisplayGrid | Projects/T24_Morphological_matching/main.py:34-52 | the nested loops show every upload exactly once, upload j in row j // 4 and column j % 4, in order |
| MorphologicalMatching.ValidWorld | Projects/T24_Morphological_matching/main.py:61-97 | what the script relies on from scikit-image: rgb2gray gives one grey pixel per pixel, resize gives the requested shape, skeletonize keeps the shape |
| MorphologicalMatching.CompareOne | Projects/T24_Morphological_matching/main.py:91-113 | an upload raises exactly when it is not a colour image, with threshold_otsu's error; otherwise its row carries the upload's name and a similarity that is NaN or in [0, 1] |
| MorphologicalMatching.CompareAll | Projects/T24_Morphological_matching/main.py:91-113 | the rows of the uploads in order, or the first upload's error |
| MorphologicalMatching.CompareSpec | Projects/T24_Morphological_matching/main.py:80-118 | the run after a click as a function of the uploads |
| MorphologicalMatching.Compare | Projects/T24_Morphological_matching/main.py:80-118 | the run after a click is CompareSpec's: no click shows nothing, a missing base or image list shows the upload prompt, a non-colour image raises, and otherwise one row per upload |
| MorphologicalMatching.CompareErrorSticks | Projects/T24_Morphological_matching/main.py:91-113 | once an upload has raised, later uploads change nothing |
| MorphologicalMatching.CompareAllRows | Projects/T24_Morphological_matching/main.py:91-116 | the table has one row per upload, names in upload order, each similarity NaN or in [0, 1] |
| DatasetReference.SplitStart | Projects/T03_Mosaic_from_dataset/backend/dataset_downloader.py:65-66 | the text after the marker starts right after its FIRST occurrence |
| DatasetReference.SplitSecond | Projects/T03_Mosaic_from_dataset/backend/dataset_downloader.py:66 | `split(marker)[1]` is a piece of the URL starting after the first marker |
| DatasetReference.OccursInPiece | Projects/T03_Mosaic_from_dataset/backend/dataset_downloader.py:66 | a marker occurrence inside a piece of the URL is one in the URL |
| DatasetReference.SplitSecondPiece | Projects/T03_Mosaic_from_dataset/backend/dataset_downloader.py:66 | the piece `split(marker)[1]` holds no marker, so it ends at the second occurrence or at the end |
| DatasetReference.SkipSlashes | Projects/T03_Mosaic_from_dataset/backend/dataset_downloader.py:66-68 | the first position at or after k that is not '/' |
| DatasetReference.TrimSlashes | Projects/T03_Mosaic_from_dataset/backend/dataset_downloader.py:66-68 | the end of the text once its trailing '/' characters are dropped |
| DatasetReference.Strip | Projects/T03_Mosaic_from_dataset/backend/dataset_downloader.py:66-68 | `strip('/')` removes exactly the leading and trailing '/' characters: the result is empty only for an all-'/' text and otherwise neither starts nor ends with '/' |
| DatasetReference.StripIdempotent | Projects/T03_Mosaic_from_dataset/backend/dataset_downloader.py:66-68 | stripping a stripped reference changes nothing |
| DatasetReference.LastSegment | Projects/T03_Mosaic_from_dataset/backend/dataset_downloader.py:72 | `split('/')[-1]` is the suffix after the last '/', and has no '/' |
| DatasetReference.DatasetRef | Projects/T03_Mosaic_from_dataset/backend/dataset_downloader.py:108-111 | the reference, from a full URL or a bare reference, neither starts nor ends with '/' |
| DatasetReference.DatasetName | Projects/T03_Mosaic_from_dataset/backend/dataset_downloader.py:113 | the name is the reference's last segment, without '/' |
| DatasetReference.NameEmpty | Projects/T03_Mosaic_from_dataset/backend/dataset_downloader.py:72 | the name is empty exactly when the reference is |
| DatasetReference.FullUrlExample | Projects/T03_Mosaic_from_dataset/backend/dataset_downloader.py:65-72 | a full dataset URL with a trailing '/' gives owner/name and the name |
| DatasetReference.BareReferenceExample | Projects/T03_Mosaic_from_dataset/backend/dataset_downloader.py:67-68 | a bare reference is only stripped of '/' |
| DatasetReference.DatasetPath | Projects/T03_Mosaic_from_dataset/backend/dataset_downloader.py:23 | the dataset folder is base/name: it starts with the base path and ends with the name |
| DatasetReference.ImagesPath | Projects/T03_Mosaic_from_dataset/backend/dataset_downloader.py:24 | the images folder lies under the dataset folder and ends in "images" |
| DatasetReference.ZipPath | Projects/T03_Mosaic_from_dataset/backend/dataset_downloader.py:85 | the archive is name.zip in the dataset folder |
| DatasetReference.JpgOnly | Projects/T03_Mosaic_from_dataset/backend/dataset_downloader.py:17 | `('.jpg')` is a string, so only names ending in ".jpg", in any case, count as images; ".jpeg" and ".png" do not |
| DatasetReference.IsJpg | Projects/T03_Mosaic_from_dataset/backend/dataset_downloader.py:36 | `f.lower().endswith(".jpg")`, since the extension setting is the string ".jpg" (JpgOnly pins it on examples) |
| DatasetReference.ZipImages | Projects/T03_Mosaic_from_dataset/backend/dataset_downloader.py:36 | the extracted members are drawn from the archive's names |
| DatasetReference.ZipImagesMembers | Projects/T03_Mosaic_from_dataset/backend/dataset_downloader.py:36 | a member is extracted exactly when it is in the archive and has an image name |
| DatasetReference.ImageFiles | Projects/T03_Mosaic_from_dataset/backend/dataset_downloader.py:120-123 | no more images are counted than entries listed |
| DatasetReference.ImageFilesMembers | Projects/T03_Mosaic_from_dataset/backend/dataset_downloader.py:120-123 | an entry is counted exactly when it is listed, is a regular file and has an image name |
| DatasetReference.DuplicateCheck | Projects/T03_Mosaic_from_dataset/backend/dataset_downloader.py:99-126 | the name is always returned; the dataset exists exactly when its folder is a directory; a positive count needs the images folder; the count is bounded by the listing |
| DatasetReference.DuplicateCheckCounts | Projects/T03_Mosaic_from_dataset/backend/dataset_downloader.py:117-124 | with both folders present, the count is the number of listed regular image files |
| Common.Clamp | Projects/T12_Weighted_Voronoi_image_stippling/Voronoi_Gui.py:48 | `max(min(v, hi), lo)` lies in [lo, hi], keeps a value already there and maps values below or above to the nearer end |
| Common.Trunc | Projects/T12_Weighted_Voronoi_image_stippling/get_density_centroid.py:13-16 | Python's `int()` of a float truncates toward zero: it lies within 1 of the value, on the side of zero |
| Common.RoundHalfEven | Projects/T12_Weighted_Voronoi_image_stippling/get_density_centroid.py:38 | `np.round` to an integer lies within 1/2 of the value, ties going to the even neighbour |
| Common.RoundWithin | Projects/T12_Weighted_Voronoi_image_stippling/get_density_centroid.py:38 | rounding a value between two integers stays between them |
| Common.SumR | Projects/T12_Weighted_Voronoi_image_stippling/weighted_voronoi_stippling.py:26 | `np.sum` of a float array, element after element |
| Common.SumRAppend | Projects/T12_Weighted_Voronoi_image_stippling/weighted_voronoi_stippling.py:26 | appending a value adds it to the sum |
| Common.SumRNonNegative | Projects/T12_Weighted_Voronoi_image_stippling/weighted_voronoi_stippling.py:26 | the sum of non-negative values is non-negative |
| Common.SumI | Projects/T35_Histogram_matching_GUI/Histogram_Matching_GUI.py:151-152 | the sum of an integer array such as a histogram |
| Common.SumIAppend | Projects/T35_Histogram_matching_GUI/Histogram_Matching_GUI.py:151-152 | appending a count adds it to the sum |
| Common.SumINonNegative | Projects/T35_Histogram_matching_GUI/Histogram_Matching_GUI.py:151-152 | a sum of counts is non-negative |
| Common.SeqMax | Projects/T12_Weighted_Voronoi_image_stippling/preprocess_image.py:13 | `np.max` of a non-empty array: an element at least as large as every element |
| Common.SeqMin | Projects/T12_Weighted_Voronoi_image_stippling/get_density_centroid.py:10 | `min(axis=0)` of one coordinate: an element no larger than any element |
| Common.LowerChar | Projects/T25_Edge_Matching_Analysis/Edge_Detection_Python_Tool.py:113 | ASCII `lower()` of one character |
| Common.Lower | Projects/T25_Edge_Matching_Analysis/Edge_Detection_Python_Tool.py:113 | `str.lower()` on ASCII keeps the length and lowers each character |
| Common.EndsWith | Projects/T25_Edge_Matching_Analysis/Edge_Detection_Python_Tool.py:113 | `str.endswith(suffix)` |
| Common.StartsWith | Projects/T03_Mosaic_from_dataset/backend/dataset_downloader.py:65-66 | the text begins with the prefix |
| Common.OccursAt | Projects/T03_Mosaic_from_dataset/backend/dataset_downloader.py:65-66 | the needle occurs at position i |
| Common.PathJoin | Projects/T25_Edge_Matching_Analysis/Edge_Detection_Python_Tool.py:112 | POSIX `os.path.join(a, b)`: the result ends with b, and starts with a unless b is absolute |
| Common.FindFrom | Projects/T03_Mosaic_from_dataset/backend/dataset_downloader.py:65-66 | `s.find(needle, start)`: the first occurrence at or after start, or -1 when there is none |
| Common.Contains | Projects/T03_Mosaic_from_dataset/backend/dataset_downloader.py:65 | `needle in s` for strings |
| Common.NatToString | Projects/T12_Weighted_Voronoi_image_stippling/weighted_voronoi_stippling.py:110 | `str(n)` of a natural number: one or more decimal digits |
| Common.IntToString | Projects/T12_Weighted_Voronoi_image_stippling/weighted_voronoi_stippling.py:110 | `str(n)` of an integer: a leading '-' exactly for negative n |
| Common.GridIndex | Projects/T12_Weighted_Voronoi_image_stippling/weighted_voronoi_stippling.py:30 | a cell (row, col) of a grid has a row-major index below height·width |
| Common.GridDivMod | Projects/T12_Weighted_Voronoi_image_stippling/weighted_voronoi_stippling.py:30 | `//` and `%` by the width recover the row and the column of a row-major index |
| Common.GridRowBound | Projects/T12_Weighted_Voronoi_image_stippling/weighted_voronoi_stippling.py:30 | an index below width·height lies in a row below height |

## Left out

- User interface: Tk, Qt, gradio and streamlit widgets, canvases, previews, plotting, the GIF animation and message boxes. Only the state the handlers change is modelled.
- Image load, save and export; pixel numerics behind PIL enhancers, blurs, vignette blending and OpenCV calls, which are symbolic operations on opaque images.
- Foreign numerics as parameters with the contract the code relies on:
  - the scipy Voronoi construction and matplotlib's point-in-polygon test;
  - `np.random` draws, with the seed never forwarded;
  - skimage `gaussian`/`rgb2gray`, resizing and LAB conversion;
  - Canny/Sobel/Prewitt, FFT, SSIM, Pearson and cosine similarity;
  - Otsu thresholding and skeletonisation.
- IEEE floating-point rounding: all arithmetic is on exact reals and integers. FrequencyMatching.ResizeAndPadLayout's "fills one side" holds on exact reals only: in doubles `256/49*49` is 255.99999999999997, so `resize_and_pad` of a 49-pixel side resizes it to 255 and fills neither side.
- Division by zero in numpy yields NaN or infinity with a warning rather than an exception. The model reports it as an error value (`Err(ZeroDivision)` or `None`) at each point where the code divides without a guard:
  - the stippling normalisation by a zero maximum and by a zero weight sum;
  - a CDF over an empty histogram or an empty mask;
  - the Jaccard similarity of two empty skeletons.
- ImageFilters.VignetteFails: the vignette of a 1x1 image divides Python floats by a zero `max_radius` (filters.py:61,68), which raises `ZeroDivisionError`; the model reports it as `ZeroDivision` like the numpy cases, with the same meaning here.
- The Kaggle download, zip extraction and file moves of T03 (network and file-system I/O). The name and path derivation they use is modelled, and so is the member filter.
- The JSON tile cache of T02 (`load_tiles`, `reset_tile_usage`): the tiles' average colours and histograms are inputs.
- Concurrency: no worker threads are modelled.
- FiltersTool.FilterTool.ResetFilters: setting `filter_var` fires its Tk write trace, which re-enters `on_filter_change`, and `slider.set(0)` on the `ttk.Scale` whose command is `on_slider_change` re-enters that handler; the model treats each handler on its own.
- FiltersTool.FilterTool.UndoLastAction: the slider command that `slider.set` fires is not modelled; the handler is taken on its own.
- EditScreen.EditingScreen.FinishCrop: a `finish_crop` with no prior `start_crop` is modelled as a failure; Python would raise `AttributeError` on the missing start coordinates.
- The spectral and edge-magnitude numerics of T21 and T25 (spectrogram values, Sobel/Prewitt normalisation and aggregated magnitudes) are left to the foreign operations. Window positions, padding, dispatch errors, thresholds and ranking are modelled.
- T25's `similar_images` list is modelled but never displayed by the tool; `display_matches` is user interface.
- The T35 and T32 CDF formulas are written differently: T35 divides the running sums by the histogram's total, and T32 sums the histogram already divided by its total. On exact reals they are equal, and both are modelled by one CDF.
- StippleGui.ParseInt: Python's `int()` parsing of entry text is modelled for ASCII only: `IsSpace` and `IsDigit` accept ASCII whitespace and the digits 0-9. `int()` also accepts Unicode whitespace, Unicode decimal digits ("１２３" reads as 123) and underscores between digits; on such text the model falls back to Tcl's parse instead.
- StippleDriver.SamplingWeights: `weight_scale` is a natural number, so `density ** weight_scale` is a repeated product; fractional or negative exponents, which numpy accepts, are not modelled (the only caller passes the default 1). StippleDriver.WeightsSumToOne and StippleDriver.StippleRun inherit this.
- Tcl's own parse of a variable's text (`IntVar.get`, which reads forms such as "5.5" or "0x1F" that `int()` rejects) is a parameter, `StippleGui.TclReader`; its value on each text is not modelled.

=== FILE: adjust_history.dfy ===
/**
 * The undo/redo history of the image adjustment tool
 * (T22 components/history.py).
 *
 * Two stacks of images: `history`, whose top is what is shown, and the redo
 * stack of undone images. Undo needs at least two entries so that the first
 * image always stays; saving a new image forgets everything undone. The
 * images themselves are opaque. Refreshing the Qt viewer is not modelled.
 */
module AdjustHistory {
  import opened Common

  /** The history's state: both stacks and the image last shown by undo or redo. */
  datatype Stacks<T> = Stacks(history: seq<T>, redo: seq<T>, current: Option<T>)

  function Last<T>(s: seq<T>): T
    requires |s| > 0
  {
    s[|s| - 1]
  }

  function DropLast<T>(s: seq<T>): seq<T>
    requires |s| > 0
  {
    s[..|s| - 1]
  }

  /** `undo`: with at least two entries the top moves to the redo stack and the entry below is shown. */
  function UndoStep<T>(s: Stacks<T>): (r: Stacks<T>)
    ensures |r.history| + |r.redo| == |s.history| + |s.redo|
    ensures |s.history| < 2 ==> r == s
    ensures |s.history| >= 2 ==> |r.history| == |s.history| - 1 >= 1 && r.current == Some(Last(r.history))
  {
    if |s.history| >= 2 then
      var h := DropLast(s.history);
      Stacks(h, s.redo + [Last(s.history)], Some(Last(h)))
    else s
  }

  /** `redo`: the redo stack's top goes back on the history and is shown. */
  function RedoStep<T>(s: Stacks<T>): (r: Stacks<T>)
    ensures |r.history| + |r.redo| == |s.history| + |s.redo|
    ensures s.redo == [] ==> r == s
    ensures s.redo != [] ==> r.history == s.history + [Last(s.redo)] && r.current == Some(Last(s.redo))
  {
    if s.redo != [] then Stacks(s.history + [Last(s.redo)], DropLast(s.redo), Some(Last(s.redo)))
    else s
  }

  /** `save_to_history`: a real image is pushed and the redo stack is emptied; `None` changes nothing. */
  function SaveStep<T>(s: Stacks<T>, image: Option<T>): (r: Stacks<T>)
    ensures image.None? ==> r == s
    ensures image.Some? ==> r.history == s.history + [image.value] && r.redo == [] && r.current == s.current
  {
    if image.Some? then Stacks(s.history + [image.value], [], s.current) else s
  }

  /** Undo followed by redo restores both stacks exactly and shows the old top again. */
  lemma RedoUndoes<T>(s: Stacks<T>)
    requires |s.history| >= 2
    ensures RedoStep(UndoStep(s)).history == s.history
    ensures RedoStep(UndoStep(s)).redo == s.redo
    ensures RedoStep(UndoStep(s)).current == Some(Last(s.history))
  {
    var u := UndoStep(s);
    assert DropLast(u.redo) == s.redo;
    assert DropLast(s.history) + [Last(s.history)] == s.history;
  }

  /** Redo followed by undo restores both stacks when the history was not empty. */
  lemma UndoUndoesRedo<T>(s: Stacks<T>)
    requires s.redo != [] && |s.history| >= 1
    ensures UndoStep(RedoStep(s)).history == s.history
    ensures UndoStep(RedoStep(s)).redo == s.redo
    ensures UndoStep(RedoStep(s)).current == Some(Last(s.history))
  {
    var r := RedoStep(s);
    assert DropLast(r.history) == s.history;
    assert DropLast(s.redo) + [Last(s.redo)] == s.redo;
  }

  /**
   * Saving after an undo forgets what was undone: a redo then changes
   * nothing, and an undo goes back to the image saved before.
   */
  lemma SaveForgetsRedo<T>(s: Stacks<T>, image: T)
    requires |s.history| >= 1
    ensures RedoStep(SaveStep(s, Some(image))) == SaveStep(s, Some(image))
    ensures UndoStep(SaveStep(s, Some(image))).history == s.history
    ensures UndoStep(SaveStep(s, Some(image))).redo == [image]
    ensures UndoStep(SaveStep(s, Some(image))).current == Some(Last(s.history))
  {
    assert DropLast(s.history + [image]) == s.history;
  }

  /** Undo can never empty a non-empty history: the first image saved stays at the bottom. */
  lemma {:induction false} UndoKeepsBottom<T>(s: Stacks<T>, n: nat)
    requires |s.history| >= 1
    ensures |Undos(s, n).history| >= 1
    ensures Undos(s, n).history[0] == s.history[0]
  {
    if n > 0 {
      UndoKeepsBottom(s, n - 1);
    }
  }

  /** n presses of Undo. */
  function Undos<T>(s: Stacks<T>, n: nat): Stacks<T>
  {
    if n == 0 then s else UndoStep(Undos(s, n - 1))
  }

  class History<T(==)> {
    var history: seq<T>
    var redoStack: seq<T>
    var currentImage: Option<T>

    function State(): Stacks<T>
      reads this
    {
      Stacks(history, redoStack, currentImage)
    }

    constructor ()
      ensures history == [] && redoStack == [] && currentImage == None
    {
      history := [];
      redoStack := [];
      currentImage := None;
    }

    method Undo()
      modifies this
      ensures State() == UndoStep(old(State()))
    {
      if |history| >= 2 {
        var top := history[|history| - 1];
        history := history[..|history| - 1];
        redoStack := redoStack + [top];
        currentImage := if |history| > 0 then Some(history[|history| - 1]) else None;
      }
    }

    method Redo()
      modifies this
      ensures State() == RedoStep(old(State()))
    {
      if redoStack != [] {
        var top := redoStack[|redoStack| - 1];
        redoStack := redoStack[..|redoStack| - 1];
        history := history + [top];
        currentImage := Some(top);
      }
    }

    method SaveToHistory(image: Option<T>)
      modifies this
      ensures State() == SaveStep(old(State()), image)
    {
      if image.Some? {
        history := history + [image.value];
        redoStack := [];
      }
    }
  }
}

=== FILE: adjust_tool.dfy ===
/**
 * The slider and filter state of the image adjustment tool
 * (T22 components/adjustments.py).
 *
 * `Adjustments` keeps the loaded image, the image shown, and five enhancement
 * factors. Every slider move recomputes the shown image from the loaded one
 * with all five factors; every filter recomputes it from the loaded one
 * alone. Either way one entry is saved to the shared `History`. The PIL
 * enhancements are symbolic: a `Picture` records how it was made.
 */
module AdjustTool {
  import opened Common
  import opened AdjustHistory

  datatype Rgb = Rgb(r: int, g: int, b: int)

  /** An image, by its provenance. */
  datatype Picture =
    | Pixels(width: nat, height: nat, data: seq<Rgb>)
      /** Brightness, contrast, colour and sharpness enhancement, then every channel times `gain`. */
    | Enhanced(source: Picture, brightness: real, contrast: real, saturation: real, sharpness: real, gain: real)
    | Grayscale(source: Picture)
    | Sepia(source: Picture)
    | Inverted(source: Picture)
    | CoolTone(source: Picture)
    | BrightGlow(source: Picture)

  /** The pixel layouts a `QImage` may have; only two are accepted. */
  datatype ImageFormat = FormatRGB32 | FormatRGB888 | OtherFormat(code: int)

  /** Bytes per pixel of the accepted layouts. */
  function Stride(f: ImageFormat): nat
  {
    if f.FormatRGB32? then 4 else 3
  }

  /**
   * The pixel at byte offset `o`: the first three bytes of the pixel, read in
   * reverse (`[..., :3][..., ::-1]` for RGB32, `[..., ::-1]` for RGB888).
   */
  function PixelAt(buffer: seq<int>, o: nat): Rgb
    requires o + 3 <= |buffer|
  {
    Rgb(buffer[o + 2], buffer[o + 1], buffer[o])
  }

  /** The pixels of a `stride`-byte buffer, reversed within each pixel. */
  function Reversed3(buffer: seq<int>, stride: nat, n: nat): (r: seq<Rgb>)
    requires 3 <= stride && |buffer| == n * stride
    ensures |r| == n
  {
    if n == 0 then []
    else
      assert |buffer[..(n - 1) * stride]| == (n - 1) * stride by {
        MulStep(n - 1, stride);
      }
      Reversed3(buffer[..(n - 1) * stride], stride, n - 1) + [PixelAt(buffer, (n - 1) * stride)]
  }

  /**
   * `load_image`'s conversion of the viewer's buffer: RGB32 and RGB888 are
   * reshaped to height×width pixels (a buffer of another size is numpy's
   * reshape error), any other format is refused with ValueError.
   */
  function DecodeBuffer(format: ImageFormat, width: nat, height: nat, buffer: seq<int>): (r: Result<Picture>)
    ensures format.OtherFormat? ==> r.Err?
    ensures r.Ok? ==> r.value.Pixels? && r.value.width == width && r.value.height == height &&
                      |r.value.data| == width * height
  {
    if format.OtherFormat? then Err(ValueError("Unsupported QImage format"))
    else
      var n := width * height;
      if |buffer| != n * Stride(format) then Err(ValueError("cannot reshape array"))
      else Ok(Pixels(width, height, Reversed3(buffer, Stride(format), n)))
  }

  lemma {:induction false} Reversed3At(buffer: seq<int>, stride: nat, n: nat, k: nat)
    requires 3 <= stride && |buffer| == n * stride && k < n
    ensures k * stride + 3 <= |buffer|
    ensures Reversed3(buffer, stride, n)[k] == PixelAt(buffer, k * stride)
  {
    MulStep(k, stride);
    MulStep(n - 1, stride);
    assert k * stride <= (n - 1) * stride by {
      MulMono(k, n - 1, stride);
    }
    if k < n - 1 {
      Reversed3At(buffer[..(n - 1) * stride], stride, n - 1, k);
    }
  }

  lemma MulMono(a: nat, b: nat, c: nat)
    requires a <= b
    ensures a * c <= b * c
  {
  }

  /**
   * Pixel k of a decoded RGB32 buffer is bytes 4k+2, 4k+1, 4k (the fourth
   * byte is dropped); of an RGB888 buffer, bytes 3k+2, 3k+1, 3k, so an RGB888
   * buffer comes out with red and blue exchanged.
   */
  lemma DecodedPixel(format: ImageFormat, width: nat, height: nat, buffer: seq<int>, k: nat)
    requires DecodeBuffer(format, width, height, buffer).Ok? && k < width * height
    ensures !format.OtherFormat? && k * Stride(format) + 3 <= |buffer|
    ensures DecodeBuffer(format, width, height, buffer).value.data[k] ==
              Rgb(buffer[k * Stride(format) + 2], buffer[k * Stride(format) + 1], buffer[k * Stride(format)])
  {
    Reversed3At(buffer, Stride(format), width * height, k);
  }

  /** `np.clip(x, 0, 255)` followed by the `uint8` cast, which truncates. */
  function ClipByte(x: real): (r: int)
    ensures 0 <= r <= 255
  {
    if x < 0.0 then 0 else if x > 255.0 then 255 else x.Floor
  }

  /** The sepia matrix on one pixel, clipped to [0, 255]. */
  function SepiaPixel(p: Rgb): (r: Rgb)
    ensures 0 <= r.r <= 255 && 0 <= r.g <= 255 && 0 <= r.b <= 255
  {
    var (x, y, z) := (p.r as real, p.g as real, p.b as real);
    Rgb(ClipByte(x * 0.393 + y * 0.769 + z * 0.189),
        ClipByte(x * 0.349 + y * 0.686 + z * 0.168),
        ClipByte(x * 0.272 + y * 0.534 + z * 0.131))
  }

  lemma ClipByteMonotone(x: real, y: real)
    requires x <= y
    ensures ClipByte(x) <= ClipByte(y)
  {
  }

  /**
   * Sepia tones are warm: for non-negative channels the red output is at
   * least the green, and the green at least the blue.
   */
  lemma SepiaIsWarm(p: Rgb)
    requires p.r >= 0 && p.g >= 0 && p.b >= 0
    ensures SepiaPixel(p).r >= SepiaPixel(p).g >= SepiaPixel(p).b
  {
    var (x, y, z) := (p.r as real, p.g as real, p.b as real);
    ClipByteMonotone(x * 0.349 + y * 0.686 + z * 0.168, x * 0.393 + y * 0.769 + z * 0.189);
    ClipByteMonotone(x * 0.272 + y * 0.534 + z * 0.131, x * 0.349 + y * 0.686 + z * 0.168);
  }

  /** White saturates every sepia channel except blue, which lands at 238. */
  lemma SepiaOfWhite()
    ensures SepiaPixel(Rgb(255, 255, 255)) == Rgb(255, 255, 238)
  {
    assert 255.0 * 0.272 + 255.0 * 0.534 + 255.0 * 0.131 == 238.935;
  }

  /** The sepia image of a pixel buffer: the matrix applied pixel by pixel. */
  function SepiaPixels(data: seq<Rgb>): (r: seq<Rgb>)
    ensures |r| == |data|
    ensures forall k :: 0 <= k < |data| ==> r[k] == SepiaPixel(data[k])
  {
    seq(|data|, k requires 0 <= k < |data| => SepiaPixel(data[k]))
  }

  /** Slider value to factor: `1 + value/100` for brightness. */
  function BrightnessFactor(value: int): real { 1.0 + value as real / 100.0 }
  /** `value/100` for exposure. */
  function ExposureFactor(value: int): real { value as real / 100.0 }
  /** `value/10` for contrast, saturation and sharpness. */
  function TenthFactor(value: int): real { value as real / 10.0 }

  /** The slider settings 0 and 10 are the neutral factors; exposure 100 is a gain of 2. */
  lemma NeutralSliders()
    ensures BrightnessFactor(0) == 1.0 && TenthFactor(10) == 1.0 && 1.0 + ExposureFactor(0) == 1.0
    ensures 1.0 + ExposureFactor(100) == 2.0
  {
  }

  /** The filter buttons. */
  datatype Filter = GrayscaleFilter | SepiaFilter | InvertFilter | CoolToneFilter | BrightGlowFilter

  /** A filter on an image; sepia is computed pixel by pixel, the PIL filters are symbolic. */
  function Filtered(f: Filter, p: Picture): Picture
  {
    match f
    case GrayscaleFilter => Grayscale(p)
    case SepiaFilter => if p.Pixels? then Pixels(p.width, p.height, SepiaPixels(p.data)) else Sepia(p)
    case InvertFilter => Inverted(p)
    case CoolToneFilter => CoolTone(p)
    case BrightGlowFilter => BrightGlow(p)
  }

  class Adjustments {
    const history: History<Picture>
    var originalImage: Option<Picture>
    var currentImage: Option<Picture>
    var brightnessFactor: real
    var contrastFactor: real
    var saturationFactor: real
    var sharpnessFactor: real
    var exposureFactor: real

    /** What `apply_adjustments` computes from the loaded image and the five factors. */
    function AdjustedImage(original: Picture): Picture
      reads this
    {
      Enhanced(original, brightnessFactor, contrastFactor, saturationFactor, sharpnessFactor, 1.0 + exposureFactor)
    }

    constructor (history: History<Picture>)
      ensures this.history == history
      ensures originalImage == None && currentImage == None
      ensures brightnessFactor == 1.0 && contrastFactor == 1.0 && saturationFactor == 1.0
      ensures sharpnessFactor == 1.0 && exposureFactor == 1.0
    {
      this.history := history;
      originalImage := None;
      currentImage := None;
      brightnessFactor := 1.0;
      contrastFactor := 1.0;
      saturationFactor := 1.0;
      sharpnessFactor := 1.0;
      exposureFactor := 1.0;
    }

    /**
     * `load_image`: decode the viewer's buffer; on success it becomes both
     * the loaded and the shown image and is saved to history. On failure the
     * ValueError propagates and nothing changes.
     */
    method LoadImage(format: ImageFormat, width: nat, height: nat, buffer: seq<int>) returns (r: Result<Picture>)
      modifies this, history
      ensures r == DecodeBuffer(format, width, height, buffer)
      ensures r.Err? ==> originalImage == old(originalImage) && currentImage == old(currentImage) &&
                         history.State() == old(history.State())
      ensures r.Ok? ==> originalImage == Some(r.value) && currentImage == Some(r.value) &&
                        history.State() == SaveStep(old(history.State()), Some(r.value))
      ensures brightnessFactor == old(brightnessFactor) && contrastFactor == old(contrastFactor)
      ensures saturationFactor == old(saturationFactor) && sharpnessFactor == old(sharpnessFactor)
      ensures exposureFactor == old(exposureFactor)
    {
      r := DecodeBuffer(format, width, height, buffer);
      if r.Ok? {
        originalImage := Some(r.value);
        currentImage := Some(r.value);
        history.SaveToHistory(Some(r.value));
      }
    }

    /**
     * `apply_adjustments`: with nothing loaded nothing happens; otherwise the
     * shown image is the loaded one under all five factors, and it is saved.
     */
    method ApplyAdjustments()
      modifies this`currentImage, history
      ensures originalImage.None? ==> currentImage == old(currentImage) && history.State() == old(history.State())
      ensures originalImage.Some? ==>
                currentImage == Some(AdjustedImage(originalImage.value)) &&
                history.State() == SaveStep(old(history.State()), currentImage)
    {
      if originalImage.None? {
        return;
      }
      currentImage := Some(AdjustedImage(originalImage.value));
      history.SaveToHistory(currentImage);
    }

    method AdjustBrightness(value: int)
      modifies this`brightnessFactor, this`currentImage, history
      ensures brightnessFactor == BrightnessFactor(value)
      ensures originalImage.Some? ==>
                currentImage == Some(AdjustedImage(originalImage.value)) &&
                history.State() == SaveStep(old(history.State()), currentImage)
      ensures originalImage.None? ==> currentImage == old(currentImage) && history.State() == old(history.State())
    {
      brightnessFactor := BrightnessFactor(value);
      ApplyAdjustments();
    }

    method AdjustContrast(value: int)
      modifies this`contrastFactor, this`currentImage, history
      ensures contrastFactor == TenthFactor(value)
      ensures originalImage.Some? ==>
                currentImage == Some(AdjustedImage(originalImage.value)) &&
                history.State() == SaveStep(old(history.State()), currentImage)
      ensures originalImage.None? ==> currentImage == old(currentImage) && history.State() == old(history.State())
    {
      contrastFactor := TenthFactor(value);
      ApplyAdjustments();
    }

    method AdjustSaturation(value: int)
      modifies this`saturationFactor, this`currentImage, history
      ensures saturationFactor == TenthFactor(value)
      ensures originalImage.Some? ==>
                currentImage == Some(AdjustedImage(originalImage.value)) &&
                history.State() == SaveStep(old(history.State()), currentImage)
      ensures originalImage.None? ==> currentImage == old(currentImage) && history.State() == old(history.State())
    {
      saturationFactor := TenthFactor(value);
      ApplyAdjustments();
    }

    method AdjustSharpness(value: int)
      modifies this`sharpnessFactor, this`currentImage, history
      ensures sharpnessFactor == TenthFactor(value)
      ensures originalImage.Some? ==>
                currentImage == Some(AdjustedImage(originalImage.value)) &&
                history.State() == SaveStep(old(history.State()), currentImage)
      ensures originalImage.None? ==> currentImage == old(currentImage) && history.State() == old(history.State())
    {
      sharpnessFactor := TenthFactor(value);
      ApplyAdjustments();
    }

    method AdjustExposure(value: int)
      modifies this`exposureFactor, this`currentImage, history
      ensures exposureFactor == ExposureFactor(value)
      ensures originalImage.Some? ==>
                currentImage == Some(AdjustedImage(originalImage.value)) &&
                history.State() == SaveStep(old(history.State()), currentImage)
      ensures originalImage.None? ==> currentImage == old(currentImage) && history.State() == old(history.State())
    {
      exposureFactor := ExposureFactor(value);
      ApplyAdjustments();
    }

    /**
     * The five filter buttons: with an image loaded, the shown image becomes
     * the filter of the loaded image (never of the shown one, so filters do
     * not compose), and it is saved. The factors stay as they are.
     */
    method ApplyFilter(f: Filter)
      modifies this`currentImage, history
      ensures originalImage.Some? ==>
                currentImage == Some(Filtered(f, originalImage.value)) &&
                history.State() == SaveStep(old(history.State()), currentImage)
      ensures originalImage.None? ==> currentImage == old(currentImage) && history.State() == old(history.State())
    {
      if originalImage.Some? {
        currentImage := Some(Filtered(f, originalImage.value));
        history.SaveToHistory(currentImage);
      }
    }
  }
}

=== FILE: common.dfy ===
/**
 * Shared vocabulary of the model: optional values, results carrying the
 * Python exception that the code would raise, and the handful of Python and
 * numpy primitives whose exact semantics the image tools depend on
 * (`int()` truncation, `np.round`, ASCII `lower`/`endswith`, sums).
 */
module Common {

  datatype Option<T> = None | Some(value: T)

  /** The exceptions (or numpy divisions by zero) that the modelled code can hit. */
  datatype Failure =
    | ValueError(reason: string)
    | ZeroDivision
    | IndexError
    | TypeError
    | ForeignError(reason: string)

  datatype Result<T> = Ok(value: T) | Err(error: Failure)

  function Min(a: int, b: int): int { if a <= b then a else b }
  function Max(a: int, b: int): int { if a >= b then a else b }
  function MinR(a: real, b: real): real { if a <= b then a else b }
  function MaxR(a: real, b: real): real { if a >= b then a else b }

  /** Python's `max(min(v, hi), lo)`. */
  function Clamp(v: int, lo: int, hi: int): (r: int)
    requires lo <= hi
    ensures lo <= r <= hi
    ensures lo <= v <= hi ==> r == v
    ensures v < lo ==> r == lo
    ensures v > hi ==> r == hi
  {
    Max(Min(v, hi), lo)
  }

  /** Python `int(r)` on a float: truncation toward zero. */
  function Trunc(r: real): (n: int)
    ensures r >= 0.0 ==> 0 <= n && n as real <= r < n as real + 1.0
    ensures r < 0.0 ==> n <= 0 && n as real - 1.0 < r <= n as real
  {
    if r >= 0.0 then r.Floor else -((-r).Floor)
  }

  /** `np.round` to an integer: round half to even. */
  function RoundHalfEven(r: real): (n: int)
    ensures -(1.0 / 2.0) <= r - n as real <= 1.0 / 2.0
  {
    var f := r.Floor;
    var frac := r - f as real;
    if frac < 1.0 / 2.0 then f
    else if frac > 1.0 / 2.0 then f + 1
    else if f % 2 == 0 then f else f + 1
  }

  /** Rounding cannot leave an interval with integer end points. */
  lemma RoundWithin(r: real, lo: int, hi: int)
    requires lo as real <= r <= hi as real
    ensures lo <= RoundHalfEven(r) <= hi
  {
    var f := r.Floor;
    assert lo <= f <= hi;
    if f == hi {
      assert r == hi as real;
    }
  }

  function SumR(s: seq<real>): real
  {
    if s == [] then 0.0 else SumR(s[..|s| - 1]) + s[|s| - 1]
  }

  function SumI(s: seq<int>): int
  {
    if s == [] then 0 else SumI(s[..|s| - 1]) + s[|s| - 1]
  }

  lemma SumRAppend(s: seq<real>, x: real)
    ensures SumR(s + [x]) == SumR(s) + x
  {
    assert (s + [x])[..|s|] == s;
  }

  lemma SumIAppend(s: seq<int>, x: int)
    ensures SumI(s + [x]) == SumI(s) + x
  {
    assert (s + [x])[..|s|] == s;
  }

  lemma {:induction false} SumRNonNegative(s: seq<real>)
    requires forall i :: 0 <= i < |s| ==> s[i] >= 0.0
    ensures SumR(s) >= 0.0
  {
    if s != [] {
      SumRNonNegative(s[..|s| - 1]);
    }
  }

  lemma {:induction false} SumINonNegative(s: seq<int>)
    requires forall i :: 0 <= i < |s| ==> s[i] >= 0
    ensures SumI(s) >= 0
  {
    if s != [] {
      SumINonNegative(s[..|s| - 1]);
    }
  }

  /** `np.max` of a non-empty array. */
  function SeqMax(s: seq<real>): (m: real)
    requires |s| > 0
    ensures forall i :: 0 <= i < |s| ==> s[i] <= m
    ensures exists i :: 0 <= i < |s| && s[i] == m
  {
    if |s| == 1 then s[0]
    else
      var m' := SeqMax(s[..|s| - 1]);
      assert forall i :: 0 <= i < |s| - 1 ==> s[..|s| - 1][i] == s[i];
      if s[|s| - 1] > m' then s[|s| - 1] else m'
  }

  /** `np.min` of a non-empty array. */
  function SeqMin(s: seq<real>): (m: real)
    requires |s| > 0
    ensures forall i :: 0 <= i < |s| ==> m <= s[i]
    ensures exists i :: 0 <= i < |s| && s[i] == m
  {
    if |s| == 1 then s[0]
    else
      var m' := SeqMin(s[..|s| - 1]);
      assert forall i :: 0 <= i < |s| - 1 ==> s[..|s| - 1][i] == s[i];
      if s[|s| - 1] < m' then s[|s| - 1] else m'
  }

  /** ASCII `str.lower()`. */
  function LowerChar(c: char): char
  {
    if 'A' <= c <= 'Z' then (c as int + 32) as char else c
  }

  function Lower(s: string): (r: string)
    ensures |r| == |s|
    ensures forall i :: 0 <= i < |s| ==> r[i] == LowerChar(s[i])
  {
    seq(|s|, i requires 0 <= i < |s| => LowerChar(s[i]))
  }

  predicate EndsWith(s: string, suffix: string)
  {
    |suffix| <= |s| && s[|s| - |suffix|..] == suffix
  }

  predicate StartsWith(s: string, prefix: string)
  {
    |prefix| <= |s| && s[..|prefix|] == prefix
  }

  predicate OccursAt(s: string, needle: string, i: int)
  {
    0 <= i <= |s| - |needle| && s[i..i + |needle|] == needle
  }

  /** POSIX `os.path.join(a, b)`: an absolute `b` replaces `a`; otherwise one '/' separates them. */
  function PathJoin(a: string, b: string): (r: string)
    ensures EndsWith(r, b)
    ensures !StartsWith(b, "/") ==> StartsWith(r, a)
  {
    if StartsWith(b, "/") then b
    else if a == [] || EndsWith(a, "/") then a + b
    else a + "/" + b
  }

  /** Python's `s.find(needle, start)`: the first occurrence at or after `start`, or -1. */
  function FindFrom(s: string, needle: string, start: nat): (r: int)
    requires start <= |s|
    ensures r == -1 || (start <= r && OccursAt(s, needle, r))
    ensures r == -1 ==> forall j :: start <= j ==> !OccursAt(s, needle, j)
    ensures r != -1 ==> forall j :: start <= j < r ==> !OccursAt(s, needle, j)
    decreases |s| - start
  {
    if |s| - start < |needle| then -1
    else if s[start..start + |needle|] == needle then start
    else if start == |s| then -1
    else FindFrom(s, needle, start + 1)
  }

  /** Python's `needle in s` for strings. */
  predicate Contains(s: string, needle: string)
  {
    FindFrom(s, needle, 0) != -1
  }

  /** Decimal text of a natural number, as `str(n)` prints it. */
  function NatToString(n: nat): (r: string)
    ensures |r| >= 1
    ensures forall i :: 0 <= i < |r| ==> '0' <= r[i] <= '9'
  {
    var d := ['0' + ((n % 10) as char)];
    if n < 10 then d else NatToString(n / 10) + d
  }

  /** `str(n)` for any int. */
  function IntToString(n: int): (r: string)
    ensures |r| >= 1
    ensures r[0] == '-' <==> n < 0
  {
    if n < 0 then "-" + NatToString(-n) else NatToString(n)
  }

  /** Row-major flat index of cell (row, col) in a grid `width` cells wide. */
  lemma GridIndex(row: int, col: int, width: int, height: int)
    requires 0 <= row < height && 0 <= col < width
    ensures 0 <= row * width + col < height * width
  {
    assert row * width <= (height - 1) * width;
  }

  /** Division by the row width recovers the row and the column. */
  lemma SmallMultiple(d: int, w: int)
    requires w > 0 && -w < d * w < w
    ensures d == 0
  {
  }

  /** Euclidean division is unique: n = q·w + r with 0 ≤ r < w fixes q and r. */
  lemma DivModUnique(n: int, w: int, q: int, r: int)
    requires w > 0 && 0 <= r < w && n == q * w + r
    ensures n / w == q && n % w == r
  {
    var q', r' := n / w, n % w;
    assert (q - q') * w == r' - r;
    SmallMultiple(q - q', w);
  }

  lemma GridDivMod(row: int, col: int, width: int)
    requires 0 <= col < width
    ensures (row * width + col) / width == row
    ensures (row * width + col) % width == col
  {
    DivModUnique(row * width + col, width, row, col);
  }

  /** An index below width·height lies in a row below height. */
  lemma GridRowBound(k: int, width: int, height: int)
    requires width > 0 && 0 <= k < width * height
    ensures 0 <= k / width < height
  {
  }

  /** A product with a positive factor keeps the sign of the other factor. */
  lemma MulSign(x: real, y: real)
    requires y > 0.0
    ensures x >= 0.0 ==> x * y >= 0.0
    ensures x > 0.0 ==> x * y > 0.0
  {
  }

  lemma MulStep(a: int, n: int)
    ensures (a + 1) * n == a * n + n
  {
  }

  lemma MulNonNegative(a: int, b: int)
    requires a >= 0 && b >= 0
    ensures a * b >= 0
  {
  }

  lemma MulMonotone(a: int, b: int, n: int)
    requires a <= b && n >= 0
    ensures a * n <= b * n
  {
  }
}

=== FILE: dataset_ref.dfy ===
/**
 * The dataset downloader of the mosaic backend (T03): how a Kaggle URL or
 * reference becomes a dataset reference, a dataset name and the folders
 * `base/name` and `base/name/images`, which file names count as images
 * (the extension setting is the plain string ".jpg"), and the three
 * answers of the duplicate check.
 *
 * The Kaggle API, zip extraction and file moves are left out; the file
 * system the duplicate check inspects is a parameter.
 */
module DatasetReference {
  import opened Common

  const Marker := "kaggle.com/datasets/"

  /** Where the text after the first `Marker` starts. */
  function SplitStart(url: string): (r: nat)
    requires Contains(url, Marker)
    ensures |Marker| <= r <= |url| && OccursAt(url, Marker, r - |Marker|)
    ensures forall j :: 0 <= j < r - |Marker| ==> !OccursAt(url, Marker, j)
  {
    FindFrom(url, Marker, 0) + |Marker|
  }

  /** `url.split(Marker)[1]`: the text after the first `Marker`, up to the next one or the end. */
  function SplitSecond(url: string): (r: string)
    requires Contains(url, Marker)
    ensures SplitStart(url) + |r| <= |url| && url[SplitStart(url)..SplitStart(url) + |r|] == r
  {
    var start := SplitStart(url);
    var next := FindFrom(url, Marker, start);
    url[start..if next == -1 then |url| else next]
  }

  /** An occurrence inside a piece of a text is an occurrence in the text. */
  lemma OccursInPiece(s: string, piece: string, i: nat, k: int)
    requires i + |piece| <= |s| && s[i..i + |piece|] == piece && OccursAt(piece, Marker, k)
    ensures OccursAt(s, Marker, i + k)
  {
    forall t | 0 <= t < |Marker|
      ensures s[i + k + t] == Marker[t]
    {
      assert piece[k..k + |Marker|][t] == Marker[t];
      assert piece[k + t] == s[i + k + t];
    }
  }

  /**
   * The piece taken from a URL holding `Marker` follows its first
   * occurrence, holds no further occurrence, and runs to the end or to the
   * next occurrence.
   */
  lemma SplitSecondPiece(url: string)
    requires Contains(url, Marker)
    ensures var r, start := SplitSecond(url), SplitStart(url);
      !Contains(r, Marker) &&
      (start + |r| == |url| || OccursAt(url, Marker, start + |r|))
  {
    var r, start := SplitSecond(url), SplitStart(url);
    var next := FindFrom(url, Marker, start);
    assert start + |r| == if next == -1 then |url| else next;
    if Contains(r, Marker) {
      OccursInPiece(url, r, start, FindFrom(r, Marker, 0));
      assert false;
    }
  }

  /** The index of the first character at or after `k` that is not '/', or |s|. */
  function SkipSlashes(s: string, k: nat): (r: nat)
    requires k <= |s|
    ensures k <= r <= |s|
    ensures forall j :: k <= j < r ==> s[j] == '/'
    ensures r < |s| ==> s[r] != '/'
    decreases |s| - k
  {
    if k == |s| || s[k] != '/' then k else SkipSlashes(s, k + 1)
  }

  /** The end of `s[..k]` once the '/' characters at its end are dropped. */
  function TrimSlashes(s: string, k: nat): (r: nat)
    requires k <= |s|
    ensures r <= k
    ensures forall j :: r <= j < k ==> s[j] == '/'
    ensures r > 0 ==> s[r - 1] != '/'
  {
    if k == 0 || s[k - 1] != '/' then k else TrimSlashes(s, k - 1)
  }

  /**
   * Python's `s.strip('/')`: the text between the leading and the trailing
   * runs of '/'; a text of slashes only strips to nothing.
   */
  function Strip(s: string): (r: string)
    ensures r == [] <==> forall j :: 0 <= j < |s| ==> s[j] == '/'
    ensures r != [] ==> r[0] != '/' && r[|r| - 1] != '/'
    ensures SkipSlashes(s, 0) + |r| <= |s| && s[SkipSlashes(s, 0)..SkipSlashes(s, 0) + |r|] == r
    ensures forall j :: 0 <= j < SkipSlashes(s, 0) || SkipSlashes(s, 0) + |r| <= j < |s| ==> s[j] == '/'
  {
    var i := SkipSlashes(s, 0);
    if i == |s| then []
    else
      var j := TrimSlashes(s, |s|);
      assert i < j;
      s[i..j]
  }

  /** Stripping twice strips nothing more. */
  lemma StripIdempotent(s: string)
    ensures Strip(Strip(s)) == Strip(s)
  {
    var r := Strip(s);
    if r != [] {
      assert SkipSlashes(r, 0) == 0;
      assert TrimSlashes(r, |r|) == |r|;
    }
  }

  /** `s.split('/')[-1]`: the text after the last '/', or all of `s` when it has none. */
  function LastSegment(s: string): (r: string)
    ensures '/' !in r
    ensures EndsWith(s, r)
    ensures |r| < |s| ==> s[|s| - |r| - 1] == '/'
  {
    if s == [] || s[|s| - 1] == '/' then []
    else LastSegment(s[..|s| - 1]) + [s[|s| - 1]]
  }

  /**
   * The dataset reference of a URL or reference: the text after
   * `Marker`, or the whole input, with '/' stripped at both ends.
   */
  function DatasetRef(url: string): (r: string)
    ensures r == [] || (r[0] != '/' && r[|r| - 1] != '/')
  {
    if Contains(url, Marker) then Strip(SplitSecond(url)) else Strip(url)
  }

  /** The dataset name: the last '/'-separated segment of the reference. */
  function DatasetName(url: string): (r: string)
    ensures '/' !in r && EndsWith(DatasetRef(url), r)
  {
    LastSegment(DatasetRef(url))
  }

  /** The name is empty only when the reference is: a stripped reference never ends in '/'. */
  lemma {:induction false} NameEmpty(url: string)
    ensures DatasetName(url) == [] <==> DatasetRef(url) == []
  {
    var ref := DatasetRef(url);
    if ref != [] {
      assert LastSegment(ref) == LastSegment(ref[..|ref| - 1]) + [ref[|ref| - 1]];
    }
  }

  /** A full URL names the dataset after the marker, trailing '/' dropped. */
  lemma FullUrlExample()
    ensures DatasetRef("kaggle.com/datasets/ann/t/") == "ann/t"
    ensures DatasetName("kaggle.com/datasets/ann/t/") == "t"
  {
    var url := "kaggle.com/datasets/ann/t/";
    assert OccursAt(url, Marker, 0);
    assert FindFrom(url, Marker, 0) == 0;
    assert SplitSecond(url) == "ann/t/";
    assert SkipSlashes("ann/t/", 0) == 0;
    assert TrimSlashes("ann/t/", 5) == 5;
    assert LastSegment("ann/") == [];
  }

  /** A bare reference is only stripped of its '/' characters. */
  lemma BareReferenceExample()
    ensures DatasetRef("/ann/tiles") == "ann/tiles"
  {
    assert !Contains("/ann/tiles", Marker);
    assert SkipSlashes("/ann/tiles", 1) == 1;
    assert SkipSlashes("/ann/tiles", 0) == 1;
    assert TrimSlashes("/ann/tiles", 10) == 10;
    assert "/ann/tiles"[1..10] == "ann/tiles";
  }

  /** The folder a dataset is stored in, `base/name`. */
  function DatasetPath(basePath: string, url: string): (r: string)
    ensures !StartsWith(DatasetName(url), "/") ==> StartsWith(r, basePath)
    ensures EndsWith(r, DatasetName(url))
  {
    PathJoin(basePath, DatasetName(url))
  }

  /** The images folder, `base/name/images`. */
  function ImagesPath(basePath: string, url: string): (r: string)
    ensures StartsWith(r, DatasetPath(basePath, url)) && EndsWith(r, "images")
  {
    assert "images"[..1][0] != "/"[0];
    PathJoin(DatasetPath(basePath, url), "images")
  }

  /** The downloaded archive, `base/name/name.zip`. */
  function ZipPath(basePath: string, url: string): (r: string)
    ensures EndsWith(r, DatasetName(url) + ".zip")
  {
    PathJoin(DatasetPath(basePath, url), DatasetName(url) + ".zip")
  }

  /**
   * `f.lower().endswith(".jpg")`: the extension setting `('.jpg')` is a
   * string, not a tuple, so only ".jpg" names are images.
   */
  predicate IsJpg(f: string)
  {
    EndsWith(Lower(f), ".jpg")
  }

  /** ".jpg" in any case is an image name; ".jpeg" and ".png" are not. */
  lemma JpgOnly()
    ensures IsJpg("a.JPG") && IsJpg("b.jpg")
    ensures !IsJpg("a.jpeg") && !IsJpg("a.png") && !IsJpg("jpg")
  {
    assert Lower("a.JPG") == "a.jpg";
    assert Lower("a.jpeg")[2] == 'j';
    assert Lower("a.png")[2] == 'p';
  }

  /** The archive members that are extracted: the image names, in archive order. */
  function ZipImages(names: seq<string>): (r: seq<string>)
    ensures |r| <= |names|
  {
    if names == [] then []
    else ZipImages(names[..|names| - 1]) + (if IsJpg(names[|names| - 1]) then [names[|names| - 1]] else [])
  }

  /** A member is extracted exactly when it is in the archive and is an image name. */
  lemma {:induction false} ZipImagesMembers(names: seq<string>)
    ensures forall f :: f in ZipImages(names) <==> f in names && IsJpg(f)
  {
    if names != [] {
      ZipImagesMembers(names[..|names| - 1]);
      assert names == names[..|names| - 1] + [names[|names| - 1]];
    }
  }

  /** The file system as the duplicate check sees it. */
  datatype FileSystem = FileSystem(
    isDir: string -> bool,
    isFile: string -> bool,
    listDir: string -> seq<string>)

  /** The entries of `dir` counted as images: regular files with an image name. */
  function ImageFiles(dir: string, entries: seq<string>, fs: FileSystem): (r: seq<string>)
    ensures |r| <= |entries|
  {
    if entries == [] then []
    else
      var f := entries[|entries| - 1];
      ImageFiles(dir, entries[..|entries| - 1], fs) + (if fs.isFile(PathJoin(dir, f)) && IsJpg(f) then [f] else [])
  }

  /** An entry is counted exactly when it is listed, is a regular file and has an image name. */
  lemma {:induction false} ImageFilesMembers(dir: string, entries: seq<string>, fs: FileSystem)
    ensures forall f :: f in ImageFiles(dir, entries, fs) <==>
      f in entries && fs.isFile(PathJoin(dir, f)) && IsJpg(f)
  {
    if entries != [] {
      ImageFilesMembers(dir, entries[..|entries| - 1], fs);
      assert entries == entries[..|entries| - 1] + [entries[|entries| - 1]];
    }
  }

  /** The answer of the duplicate check: whether the dataset is there, its name and its image count. */
  datatype Check = Check(exists_: bool, name: string, imageCount: nat)

  /**
   * `duplicate_check`: no dataset folder gives (False, name, 0); a dataset
   * folder without an images folder gives (True, name, 0); otherwise
   * (True, name, the number of image files in the images folder).
   */
  function DuplicateCheck(basePath: string, url: string, fs: FileSystem): (r: Check)
    ensures r.name == DatasetName(url)
    ensures r.exists_ <==> fs.isDir(DatasetPath(basePath, url))
    ensures r.imageCount > 0 ==> r.exists_ && fs.isDir(ImagesPath(basePath, url))
    ensures fs.isDir(DatasetPath(basePath, url)) && fs.isDir(ImagesPath(basePath, url)) ==>
      r.imageCount <= |fs.listDir(ImagesPath(basePath, url))|
  {
    var name := DatasetName(url);
    var datasetPath := DatasetPath(basePath, url);
    var imagesPath := ImagesPath(basePath, url);
    if fs.isDir(datasetPath) then
      if fs.isDir(imagesPath) then
        Check(true, name, |ImageFiles(imagesPath, fs.listDir(imagesPath), fs)|)
      else Check(true, name, 0)
    else Check(false, name, 0)
  }

  /** When both folders exist, the count is the number of listed entries that are image files. */
  lemma DuplicateCheckCounts(basePath: string, url: string, fs: FileSystem)
    requires fs.isDir(DatasetPath(basePath, url)) && fs.isDir(ImagesPath(basePath, url))
    ensures var dir := ImagesPath(basePath, url);
      var counted := ImageFiles(dir, fs.listDir(dir), fs);
      DuplicateCheck(basePath, url, fs).imageCount == |counted| &&
      forall f :: f in counted <==> f in fs.listDir(dir) && fs.isFile(PathJoin(dir, f)) && IsJpg(f)
  {
    var dir := ImagesPath(basePath, url);
    ImageFilesMembers(dir, fs.listDir(dir), fs);
  }
}

=== FILE: edge_match.dfy ===
/**
 * The edge-matching tool (T25): a grey-scale image is blurred and run
 * through one of six edge detectors, and the images of a dataset folder are
 * ranked by the SSIM of their edge maps with the loaded image's.
 *
 * The OpenCV operators (Gaussian blur, Sobel and Prewitt magnitudes with
 * their normalisation, Canny, resizing, the mean) and SSIM are foreign: they
 * are parameters, with only the shape guarantees the tool relies on. The
 * model states the threshold arithmetic, the dispatch, the multi-scale
 * average, the folder scan with its filters and the threshold and top-ten
 * ranking.
 */
module EdgeMatching {
  import opened Common
  import opened Ranking

  /** A grey-scale image, row-major. */
  datatype Gray = Gray(width: nat, height: nat, pixels: seq<int>)

  /** A well-formed 8-bit image. */
  predicate WellFormed(g: Gray)
  {
    |g.pixels| == g.width * g.height && forall i :: 0 <= i < |g.pixels| ==> 0 <= g.pixels[i] <= 255
  }

  /** `a` is a well-formed image of the same size as `g`. */
  predicate SameShape(a: Gray, g: Gray)
  {
    WellFormed(a) && a.width == g.width && a.height == g.height
  }

  /**
   * The foreign operators: `read` is `cv2.imread(path, IMREAD_GRAYSCALE)`,
   * `blur` the 5×5 Gaussian blur, `sobel` and `prewitt` the normalised
   * gradient magnitudes, `canny(g, lower, upper)` OpenCV's Canny, `mean`
   * `np.mean`, `scale(g, f)` a resize by factor `f` (None when OpenCV
 * rejects the empty target size), `resize(g, w, h)` a
   * resize to `w`×`h`, and `ssim(a, b)` the SSIM score, None when it raises.
   */
  datatype Ops = Ops(
    read: string -> Option<Gray>,
    blur: Gray -> Gray,
    sobel: Gray -> Gray,
    prewitt: Gray -> Gray,
    canny: (Gray, int, int) -> Gray,
    mean: Gray -> real,
    scale: (Gray, real) -> Option<Gray>,
    resize: (Gray, nat, nat) -> Gray,
    ssim: (Gray, Gray) -> Option<real>)

  /**
   * The side `cv2.resize(img, (0, 0), fx=f, fy=f)` computes for a side of
   * n: `n·f` rounded to the nearest integer, ties to even.
   */
  function ScaledSide(n: nat, f: real): int
  {
    RoundHalfEven(n as real * f)
  }

  /** OpenCV's assertion when a resize by a factor rounds a side to 0. */
  const EmptyResize: Failure := ForeignError("(-215:Assertion failed) !dsize.empty() in function 'resize'")

  /**
   * What the tool relies on: the operators return well-formed images of the
   * expected size, a mean lies in the pixel range, and a resize by a factor
   * fails exactly when a rounded side is 0.
   */
  ghost predicate ValidOps(ops: Ops)
  {
    (forall p {:trigger ops.read(p)} :: ops.read(p).Some? ==> WellFormed(ops.read(p).value)) &&
    (forall g {:trigger ops.blur(g)} :: WellFormed(g) ==> SameShape(ops.blur(g), g)) &&
    (forall g {:trigger ops.sobel(g)} :: WellFormed(g) ==> SameShape(ops.sobel(g), g)) &&
    (forall g {:trigger ops.prewitt(g)} :: WellFormed(g) ==> SameShape(ops.prewitt(g), g)) &&
    (forall g, lower, upper {:trigger ops.canny(g, lower, upper)} :: WellFormed(g) ==> SameShape(ops.canny(g, lower, upper), g)) &&
    (forall g {:trigger ops.mean(g)} :: WellFormed(g) ==> 0.0 <= ops.mean(g) <= 255.0) &&
    (forall g, f {:trigger ops.scale(g, f)} :: WellFormed(g) ==>
       (ops.scale(g, f).Some? <==> ScaledSide(g.width, f) > 0 && ScaledSide(g.height, f) > 0) &&
       (ops.scale(g, f).Some? ==>
          (WellFormed(ops.scale(g, f).value) && ops.scale(g, f).value.width == ScaledSide(g.width, f) &&
           ops.scale(g, f).value.height == ScaledSide(g.height, f)))) &&
    (forall g, w, h {:trigger ops.resize(g, w, h)} :: WellFormed(g) ==>
       WellFormed(ops.resize(g, w, h)) && ops.resize(g, w, h).width == w && ops.resize(g, w, h).height == h)
  }

  /**
   * `adaptive_canny`'s thresholds from the mean intensity: 0.66 and 1.33
   * times the mean, truncated, clamped at 0 below and 255 above. For a mean
   * in the pixel range they are ordered byte values.
   */
  function AdaptiveThresholds(mean: real): (r: (int, int))
    ensures 0.0 <= mean <= 255.0 ==> 0 <= r.0 <= r.1 <= 255
    ensures r.0 == Max(0, Trunc(0.66 * mean)) && r.1 == Min(255, Trunc(1.33 * mean))
  {
    (Max(0, Trunc(0.66 * mean)), Min(255, Trunc(1.33 * mean)))
  }

  /** `adaptive_canny`: Canny with thresholds derived from the image's mean. */
  function AdaptiveCanny(img: Gray, ops: Ops): (r: Gray)
    requires WellFormed(img) && ValidOps(ops)
    ensures SameShape(r, img)
  {
    var (lower, upper) := AdaptiveThresholds(ops.mean(img));
    ops.canny(img, lower, upper)
  }

  /** The scales of `multi_scale_edges`. */
  const Scales: seq<real> := [0.5, 1.0, 1.5]

  /** The methods the option menu offers. */
  const Methods: set<string> := {"Sobel", "Prewitt", "Canny", "Adaptive Canny", "Multi-Scale", "Hybrid"}

  /** The first k scales of `multi_scale_edges` can resize the image. */
  predicate ScalesTo(img: Gray, ops: Ops, k: nat)
  {
    k <= |Scales| && forall j :: 0 <= j < k ==> ops.scale(img, Scales[j]).Some?
  }

  /** Halving keeps a side exactly when it is at least 2; 1 and 1.5 keep every positive side. */
  lemma ScaledSidePositive(n: nat)
    ensures ScaledSide(n, 0.5) > 0 <==> n >= 2
    ensures ScaledSide(n, 1.0) > 0 <==> n >= 1
    ensures ScaledSide(n, 1.5) > 0 <==> n >= 1
  {
    if n == 1 {
      assert (n as real * 0.5).Floor == 0;
    }
  }

  /** Every scale can resize the image exactly when both of its sides are at least 2. */
  lemma ScalableIff(img: Gray, ops: Ops)
    requires WellFormed(img) && ValidOps(ops)
    ensures ScalesTo(img, ops, |Scales|) <==> img.width >= 2 && img.height >= 2
  {
    ScaledSidePositive(img.width);
    ScaledSidePositive(img.height);
    assert ops.scale(img, Scales[0]).Some? <==> img.width >= 2 && img.height >= 2;
    if img.width >= 2 && img.height >= 2 {
      assert ops.scale(img, Scales[1]).Some? && ops.scale(img, Scales[2]).Some?;
    }
  }

  /** One scale of `multi_scale_edges`: `detect_edges(resized, "Canny")` resized back to the image's size. */
  function ScaleEdges(img: Gray, s: real, ops: Ops): (r: Gray)
    requires WellFormed(img) && ValidOps(ops) && ops.scale(img, s).Some?
    ensures SameShape(r, img)
  {
    var resized := ops.scale(img, s).value;
    ops.resize(ops.canny(ops.blur(resized), 100, 200), img.width, img.height)
  }

  /** The accumulated sum at pixel `i` after the first `k` scales. */
  function PixelSum(img: Gray, ops: Ops, k: nat, i: nat): (r: real)
    requires WellFormed(img) && ValidOps(ops) && ScalesTo(img, ops, k) && i < |img.pixels|
    ensures 0.0 <= r <= 255.0 * k as real
  {
    if k == 0 then 0.0
    else PixelSum(img, ops, k - 1, i) + ScaleEdges(img, Scales[k - 1], ops).pixels[i] as real
  }

  /**
   * `multi_scale_edges`: the per-pixel mean of the Canny edges at the three
   * scales, truncated to a byte. It raises when halving rounds a side to 0,
   * which happens exactly for an image 1 pixel wide or high.
   */
  function MultiScaleSpec(img: Gray, ops: Ops): (r: Result<Gray>)
    requires WellFormed(img) && ValidOps(ops)
    ensures r.Ok? <==> ScalesTo(img, ops, |Scales|)
    ensures r.Ok? <==> img.width >= 2 && img.height >= 2
    ensures r.Err? ==> r.error == EmptyResize
    ensures r.Ok? ==> SameShape(r.value, img)
  {
    ScalableIff(img, ops);
    if !ScalesTo(img, ops, |Scales|) then Err(EmptyResize)
    else
      Ok(Gray(img.width, img.height,
        seq(|img.pixels|, i requires 0 <= i < |img.pixels| => Trunc(PixelSum(img, ops, |Scales|, i) / |Scales| as real))))
  }

  /**
   * `multi_scale_edges`: accumulate the edges of every scale into a float
   * sum, then divide by the number of scales; a resize that OpenCV rejects
   * raises out of the loop.
   */
  method MultiScaleEdges(img: Gray, ops: Ops) returns (r: Result<Gray>)
    requires WellFormed(img) && ValidOps(ops)
    ensures r == MultiScaleSpec(img, ops)
  {
    var edgesSum: seq<real> := seq(|img.pixels|, i => 0.0);
    for k := 0 to |Scales|
      invariant ScalesTo(img, ops, k)
      invariant |edgesSum| == |img.pixels|
      invariant forall i :: 0 <= i < |edgesSum| ==> edgesSum[i] == PixelSum(img, ops, k, i)
    {
      var resized := ops.scale(img, Scales[k]);
      if resized.None? {
        assert !ScalesTo(img, ops, |Scales|);
        return Err(EmptyResize);
      }
      var edges := DetectEdges(resized.value, "Canny", ops);
      var back := ops.resize(edges.value, img.width, img.height);
      assert back == ScaleEdges(img, Scales[k], ops);
      edgesSum := seq(|edgesSum|, i requires 0 <= i < |edgesSum| => edgesSum[i] + back.pixels[i] as real);
    }
    var pixels := seq(|edgesSum|, i requires 0 <= i < |edgesSum| => Trunc(edgesSum[i] / |Scales| as real));
    assert ScalesTo(img, ops, |Scales|);
    assert MultiScaleSpec(img, ops).value.pixels == pixels;
    assert MultiScaleSpec(img, ops) == Ok(Gray(img.width, img.height, pixels));
    r := Ok(Gray(img.width, img.height, pixels));
  }

  /** A multi-scale pixel is full white exactly when all three scales found an edge (255) there. */
  lemma MultiScaleAgreement(img: Gray, ops: Ops, i: nat)
    requires WellFormed(img) && ValidOps(ops) && i < |img.pixels|
    requires MultiScaleSpec(img, ops).Ok?
    ensures MultiScaleSpec(img, ops).value.pixels[i] == 255 <==>
      forall k :: 0 <= k < |Scales| ==> ScaleEdges(img, Scales[k], ops).pixels[i] == 255
  {
    var a := ScaleEdges(img, Scales[0], ops).pixels[i];
    var b := ScaleEdges(img, Scales[1], ops).pixels[i];
    var c := ScaleEdges(img, Scales[2], ops).pixels[i];
    assert PixelSum(img, ops, 1, i) == a as real;
    assert PixelSum(img, ops, 2, i) == a as real + b as real;
    assert PixelSum(img, ops, 3, i) == a as real + b as real + c as real;
    if a < 255 || b < 255 || c < 255 {
      assert (a + b + c) as real / 3.0 < 255.0;
    }
  }

  /** `cv2.addWeighted(a, 0.5, b, 0.5, 0)`: the rounded mean of two same-size images. */
  function AddWeighted(a: Gray, b: Gray): (r: Gray)
    requires WellFormed(a) && SameShape(b, a)
    ensures SameShape(r, a)
    ensures forall i :: 0 <= i < |a.pixels| ==>
      Min(a.pixels[i], b.pixels[i]) <= r.pixels[i] <= Max(a.pixels[i], b.pixels[i])
  {
    Gray(a.width, a.height, seq(|a.pixels|, i requires 0 <= i < |a.pixels| =>
      RoundWithin(0.5 * a.pixels[i] as real + 0.5 * b.pixels[i] as real, Min(a.pixels[i], b.pixels[i]), Max(a.pixels[i], b.pixels[i]));
      RoundHalfEven(0.5 * a.pixels[i] as real + 0.5 * b.pixels[i] as real)))
  }

  function Rank(methodName: string): nat
  {
    if methodName == "Hybrid" then 1 else 0
  }

  /**
   * `detect_edges`: blur, then dispatch on the method name; Hybrid averages
   * the Sobel and Canny results of the blurred image (each blurring it
   * again), and an unknown name returns the blurred image. Only
   * Multi-Scale can raise, on an image 1 pixel wide or high.
   */
  function DetectEdges(img: Gray, methodName: string, ops: Ops): (r: Result<Gray>)
    requires WellFormed(img) && ValidOps(ops)
    ensures r.Ok? ==> SameShape(r.value, img)
    ensures r.Err? <==> methodName == "Multi-Scale" && (img.width < 2 || img.height < 2)
    ensures methodName !in Methods ==> r == Ok(ops.blur(img))
    decreases Rank(methodName)
  {
    var blurred := ops.blur(img);
    if methodName == "Sobel" then Ok(ops.sobel(blurred))
    else if methodName == "Prewitt" then Ok(ops.prewitt(blurred))
    else if methodName == "Canny" then Ok(ops.canny(blurred, 100, 200))
    else if methodName == "Adaptive Canny" then Ok(AdaptiveCanny(blurred, ops))
    else if methodName == "Multi-Scale" then MultiScaleSpec(blurred, ops)
    else if methodName == "Hybrid" then
      Ok(AddWeighted(DetectEdges(blurred, "Sobel", ops).value, DetectEdges(blurred, "Canny", ops).value))
    else Ok(blurred)
  }

  /** The SSIM score above which a file counts as similar. */
  const SimilarityThreshold: real := 0.55

  /** How many of the best matches are displayed. */
  const TopCount := 10

  /** The extensions the folder scan accepts, compared case-insensitively. */
  predicate IsImageName(name: string)
  {
    var lower := Lower(name);
    EndsWith(lower, ".jpg") || EndsWith(lower, ".jpeg") || EndsWith(lower, ".png")
  }

  /** What one folder entry contributes: nothing (filtered out, unreadable, edge detection or SSIM raised) or its path and score. */
  function Visit(folder: string, name: string, edges: Gray, methodName: string, ops: Ops): (r: Option<Scored>)
    requires WellFormed(edges) && ValidOps(ops)
    ensures r.Some? ==> r.value.path == PathJoin(folder, name) && IsImageName(name)
  {
    var path := PathJoin(folder, name);
    if !IsImageName(name) then None
    else match ops.read(path)
      case None => None
      case Some(img) =>
        match DetectEdges(ops.resize(img, edges.width, edges.height), methodName, ops)
        case Err(_) => None
        case Ok(datasetEdges) =>
          match ops.ssim(edges, datasetEdges)
          case None => None
          case Some(score) => Some(Scored(path, score))
  }

  /** What every folder entry contributes, in listing order. */
  function Outcomes(folder: string, names: seq<string>, edges: Gray, methodName: string, ops: Ops): (r: seq<Option<Scored>>)
    requires WellFormed(edges) && ValidOps(ops)
    ensures |r| == |names|
    ensures forall k :: 0 <= k < |names| ==> r[k] == Visit(folder, names[k], edges, methodName, ops)
  {
    seq(|names|, k requires 0 <= k < |names| => Visit(folder, names[k], edges, methodName, ops))
  }

  /** The two lists after appending the contributions in order: every (path, score), and the paths scoring above the threshold. */
  function Gather(outcomes: seq<Option<Scored>>): (seq<Scored>, seq<string>)
  {
    if outcomes == [] then ([], [])
    else
      var (scores, similar) := Gather(outcomes[..|outcomes| - 1]);
      match outcomes[|outcomes| - 1]
      case None => (scores, similar)
      case Some(s) => (scores + [s], if s.score > SimilarityThreshold then similar + [s.path] else similar)
  }

  /** `list_similarityscore` and `similar_images` after the scan of `names`. */
  function Scan(folder: string, names: seq<string>, edges: Gray, methodName: string, ops: Ops): (seq<Scored>, seq<string>)
    requires WellFormed(edges) && ValidOps(ops)
  {
    Gather(Outcomes(folder, names, edges, methodName, ops))
  }

  /** The entries of `scores` above the threshold, in order. */
  function Above(scores: seq<Scored>): seq<Scored>
  {
    if scores == [] then []
    else Above(scores[..|scores| - 1]) + (if scores[|scores| - 1].score > SimilarityThreshold then [scores[|scores| - 1]] else [])
  }

  function Paths(s: seq<Scored>): (r: seq<string>)
    ensures |r| == |s| && forall i :: 0 <= i < |s| ==> r[i] == s[i].path
  {
    seq(|s|, i requires 0 <= i < |s| => s[i].path)
  }

  /** The second list holds exactly the paths of the first list's entries above the threshold, in order. */
  lemma {:induction false} GatherSimilar(outcomes: seq<Option<Scored>>)
    ensures Gather(outcomes).1 == Paths(Above(Gather(outcomes).0))
  {
    if outcomes != [] {
      GatherSimilar(outcomes[..|outcomes| - 1]);
      var (scores, similar) := Gather(outcomes[..|outcomes| - 1]);
      match outcomes[|outcomes| - 1]
      case None =>
      case Some(s) =>
        assert (scores + [s])[..|scores|] == scores;
    }
  }

  /** The first list holds exactly the contributed scores. */
  lemma {:induction false} GatherScores(outcomes: seq<Option<Scored>>)
    ensures forall s :: s in Gather(outcomes).0 <==> Some(s) in outcomes
  {
    if outcomes != [] {
      GatherScores(outcomes[..|outcomes| - 1]);
      assert outcomes == outcomes[..|outcomes| - 1] + [outcomes[|outcomes| - 1]];
    }
  }

  /**
   * `similar_images` holds exactly the paths of the scored files above the
   * threshold, in scan order; the scores are exactly those of the accepted,
   * readable files SSIM could compare, each under its joined path.
   */
  lemma ScanLists(folder: string, names: seq<string>, edges: Gray, methodName: string, ops: Ops)
    requires WellFormed(edges) && ValidOps(ops)
    ensures var (scores, similar) := Scan(folder, names, edges, methodName, ops);
      similar == Paths(Above(scores)) &&
      (forall s :: s in scores <==> exists k :: 0 <= k < |names| && Visit(folder, names[k], edges, methodName, ops) == Some(s)) &&
      (forall s :: s in scores ==> exists k :: 0 <= k < |names| && IsImageName(names[k]) && s.path == PathJoin(folder, names[k]))
  {
    var outs := Outcomes(folder, names, edges, methodName, ops);
    GatherSimilar(outs);
    GatherScores(outs);
  }

  /**
   * The loop of `find_similar_images`: for every accepted file name, read
   * the image (skipping an unreadable one), resize it to the reference
   * edges' size, detect its edges with the selected method, score it with
   * SSIM (skipping the file when edge detection or SSIM raises), and record
   * the score and, above the threshold, the path.
   */
  method ScanFolder(folder: string, names: seq<string>, target: Gray, methodName: string, ops: Ops)
    returns (scores: seq<Scored>, similar: seq<string>)
    requires WellFormed(target) && ValidOps(ops)
    ensures (scores, similar) == Scan(folder, names, target, methodName, ops)
  {
    ghost var outs := Outcomes(folder, names, target, methodName, ops);
    scores, similar := [], [];
    for k := 0 to |names|
      invariant (scores, similar) == Gather(outs[..k])
    {
      assert outs[..k + 1][..k] == outs[..k];
      var file := names[k];
      var path := PathJoin(folder, file);
      if IsImageName(file) {
        var datasetImage := ops.read(path);
        if datasetImage.None? {
          continue;
        }
        var resized := ops.resize(datasetImage.value, target.width, target.height);
        var datasetEdges := DetectEdges(resized, methodName, ops);
        if datasetEdges.Err? {
          continue;
        }
        var score := ops.ssim(target, datasetEdges.value);
        if score.None? {
          continue;
        }
        scores := scores + [Scored(path, score.value)];
        if score.value > SimilarityThreshold {
          similar := similar + [path];
        }
      }
    }
    assert outs[..|names|] == outs;
  }

  /** What `find_similar_images` ends with. */
  datatype Search =
    | NoImage
    | NoEdges
    | NoFolder
    | Searched(ranking: seq<Scored>, similar: seq<string>, top: seq<string>)

  /** `find_similar_images` as a function of the tool's state, the chosen folder and its listing. */
  function SearchSpec(image: Option<Gray>, edges: Option<Gray>, methodName: string, folder: string, names: seq<string>, ops: Ops): Search
    requires edges.Some? ==> WellFormed(edges.value)
    requires ValidOps(ops)
  {
    if image.None? then NoImage
    else if edges.None? then NoEdges
    else if folder == [] then NoFolder
    else
      var (scores, similar) := Scan(folder, names, edges.value, methodName, ops);
      var ranking := SortDesc(scores);
      Searched(ranking, similar, Paths(Prefix(ranking, TopCount)))
  }

  /** The displayed paths are the best ten of the ranking, best first, and none left out beats one shown. */
  lemma TopTen(image: Option<Gray>, edges: Option<Gray>, methodName: string, folder: string, names: seq<string>, ops: Ops)
    requires edges.Some? ==> WellFormed(edges.value)
    requires ValidOps(ops)
    requires SearchSpec(image, edges, methodName, folder, names, ops).Searched?
    ensures var s := SearchSpec(image, edges, methodName, folder, names, ops);
      var scores := Scan(folder, names, edges.value, methodName, ops).0;
      |s.top| == Min(TopCount, |scores|) && SortedDesc(s.ranking) && multiset(s.ranking) == multiset(scores) &&
      (forall i :: 0 <= i < |s.top| ==> s.top[i] == s.ranking[i].path) &&
      (forall i, j :: 0 <= i < |s.top| && |s.top| <= j < |s.ranking| ==> s.ranking[i].score >= s.ranking[j].score)
  {
    var scores := Scan(folder, names, edges.value, methodName, ops).0;
    SortDescSorted(scores);
    SortDescPermutes(scores);
  }

  /** The tool's globals `img` and `detected_edges`, the selected method, and the foreign operators. */
  class EdgeTool {
    var image: Option<Gray>
    var edges: Option<Gray>
    var selectedMethod: string
    const ops: Ops

    ghost predicate Valid()
      reads this
    {
      ValidOps(ops) && (image.Some? ==> WellFormed(image.value)) && (edges.Some? ==> WellFormed(edges.value))
    }

    /** The window opens with no image, no edges and "Canny" selected. */
    constructor (ops: Ops)
      requires ValidOps(ops)
      ensures Valid() && image == None && edges == None && selectedMethod == "Canny" && this.ops == ops
    {
      this.ops := ops;
      image := None;
      edges := None;
      selectedMethod := "Canny";
    }

    /** `open_image`: a chosen file replaces the image (None if unreadable) and clears the edges; a cancelled dialog changes nothing. */
    method OpenImage(path: string)
      requires Valid()
      modifies this
      ensures Valid() && selectedMethod == old(selectedMethod)
      ensures path == [] ==> image == old(image) && edges == old(edges)
      ensures path != [] ==> image == ops.read(path) && edges == None
    {
      if path != [] {
        image := ops.read(path);
        edges := None;
      }
    }

    /** The option menu selects the method. */
    method SelectMethod(m: string)
      requires Valid()
      modifies this`selectedMethod
      ensures Valid() && selectedMethod == m
    {
      selectedMethod := m;
    }

    /**
     * `apply_edge_detection`: without an image nothing happens; otherwise
     * the edges of the image by the selected method, or, when detection
     * raises, the exception and the old edges.
     */
    method ApplyEdgeDetection() returns (raised: Option<Failure>)
      requires Valid()
      modifies this`edges
      ensures Valid()
      ensures old(image).None? ==> edges == old(edges) && raised == None
      ensures old(image).Some? ==> var r := DetectEdges(image.value, selectedMethod, ops);
        (r.Ok? ==> edges == Some(r.value) && raised == None) &&
        (r.Err? ==> edges == old(edges) && raised == Some(r.error))
    {
      raised := None;
      if image.Some? {
        var r := DetectEdges(image.value, selectedMethod, ops);
        if r.Err? {
          return Some(r.error);
        }
        edges := Some(r.value);
      }
    }

    /**
     * `find_similar_images`: returns early without an image, without edges
     * or without a folder; otherwise scores every image file of the folder
     * against the edges, collects those above the threshold, sorts the
     * scores in place and keeps the paths of the best ten.
     */
    method FindSimilarImages(folder: string, names: seq<string>) returns (r: Search)
      requires Valid()
      ensures r == SearchSpec(image, edges, selectedMethod, folder, names, ops)
    {
      if image.None? {
        return NoImage;
      }
      if edges.None? {
        return NoEdges;
      }
      if folder == [] {
        return NoFolder;
      }
      var scores, similar := ScanFolder(folder, names, edges.value, selectedMethod, ops);
      var ranking := SortDesc(scores);
      var top := Paths(Prefix(ranking, TopCount));
      return Searched(ranking, similar, top);
    }
  }
}

=== FILE: edit_screen.dfy ===
/**
 * The editing screen of the photo editor (T18 EdiNity src/editing_screen3.py).
 *
 * The screen keeps the opened image, the image shown, a `history` stack whose
 * top is the latest edit, and a `future` stack of undone images. Filters and
 * effects work on the shown image and push the result; slider adjustments
 * recompute the shown image from the opened one without recording anything;
 * Reset starts a new history at the opened image. The crop tool turns a drag
 * on the canvas into a box in image coordinates. Images are symbolic except
 * for the sepia filter, whose pixel loop is modelled on a pixel array.
 * Drawing on the Tk canvas and the message boxes are not modelled.
 */
module EditScreen {
  import opened Common
  import opened AdjustHistory
  import opened Sepia

  /** A crop box `(left, top, right, bottom)`. */
  datatype Box = Box(left: int, top: int, right: int, bottom: int)

  /** An image, by its provenance. */
  datatype Picture =
    | Opened(id: nat, width: nat, height: nat)
    | Resized(source: Picture, newWidth: int, newHeight: int)
    | Adjusted(source: Picture, brightness: real, contrast: real, saturation: real)
    | BlackAndWhite(source: Picture)
    | SepiaToned(source: Picture)
    | Posterized(source: Picture, bits: nat)
    | Blurred(source: Picture, radius: nat)
    | Sharpened(source: Picture)
    | Vignetted(source: Picture)
    | Cropped(source: Picture, box: Box)

  /** `image.size`. */
  function Size(p: Picture): (int, int)
  {
    match p
    case Opened(_, w, h) => (w, h)
    case Resized(_, w, h) => (w, h)
    case Cropped(_, b) => (b.right - b.left, b.bottom - b.top)
    case Adjusted(s, _, _, _) => Size(s)
    case BlackAndWhite(s) => Size(s)
    case SepiaToned(s) => Size(s)
    case Posterized(s, _) => Size(s)
    case Blurred(s, _) => Size(s)
    case Sharpened(s) => Size(s)
    case Vignetted(s) => Size(s)
  }

  /** The three filters and three effects of the menus. */
  datatype Edit = BlackAndWhiteFilter | SepiaFilter | VintageFilter | BlurEffect | SharpenEffect | VignetteEffect

  /** What an edit makes of the shown image. */
  function Edited(e: Edit, p: Picture): (r: Picture)
    ensures Size(r) == Size(p)
  {
    match e
    case BlackAndWhiteFilter => BlackAndWhite(p)
    case SepiaFilter => SepiaToned(p)
    case VintageFilter => Posterized(p, 3)
    case BlurEffect => Blurred(p, 10)
    case SharpenEffect => Sharpened(p)
    case VignetteEffect => Vignetted(p)
  }

  /**
   * The sepia filter's nested loop over `pixels[x, y]`: x runs over the
   * columns, y over the rows, and every pixel is replaced by its sepia tone.
   */
  method SepiaInPlace(pixels: array2<Rgb>)
    modifies pixels
    ensures forall x, y :: 0 <= x < pixels.Length0 && 0 <= y < pixels.Length1 ==>
              pixels[x, y] == SepiaTone(old(pixels[x, y]))
  {
    var x := 0;
    while x < pixels.Length0
      invariant 0 <= x <= pixels.Length0
      invariant forall i, j :: 0 <= i < x && 0 <= j < pixels.Length1 ==> pixels[i, j] == SepiaTone(old(pixels[i, j]))
      invariant forall i, j :: x <= i < pixels.Length0 && 0 <= j < pixels.Length1 ==> pixels[i, j] == old(pixels[i, j])
    {
      var y := 0;
      while y < pixels.Length1
        invariant 0 <= y <= pixels.Length1
        invariant forall i, j :: 0 <= i < x && 0 <= j < pixels.Length1 ==> pixels[i, j] == SepiaTone(old(pixels[i, j]))
        invariant forall j :: 0 <= j < y ==> pixels[x, j] == SepiaTone(old(pixels[x, j]))
        invariant forall j :: y <= j < pixels.Length1 ==> pixels[x, j] == old(pixels[x, j])
        invariant forall i, j :: x < i < pixels.Length0 && 0 <= j < pixels.Length1 ==> pixels[i, j] == old(pixels[i, j])
      {
        pixels[x, y] := SepiaTone(pixels[x, y]);
        y := y + 1;
      }
      x := x + 1;
    }
  }

  lemma QuotientTimes(a: int, n: nat)
    requires n > 0
    ensures (a as real / n as real) * n as real == a as real
  {
  }

  lemma QuotientBounds(a: int, n: nat)
    requires n > 0
    ensures a >= 0 ==> a as real / n as real >= 0.0
    ensures a >= n ==> a as real / n as real >= 1.0
  {
  }

  lemma ScaleBelow(q: real, ratio: real, n: nat)
    requires n > 0 && ratio <= q
    ensures ratio * n as real <= q * n as real
  {
  }

  /**
   * `min(max_w / w, max_h / h, 1)`: the largest scale, at most 1, at which a
   * w×h image fits into max_w×max_h.
   */
  function FitRatio(width: nat, height: nat, maxWidth: int, maxHeight: int): (ratio: real)
    requires width > 0 && height > 0
    ensures ratio <= 1.0
    ensures ratio * width as real <= maxWidth as real && ratio * height as real <= maxHeight as real
    ensures maxWidth >= 0 && maxHeight >= 0 ==> ratio >= 0.0
    ensures width <= maxWidth && height <= maxHeight ==> ratio == 1.0
  {
    var a := maxWidth as real / width as real;
    var b := maxHeight as real / height as real;
    var ratio := MinR(MinR(a, b), 1.0);
    QuotientTimes(maxWidth, width);
    QuotientTimes(maxHeight, height);
    ScaleBelow(a, ratio, width);
    ScaleBelow(b, ratio, height);
    QuotientBounds(maxWidth, width);
    QuotientBounds(maxHeight, height);
    ratio
  }

  /**
   * The size `display_image` shows the opened image at: scaled by the fit
   * ratio and truncated. A zero-sized image is a division by zero, and PIL's
   * `resize` refuses a side that comes out below one pixel.
   */
  function FitSize(width: nat, height: nat, maxWidth: int, maxHeight: int): (r: Result<(int, int)>)
  {
    if width == 0 || height == 0 then Err(ZeroDivision)
    else
      var (w, h) := ScaledSize(width, height, FitRatio(width, height, maxWidth, maxHeight));
      if w < 1 || h < 1 then Err(ValueError("height and width must be > 0")) else Ok((w, h))
  }

  /** Both sides multiplied by `ratio` and truncated, as `int(w * ratio)` does. */
  function ScaledSize(width: nat, height: nat, ratio: real): (int, int)
  {
    (Trunc(width as real * ratio), Trunc(height as real * ratio))
  }

  /** Scaling one side by a ratio in [0, 1] whose product with the side is at most `limit`. */
  lemma FitAxis(n: nat, ratio: real, limit: int)
    requires 0.0 <= ratio <= 1.0 && ratio * n as real <= limit as real
    ensures 0 <= Trunc(n as real * ratio) <= n
    ensures Trunc(n as real * ratio) <= limit
    ensures ratio == 1.0 ==> Trunc(n as real * ratio) == n
  {
    var x := n as real * ratio;
    assert x == ratio * n as real;
    assert 0.0 <= x <= n as real;
    assert Trunc(x) as real <= x;
  }

  /** Scaling both sides by a ratio that fits each into its room. */
  lemma ScaledSizeFits(width: nat, height: nat, ratio: real, maxWidth: int, maxHeight: int)
    requires 0.0 <= ratio <= 1.0
    requires ratio * width as real <= maxWidth as real && ratio * height as real <= maxHeight as real
    ensures var (w, h) := ScaledSize(width, height, ratio);
      0 <= w <= width && w <= maxWidth && 0 <= h <= height && h <= maxHeight
    ensures ratio == 1.0 ==> ScaledSize(width, height, ratio) == (width, height)
  {
    FitAxis(width, ratio, maxWidth);
    FitAxis(height, ratio, maxHeight);
  }

  /**
   * A zero-sized image divides by zero. A fitted image is at least one pixel
   * on each side, never enlarged and within the room, so a room less than a
   * pixel wide or high is refused; an image that already fits keeps its size.
   */
  lemma FitSizeFits(width: nat, height: nat, maxWidth: int, maxHeight: int)
    ensures FitSize(width, height, maxWidth, maxHeight) == Err(ZeroDivision) <==> width == 0 || height == 0
    ensures var r := FitSize(width, height, maxWidth, maxHeight);
      r.Ok? ==> 1 <= r.value.0 <= width && r.value.0 <= maxWidth && 1 <= r.value.1 <= height && r.value.1 <= maxHeight
    ensures maxWidth < 1 || maxHeight < 1 ==> FitSize(width, height, maxWidth, maxHeight).Err?
    ensures 0 < width <= maxWidth && 0 < height <= maxHeight ==>
              FitSize(width, height, maxWidth, maxHeight) == Ok((width, height))
  {
    if width > 0 && height > 0 {
      var ratio := FitRatio(width, height, maxWidth, maxHeight);
      if ratio >= 0.0 {
        ScaledSizeFits(width, height, ratio, maxWidth, maxHeight);
      } else {
        assert width as real * ratio < 0.0 && height as real * ratio < 0.0;
      }
    }
  }

  /** `finish_crop`'s box on the canvas: the drag's corners sorted and cut to the canvas. */
  function CropBox(startX: int, startY: int, endX: int, endY: int, canvasWidth: int, canvasHeight: int): Box
  {
    Box(Max(0, Min(startX, endX)), Max(0, Min(startY, endY)),
        Min(canvasWidth, Max(startX, endX)), Min(canvasHeight, Max(startY, endY)))
  }

  predicate Within(b: Box, width: int, height: int)
  {
    0 <= b.left && 0 <= b.top && b.right <= width && b.bottom <= height
  }

  /**
   * The canvas box starts at or after 0 and ends at or before the canvas
   * size; when the drag stays on the canvas it is the drag's rectangle with
   * its corners in order, whichever way the drag went.
   */
  lemma CropBoxNormalises(sx: int, sy: int, ex: int, ey: int, cw: int, ch: int)
    ensures Within(CropBox(sx, sy, ex, ey, cw, ch), cw, ch)
    ensures CropBox(sx, sy, ex, ey, cw, ch) == CropBox(ex, ey, sx, sy, cw, ch)
    ensures 0 <= sx <= cw && 0 <= ex <= cw && 0 <= sy <= ch && 0 <= ey <= ch ==>
              CropBox(sx, sy, ex, ey, cw, ch) == Box(Min(sx, ex), Min(sy, ey), Max(sx, ex), Max(sy, ey)) &&
              Min(sx, ex) <= Max(sx, ex) && Min(sy, ey) <= Max(sy, ey)
  {
  }

  /** The canvas box in image coordinates: each side times the image/canvas ratio, truncated, then cut to the image. */
  function ScaledBox(b: Box, imageWidth: int, imageHeight: int, canvasWidth: int, canvasHeight: int): Box
    requires canvasWidth != 0 && canvasHeight != 0
  {
    var xr := imageWidth as real / canvasWidth as real;
    var yr := imageHeight as real / canvasHeight as real;
    Box(Max(0, Trunc(b.left as real * xr)), Max(0, Trunc(b.top as real * yr)),
        Min(imageWidth, Trunc(b.right as real * xr)), Min(imageHeight, Trunc(b.bottom as real * yr)))
  }

  /** The crop is applied only to a box with positive width and height. */
  predicate Croppable(b: Box)
  {
    b.right > b.left && b.bottom > b.top
  }

  /** A box the crop accepts lies inside the image and is non-empty. */
  lemma ScaledBoxInImage(b: Box, iw: int, ih: int, cw: int, ch: int)
    requires cw != 0 && ch != 0
    requires Croppable(ScaledBox(b, iw, ih, cw, ch))
    ensures var s := ScaledBox(b, iw, ih, cw, ch);
      Within(s, iw, ih) && 0 <= s.left < s.right <= iw && 0 <= s.top < s.bottom <= ih
  {
  }

  /** Pushing an edit onto the history; unlike `save_to_history` of the adjustment tool, the future is kept. */
  function PushStep(s: Stacks<Picture>, p: Picture): (r: Stacks<Picture>)
    ensures r.history == s.history + [p] && r.redo == s.redo && r.current == Some(p)
  {
    Stacks(s.history + [p], s.redo, Some(p))
  }

  /**
   * Because an edit does not clear the future, Redo after Undo and an edit
   * brings back the undone image on top of the edit.
   */
  lemma RedoAfterEditReturnsUndone(s: Stacks<Picture>, p: Picture)
    requires |s.history| >= 2
    ensures var r := RedoStep(PushStep(UndoStep(s), p));
      r.current == Some(Last(s.history)) &&
      r.history == DropLast(s.history) + [p, Last(s.history)] &&
      r.redo == s.redo
  {
    var u := UndoStep(s);
    assert DropLast(u.redo) == s.redo;
  }

  /** How `finish_crop` ended. */
  datatype CropOutcome =
    | CropInactive        // the tool is off: nothing happens
    | NoImage             // nothing shown: nothing happens, the tool stays on
    | InvalidArea         // "Invalid crop area selected."
    | CropApplied(box: Box)
    | CropFailed(error: Failure)

  class EditingScreen {
    var originalImage: Option<Picture>
    var currentImage: Option<Picture>
    var history: seq<Picture>
    var future: seq<Picture>
    var cropActive: bool
    /** `(start_x, start_y)`, which exist once a drag has started. */
    var cropStart: Option<(int, int)>

    function State(): Stacks<Picture>
      reads this
    {
      Stacks(history, future, currentImage)
    }

    constructor ()
      ensures originalImage == None && currentImage == None && history == [] && future == []
      ensures !cropActive && cropStart == None
    {
      originalImage := None;
      currentImage := None;
      history := [];
      future := [];
      cropActive := false;
      cropStart := None;
    }

    /**
     * `display_image` once the file is opened (`loaded` is None when there
     * is no path or the file is missing): the opened image, fitted to the
     * canvas less 100 pixels of height, is shown and pushed.
     */
    method DisplayImage(loaded: Option<Picture>, canvasWidth: int, canvasHeight: int) returns (r: Result<Picture>)
      requires loaded.Some? ==> loaded.value.Opened?
      modifies this`originalImage, this`currentImage, this`history
      ensures loaded.None? ==> r.Err? && unchanged(this)
      ensures loaded.Some? ==> originalImage == loaded
      ensures r.Ok? ==> loaded.Some? && FitSize(loaded.value.width, loaded.value.height, canvasWidth, canvasHeight - 100).Ok? &&
                        (var (w, h) := FitSize(loaded.value.width, loaded.value.height, canvasWidth, canvasHeight - 100).value;
                         r.value == Resized(loaded.value, w, h)) &&
                        currentImage == Some(r.value) && history == old(history) + [r.value]
      ensures loaded.Some? ==>
                (r.Ok? <==> FitSize(loaded.value.width, loaded.value.height, canvasWidth, canvasHeight - 100).Ok?)
      ensures r.Err? ==> currentImage == old(currentImage) && history == old(history)
    {
      if loaded.None? {
        return Err(ForeignError("No Image Uploaded"));
      }
      originalImage := loaded;
      var p := loaded.value;
      var fit := FitSize(p.width, p.height, canvasWidth, canvasHeight - 100);
      if fit.Err? {
        return Err(fit.error);
      }
      var (w, h) := fit.value;
      var resized := Resized(p, w, h);
      currentImage := Some(resized);
      history := history + [resized];
      r := Ok(resized);
    }

    /** The adjust window's sliders: recompute from the opened image, record nothing. */
    method UpdateAdjustments(brightness: real, contrast: real, saturation: real)
      modifies this`currentImage
      ensures originalImage.Some? ==> currentImage == Some(Adjusted(originalImage.value, brightness, contrast, saturation))
      ensures originalImage.None? ==> currentImage == old(currentImage)
    {
      if originalImage.Some? {
        currentImage := Some(Adjusted(originalImage.value, brightness, contrast, saturation));
      }
    }

    /** `apply_filter` / `apply_effect`: edit the shown image and push it, keeping the future. */
    method ApplyEdit(e: Edit)
      modifies this`currentImage, this`history
      ensures old(currentImage).None? ==> State() == old(State())
      ensures old(currentImage).Some? ==> State() == PushStep(old(State()), Edited(e, old(currentImage).value))
    {
      if currentImage.Some? {
        currentImage := Some(Edited(e, currentImage.value));
        history := history + [currentImage.value];
      }
    }

    /** `reset_tool`: the opened image is shown and becomes the whole history; the future stays. */
    method ResetTool()
      modifies this`currentImage, this`history
      ensures originalImage.Some? ==> currentImage == originalImage && history == [originalImage.value]
      ensures originalImage.None? ==> currentImage == old(currentImage) && history == old(history)
    {
      if originalImage.Some? {
        currentImage := originalImage;
        history := [originalImage.value];
      }
    }

    /** `undo_action`, the same step as the adjustment tool's undo. */
    method UndoAction()
      modifies this`currentImage, this`history, this`future
      ensures State() == UndoStep(old(State()))
    {
      if |history| > 1 {
        future := future + [history[|history| - 1]];
        history := history[..|history| - 1];
        currentImage := Some(history[|history| - 1]);
      }
    }

    /** `redo_action`, the same step as the adjustment tool's redo. */
    method RedoAction()
      modifies this`currentImage, this`history, this`future
      ensures State() == RedoStep(old(State()))
    {
      if future != [] {
        currentImage := Some(future[|future| - 1]);
        future := future[..|future| - 1];
        history := history + [currentImage.value];
      }
    }

    method ActivateCropTool()
      modifies this`cropActive
      ensures cropActive
    {
      if !cropActive {
        cropActive := true;
      }
    }

    /** `start_crop`: remember where the drag began, if the tool is on. */
    method StartCrop(x: int, y: int)
      modifies this`cropStart
      ensures cropStart == if cropActive then Some((x, y)) else old(cropStart)
    {
      if cropActive {
        cropStart := Some((x, y));
      }
    }

    /**
     * `finish_crop` at the release point, with the canvas size and the
     * user's answer to "save the cropped image?". A box with area crops the
     * opened image and pushes the crop; declining to save shows the previous
     * top of the history again (or the opened image) but keeps the crop on
     * the history.
     */
    method FinishCrop(endX: int, endY: int, canvasWidth: int, canvasHeight: int, keep: bool) returns (r: CropOutcome)
      modifies this`currentImage, this`history, this`cropActive
      ensures !old(cropActive) ==> r == CropInactive && unchanged(this)
      ensures r.CropApplied? ==>
                old(cropActive) && cropStart.Some? && originalImage.Some? &&
                canvasWidth != 0 && canvasHeight != 0 &&
                (var (sx, sy) := cropStart.value;
                 var (iw, ih) := Size(originalImage.value);
                 r.box == ScaledBox(CropBox(sx, sy, endX, endY, canvasWidth, canvasHeight), iw, ih, canvasWidth, canvasHeight)) &&
                Croppable(r.box) &&
                history == old(history) + [Cropped(originalImage.value, r.box)] &&
                currentImage == (if keep then Some(Cropped(originalImage.value, r.box))
                                 else if |history| > 1 then Some(history[|history| - 2]) else originalImage) &&
                !cropActive
      ensures r.InvalidArea? ==> history == old(history) && currentImage == old(currentImage) && !cropActive
      ensures r.NoImage? || r.CropFailed? ==> unchanged(this)
      ensures old(cropActive) && cropStart.None? ==> r == CropFailed(TypeError)
      ensures old(cropActive) && cropStart.Some? && old(currentImage).None? ==> r == NoImage
      ensures old(cropActive) && cropStart.Some? && old(currentImage).Some? && originalImage.None? ==>
                r == CropFailed(TypeError)
      ensures old(cropActive) && cropStart.Some? && old(currentImage).Some? && originalImage.Some? &&
              (canvasWidth == 0 || canvasHeight == 0)
              ==> r == CropFailed(ZeroDivision)
      ensures old(cropActive) && cropStart.Some? && old(currentImage).Some? && originalImage.Some? &&
              canvasWidth != 0 && canvasHeight != 0 ==>
                (var (sx, sy) := cropStart.value;
                 var (iw, ih) := Size(originalImage.value);
                 (r.CropApplied? || r.InvalidArea?) &&
                 (r.CropApplied? <==>
                    Croppable(ScaledBox(CropBox(sx, sy, endX, endY, canvasWidth, canvasHeight), iw, ih, canvasWidth, canvasHeight))))
    {
      if !cropActive {
        return CropInactive;
      }
      if cropStart.None? {
        return CropFailed(TypeError);
      }
      var (sx, sy) := cropStart.value;
      var box := CropBox(sx, sy, endX, endY, canvasWidth, canvasHeight);
      if currentImage.None? {
        return NoImage;
      }
      if originalImage.None? {
        return CropFailed(TypeError);
      }
      if canvasWidth == 0 || canvasHeight == 0 {
        return CropFailed(ZeroDivision);
      }
      var (iw, ih) := Size(originalImage.value);
      var adjusted := ScaledBox(box, iw, ih, canvasWidth, canvasHeight);
      if Croppable(adjusted) {
        var cropped := Cropped(originalImage.value, adjusted);
        currentImage := Some(cropped);
        history := history + [cropped];
        if !keep {
          currentImage := if |history| > 1 then Some(history[|history| - 2]) else originalImage;
        }
        r := CropApplied(adjusted);
      } else {
        r := InvalidArea;
      }
      cropActive := false;
    }
  }
}

=== FILE: edit_shared.dfy ===
/**
 * Shared helpers of the photo editor (T18 EdiNity src/shared.py): where the
 * hamburger popup is placed, and how the logo's white background is made
 * transparent. Creating the Tk widgets and loading the logo file are not
 * modelled.
 */
module EditShared {
  import opened Common

  const PopupWidth := 200
  const PopupHeight := 180
  /** The gap kept between the popup and the screen's right and bottom edges. */
  const ScreenMargin := 10

  /** `create_menu`'s placement: `min(x, screen_width - 210)`, `min(y, screen_height - 190)`. */
  function PopupPosition(x: int, y: int, screenWidth: int, screenHeight: int): (r: (int, int))
  {
    (Min(x, screenWidth - PopupWidth - ScreenMargin), Min(y, screenHeight - PopupHeight - ScreenMargin))
  }

  /**
   * The popup never starts past `screen - size - 10` on either axis, it only
   * ever moves left or up, and a position already clear of the edges is kept.
   */
  lemma PopupStaysOnScreen(x: int, y: int, screenWidth: int, screenHeight: int)
    ensures var (px, py) := PopupPosition(x, y, screenWidth, screenHeight);
      px + PopupWidth + ScreenMargin <= screenWidth && py + PopupHeight + ScreenMargin <= screenHeight &&
      px <= x && py <= y &&
      (x <= screenWidth - 210 ==> px == x) && (y <= screenHeight - 190 ==> py == y) &&
      (px == x || px == screenWidth - 210) && (py == y || py == screenHeight - 190)
  {
  }

  /** A pixel as `convert("RGBA")` gives it. */
  datatype Rgba = Rgba(r: int, g: int, b: int, a: int)

  /** Strictly brighter than 200 in all three colour channels. */
  predicate NearWhite(p: Rgba)
  {
    p.r > 200 && p.g > 200 && p.b > 200
  }

  const Transparent := Rgba(255, 255, 255, 0)

  function WhitenPixel(p: Rgba): Rgba
  {
    if NearWhite(p) then Transparent else p
  }

  /** `add_logo`'s comprehension over the logo's pixels. */
  function WhitenLogo(data: seq<Rgba>): (r: seq<Rgba>)
    ensures |r| == |data|
  {
    seq(|data|, i requires 0 <= i < |data| => WhitenPixel(data[i]))
  }

  /**
   * Each pixel is replaced by transparent white exactly when its R, G and B
   * all exceed 200; every other pixel, alpha included, stays as it was, at
   * the same position.
   */
  lemma WhitenLogoPixels(data: seq<Rgba>)
    ensures |WhitenLogo(data)| == |data|
    ensures forall i :: 0 <= i < |data| ==>
              (NearWhite(data[i]) ==> WhitenLogo(data)[i] == Transparent) &&
              (!NearWhite(data[i]) ==> WhitenLogo(data)[i] == data[i])
  {
  }

  /** The threshold is strict: a channel at exactly 200 keeps the pixel. */
  lemma ThresholdIsStrict(g: int, b: int, a: int)
    ensures WhitenPixel(Rgba(200, g, b, a)) == Rgba(200, g, b, a)
    ensures WhitenPixel(Rgba(201, 201, 201, a)) == Transparent
  {
  }

  /** Whitening twice is whitening once: transparent white is itself near-white. */
  lemma WhitenIdempotent(data: seq<Rgba>)
    ensures WhitenLogo(WhitenLogo(data)) == WhitenLogo(data)
  {
    var once := WhitenLogo(data);
    forall i | 0 <= i < |data| ensures WhitenLogo(once)[i] == once[i] {
      assert NearWhite(once[i]) ==> once[i] == Transparent;
    }
  }
}

=== FILE: filters_tool.dfy ===
/**
 * The state of the filters tool (T27 image_filters_tool.py).
 *
 * The tool keeps the loaded image `img`, the image shown on the right
 * `processed_img`, the dropdown filters applied so far with their
 * intensities in `filter_states` (a dict, so in insertion order), and an
 * undo `history` of earlier processed images. Changing the dropdown or the
 * slider recomputes the processed image from a fresh copy of `img` by
 * running every recorded filter in insertion order; the predefined effects
 * replace the processed image without touching `filter_states`. The
 * module's globals become the fields of one class, and the slider and the
 * dropdown become fields holding what the widgets would return.
 */
module FiltersTool {
  import opened Common
  import opened ImageFilters

  /** A `filter_states` item: dropdown name and intensity. */
  type Entry = (string, real)

  /** `filter_functions`: the dropdown names and the filters they run. */
  function FilterFunction(name: string): (r: Option<FilterKind>)
  {
    if name == "Grayscale" then Some(GrayscaleFilter)
    else if name == "Sepia" then Some(SepiaFilter)
    else if name == "Blur" then Some(BlurFilter)
    else if name == "Sharpen" then Some(SharpenFilter)
    else if name == "Brightness Adjustment" then Some(BrightnessFilter)
    else if name == "Contrast Adjustment" then Some(ContrastFilter)
    else if name == "Saturation Adjustment" then Some(SaturationFilter)
    else if name == "Vignette" then Some(VignetteFilter)
    else if name == "Edge Detection" then Some(EdgeFilter)
    else if name == "Emboss" then Some(EmbossFilter)
    else if name == "Artistic Filter" then Some(ArtisticFilter)
    else None
  }

  /** The slider runs from 0 to 20 and the intensity is a tenth of it, so 0 to 2. */
  function Intensity(slider: real): (i: real)
    ensures 0.0 <= slider <= 20.0 ==> 0.0 <= i <= 2.0
    ensures i * 10.0 == slider
  {
    slider / 10.0
  }

  /** The names of `filter_states`, in insertion order. */
  function Names(s: seq<Entry>): (r: seq<string>)
    ensures |r| == |s| && forall i :: 0 <= i < |s| ==> r[i] == s[i].0
  {
    seq(|s|, i requires 0 <= i < |s| => s[i].0)
  }

  /** A dict has each key once. */
  predicate DistinctNames(s: seq<Entry>)
  {
    forall i, j :: 0 <= i < j < |s| ==> s[i].0 != s[j].0
  }

  /** The position of `name` in `s`, or -1. */
  function IndexOf(s: seq<Entry>, name: string): (i: int)
    ensures -1 <= i < |s|
    ensures i == -1 <==> name !in Names(s)
    ensures i >= 0 ==> s[i].0 == name && forall j :: 0 <= j < i ==> s[j].0 != name
  {
    if s == [] then -1
    else if s[|s| - 1].0 == name && IndexOf(s[..|s| - 1], name) == -1 then |s| - 1
    else
      var i := IndexOf(s[..|s| - 1], name);
      assert Names(s[..|s| - 1]) == Names(s)[..|s| - 1];
      i
  }

  /**
   * `filter_states[name] = v`: an existing name keeps its position and gets
   * the new intensity, a new name goes last; every other item is unchanged
   * and the names stay distinct.
   */
  function Put(s: seq<Entry>, name: string, v: real): (r: seq<Entry>)
    ensures name in Names(s) ==> |r| == |s| && Names(r) == Names(s)
    ensures name !in Names(s) ==> r == s + [(name, v)]
    ensures forall i :: 0 <= i < |s| && s[i].0 != name ==> r[i] == s[i]
    ensures DistinctNames(s) ==> DistinctNames(r)
    ensures forall i :: 0 <= i < |r| && r[i].0 == name && DistinctNames(s) ==> r[i].1 == v
  {
    var i := IndexOf(s, name);
    if i >= 0 then s[i := (name, v)] else s + [(name, v)]
  }

  /** One loop step: a known name runs its filter at its intensity, an unknown one is skipped. */
  function Step(p: Picture, e: Entry): Result<Picture>
  {
    match FilterFunction(e.0)
    case None => Ok(p)
    case Some(kind) => ApplyFilter(kind, p, e.1)
  }

  /** The loop over `filter_states.items()` starting from `base`; the first exception ends it. */
  function Pipeline(base: Picture, s: seq<Entry>): Result<Picture>
  {
    if s == [] then Ok(base)
    else
      match Pipeline(base, s[..|s| - 1])
      case Err(e) => Err(e)
      case Ok(p) => Step(p, s[|s| - 1])
  }

  /** Once a prefix of the loop has raised, the whole loop raises the same error. */
  lemma {:induction false} PipelineStopsAtError(base: Picture, s: seq<Entry>, k: nat)
    requires k <= |s| && Pipeline(base, s[..k]).Err?
    ensures Pipeline(base, s) == Pipeline(base, s[..k])
    decreases |s| - k
  {
    if k < |s| {
      assert s[..k + 1][..k] == s[..k];
      PipelineStopsAtError(base, s, k + 1);
    } else {
      assert s[..k] == s;
    }
  }

  /** The entries whose names are in `filter_functions`. */
  function Known(s: seq<Entry>): (r: seq<Entry>)
    ensures |r| <= |s|
  {
    if s == [] then []
    else if FilterFunction(s[|s| - 1].0).Some? then Known(s[..|s| - 1]) + [s[|s| - 1]]
    else Known(s[..|s| - 1])
  }

  /** Unknown names are skipped: the loop gives what it gives over the known entries alone. */
  lemma {:induction false} PipelineSkipsUnknown(base: Picture, s: seq<Entry>)
    ensures Pipeline(base, s) == Pipeline(base, Known(s))
  {
    if s != [] {
      var init := s[..|s| - 1];
      PipelineSkipsUnknown(base, init);
      if FilterFunction(s[|s| - 1].0).Some? {
        assert (Known(init) + [s[|s| - 1]])[..|Known(init)|] == Known(init);
      }
    }
  }

  /** An entry that makes the vignette raise on an image of size `size`. */
  predicate Raises(e: Entry, size: (nat, nat))
  {
    e.0 == "Vignette" && e.1 > 0.0 && VignetteFails(size.0, size.1)
  }

  /** Some entry of `s` raises on an image of size `size`. */
  predicate AnyRaises(s: seq<Entry>, size: (nat, nat))
  {
    exists i :: 0 <= i < |s| && Raises(s[i], size)
  }

  /** One step keeps the size and raises exactly on a vignette entry over a 1×1 image. */
  lemma StepFails(p: Picture, e: Entry)
    ensures Step(p, e).Err? <==> Raises(e, Size(p))
    ensures Step(p, e).Ok? ==> Size(Step(p, e).value) == Size(p)
  {
    if FilterFunction(e.0).Some? {
      FilterKeepsSize(FilterFunction(e.0).value, p, e.1);
    }
  }

  /** Some entry raises exactly when one of the earlier ones or the last one does. */
  lemma SomeRaises(s: seq<Entry>, size: (nat, nat))
    requires s != []
    ensures AnyRaises(s, size) <==> AnyRaises(s[..|s| - 1], size) || Raises(s[|s| - 1], size)
  {
    var init := s[..|s| - 1];
    if AnyRaises(init, size) {
      var i :| 0 <= i < |init| && Raises(init[i], size);
      assert s[i] == init[i];
    }
    if AnyRaises(s, size) {
      var i :| 0 <= i < |s| && Raises(s[i], size);
      if i < |init| {
        assert Raises(init[i], size);
      }
    }
  }

  /**
   * The loop keeps the image's size, and it raises exactly when one of the
   * entries is a vignette at a positive intensity and the image is 1×1.
   */
  lemma {:induction false} PipelineFails(base: Picture, s: seq<Entry>)
    ensures Pipeline(base, s).Err? <==> AnyRaises(s, Size(base))
    ensures Pipeline(base, s).Ok? ==> Size(Pipeline(base, s).value) == Size(base)
  {
    if s != [] {
      PipelineFails(base, s[..|s| - 1]);
      if Pipeline(base, s[..|s| - 1]).Ok? {
        StepFails(Pipeline(base, s[..|s| - 1]).value, s[|s| - 1]);
      }
      SomeRaises(s, Size(base));
    }
  }

  /** Everything the tool's globals and widgets hold. */
  datatype Tool = Tool(img: Option<Picture>, processed: Option<Picture>, states: seq<Entry>,
                       history: seq<Picture>, slider: real, filterName: string)

  /** `history.append(processed_img.copy())` when there is a processed image. */
  function Pushed(history: seq<Picture>, processed: Option<Picture>): seq<Picture>
  {
    if processed.Some? then history + [processed.value] else history
  }

  /**
   * `on_filter_change`: nothing without an image; otherwise record the shown
   * image, store the slider's intensity under the dropdown's name, and rerun
   * every stored filter on the loaded image. When a filter raises, the record
   * and the stored intensity stay but the shown image does not change.
   */
  function FilterChange(t: Tool): (Tool, Option<Failure>)
  {
    if t.img.None? then (t, None)
    else
      var history := Pushed(t.history, t.processed);
      var states := Put(t.states, t.filterName, Intensity(t.slider));
      match Pipeline(t.img.value, states)
      case Err(e) => (t.(history := history, states := states), Some(e))
      case Ok(p) => (t.(processed := Some(p), history := history, states := states), None)
  }

  /** `apply_predefined_filter`: record the shown image and show the effect applied to the loaded image. */
  function PredefinedStep(t: Tool, effect: Predefined): Tool
  {
    if t.img.None? then t
    else t.(history := Pushed(t.history, t.processed), processed := Some(PredefinedImage(effect, t.img.value, 1.0)))
  }

  /** `reset_filters`: show the loaded image again with no filters, slider 0 and "Grayscale" selected. */
  function ResetStep(t: Tool): Tool
  {
    if t.img.None? then t
    else t.(processed := t.img, states := [], slider := 0.0, filterName := "Grayscale")
  }

  /**
   * `undo_last_action`: show the last recorded image and drop the most
   * recently inserted filter, moving the slider to its intensity.
   */
  function UndoStep(t: Tool): Tool
  {
    if t.history == [] then t
    else
      var t1 := t.(processed := Some(t.history[|t.history| - 1]), history := t.history[..|t.history| - 1]);
      if t.states == [] then t1.(slider := 0.0)
      else
        var last := t.states[|t.states| - 1];
        t1.(states := t.states[..|t.states| - 1], slider := Trunc(last.1 * 10.0) as real)
  }

  /** `load_image` with the picture opened, or `None` when the dialog was cancelled or opening failed. */
  function LoadStep(t: Tool, picture: Option<Picture>): Tool
  {
    if picture.None? then t
    else t.(img := picture, processed := picture, states := [])
  }

  /**
   * A filter change without an image changes nothing; with one it records the
   * image shown before, if any, and the new shown image comes from the loaded
   * image alone: it is the same whatever was shown before.
   */
  lemma FilterChangeRecomputes(t: Tool, shown: Option<Picture>)
    ensures t.img.None? ==> FilterChange(t) == (t, None)
    ensures t.img.Some? ==> FilterChange(t).0.history == Pushed(t.history, t.processed)
    ensures t.img.Some? && FilterChange(t).1.None? ==>
              FilterChange(t).0.processed == FilterChange(t.(processed := shown)).0.processed &&
              FilterChange(t).0.processed == Some(Pipeline(t.img.value, FilterChange(t).0.states).value)
    ensures t.img.Some? && FilterChange(t).1.Some? ==> FilterChange(t).0.processed == t.processed
  {
  }

  /**
   * Undo right after a filter change that added a new filter to a tool with
   * a shown image restores the shown image, the history and the filters.
   */
  lemma UndoRestoresFilterChange(t: Tool)
    requires t.img.Some? && t.processed.Some? && t.filterName !in Names(t.states)
    requires FilterChange(t).1.None?
    ensures UndoStep(FilterChange(t).0).processed == t.processed
    ensures UndoStep(FilterChange(t).0).history == t.history
    ensures UndoStep(FilterChange(t).0).states == t.states
  {
    var states := Put(t.states, t.filterName, Intensity(t.slider));
    assert states[..|states| - 1] == t.states;
  }

  /**
   * Undo always drops the last inserted filter, also after a predefined
   * effect that did not add one: the shown image comes back but the
   * filters lose their last item.
   */
  lemma UndoAfterPredefinedDropsFilter(t: Tool, effect: Predefined)
    requires t.img.Some? && t.processed.Some? && t.states != []
    ensures UndoStep(PredefinedStep(t, effect)).processed == t.processed
    ensures UndoStep(PredefinedStep(t, effect)).history == t.history
    ensures UndoStep(PredefinedStep(t, effect)).states == t.states[..|t.states| - 1] != t.states
  {
    assert (t.history + [t.processed.value])[..|t.history|] == t.history;
  }

  /** Changing a filter already stored keeps the order of the filters. */
  lemma ChangeKeepsOrder(t: Tool)
    requires t.img.Some? && t.filterName in Names(t.states)
    ensures Names(FilterChange(t).0.states) == Names(t.states)
  {
  }

  /** Reset and load clear the filters but never the history; undo shortens the history by one. */
  lemma HistoryOnlyShrinksByUndo(t: Tool, picture: Option<Picture>, effect: Predefined)
    ensures ResetStep(t).history == t.history && LoadStep(t, picture).history == t.history
    ensures t.img.Some? ==> ResetStep(t).states == [] && ResetStep(t).processed == t.img
    ensures picture.Some? ==> LoadStep(t, picture).states == [] && LoadStep(t, picture).processed == picture
    ensures |t.history| <= |FilterChange(t).0.history| <= |t.history| + 1
    ensures |t.history| <= |PredefinedStep(t, effect).history| <= |t.history| + 1
    ensures t.history != [] ==> |UndoStep(t).history| == |t.history| - 1
    ensures t.history == [] ==> UndoStep(t) == t
  {
  }

  /** `on_filter_change`'s loop: every stored filter in insertion order, unknown names skipped. */
  method RunFilters(original: Picture, states: seq<Entry>) returns (r: Result<Picture>)
    ensures r == Pipeline(original, states)
  {
    var base := original;
    var k := 0;
    while k < |states|
      invariant 0 <= k <= |states|
      invariant Pipeline(original, states[..k]) == Ok(base)
    {
      var (name, v) := states[k];
      assert states[..k + 1][..k] == states[..k];
      var kind := FilterFunction(name);
      if kind.Some? {
        var out := ApplyFilter(kind.value, base, v);
        if out.Err? {
          PipelineStopsAtError(original, states, k + 1);
          assert states[..|states|] == states;
          return out;
        }
        base := out.value;
      }
      k := k + 1;
    }
    assert states[..k] == states;
    return Ok(base);
  }

  class FilterTool {
    var img: Option<Picture>
    var processedImg: Option<Picture>
    var filterStates: seq<Entry>
    var history: seq<Picture>
    /** The slider's position, 0 to 20. */
    var slider: real
    /** The dropdown's selection. */
    var filterVar: string

    function State(): Tool
      reads this
    {
      Tool(img, processedImg, filterStates, history, slider, filterVar)
    }

    /** The globals at start-up: nothing loaded, slider at 0, "Grayscale" selected. */
    constructor ()
      ensures State() == Tool(None, None, [], [], 0.0, "Grayscale")
    {
      img := None;
      processedImg := None;
      filterStates := [];
      history := [];
      slider := 0.0;
      filterVar := "Grayscale";
    }

    /** `on_filter_change`; `failure` is the exception a filter raised, if any. */
    method OnFilterChange() returns (failure: Option<Failure>)
      modifies this
      ensures State() == FilterChange(old(State())).0
      ensures failure == FilterChange(old(State())).1
    {
      ghost var t := State();
      if img.None? {
        return None;
      }
      var intensity := Intensity(slider);
      history := Pushed(history, processedImg);
      var states := Put(filterStates, filterVar, intensity);
      filterStates := states;
      var out := RunFilters(img.value, states);
      assert out == Pipeline(t.img.value, states);
      if out.Err? {
        assert State() == t.(history := history, states := states);
        return Some(out.error);
      }
      processedImg := Some(out.value);
      assert State() == t.(processed := Some(out.value), history := history, states := states);
      return None;
    }

    /** The slider's command: the slider has moved to `value`, then `on_filter_change` runs. */
    method OnSliderChange(value: real) returns (failure: Option<Failure>)
      modifies this
      ensures State() == FilterChange(old(State()).(slider := value)).0
      ensures failure == FilterChange(old(State()).(slider := value)).1
    {
      slider := value;
      failure := OnFilterChange();
    }

    /** The dropdown's trace: `name` has been selected, then `on_filter_change` runs. */
    method OnFilterSelected(name: string) returns (failure: Option<Failure>)
      modifies this
      ensures State() == FilterChange(old(State()).(filterName := name)).0
      ensures failure == FilterChange(old(State()).(filterName := name)).1
    {
      filterVar := name;
      failure := OnFilterChange();
    }

    /** `apply_predefined_filter` with one of the four effects at its default intensity. */
    method ApplyPredefinedFilter(effect: Predefined)
      modifies this
      ensures State() == PredefinedStep(old(State()), effect)
    {
      if img.None? {
        return;
      }
      if processedImg.Some? {
        history := history + [processedImg.value];
      }
      var p := ApplyPredefined(effect, img.value, 1.0);
      processedImg := Some(p);
    }

    /** `reset_filters`. */
    method ResetFilters()
      modifies this
      ensures State() == ResetStep(old(State()))
    {
      if img.Some? {
        processedImg := img;
        filterStates := [];
        slider := 0.0;
        filterVar := "Grayscale";
      }
    }

    /** `undo_last_action`. */
    method UndoLastAction()
      modifies this
      ensures State() == UndoStep(old(State()))
    {
      if history != [] {
        processedImg := Some(history[|history| - 1]);
        history := history[..|history| - 1];
        if filterStates != [] {
          var (_, lastIntensity) := filterStates[|filterStates| - 1];
          slider := Trunc(lastIntensity * 10.0) as real;
          filterStates := filterStates[..|filterStates| - 1];
        } else {
          slider := 0.0;
        }
      }
    }

    /** `load_image` once the dialog returned: `picture` is the picture read, or `None`. */
    method LoadImage(picture: Option<Picture>)
      modifies this
      ensures State() == LoadStep(old(State()), picture)
    {
      if picture.Some? {
        img := picture;
        processedImg := picture;
        filterStates := [];
      }
    }
  }
}

=== FILE: freq_match.dfy ===
/**
 * The frequency-matching tool (T21): every image is scaled to fit a
 * 256×256 square and padded to it, its spectrogram is aggregated from
 * windowed FFTs over a grid of overlapping windows, and the dataset files are
 * ranked by the rounded correlation of their spectrogram with the target's.
 *
 * FFTs, SSIM and Pearson correlation are foreign numerics: the model takes
 * the correlation of two loaded images as a parameter and models everything
 * around it — the padding arithmetic, the window grid, the dispatch errors,
 * the file filter, the skipping of unreadable files and the ranking.
 */
module FrequencyMatching {
  import opened Common
  import opened Ranking

  /** The side of the square every image is resized and padded to. */
  const PaddedSide := 256

  /** Where `resize_and_pad` puts the resized image inside the target. */
  datatype Layout = Layout(newWidth: int, newHeight: int, top: int, bottom: int, left: int, right: int)

  /**
   * `resize_and_pad`: the factor that makes the image fit the target, the
   * truncated new size, and the split of the remaining space, the extra
   * pixel of an odd split going to the bottom and the right. A zero side
   * divides by zero; a side truncated to zero is refused by `cv.resize`.
   */
  function ResizeAndPad(width: nat, height: nat, targetWidth: nat, targetHeight: nat): (r: Result<Layout>)
    ensures r.Err? <==> width == 0 || height == 0 || r == Err(ForeignError("cv.resize: empty size"))
    ensures width == 0 || height == 0 ==> r == Err(ZeroDivision)
  {
    if width == 0 || height == 0 then Err(ZeroDivision)
    else
      var (newWidth, newHeight) := FittedSize(width, height, targetWidth, targetHeight);
      if newWidth == 0 || newHeight == 0 then Err(ForeignError("cv.resize: empty size"))
      else
        var top := (targetHeight - newHeight) / 2;
        var left := (targetWidth - newWidth) / 2;
        Ok(Layout(newWidth, newHeight, top, targetHeight - newHeight - top, left, targetWidth - newWidth - left))
  }

  /**
   * The truncated size of the image scaled by `min(target_width / width,
   * target_height / height)`: it fits inside the target and fills it along
   * at least one side.
   */
  function FittedSize(width: nat, height: nat, targetWidth: nat, targetHeight: nat): (r: (int, int))
    requires width > 0 && height > 0
    ensures 0 <= r.0 <= targetWidth && 0 <= r.1 <= targetHeight
    ensures r.0 == targetWidth || r.1 == targetHeight
  {
    var sw := targetWidth as real / width as real;
    var sh := targetHeight as real / height as real;
    var scale := MinR(sw, sh);
    QuotientNonNegative(targetWidth as real, width as real);
    QuotientNonNegative(targetHeight as real, height as real);
    ScaledSide(scale, width, targetWidth);
    ScaledSide(scale, height, targetHeight);
    MulSign(scale, width as real);
    MulSign(scale, height as real);
    (Trunc(scale * width as real), Trunc(scale * height as real))
  }

  /** Scaling a side by at most `target / side` and truncating gives at most `target`, exactly `target` at that factor. */
  lemma ScaledSide(scale: real, side: nat, target: nat)
    requires side > 0 && 0.0 <= scale <= target as real / side as real
    ensures Trunc(scale * side as real) <= target
    ensures scale == target as real / side as real ==> Trunc(scale * side as real) == target
  {
    var q := target as real / side as real;
    assert q * side as real == target as real;
    MulSign(q - scale, side as real);
    assert (q - scale) * side as real == target as real - scale * side as real;
  }

  /** Splitting the space around `inner` in two: the halves add up, the second is the first or one more. */
  lemma PadSplit(total: int, inner: int)
    requires 0 <= inner <= total
    ensures var first := (total - inner) / 2;
      first + inner + (total - inner - first) == total &&
      0 <= first <= total - inner - first <= first + 1
  {
  }

  /**
   * The resized image fits inside the target and fills it along at least
   * one side, and the pads around it are non-negative, add up to the
   * target size, and differ by at most one pixel, the larger one at the
   * bottom or right.
   */
  lemma ResizeAndPadLayout(width: nat, height: nat, targetWidth: nat, targetHeight: nat)
    requires ResizeAndPad(width, height, targetWidth, targetHeight).Ok?
    ensures var l := ResizeAndPad(width, height, targetWidth, targetHeight).value;
      1 <= l.newWidth <= targetWidth && 1 <= l.newHeight <= targetHeight &&
      (l.newWidth == targetWidth || l.newHeight == targetHeight) &&
      l.top + l.newHeight + l.bottom == targetHeight && l.left + l.newWidth + l.right == targetWidth &&
      0 <= l.top <= l.bottom <= l.top + 1 && 0 <= l.left <= l.right <= l.left + 1
  {
    PadSplit(targetWidth, FittedSize(width, height, targetWidth, targetHeight).0);
    PadSplit(targetHeight, FittedSize(width, height, targetWidth, targetHeight).1);
  }

  lemma QuotientNonNegative(a: real, b: real)
    requires a >= 0.0 && b > 0.0
    ensures a / b >= 0.0
  {
    var q := a / b;
    assert q * b == a;
    MulSign(0.0 - q, b);
    assert (0.0 - q) * b == 0.0 - a;
  }

  /** `int(window_size * (1 - overlap))`, the distance between window origins. */
  function Step(windowSize: nat, overlap: real): (r: int)
    ensures 0.0 <= overlap <= 1.0 ==> 0 <= r <= windowSize
    ensures overlap > 1.0 ==> r <= 0
  {
    var f := windowSize as real * (1.0 - overlap);
    if windowSize > 0 then
      MulSign(1.0 - overlap, windowSize as real);
      MulSign(overlap, windowSize as real);
      MulSign(overlap - 1.0, windowSize as real);
      assert f == windowSize as real - overlap * windowSize as real;
      Trunc(f)
    else
      Trunc(f)
  }

  /** The one-dimensional taper applied along both axes of every window. */
  datatype Window = Hann | Gaussian(std: real) | Boxcar

  /** The window dispatch of `compute_spectrogram`. */
  function WindowFor(windowType: string, windowSize: nat): (r: Result<Window>)
    ensures r.Err? <==> windowType !in {"hann", "gaussian", "boxcar"}
    ensures r.Err? ==> r.error == ValueError("Unsupported window type")
    ensures windowType == "gaussian" ==> r == Ok(Gaussian(windowSize as real / 6.0))
  {
    if windowType == "hann" then Ok(Hann)
    else if windowType == "gaussian" then Ok(Gaussian(windowSize as real / 6.0))
    else if windowType == "boxcar" then Ok(Boxcar)
    else Err(ValueError("Unsupported window type"))
  }

  /** The values of Python's `range(start, stop, step)` for a non-zero step. */
  function RangeSeq(start: int, stop: int, step: int): (r: seq<int>)
    requires step != 0
    decreases if step > 0 then stop - start else start - stop
  {
    if step > 0 && start < stop then [start] + RangeSeq(start + step, stop, step)
    else if step < 0 && start > stop then [start] + RangeSeq(start + step, stop, step)
    else []
  }

  /** Python's `range(start, stop, step)`, which refuses a zero step. */
  function Range(start: int, stop: int, step: int): (r: Result<seq<int>>)
    ensures r.Err? <==> step == 0
    ensures r.Err? ==> r.error == ValueError("range() arg 3 must not be zero")
  {
    if step == 0 then Err(ValueError("range() arg 3 must not be zero")) else Ok(RangeSeq(start, stop, step))
  }

  /** With a positive step, the range holds exactly the points from `start` below `stop` a whole number of steps apart. */
  lemma {:induction false} RangeMembers(start: int, stop: int, step: int)
    requires step > 0
    ensures forall x :: x in RangeSeq(start, stop, step) <==> start <= x < stop && (x - start) % step == 0
    decreases stop - start
  {
    if start < stop {
      RangeMembers(start + step, stop, step);
      forall x | start < x
        ensures x in RangeSeq(start, stop, step) <==> x < stop && (x - start) % step == 0
      {
        var q, m := (x - start) / step, (x - start) % step;
        DivModUnique(x - start - step, step, q - 1, m);
      }
    }
  }

  /** With a positive step, the range is strictly increasing. */
  lemma {:induction false} RangeIncreasing(start: int, stop: int, step: int)
    requires step > 0
    ensures forall a, b :: 0 <= a < b < |RangeSeq(start, stop, step)| ==> RangeSeq(start, stop, step)[a] < RangeSeq(start, stop, step)[b]
    decreases stop - start
  {
    if start < stop {
      var rest := RangeSeq(start + step, stop, step);
      RangeIncreasing(start + step, stop, step);
      RangeMembers(start + step, stop, step);
      forall b | 0 <= b < |rest|
        ensures start < rest[b]
      {
        assert rest[b] in rest;
      }
    }
  }

  /** For `stop ≥ 0` and a positive step, the range has ⌈stop / step⌉ values. */
  lemma {:induction false} RangeLength(stop: int, step: int, start: int)
    requires step > 0 && start <= stop
    ensures |RangeSeq(start, stop, step)| == (stop - start + step - 1) / step
    decreases stop - start
  {
    if start < stop {
      RangeLength(stop, step, Min(start + step, stop));
      if start + step > stop {
        assert RangeSeq(start + step, stop, step) == [];
        DivModUnique(stop - start + step - 1, step, 1, stop - start - 1);
      } else {
        DivModUnique(stop - start + step - 1, step, (stop - start - 1) / step + 1, (stop - start - 1) % step);
        DivModUnique(stop - start - 1, step, (stop - start - 1) / step, (stop - start - 1) % step);
      }
    } else {
      DivModUnique(step - 1, step, 0, step - 1);
    }
  }

  /** The window origins `(i, j)` with `i` from `rows` and `j` from `cols`, row after row. */
  function Origins(rows: seq<int>, cols: seq<int>): (r: seq<(int, int)>)
    ensures |r| == |rows| * |cols|
  {
    if rows == [] then []
    else Origins(rows[..|rows| - 1], cols) + RowOrigins(rows[|rows| - 1], cols)
  }

  function RowOrigins(i: int, cols: seq<int>): (r: seq<(int, int)>)
    ensures |r| == |cols|
    ensures forall k :: 0 <= k < |cols| ==> r[k] == (i, cols[k])
  {
    seq(|cols|, k requires 0 <= k < |cols| => (i, cols[k]))
  }

  /** A pair is an origin exactly when its row is in `rows` and its column in `cols`. */
  lemma {:induction false} OriginsMembers(rows: seq<int>, cols: seq<int>)
    ensures forall i, j :: (i, j) in Origins(rows, cols) <==> i in rows && j in cols
  {
    if rows != [] {
      var front := rows[..|rows| - 1];
      OriginsMembers(front, cols);
      assert rows == front + [rows[|rows| - 1]];
      forall i, j
        ensures (i, j) in Origins(rows, cols) <==> i in rows && j in cols
      {
        if (i, j) in RowOrigins(rows[|rows| - 1], cols) {
          var k :| 0 <= k < |cols| && RowOrigins(rows[|rows| - 1], cols)[k] == (i, j);
        }
        if i == rows[|rows| - 1] && j in cols {
          var k :| 0 <= k < |cols| && cols[k] == j;
          assert RowOrigins(i, cols)[k] == (i, j);
        }
      }
    }
  }

  /** The window grid of `compute_spectrogram`: the taper, the step and the window origins in visiting order. */
  datatype Tiling = Tiling(window: Window, step: int, origins: seq<(int, int)>)

  /**
   * The grid of windows `compute_spectrogram` visits on a `rows`×`cols`
   * image: an unknown window type is refused first, then a zero step by
   * `range`.
   */
  function TilingSpec(rows: nat, cols: nat, windowSize: nat, overlap: real, windowType: string): Result<Tiling>
  {
    var step := Step(windowSize, overlap);
    match WindowFor(windowType, windowSize)
    case Err(e) => Err(e)
    case Ok(w) =>
      if step == 0 then Err(ValueError("range() arg 3 must not be zero"))
      else Ok(Tiling(w, step, Origins(RangeSeq(0, rows - windowSize + 1, step), RangeSeq(0, cols - windowSize + 1, step))))
  }

  /**
   * `compute_spectrogram`'s nested loops over the window origins. The FFT
   * magnitudes they add into `aggregated_magnitude` and the tapers they add
   * into `weights` are foreign numerics; the model records the windows the
   * loops visit, which decide every pixel's contributions.
   */
  method ComputeSpectrogram(rows: nat, cols: nat, windowSize: nat, overlap: real, windowType: string)
    returns (r: Result<Tiling>)
    ensures r == TilingSpec(rows, cols, windowSize, overlap, windowType)
  {
    var step := Step(windowSize, overlap);
    var window := WindowFor(windowType, windowSize);
    if window.Err? {
      return Err(window.error);
    }
    var rowRange := Range(0, rows - windowSize + 1, step);
    if rowRange.Err? {
      return Err(rowRange.error);
    }
    var colStarts := RangeSeq(0, cols - windowSize + 1, step);
    var rowStarts := rowRange.value;
    var origins: seq<(int, int)> := [];
    for a := 0 to |rowStarts|
      invariant origins == Origins(rowStarts[..a], colStarts)
    {
      var i := rowStarts[a];
      for b := 0 to |colStarts|
        invariant origins == Origins(rowStarts[..a], colStarts) + RowOrigins(i, colStarts)[..b]
      {
        origins := origins + [(i, colStarts[b])];
      }
      assert rowStarts[..a + 1][..a] == rowStarts[..a];
    }
    assert rowStarts[..|rowStarts|] == rowStarts;
    return Ok(Tiling(window.value, step, origins));
  }

  /**
   * With a positive step every window `[i, i + ws) × [j, j + ws)` lies
   * inside the image and starts at multiples of the step, and every such
   * position is visited.
   */
  lemma WindowsInside(rows: nat, cols: nat, windowSize: nat, overlap: real, windowType: string)
    requires TilingSpec(rows, cols, windowSize, overlap, windowType).Ok?
    requires Step(windowSize, overlap) > 0
    ensures var t := TilingSpec(rows, cols, windowSize, overlap, windowType).value;
      forall i, j :: (i, j) in t.origins <==>
        0 <= i && i + windowSize <= rows && i % t.step == 0 &&
        0 <= j && j + windowSize <= cols && j % t.step == 0
  {
    var step := Step(windowSize, overlap);
    RangeMembers(0, rows - windowSize + 1, step);
    RangeMembers(0, cols - windowSize + 1, step);
    OriginsMembers(RangeSeq(0, rows - windowSize + 1, step), RangeSeq(0, cols - windowSize + 1, step));
  }

  /** The defaults (32-pixel Hann windows, half overlap) step by 16 and visit 15×15 windows of a padded 256×256 image. */
  lemma DefaultTiling()
    ensures var t := TilingSpec(PaddedSide, PaddedSide, 32, 0.5, "hann");
      t.Ok? && t.value.window == Hann && t.value.step == 16 && |t.value.origins| == 225
  {
    RangeLength(225, 16, 0);
  }

  /** Python's `round(x, 3)` on a numpy float: to three decimals, halves to even. */
  function Round3(x: real): (r: real)
    ensures -(1.0 / 2000.0) <= r - x <= 1.0 / 2000.0
  {
    RoundHalfEven(x * 1000.0) as real / 1000.0
  }

  /** A correlation in [-1, 1] stays in [-1, 1] after rounding. */
  lemma Round3Within(x: real)
    requires -1.0 <= x <= 1.0
    ensures -1.0 <= Round3(x) <= 1.0
  {
    RoundWithin(x * 1000.0, -1000, 1000);
  }

  /**
   * `match_spectrograms`: the chosen correlation of the two normalised
   * spectrograms, rounded to three decimals; an unknown method is refused.
   * `ssim` and `pearson` stand for the two foreign measures' values.
   */
  function MatchSpectrograms(measure: string, ssim: real, pearson: real): (r: Result<real>)
    ensures r.Err? <==> measure != "ssim" && measure != "pearson"
    ensures r.Err? ==> r.error == ValueError("Unsupported method")
    ensures measure == "pearson" ==> r == Ok(Round3(pearson))
    ensures measure == "ssim" ==> r == Ok(Round3(ssim))
  {
    if measure == "ssim" then Ok(Round3(ssim))
    else if measure == "pearson" then Ok(Round3(pearson))
    else Err(ValueError("Unsupported method"))
  }

  /** A grey-scale image as `cv.imread` returns it. */
  datatype Gray = Gray(width: nat, height: nat, pixels: seq<int>)

  /** One file name found by `os.walk` in directory `root`. */
  datatype Entry = Entry(root: string, name: string)

  /** The extensions the dataset scan accepts, compared case-insensitively. */
  predicate IsImageName(name: string)
  {
    var lower := Lower(name);
    EndsWith(lower, ".png") || EndsWith(lower, ".jpg") || EndsWith(lower, ".jpeg")
  }

  function EntryPath(e: Entry): string
  {
    PathJoin(e.root, e.name)
  }

  /**
   * The outside world `frequency_matching` relies on: `read` is
   * `cv.imread(path, IMREAD_GRAYSCALE)` (None for an unreadable file), and
   * `pearson(t, d)` and `ssim(t, d)` are the two measures
   * `match_spectrograms` chooses from, applied to the normalised
   * spectrograms of the padded images `t` and `d`.
   */
  datatype World = World(read: string -> Option<Gray>, pearson: (Gray, Gray) -> real, ssim: (Gray, Gray) -> real)

  /** What one dataset file contributes: nothing (filtered out or unreadable), a score, or the error resizing it raises. */
  function Visit(e: Entry, target: Gray, world: World): (r: Result<Option<Scored>>)
    ensures r.Ok? && r.value.Some? ==> r.value.value.path == EntryPath(e)
  {
    if !IsImageName(e.name) then Ok(None)
    else match world.read(EntryPath(e))
      case None => Ok(None)
      case Some(img) =>
        match ResizeAndPad(img.width, img.height, PaddedSide, PaddedSide)
        case Err(err) => Err(err)
        case Ok(_) => Ok(Some(Scored(EntryPath(e), Round3(world.pearson(target, img)))))
  }

  /** What every file of the walk contributes, in walk order. */
  function Outcomes(entries: seq<Entry>, target: Gray, world: World): (r: seq<Result<Option<Scored>>>)
    ensures |r| == |entries|
    ensures forall k :: 0 <= k < |entries| ==> r[k] == Visit(entries[k], target, world)
  {
    seq(|entries|, k requires 0 <= k < |entries| => Visit(entries[k], target, world))
  }

  /** The results list after appending the contributions in order, or the first error raised. */
  function Collect(outcomes: seq<Result<Option<Scored>>>): Result<seq<Scored>>
  {
    if outcomes == [] then Ok([])
    else match Collect(outcomes[..|outcomes| - 1])
      case Err(e) => Err(e)
      case Ok(results) =>
        match outcomes[|outcomes| - 1]
        case Err(e) => Err(e)
        case Ok(None) => Ok(results)
        case Ok(Some(s)) => Ok(results + [s])
  }

  /** The results list after the walk over `entries`, or the first error raised. */
  function Scan(entries: seq<Entry>, target: Gray, world: World): Result<seq<Scored>>
  {
    Collect(Outcomes(entries, target, world))
  }

  /** `frequency_matching` as a function of the target path, the walk, `top_n` and the world. */
  function FrequencyMatchingSpec(targetPath: string, entries: seq<Entry>, topN: int, world: World): Result<seq<Scored>>
  {
    match world.read(targetPath)
    case None => Err(ValueError("Could not load target image"))
    case Some(target) =>
      match ResizeAndPad(target.width, target.height, PaddedSide, PaddedSide)
      case Err(e) => Err(e)
      case Ok(_) =>
        match Scan(entries, target, world)
        case Err(e) => Err(e)
        case Ok(results) => Ok(Prefix(SortDesc(results), topN))
  }

  /**
   * The walk of `frequency_matching`: for every file with an accepted name,
   * read it, skip it when unreadable, and append its path and rounded
   * Pearson correlation with the target.
   */
  method ScanDataset(entries: seq<Entry>, target: Gray, world: World) returns (r: Result<seq<Scored>>)
    ensures r == Scan(entries, target, world)
  {
    ghost var outs := Outcomes(entries, target, world);
    var results: seq<Scored> := [];
    for k := 0 to |entries|
      invariant Collect(outs[..k]) == Ok(results)
    {
      assert outs[..k + 1][..k] == outs[..k];
      var e := entries[k];
      if IsImageName(e.name) {
        var path := PathJoin(e.root, e.name);
        var image := world.read(path);
        if image.None? {
          continue;
        }
        var resized := ResizeAndPad(image.value.width, image.value.height, PaddedSide, PaddedSide);
        if resized.Err? {
          CollectErrorSticks(outs, k + 1);
          return Err(resized.error);
        }
        var correlation := MatchSpectrograms("pearson", world.ssim(target, image.value), world.pearson(target, image.value));
        results := results + [Scored(path, correlation.value)];
      }
    }
    assert outs[..|entries|] == outs;
    return Ok(results);
  }

  /**
   * `frequency_matching`: load the target, walk the dataset, then keep the
   * `top_n` best correlations, best first.
   */
  method FrequencyMatching(targetPath: string, entries: seq<Entry>, topN: int, world: World)
    returns (r: Result<seq<Scored>>)
    ensures r == FrequencyMatchingSpec(targetPath, entries, topN, world)
  {
    var target := world.read(targetPath);
    if target.None? {
      return Err(ValueError("Could not load target image"));
    }
    var layout := ResizeAndPad(target.value.width, target.value.height, PaddedSide, PaddedSide);
    if layout.Err? {
      return Err(layout.error);
    }
    var results := ScanDataset(entries, target.value, world);
    if results.Err? {
      return Err(results.error);
    }
    return Ok(Prefix(SortDesc(results.value), topN));
  }

  /** A file that contributes a score: an accepted name and a readable, resizable image. */
  predicate Scores(e: Entry, target: Gray, world: World)
  {
    Visit(e, target, world).Ok? && Visit(e, target, world).value.Some?
  }

  /** Once the walk has failed, later files change nothing: the first error is the answer. */
  lemma {:induction false} CollectErrorSticks(outcomes: seq<Result<Option<Scored>>>, k: nat)
    requires k <= |outcomes| && Collect(outcomes[..k]).Err?
    ensures Collect(outcomes) == Collect(outcomes[..k])
    decreases |outcomes| - k
  {
    if k < |outcomes| {
      assert outcomes[..k + 1][..k] == outcomes[..k];
      CollectErrorSticks(outcomes, k + 1);
    } else {
      assert outcomes[..k] == outcomes;
    }
  }

  /** Every score contributed is collected. */
  lemma {:induction false} CollectComplete(outcomes: seq<Result<Option<Scored>>>)
    requires Collect(outcomes).Ok?
    ensures forall k :: 0 <= k < |outcomes| && outcomes[k].Ok? && outcomes[k].value.Some? ==>
      outcomes[k].value.value in Collect(outcomes).value
  {
    if outcomes != [] {
      var front := outcomes[..|outcomes| - 1];
      CollectComplete(front);
      assert forall s :: s in Collect(front).value ==> s in Collect(outcomes).value;
      assert forall k :: 0 <= k < |front| ==> front[k] == outcomes[k];
    }
  }

  /** Every collected score was contributed. */
  lemma {:induction false} CollectSound(outcomes: seq<Result<Option<Scored>>>)
    requires Collect(outcomes).Ok?
    ensures forall s :: s in Collect(outcomes).value ==> Ok(Some(s)) in outcomes
  {
    if outcomes != [] {
      CollectSound(outcomes[..|outcomes| - 1]);
    }
  }

  /** Collecting fails exactly when some contribution is an error. */
  lemma {:induction false} CollectFails(outcomes: seq<Result<Option<Scored>>>)
    ensures Collect(outcomes).Err? <==> exists k :: 0 <= k < |outcomes| && outcomes[k].Err?
  {
    if outcomes != [] {
      var front, n := outcomes[..|outcomes| - 1], |outcomes| - 1;
      CollectFails(front);
      if Collect(front).Err? {
        var k :| 0 <= k < |front| && front[k].Err?;
        assert outcomes[k] == front[k];
      }
      if exists k :: 0 <= k < |outcomes| && outcomes[k].Err? {
        var k :| 0 <= k < |outcomes| && outcomes[k].Err?;
        if k < n {
          assert outcomes[k] == front[k];
        }
      }
    }
  }

  /**
   * The walk collects exactly the scores of the files that have an accepted
   * name and a readable image, and it fails exactly when resizing one of
   * those fails.
   */
  lemma ScanCollects(entries: seq<Entry>, target: Gray, world: World)
    ensures Scan(entries, target, world).Err? <==> exists k :: 0 <= k < |entries| && Visit(entries[k], target, world).Err?
    ensures Scan(entries, target, world).Ok? ==>
      (forall k :: 0 <= k < |entries| && Scores(entries[k], target, world) ==>
         Visit(entries[k], target, world).value.value in Scan(entries, target, world).value) &&
      (forall s :: s in Scan(entries, target, world).value ==>
         exists k :: 0 <= k < |entries| && Visit(entries[k], target, world) == Ok(Some(s)))
  {
    var outs := Outcomes(entries, target, world);
    CollectFails(outs);
    if Collect(outs).Ok? {
      CollectComplete(outs);
      CollectSound(outs);
    }
  }

  /**
   * The answer holds `min(top_n, n)` results for a non-negative `top_n`,
   * best first, each one scored from the walk, and no result left out
   * beats one kept.
   */
  lemma FrequencyMatchingRanks(targetPath: string, entries: seq<Entry>, topN: nat, world: World)
    requires FrequencyMatchingSpec(targetPath, entries, topN, world).Ok?
    ensures var target := world.read(targetPath).value;
      var results := Scan(entries, target, world).value;
      var top := FrequencyMatchingSpec(targetPath, entries, topN, world).value;
      |top| == Min(topN, |results|) && SortedDesc(top) && multiset(top) <= multiset(results) &&
      forall i, j :: 0 <= i < |top| && |top| <= j < |results| ==> top[i].score >= SortDesc(results)[j].score
  {
    TopIsBest(Scan(entries, world.read(targetPath).value, world).value, topN);
  }
}

=== FILE: hist_core.dfy ===
/**
 * Histogram specification as the two histogram-matching tools compute it
 * (T35 Histogram_Matching_GUI.py, T32 Histogram_Project.py): a 256-bin
 * histogram of an 8-bit channel, its cumulative distribution, numpy's
 * `interp` of one CDF against the other over the levels `arange(256)`, and
 * the lookup table that maps every source level through it. The colour
 * conversions and resizing around it are OpenCV's and are parameters of the
 * tools that use this module.
 */
module HistCore {
  import opened Common

  /** An 8-bit channel level. */
  type Level = v: int | 0 <= v < 256

  /** One channel of an image, its pixels in row-major order (`ravel`). */
  type Channel = seq<Level>

  /** A three-channel image split into its planes (`cv2.split`). */
  datatype Image = Image(width: nat, height: nat, c0: Channel, c1: Channel, c2: Channel)

  /**
   * OpenCV's RGB-to-LAB and LAB-to-RGB conversions and `cv2.resize(im, (w, h))`,
   * which are not part of this model.
   */
  datatype Converters = Converters(toLab: Image -> Image, toRgb: Image -> Image, resize: (Image, nat, nat) -> Image)

  function Plane(im: Image, i: nat): Channel
    requires i < 3
  {
    if i == 0 then im.c0 else if i == 1 then im.c1 else im.c2
  }

  /** `im` with plane `i` replaced (`lab[:, :, i] = ...`). */
  function WithPlane(im: Image, i: nat, c: Channel): (r: Image)
    requires i < 3
    ensures r.width == im.width && r.height == im.height
    ensures forall j :: 0 <= j < 3 ==> Plane(r, j) == if j == i then c else Plane(im, j)
  {
    if i == 0 then im.(c0 := c) else if i == 1 then im.(c1 := c) else im.(c2 := c)
  }

  /** A histogram with every bin empty. */
  function EmptyBins(): (h: seq<nat>)
    ensures |h| == 256 && forall v :: 0 <= v < 256 ==> h[v] == 0
  {
    seq(256, v => 0)
  }

  /** `np.histogram(px, 256, [0, 256])`: bin `v` counts the pixels of level `v`. */
  function Histogram(px: Channel): (h: seq<nat>)
    ensures |h| == 256
  {
    if px == [] then EmptyBins()
    else
      var h := Histogram(px[..|px| - 1]);
      var p := px[|px| - 1];
      h[p := h[p] + 1]
  }

  /** Every bin holds exactly the number of pixels of its level. */
  lemma {:induction false} HistogramCounts(px: Channel)
    ensures forall v :: 0 <= v < 256 ==> Histogram(px)[v] == multiset(px)[v]
  {
    if px != [] {
      var front := px[..|px| - 1];
      HistogramCounts(front);
      assert px == front + [px[|px| - 1]];
      assert multiset(px) == multiset(front) + multiset{px[|px| - 1]};
    }
  }

  /** Adding `d` to one entry adds `d` to the sum. */
  lemma {:induction false} SumUpdate(h: seq<int>, p: nat, d: int)
    requires p < |h|
    ensures SumI(h[p := h[p] + d]) == SumI(h) + d
  {
    var n := |h| - 1;
    var h' := h[p := h[p] + d];
    if p == n {
      assert h'[..n] == h[..n];
    } else {
      SumUpdate(h[..n], p, d);
      assert h'[..n] == h[..n][p := h[p] + d];
    }
  }

  lemma {:induction false} EmptyBinsSum(k: nat)
    requires k <= 256
    ensures SumI(EmptyBins()[..k]) == 0
  {
    if k > 0 {
      EmptyBinsSum(k - 1);
      assert EmptyBins()[..k][..k - 1] == EmptyBins()[..k - 1];
    }
  }

  /** The bins of a histogram add up to the number of pixels. */
  lemma {:induction false} HistogramTotal(px: Channel)
    ensures SumI(Histogram(px)) == |px|
  {
    if px == [] {
      EmptyBinsSum(256);
      assert EmptyBins()[..256] == EmptyBins();
    } else {
      HistogramTotal(px[..|px| - 1]);
      SumUpdate(Histogram(px[..|px| - 1]), px[|px| - 1], 1);
    }
  }

  /** The pixels a mask selects, in order: `calcHist` with a mask counts those where the mask is not 0. */
  function Picked(px: Channel, mask: seq<int>): (r: Channel)
    requires |mask| == |px|
    ensures |r| <= |px|
    ensures |r| == 0 <==> forall k :: 0 <= k < |mask| ==> mask[k] == 0
  {
    if px == [] then []
    else
      var n := |px| - 1;
      var front := Picked(px[..n], mask[..n]);
      assert forall k :: 0 <= k < n ==> mask[..n][k] == mask[k];
      front + if mask[n] != 0 then [px[n]] else []
  }

  /** `cv2.calcHist([c], [0], mask, [256], [0, 256])`: the histogram of the masked pixels only. */
  function MaskedHistogram(px: Channel, mask: seq<int>): (h: seq<nat>)
    requires |mask| == |px|
    ensures |h| == 256
  {
    Histogram(Picked(px, mask))
  }

  /** A masked histogram counts exactly the pixels under the mask; it is empty when the mask is blank. */
  lemma MaskedHistogramTotal(px: Channel, mask: seq<int>)
    requires |mask| == |px|
    ensures SumI(MaskedHistogram(px, mask)) == |Picked(px, mask)|
    ensures SumI(MaskedHistogram(px, mask)) == 0 <==> forall k :: 0 <= k < |mask| ==> mask[k] == 0
  {
    HistogramTotal(Picked(px, mask));
  }

  /** Prefix sums of counts grow with the prefix and never pass the total. */
  lemma {:induction false} PrefixSumMonotone(h: seq<nat>, i: nat, j: nat)
    requires i <= j <= |h|
    ensures 0 <= SumI(h[..i]) <= SumI(h[..j])
  {
    if i < j {
      PrefixSumMonotone(h, i, j - 1);
      assert h[..j][..j - 1] == h[..j - 1];
    } else if i > 0 {
      PrefixSumMonotone(h, i - 1, i);
    }
  }

  /** A sum of counts is zero exactly when every count is. */
  lemma {:induction false} SumZeroIff(h: seq<nat>)
    ensures SumI(h) == 0 <==> forall v :: 0 <= v < |h| ==> h[v] == 0
  {
    if h != [] {
      var front := h[..|h| - 1];
      SumZeroIff(front);
      PrefixSumMonotone(front, 0, |front|);
      assert front[..|front|] == front;
      assert forall v :: 0 <= v < |front| ==> front[v] == h[v];
    }
  }

  lemma DivideMonotone(a: real, b: real, t: real)
    requires 0.0 <= a <= b && t > 0.0
    ensures 0.0 <= a / t <= b / t
  {
    assert b / t - a / t == (b - a) / t;
  }

  lemma AtMostOne(a: real, t: real)
    requires 0.0 <= a <= t && t > 0.0
    ensures a / t <= 1.0
  {
    var q := a / t;
    assert q * t == a;
    assert q * t - t == (q - 1.0) * t;
  }

  /** The running sums of `h` divided by its total. */
  function Shares(h: seq<nat>): (c: seq<real>)
    requires SumI(h) > 0
    ensures |c| == |h|
  {
    seq(|h|, i requires 0 <= i < |h| => SumI(h[..i + 1]) as real / SumI(h) as real)
  }

  /** Two running shares in order. */
  lemma SharesOrdered(h: seq<nat>, i: nat, j: nat)
    requires SumI(h) > 0 && i <= j < |h|
    ensures 0.0 <= Shares(h)[i] <= Shares(h)[j] <= 1.0
  {
    var total, a, b := SumI(h), SumI(h[..i + 1]), SumI(h[..j + 1]);
    assert h[..|h|] == h;
    PrefixSumMonotone(h, i + 1, j + 1);
    PrefixSumMonotone(h, j + 1, |h|);
    assert 0 <= a <= b <= total;
    DivideMonotone(a as real, b as real, total as real);
    AtMostOne(b as real, total as real);
  }

  /** The running shares are nondecreasing, within [0, 1] and end at 1. */
  lemma SharesBounded(h: seq<nat>)
    requires SumI(h) > 0
    ensures var c := Shares(h);
      c[|h| - 1] == 1.0 && forall i, j :: 0 <= i <= j < |h| ==> 0.0 <= c[i] <= c[j] <= 1.0
  {
    var t := SumI(h) as real;
    assert h[..|h|] == h;
    assert Shares(h)[|h| - 1] == t / t;
    SelfQuotient(t);
    forall i, j | 0 <= i <= j < |h|
      ensures 0.0 <= Shares(h)[i] <= Shares(h)[j] <= 1.0
    {
      SharesOrdered(h, i, j);
    }
  }

  /**
   * `np.cumsum(h) / h.sum()` (T35) and `np.cumsum(h / np.sum(h))` (T32),
   * equal on exact reals: nondecreasing, within [0, 1] and ending at 1. An
   * all-zero histogram divides by zero.
   */
  function Cdf(h: seq<nat>): (r: Result<seq<real>>)
    ensures r.Err? <==> forall v :: 0 <= v < |h| ==> h[v] == 0
    ensures r.Err? ==> r.error == ZeroDivision
    ensures r.Ok? ==> |r.value| == |h| && r.value[|h| - 1] == 1.0
    ensures r.Ok? ==> forall i, j :: 0 <= i <= j < |h| ==> 0.0 <= r.value[i] <= r.value[j] <= 1.0
  {
    SumZeroIff(h);
    PrefixSumMonotone(h, 0, |h|);
    assert h[..|h|] == h;
    if SumI(h) == 0 then Err(ZeroDivision)
    else
      SharesBounded(h);
      Ok(Shares(h))
  }

  /** The last index below `j` whose entry is at most `x`, or -1 (numpy's binary search in `interp`). */
  function LastAtMost(xp: seq<real>, x: real, j: nat): (r: int)
    requires j <= |xp|
    ensures -1 <= r < j
    ensures r >= 0 ==> xp[r] <= x
    ensures forall i :: r < i < j ==> xp[i] > x
  {
    if j == 0 then -1
    else if xp[j - 1] <= x then j - 1
    else LastAtMost(xp, x, j - 1)
  }

  lemma SelfQuotient(t: real)
    requires t > 0.0
    ensures t / t == 1.0
  {
    var q := t / t;
    assert q * t == t;
    MulSign(q - 1.0, t);
    MulSign(1.0 - q, t);
    assert (q - 1.0) * t == 0.0;
    assert (1.0 - q) * t == 0.0;
  }

  lemma QuotientBelowOne(a: real, b: real)
    requires 0.0 < a < b
    ensures 0.0 < a / b < 1.0
  {
    var q := a / b;
    assert q * b == a;
    MulSign(q - 1.0, b);
    MulSign(0.0 - q, b);
    assert (q - 1.0) * b == a - b;
    assert (0.0 - q) * b == 0.0 - a;
  }

  /**
   * `np.interp(x, xp, np.arange(len(xp)))`: the position of `x` among the
   * points `xp`, read off linearly between the last point at or below `x`
   * and the next one, and clamped to the first and last position outside.
   */
  function Interp(x: real, xp: seq<real>): (r: real)
    requires |xp| > 0
    ensures 0.0 <= r <= (|xp| - 1) as real
  {
    var last := |xp| - 1;
    if x < xp[0] then 0.0
    else if x > xp[last] then last as real
    else
      var j := LastAtMost(xp, x, |xp|);
      if j == last || xp[j] == x then j as real
      else
        QuotientBelowOne(x - xp[j], xp[j + 1] - xp[j]);
        j as real + (x - xp[j]) / (xp[j + 1] - xp[j])
  }

  /** Inside the points, `interp` lands in `[j, j + 1)` for the last point `j` at or below `x`. */
  lemma InterpBracket(x: real, xp: seq<real>)
    requires |xp| > 0 && xp[0] <= x <= xp[|xp| - 1]
    ensures var j := LastAtMost(xp, x, |xp|);
      0 <= j && j as real <= Interp(x, xp) && (j < |xp| - 1 ==> Interp(x, xp) < j as real + 1.0)
  {
    var j := LastAtMost(xp, x, |xp|);
    if j < |xp| - 1 && xp[j] != x {
      QuotientBelowOne(x - xp[j], xp[j + 1] - xp[j]);
    }
  }

  /** `interp` is monotone in the query, whatever the points. */
  lemma InterpMonotone(x: real, y: real, xp: seq<real>)
    requires |xp| > 0 && x <= y
    ensures Interp(x, xp) <= Interp(y, xp)
  {
    var last := |xp| - 1;
    if xp[0] <= x && y <= xp[last] {
      var jx, jy := LastAtMost(xp, x, |xp|), LastAtMost(xp, y, |xp|);
      InterpBracket(x, xp);
      InterpBracket(y, xp);
      assert jx <= jy;
      if jx == jy && jx < last && xp[jx] != x {
        DivideMonotone(x - xp[jx], y - xp[jx], xp[jx + 1] - xp[jx]);
      }
    }
  }

  /** `astype(np.uint8)` of an interpolated position: truncation, here within 0..255. */
  function ToLevel(r: real): (v: Level)
    requires 0.0 <= r <= 255.0
    ensures v as real <= r < v as real + 1.0
  {
    Trunc(r)
  }

  /** The lookup table: each source level's CDF value, interpolated on the reference CDF. */
  function Lut(cdfSource: seq<real>, cdfReference: seq<real>): (lut: seq<Level>)
    requires |cdfReference| == 256
    ensures |lut| == |cdfSource|
  {
    seq(|cdfSource|, v requires 0 <= v < |cdfSource| => ToLevel(Interp(cdfSource[v], cdfReference)))
  }

  /** A nondecreasing source CDF gives a nondecreasing table. */
  lemma LutMonotone(cdfSource: seq<real>, cdfReference: seq<real>)
    requires |cdfReference| == 256
    requires forall i, j :: 0 <= i <= j < |cdfSource| ==> cdfSource[i] <= cdfSource[j]
    ensures var lut := Lut(cdfSource, cdfReference);
      forall i, j :: 0 <= i <= j < |lut| ==> lut[i] <= lut[j]
  {
    var lut := Lut(cdfSource, cdfReference);
    forall i, j | 0 <= i <= j < |lut|
      ensures lut[i] <= lut[j]
    {
      InterpMonotone(cdfSource[i], cdfSource[j], cdfReference);
    }
  }

  /**
   * The table that maps a channel with histogram `source` onto one with
   * histogram `reference`; either histogram being empty divides by zero.
   */
  function LevelMap(source: seq<nat>, reference: seq<nat>): (r: Result<seq<Level>>)
    requires |source| == 256 && |reference| == 256
    ensures r.Err? ==> r.error == ZeroDivision
    ensures r.Ok? ==> |r.value| == 256
  {
    var cs := Cdf(source);
    var cr := Cdf(reference);
    if cs.Err? then Err(cs.error)
    else if cr.Err? then Err(cr.error)
    else Ok(Lut(cs.value, cr.value))
  }

  /**
   * The table exists exactly when both histograms count some pixel, and then
   * it is nondecreasing.
   */
  lemma LevelMapProperties(source: seq<nat>, reference: seq<nat>)
    requires |source| == 256 && |reference| == 256
    ensures var r := LevelMap(source, reference);
      (r.Ok? <==> SumI(source) > 0 && SumI(reference) > 0) &&
      (r.Ok? ==> forall i, j :: 0 <= i <= j < 256 ==> r.value[i] <= r.value[j])
  {
    SumZeroIff(source);
    SumZeroIff(reference);
    PrefixSumMonotone(source, 0, 256);
    PrefixSumMonotone(reference, 0, 256);
    assert source[..256] == source && reference[..256] == reference;
    var cs := Cdf(source);
    var cr := Cdf(reference);
    if cs.Ok? && cr.Ok? {
      LutMonotone(cs.value, cr.value);
    }
  }

  /** `cv2.LUT(c, lut)`: every pixel replaced by the table entry of its level. */
  function ApplyLut(lut: seq<Level>, c: Channel): (r: Channel)
    requires |lut| == 256
    ensures |r| == |c|
  {
    seq(|c|, k requires 0 <= k < |c| => lut[c[k]])
  }

  /**
   * A pixel's new level depends only on its old one, and a table that is
   * nondecreasing keeps the order of levels between pixels.
   */
  lemma ApplyLutPointwise(lut: seq<Level>, c: Channel)
    requires |lut| == 256
    ensures var r := ApplyLut(lut, c);
      (forall k :: 0 <= k < |c| ==> r[k] == lut[c[k]]) &&
      (forall k, k' :: 0 <= k < |c| && 0 <= k' < |c| && c[k] == c[k'] ==> r[k] == r[k']) &&
      ((forall i, j :: 0 <= i <= j < 256 ==> lut[i] <= lut[j]) ==>
         forall k, k' :: 0 <= k < |c| && 0 <= k' < |c| && c[k] <= c[k'] ==> r[k] <= r[k'])
  {
  }
}

=== FILE: hist_draw.dfy ===
/**
 * Histogram matching restricted to a freehand-drawn region (T32
 * Histogram_Project.py). The user draws strokes on an 800 x 600 canvas; the
 * strokes are scaled into a mask of the image's own size. Processing
 * matches each LAB plane of the image to the same plane of the reference,
 * counting only the masked pixels of the image, and remaps every pixel of
 * the plane through the resulting table. Rasterising the 10-pixel-wide
 * strokes is PIL's and is the parameter `raster`.
 */
module FreehandMatching {
  import opened Common
  import opened HistCore

  const CanvasWidth: nat := 800
  const CanvasHeight: nat := 600

  /** A stroke segment in image coordinates. */
  datatype Segment = Segment(x0: real, y0: real, x1: real, y1: real)

  /** The drawn mask: a blank `L` image of the given size and the strokes drawn into it, in order. */
  datatype Mask = Blank(width: nat, height: nat) | Stroked(base: Mask, segment: Segment)
  {
    function Size(): (nat, nat)
    {
      match this
      case Blank(w, h) => (w, h)
      case Stroked(base, _) => base.Size()
    }
  }

  /**
   * What the tool relies on from PIL: `np.array` of a mask holds one value
   * per pixel of the mask, and a mask no stroke was drawn into is all zero.
   */
  ghost predicate RasterLaw(raster: Mask -> seq<int>)
  {
    (forall m :: |raster(m)| == m.Size().0 * m.Size().1) &&
    (forall w: nat, h: nat :: raster(Blank(w, h)) == seq(w * h, _ => 0))
  }

  /** `v * (imageSide / canvasSide)`: a canvas coordinate in image coordinates. */
  function Scale(v: int, imageSide: nat, canvasSide: nat): real
    requires canvasSide > 0
  {
    v as real * (imageSide as real / canvasSide as real)
  }

  /**
   * The canvas is stretched onto the image: its origin and far edge land on
   * the image's, points in between stay in between, and the order of
   * coordinates is kept.
   */
  lemma ScaleMapsCanvasOntoImage(v: int, w: int, imageSide: nat, canvasSide: nat)
    requires canvasSide > 0
    ensures Scale(0, imageSide, canvasSide) == 0.0
    ensures Scale(canvasSide, imageSide, canvasSide) == imageSide as real
    ensures 0 <= v <= canvasSide ==> 0.0 <= Scale(v, imageSide, canvasSide) <= imageSide as real
    ensures v <= w ==> Scale(v, imageSide, canvasSide) <= Scale(w, imageSide, canvasSide)
  {
    var f := imageSide as real / canvasSide as real;
    assert f * canvasSide as real == imageSide as real;
    assert f >= 0.0;
    assert Scale(w, imageSide, canvasSide) - Scale(v, imageSide, canvasSide) == (w - v) as real * f;
    assert imageSide as real - Scale(v, imageSide, canvasSide) == (canvasSide - v) as real * f;
  }

  /**
   * One plane of `histogram_match`: the table from the histogram of the
   * masked pixels to the histogram of the whole reference plane, applied to
   * every pixel. OpenCV refuses a mask of another size.
   */
  function MatchPlaneMasked(src: Channel, mask: seq<int>, ref: Channel): (r: Result<Channel>)
  {
    if |mask| != |src| then Err(ForeignError("mask size differs from the image"))
    else
      var lut := LevelMap(MaskedHistogram(src, mask), Histogram(ref));
      if lut.Err? then Err(lut.error) else Ok(ApplyLut(lut.value, src))
  }

  /**
   * A plane is matched exactly when the mask fits, selects some pixel and
   * the reference is not empty; a blank mask divides by zero. Then pixels
   * inside and outside the mask alike are remapped by their level alone,
   * keeping the order of levels.
   */
  lemma MatchPlaneMaskedProperties(src: Channel, mask: seq<int>, ref: Channel)
    ensures var r := MatchPlaneMasked(src, mask, ref);
      (r.Ok? <==> |mask| == |src| && (exists k :: 0 <= k < |mask| && mask[k] != 0) && |ref| > 0) &&
      (|mask| == |src| && (forall k :: 0 <= k < |mask| ==> mask[k] == 0) ==> r == Err(ZeroDivision)) &&
      (r.Ok? ==> (|r.value| == |src| &&
        (forall k, k' :: 0 <= k < |src| && 0 <= k' < |src| && src[k] == src[k'] ==> r.value[k] == r.value[k']) &&
        (forall k, k' :: 0 <= k < |src| && 0 <= k' < |src| && src[k] <= src[k'] ==> r.value[k] <= r.value[k'])))
  {
    if |mask| == |src| {
      MaskedHistogramTotal(src, mask);
      HistogramTotal(ref);
      LevelMapProperties(MaskedHistogram(src, mask), Histogram(ref));
      var lut := LevelMap(MaskedHistogram(src, mask), Histogram(ref));
      if lut.Ok? {
        ApplyLutPointwise(lut.value, src);
      }
    }
  }

  /**
   * The LAB image `histogram_match` ends with: each plane matched on its
   * own, the first failing plane (in order) deciding the error.
   */
  function MaskedMatchSpec(lab: Image, refLab: Image, mask: seq<int>): (r: Result<Image>)
  {
    var m0 := MatchPlaneMasked(lab.c0, mask, refLab.c0);
    var m1 := MatchPlaneMasked(lab.c1, mask, refLab.c1);
    var m2 := MatchPlaneMasked(lab.c2, mask, refLab.c2);
    if m0.Err? then Err(m0.error)
    else if m1.Err? then Err(m1.error)
    else if m2.Err? then Err(m2.error)
    else Ok(Image(lab.width, lab.height, m0.value, m1.value, m2.value))
  }

  /** What `histogram_match` returns: the matched LAB image in RGB. */
  function MaskedMatching(source: Image, reference: Image, mask: seq<int>, cv: Converters): Result<Image>
  {
    var spec := MaskedMatchSpec(cv.toLab(source), cv.toLab(reference), mask);
    if spec.Err? then Err(spec.error) else Ok(cv.toRgb(spec.value))
  }

  /**
   * An all-zero mask selects no pixel, so the first plane already fails;
   * with a mask of the plane's size the failure is the zero-total division.
   */
  lemma BlankMaskFails(source: Image, reference: Image, mask: seq<int>, cv: Converters)
    requires forall k :: 0 <= k < |mask| ==> mask[k] == 0
    ensures MaskedMatching(source, reference, mask, cv).Err?
    ensures |mask| == |cv.toLab(source).c0| ==> MaskedMatching(source, reference, mask, cv) == Err(ZeroDivision)
  {
    MatchPlaneMaskedProperties(cv.toLab(source).c0, mask, cv.toLab(reference).c0);
  }

  /**
   * `histogram_match`: the three LAB planes of the image are matched in turn
   * and written back into the image, which is then converted to RGB.
   */
  method HistogramMatch(source: Image, reference: Image, mask: seq<int>, cv: Converters) returns (r: Result<Image>)
    ensures r == MaskedMatching(source, reference, mask, cv)
  {
    var lab := cv.toLab(source);
    var refLab := cv.toLab(reference);
    ghost var original := lab;
    for i := 0 to 3
      invariant lab.width == original.width && lab.height == original.height
      invariant forall j :: 0 <= j < i ==>
                  MatchPlaneMasked(Plane(original, j), mask, Plane(refLab, j)) == Ok(Plane(lab, j))
      invariant forall j :: i <= j < 3 ==> Plane(lab, j) == Plane(original, j)
    {
      var m := MatchPlaneMasked(Plane(lab, i), mask, Plane(refLab, i));
      if m.Err? {
        assert Plane(lab, i) == Plane(original, i);
        assert i > 0 ==> MatchPlaneMasked(Plane(original, 0), mask, Plane(refLab, 0)).Ok?;
        assert i > 1 ==> MatchPlaneMasked(Plane(original, 1), mask, Plane(refLab, 1)).Ok?;
        return Err(m.error);
      }
      lab := WithPlane(lab, i, m.value);
    }
    assert lab == Image(lab.width, lab.height, Plane(lab, 0), Plane(lab, 1), Plane(lab, 2));
    return Ok(cv.toRgb(lab));
  }

  /** The window's state. */
  class FreehandApp {
    var image: Option<Image>
    var reference: Option<Image>
    var drawing: bool
    var mask: Option<Mask>
    var start: Option<(int, int)>
    const cv: Converters
    /** PIL's rasterisation of the strokes: the mask as `np.array` sees it. */
    const raster: Mask -> seq<int>

    /**
     * A loaded image always has a mask of its own size, a stroke in progress
     * has a start point, and the masks rasterise as PIL draws them.
     */
    ghost predicate Valid()
      reads this
    {
      RasterLaw(raster) &&
      (image.Some? ==> mask.Some? && mask.value.Size() == (image.value.width, image.value.height)) &&
      (drawing ==> start.Some?)
    }

    constructor (cv: Converters, raster: Mask -> seq<int>)
      requires RasterLaw(raster)
      ensures Valid() && image.None? && reference.None? && mask.None? && !drawing
      ensures this.cv == cv && this.raster == raster
    {
      image, reference, drawing, mask, start := None, None, false, None, None;
      this.cv, this.raster := cv, raster;
    }

    /** `display_image`: with an image loaded, the mask starts again blank at the image's size. */
    method DisplayImage()
      modifies this`mask
      ensures mask == if image.Some? then Some(Blank(image.value.width, image.value.height)) else old(mask)
    {
      if image.Some? {
        mask := Some(Blank(image.value.width, image.value.height));
      }
    }

    /** `load_image`: `picked` is the chosen file's image, `None` when the dialog is cancelled. */
    method LoadImage(picked: Option<Image>)
      requires Valid()
      modifies this
      ensures Valid()
      ensures image == if picked.Some? then picked else old(image)
      ensures mask == if picked.Some? then Some(Blank(picked.value.width, picked.value.height)) else old(mask)
      ensures reference == old(reference) && drawing == old(drawing) && start == old(start)
    {
      if picked.None? {
        return;
      }
      image := picked;
      DisplayImage();
    }

    /** `load_reference_image`. */
    method LoadReferenceImage(picked: Option<Image>)
      requires Valid()
      modifies this
      ensures Valid()
      ensures reference == if picked.Some? then picked else old(reference)
      ensures image == old(image) && mask == old(mask) && drawing == old(drawing) && start == old(start)
    {
      if picked.Some? {
        reference := picked;
      }
    }

    /** `start_draw`. */
    method StartDraw(x: int, y: int)
      requires Valid()
      modifies this
      ensures Valid() && drawing && start == Some((x, y))
      ensures image == old(image) && reference == old(reference) && mask == old(mask)
    {
      drawing := true;
      start := Some((x, y));
    }

    /**
     * `draw`: while drawing on a loaded image, the segment from the last
     * point to `(x, y)` is scaled from the canvas to the image and drawn
     * into the mask, and `(x, y)` becomes the last point.
     */
    method Draw(x: int, y: int)
      requires Valid()
      modifies this
      ensures Valid()
      ensures image == old(image) && reference == old(reference) && drawing == old(drawing)
      ensures old(drawing && image.Some?) ==>
                var w, h := image.value.width, image.value.height;
                var (sx, sy) := old(start.value);
                mask == Some(Stroked(old(mask.value), Segment(Scale(sx, w, CanvasWidth), Scale(sy, h, CanvasHeight),
                                                              Scale(x, w, CanvasWidth), Scale(y, h, CanvasHeight)))) &&
                start == Some((x, y))
      ensures !old(drawing && image.Some?) ==> mask == old(mask) && start == old(start)
    {
      if drawing && image.Some? {
        var w, h := image.value.width, image.value.height;
        var (sx, sy) := start.value;
        var segment := Segment(Scale(sx, w, CanvasWidth), Scale(sy, h, CanvasHeight),
                               Scale(x, w, CanvasWidth), Scale(y, h, CanvasHeight));
        mask := Some(Stroked(mask.value, segment));
        start := Some((x, y));
      }
    }

    /** `end_draw`. */
    method EndDraw()
      requires Valid()
      modifies this
      ensures Valid() && !drawing
      ensures image == old(image) && reference == old(reference) && mask == old(mask) && start == old(start)
    {
      drawing := false;
    }

    /** `clear_drawing`: the strokes are dropped by starting a blank mask. */
    method ClearDrawing()
      requires Valid()
      modifies this
      ensures Valid()
      ensures mask == if image.Some? then Some(Blank(image.value.width, image.value.height)) else old(mask)
      ensures image == old(image) && reference == old(reference) && drawing == old(drawing) && start == old(start)
    {
      DisplayImage();
    }

    /**
     * `process_image`: does nothing (`None`) unless an image, a reference and
     * a mask exist; then the reference is resized to the image, and the
     * masked match replaces the image and resets the mask to blank. A blank
     * mask leaves an empty histogram, which numpy divides by its zero total
     * into NaNs; that division is an error value here, and it changes nothing.
     * The error is the division itself whenever OpenCV's LAB conversion keeps
     * the image's pixel count.
     */
    method ProcessImage() returns (r: Option<Result<Image>>)
      requires Valid()
      modifies this
      ensures Valid()
      ensures reference == old(reference) && drawing == old(drawing) && start == old(start)
      ensures r.None? <==> !old(image.Some? && reference.Some? && mask.Some?)
      ensures r.Some? ==>
                var img := old(image.value);
                r.value == MaskedMatching(img, cv.resize(old(reference.value), img.width, img.height),
                                          raster(old(mask.value)), cv)
      ensures r.Some? && r.value.Ok? ==>
                image == Some(r.value.value) && mask == Some(Blank(r.value.value.width, r.value.value.height))
      ensures r.None? || r.value.Err? ==> image == old(image) && mask == old(mask)
      ensures old(image.Some? && reference.Some? && mask.Some? && mask.value.Blank?) ==> r.Some? && r.value.Err?
      ensures old(image.Some? && reference.Some? && mask.Some? && mask.value.Blank?) &&
              |cv.toLab(old(image.value)).c0| == old(image.value.width * image.value.height) ==>
                r == Some(Err(ZeroDivision))
    {
      if image.None? || reference.None? || mask.None? {
        return None;
      }
      var img := image.value;
      var ref := cv.resize(reference.value, img.width, img.height);
      if mask.value.Blank? {
        var m := raster(mask.value);
        assert m == seq(img.width * img.height, _ => 0);
        BlankMaskFails(img, ref, m, cv);
      }
      var matched := HistogramMatch(img, ref, raster(mask.value), cv);
      if matched.Ok? {
        image := Some(matched.value);
        DisplayImage();
      }
      return Some(matched);
    }
  }
}

=== FILE: hist_gui.dfy ===
/**
 * The histogram-matching window of T35 (Histogram_Matching_GUI.py): the
 * source and reference images are converted to LAB, the luminance plane of
 * the source is mapped through the lookup table that matches its histogram
 * to the reference's, and the colour planes are kept.
 */
module HistogramGui {
  import opened Common
  import opened HistCore

  /** `match_histograms`: one channel matched to another. */
  function MatchHistograms(src: Channel, tgt: Channel): (r: Result<Channel>)
  {
    var lut := LevelMap(Histogram(src), Histogram(tgt));
    if lut.Err? then Err(lut.error) else Ok(ApplyLut(lut.value, src))
  }

  /**
   * Matching fails (divides by zero) exactly when a channel is empty;
   * otherwise every pixel is remapped by its level alone, and brighter
   * source pixels never come out darker.
   */
  lemma MatchHistogramsProperties(src: Channel, tgt: Channel)
    ensures var r := MatchHistograms(src, tgt);
      (r.Ok? <==> |src| > 0 && |tgt| > 0) &&
      (r.Err? ==> r.error == ZeroDivision) &&
      (r.Ok? ==> (|r.value| == |src| &&
        (forall k, k' :: 0 <= k < |src| && 0 <= k' < |src| && src[k] == src[k'] ==> r.value[k] == r.value[k']) &&
        (forall k, k' :: 0 <= k < |src| && 0 <= k' < |src| && src[k] <= src[k'] ==> r.value[k] <= r.value[k'])))
  {
    HistogramTotal(src);
    HistogramTotal(tgt);
    LevelMapProperties(Histogram(src), Histogram(tgt));
    var lut := LevelMap(Histogram(src), Histogram(tgt));
    if lut.Ok? {
      ApplyLutPointwise(lut.value, src);
    }
  }

  /** The LAB image `histogram_matching` merges before converting back to RGB. */
  function MatchedLab(source: Image, target: Image, cv: Converters): (r: Result<Image>)
  {
    var s := cv.toLab(source);
    var l := MatchHistograms(s.c0, cv.toLab(target).c0);
    if l.Err? then Err(l.error) else Ok(s.(c0 := l.value))
  }

  /** `histogram_matching`: the matched LAB image in RGB. */
  function HistogramMatching(source: Image, target: Image, cv: Converters): (r: Result<Image>)
  {
    var lab := MatchedLab(source, target, cv);
    if lab.Err? then Err(lab.error) else Ok(cv.toRgb(lab.value))
  }

  /**
   * Only the luminance plane is remapped: the size and both colour planes
   * of the source's LAB image are carried over, and the new luminance is the
   * source luminance matched to the reference luminance.
   */
  lemma OnlyLuminanceRemapped(source: Image, target: Image, cv: Converters)
    ensures var s, t := cv.toLab(source), cv.toLab(target);
      var r := HistogramMatching(source, target, cv);
      (r.Ok? <==> |s.c0| > 0 && |t.c0| > 0) &&
      (r.Ok? ==> exists lab :: MatchedLab(source, target, cv) == Ok(lab) && r.value == cv.toRgb(lab) &&
                   lab.width == s.width && lab.height == s.height && lab.c1 == s.c1 && lab.c2 == s.c2 &&
                   MatchHistograms(s.c0, t.c0) == Ok(lab.c0))
  {
    var s, t := cv.toLab(source), cv.toLab(target);
    MatchHistogramsProperties(s.c0, t.c0);
    var lab := MatchedLab(source, target, cv);
    if lab.Ok? {
      assert lab.value.c1 == s.c1;
    }
  }

  /** The window's state: the images loaded so far and the last result. */
  class HistogramMatchingApp {
    var sourceImage: Option<Image>
    var targetImage: Option<Image>
    var resultImage: Option<Image>
    const cv: Converters

    constructor (cv: Converters)
      ensures sourceImage.None? && targetImage.None? && resultImage.None? && this.cv == cv
    {
      sourceImage, targetImage, resultImage := None, None, None;
      this.cv := cv;
    }

    /** `load_source_image`: `picked` is the image read from the chosen file, `None` when the dialog is cancelled. */
    method LoadSourceImage(picked: Option<Image>)
      modifies this
      ensures sourceImage == if picked.Some? then picked else old(sourceImage)
      ensures targetImage == old(targetImage) && resultImage == old(resultImage)
    {
      if picked.Some? {
        sourceImage := picked;
      }
    }

    /** `load_target_image`, likewise for the reference image. */
    method LoadTargetImage(picked: Option<Image>)
      modifies this
      ensures targetImage == if picked.Some? then picked else old(targetImage)
      ensures sourceImage == old(sourceImage) && resultImage == old(resultImage)
    {
      if picked.Some? {
        targetImage := picked;
      }
    }

    /**
     * `apply_histogram_matching`: refused (with an error dialog) unless both
     * images are loaded; otherwise the reference is resized to the source's
     * width and height and the matched image becomes the result. The loaded
     * images never change.
     */
    method ApplyHistogramMatching() returns (r: Result<Image>)
      modifies this
      ensures sourceImage == old(sourceImage) && targetImage == old(targetImage)
      ensures sourceImage.None? || targetImage.None? ==>
                r == Err(ValueError("Load both Original and Reference images!")) && resultImage == old(resultImage)
      ensures sourceImage.Some? && targetImage.Some? ==>
                var src := sourceImage.value;
                r == HistogramMatching(src, cv.resize(targetImage.value, src.width, src.height), cv) &&
                resultImage == if r.Ok? then Some(r.value) else old(resultImage)
    {
      if sourceImage.None? || targetImage.None? {
        return Err(ValueError("Load both Original and Reference images!"));
      }
      var src := sourceImage.value;
      var resized := cv.resize(targetImage.value, src.width, src.height);
      r := HistogramMatching(src, resized, cv);
      if r.Ok? {
        resultImage := Some(r.value);
      }
    }
  }
}

=== FILE: image_filters.dfy ===
/**
 * The filter functions of the filters tool (T27 filters.py).
 *
 * Images are symbolic: a picture records the PIL operations that produced it
 * and keeps the size of the loaded image, so only what the module decides
 * itself is modelled: which filters leave the image alone at intensity 0,
 * which factor the enhancers get, the sepia pixel map, the vignette mask and
 * the number of watercolor smoothing passes. Square roots are taken through a
 * parameter that behaves as the real square root.
 */
module ImageFilters {
  import opened Common
  import opened Sepia

  datatype Enhancer = BrightnessEnhancer | ContrastEnhancer | ColorEnhancer

  /** An image, by the PIL operations that produced it. */
  datatype Picture =
    | Loaded(id: nat, width: nat, height: nat)
    | Gray(source: Picture)
    | SepiaImage(source: Picture)
    | Blend(first: Picture, second: Picture, alpha: real)
    | GaussianBlur(source: Picture, radius: real)
    | UnsharpMask(source: Picture, maskRadius: int, percent: int, threshold: int)
    | Enhanced(enhancer: Enhancer, source: Picture, factor: real)
    | Vignetted(source: Picture, intensity: real)
    | Edges(source: Picture)
    | Embossed(source: Picture)
    | Contoured(source: Picture)
    | Inverted(source: Picture)
    | SmoothedMore(source: Picture)

  /** Every operation keeps the size of its (first) source. */
  function Size(p: Picture): (nat, nat)
  {
    match p
    case Loaded(_, w, h) => (w, h)
    case Gray(s) => Size(s)
    case SepiaImage(s) => Size(s)
    case Blend(a, _, _) => Size(a)
    case GaussianBlur(s, _) => Size(s)
    case UnsharpMask(s, _, _, _) => Size(s)
    case Enhanced(_, s, _) => Size(s)
    case Vignetted(s, _) => Size(s)
    case Edges(s) => Size(s)
    case Embossed(s) => Size(s)
    case Contoured(s) => Size(s)
    case Inverted(s) => Size(s)
    case SmoothedMore(s) => Size(s)
  }

  /** The filters of the tool's dropdown, one per `apply_*`/`adjust_*` function. */
  datatype FilterKind =
    | GrayscaleFilter | SepiaFilter | BlurFilter | SharpenFilter
    | BrightnessFilter | ContrastFilter | SaturationFilter
    | VignetteFilter | EdgeFilter | EmbossFilter | ArtisticFilter

  /** `sepia_data`: the sepia tone of every pixel of `getdata()`, in order. */
  function SepiaData(data: seq<Rgb>): (r: seq<Rgb>)
    ensures |r| == |data|
    ensures forall i :: 0 <= i < |data| ==> r[i] == SepiaTone(data[i])
  {
    seq(|data|, i requires 0 <= i < |data| => SepiaTone(data[i]))
  }

  /** 8-bit pixels give 8-bit sepia data. */
  lemma SepiaDataIsByte(data: seq<Rgb>)
    requires forall i :: 0 <= i < |data| ==> IsByte(data[i].r) && IsByte(data[i].g) && IsByte(data[i].b)
    ensures forall i :: 0 <= i < |data| ==>
              IsByte(SepiaData(data)[i].r) && IsByte(SepiaData(data)[i].g) && IsByte(SepiaData(data)[i].b)
  {
    forall i | 0 <= i < |data|
      ensures IsByte(SepiaData(data)[i].r) && IsByte(SepiaData(data)[i].g) && IsByte(SepiaData(data)[i].b)
    {
      SepiaToneIsByte(data[i]);
    }
  }

  /** `max_radius == 0` with a pixel to draw: only a 1×1 image makes the mask divide by zero. */
  predicate VignetteFails(width: nat, height: nat)
  {
    width > 0 && height > 0 && width / 2 == 0 && height / 2 == 0
  }

  lemma VignetteFailsOnSinglePixel(width: nat, height: nat)
    ensures VignetteFails(width, height) <==> width == 1 && height == 1
  {
  }

  /** `factor = 1 - intensity * (distance / max_radius)`, clamped to [0, 1], times 255, truncated. */
  function MaskValue(intensity: real, distance: real, maxRadius: real): (v: int)
    requires maxRadius != 0.0
    ensures 0 <= v <= 255
    ensures distance == 0.0 ==> v == 255
  {
    MaskOfFactor(Factor(intensity, distance, maxRadius))
  }

  function Factor(intensity: real, distance: real, maxRadius: real): (f: real)
    requires maxRadius != 0.0
    ensures distance == 0.0 ==> f == 1.0
  {
    1.0 - intensity * (distance / maxRadius)
  }

  function MaskOfFactor(factor: real): (v: int)
    ensures 0 <= v <= 255
    ensures factor == 1.0 ==> v == 255
  {
    Trunc(255.0 * UnitClamp(factor))
  }

  /** `max(0, min(1, factor))`. */
  function UnitClamp(factor: real): (r: real)
    ensures 0.0 <= r <= 1.0
    ensures 0.0 <= factor <= 1.0 ==> r == factor
  {
    MaxR(0.0, MinR(1.0, factor))
  }

  lemma TruncMonotone(a: real, b: real)
    requires 0.0 <= a <= b
    ensures Trunc(a) <= Trunc(b)
  {
  }

  lemma FactorMonotone(intensity: real, d1: real, d2: real, maxRadius: real)
    requires intensity >= 0.0 && d1 <= d2 && maxRadius > 0.0
    ensures Factor(intensity, d2, maxRadius) <= Factor(intensity, d1, maxRadius)
  {
    assert d1 / maxRadius <= d2 / maxRadius;
  }

  lemma MaskOfFactorMonotone(f1: real, f2: real)
    requires f2 <= f1
    ensures MaskOfFactor(f2) <= MaskOfFactor(f1)
  {
    TruncMonotone(255.0 * UnitClamp(f2), 255.0 * UnitClamp(f1));
  }

  /** With a non-negative intensity the mask only darkens as the distance from the centre grows. */
  lemma MaskDarkensOutward(intensity: real, d1: real, d2: real, maxRadius: real)
    requires intensity >= 0.0 && d1 <= d2 && maxRadius > 0.0
    ensures MaskValue(intensity, d2, maxRadius) <= MaskValue(intensity, d1, maxRadius)
  {
    FactorMonotone(intensity, d1, d2, maxRadius);
    MaskOfFactorMonotone(Factor(intensity, d1, maxRadius), Factor(intensity, d2, maxRadius));
  }

  /** `root` is the square root on the non-negative reals. */
  ghost predicate IsSqrt(root: real -> real)
  {
    forall x :: 0.0 <= x ==> 0.0 <= root(x) && root(x) * root(x) == x && (0.0 < x <==> 0.0 < root(x))
  }

  lemma SqrtZero(root: real -> real, x: real)
    requires IsSqrt(root) && 0.0 <= x
    ensures root(x) == 0.0 <==> x == 0.0
  {
    assert 0.0 < x <==> 0.0 < root(x);
  }

  function Square(n: int): (r: int)
    ensures r >= 0
    ensures n != 0 ==> r > 0
  {
    n * n
  }

  /** `sqrt(x_center**2 + y_center**2)`. */
  function MaxRadius(width: nat, height: nat, root: real -> real): real
  {
    root((Square(width / 2) + Square(height / 2)) as real)
  }

  /** The mask value the loop draws at `(x, y)`. */
  function MaskAt(width: nat, height: nat, intensity: real, root: real -> real, x: int, y: int): (v: int)
    requires IsSqrt(root) && !VignetteFails(width, height) && 0 <= x < width && 0 <= y < height
    ensures 0 <= v <= 255
  {
    var q := Square(width / 2) + Square(height / 2);
    SqrtZero(root, q as real);
    var distance := root((Square(x - width / 2) + Square(y - height / 2)) as real);
    MaskValue(intensity, distance, MaxRadius(width, height, root))
  }

  /** The centre pixel `(width // 2, height // 2)` of the mask is fully opaque. */
  lemma MaskCentreIsOpaque(width: nat, height: nat, intensity: real, root: real -> real)
    requires IsSqrt(root) && !VignetteFails(width, height) && width > 0 && height > 0
    ensures MaskAt(width, height, intensity, root, width / 2, height / 2) == 255
  {
    SqrtZero(root, 0.0);
    assert Square(width / 2 - width / 2) + Square(height / 2 - height / 2) == 0;
  }

  /**
   * `apply_vignette`'s mask loop: the mask starts white and every pixel,
   * row by row, gets its mask value; on a 1×1 image the first division by
   * `max_radius` fails. Blurring the mask and compositing are symbolic.
   */
  method VignetteMask(width: nat, height: nat, intensity: real, root: real -> real) returns (r: Result<array2<int>>)
    requires IsSqrt(root)
    ensures r.Err? <==> VignetteFails(width, height)
    ensures r.Err? ==> r.error == ZeroDivision
    ensures r.Ok? ==> fresh(r.value) && r.value.Length0 == width && r.value.Length1 == height
    ensures r.Ok? ==> forall x, y :: 0 <= x < width && 0 <= y < height ==>
                        r.value[x, y] == MaskAt(width, height, intensity, root, x, y)
  {
    var maxRadius := MaxRadius(width, height, root);
    SqrtZero(root, (Square(width / 2) + Square(height / 2)) as real);
    var mask := new int[width, height]((x, y) => 255);
    if width > 0 && height > 0 && maxRadius == 0.0 {
      // the division at the first pixel
      return Err(ZeroDivision);
    }
    var y := 0;
    while y < height
      invariant 0 <= y <= height
      invariant forall i, j :: 0 <= i < width && 0 <= j < y ==> mask[i, j] == MaskAt(width, height, intensity, root, i, j)
    {
      DrawMaskRow(mask, y, intensity, root);
      y := y + 1;
    }
    return Ok(mask);
  }

  /** The inner loop of the mask: row `y`, left to right. */
  method DrawMaskRow(mask: array2<int>, y: nat, intensity: real, root: real -> real)
    requires IsSqrt(root) && !VignetteFails(mask.Length0, mask.Length1) && y < mask.Length1
    modifies mask
    ensures forall i, j :: 0 <= i < mask.Length0 && 0 <= j < mask.Length1 ==>
              mask[i, j] == if j == y then MaskAt(mask.Length0, mask.Length1, intensity, root, i, j) else old(mask[i, j])
  {
    var width, height := mask.Length0, mask.Length1;
    var maxRadius := MaxRadius(width, height, root);
    var x := 0;
    while x < width
      invariant 0 <= x <= width
      invariant forall i, j :: 0 <= i < width && 0 <= j < height ==>
                  mask[i, j] == if j == y && i < x then MaskAt(width, height, intensity, root, i, j) else old(mask[i, j])
    {
      var distance := root((Square(x - width / 2) + Square(y - height / 2)) as real);
      mask[x, y] := MaskValue(intensity, distance, maxRadius);
      x := x + 1;
    }
  }

  /** `apply_vignette` on a picture: a no-op at intensity 0, a division by zero on a 1×1 image. */
  function ApplyVignette(p: Picture, intensity: real): (r: Result<Picture>)
    ensures intensity <= 0.0 ==> r == Ok(p)
    ensures intensity > 0.0 ==> (r.Err? <==> VignetteFails(Size(p).0, Size(p).1))
  {
    if intensity <= 0.0 then Ok(p)
    else if VignetteFails(Size(p).0, Size(p).1) then Err(ZeroDivision)
    else Ok(Vignetted(p, intensity))
  }

  /** `intensity if intensity > 0 else 1`. */
  function EnhanceFactor(intensity: real): (f: real)
    ensures f > 0.0
    ensures intensity > 0.0 ==> f == intensity
  {
    if intensity > 0.0 then intensity else 1.0
  }

  /** The dropdown filter `kind` at `intensity`, as the matching function of filters.py computes it. */
  function ApplyFilter(kind: FilterKind, p: Picture, intensity: real): (r: Result<Picture>)
  {
    match kind
    case GrayscaleFilter =>
      Ok(if intensity <= 0.0 then p else if intensity < 1.0 then Blend(p, Gray(p), intensity) else Gray(p))
    case SepiaFilter => Ok(if intensity <= 0.0 then p else Blend(p, SepiaImage(p), intensity))
    case BlurFilter => Ok(if intensity <= 0.0 then p else GaussianBlur(p, intensity * 10.0))
    case SharpenFilter => Ok(if intensity <= 0.0 then p else UnsharpMask(p, 2, Trunc(50.0 + intensity * 100.0), 3))
    case BrightnessFilter => Ok(Enhanced(BrightnessEnhancer, p, EnhanceFactor(intensity)))
    case ContrastFilter => Ok(Enhanced(ContrastEnhancer, p, EnhanceFactor(intensity)))
    case SaturationFilter => Ok(Enhanced(ColorEnhancer, p, EnhanceFactor(intensity)))
    case VignetteFilter => ApplyVignette(p, intensity)
    case EdgeFilter => Ok(if intensity <= 0.0 then p else Blend(p, Edges(p), intensity))
    case EmbossFilter => Ok(if intensity <= 0.0 then p else Blend(p, Embossed(p), intensity))
    case ArtisticFilter => Ok(if intensity <= 0.0 then p else Blend(p, Contoured(p), intensity))
  }

  predicate IsEnhancer(kind: FilterKind)
  {
    kind.BrightnessFilter? || kind.ContrastFilter? || kind.SaturationFilter?
  }

  /**
   * The intensity guards: at intensity 0 or below every filter except the
   * three enhancers returns its input unchanged, and the enhancers run with
   * the neutral factor 1 instead.
   */
  lemma FilterGuards(kind: FilterKind, p: Picture, intensity: real)
    requires intensity <= 0.0
    ensures !IsEnhancer(kind) ==> ApplyFilter(kind, p, intensity) == Ok(p)
    ensures IsEnhancer(kind) ==>
              (ApplyFilter(kind, p, intensity).Ok? && ApplyFilter(kind, p, intensity).value.Enhanced? &&
               ApplyFilter(kind, p, intensity).value.factor == 1.0)
  {
  }

  /** Grayscale at intensity 1 or more is the pure grayscale image; below 1 it blends towards it. */
  lemma GrayscaleBlends(p: Picture, intensity: real)
    ensures intensity >= 1.0 ==> ApplyFilter(GrayscaleFilter, p, intensity) == Ok(Gray(p))
    ensures 0.0 < intensity < 1.0 ==> ApplyFilter(GrayscaleFilter, p, intensity) == Ok(Blend(p, Gray(p), intensity))
  {
  }

  /**
   * Every filter keeps the image's size, and the only one that can fail is
   * the vignette, on a 1×1 image at a positive intensity.
   */
  lemma FilterKeepsSize(kind: FilterKind, p: Picture, intensity: real)
    ensures ApplyFilter(kind, p, intensity).Err? <==>
              kind == VignetteFilter && intensity > 0.0 && VignetteFails(Size(p).0, Size(p).1)
    ensures ApplyFilter(kind, p, intensity).Ok? ==> Size(ApplyFilter(kind, p, intensity).value) == Size(p)
  {
  }

  /** The four effects offered as buttons below the image. */
  datatype Predefined = PolaroidEffect | InvertColors | OilPainting | WatercolorEffect

  /** `int(1 + intensity * 0.2)`. */
  function WatercolorPasses(intensity: real): (n: int)
    ensures intensity >= 0.0 ==> n >= 1
    ensures 0.0 <= intensity < 5.0 ==> n == 1
  {
    Trunc(1.0 + intensity * 0.2)
  }

  /** `n` rounds of `SMOOTH_MORE`. */
  function SmoothTimes(p: Picture, n: nat): Picture
  {
    if n == 0 then p else SmoothedMore(SmoothTimes(p, n - 1))
  }

  /** What `apply_watercolor_effect` returns: the smoothing passes, then a blur of `intensity * 0.2`. */
  function WatercolorImage(p: Picture, intensity: real): Picture
  {
    GaussianBlur(SmoothTimes(p, Max(0, WatercolorPasses(intensity))), intensity * 0.2)
  }

  /** `apply_watercolor_effect`'s smoothing loop. */
  method Watercolor(image: Picture, intensity: real) returns (r: Picture)
    ensures r == WatercolorImage(image, intensity)
  {
    var passes := WatercolorPasses(intensity);
    var smoothed := image;
    var k := 0;
    while k < passes
      invariant 0 <= k <= Max(0, passes)
      invariant smoothed == SmoothTimes(image, k)
    {
      smoothed := SmoothedMore(smoothed);
      k := k + 1;
    }
    r := GaussianBlur(smoothed, intensity * 0.2);
  }

  /** The predefined effects at `intensity`; the tool calls them with the default 1.0. */
  function PredefinedImage(effect: Predefined, p: Picture, intensity: real): Picture
  {
    match effect
    case PolaroidEffect =>
      GaussianBlur(Enhanced(ColorEnhancer, Enhanced(BrightnessEnhancer, p, 1.2 + intensity * 0.1), 1.3 + intensity * 0.1), intensity)
    case InvertColors => Inverted(p)
    case OilPainting =>
      var enhanced := Enhanced(ContrastEnhancer, GaussianBlur(p, 0.1 * intensity), 2.1);
      Blend(enhanced, Embossed(enhanced), 0.4)
    case WatercolorEffect => WatercolorImage(p, intensity)
  }

  /** Calls the predefined effect's function; only the watercolor one runs a loop. */
  method ApplyPredefined(effect: Predefined, p: Picture, intensity: real) returns (r: Picture)
    ensures r == PredefinedImage(effect, p, intensity)
  {
    if effect == WatercolorEffect {
      r := Watercolor(p, intensity);
    } else {
      r := PredefinedImage(effect, p, intensity);
    }
  }

  lemma {:induction false} SmoothKeepsSize(p: Picture, n: nat)
    ensures Size(SmoothTimes(p, n)) == Size(p)
  {
    if n > 0 {
      SmoothKeepsSize(p, n - 1);
    }
  }

  /** Every effect keeps the size, and at the default intensity the watercolor effect smooths exactly once. */
  lemma PredefinedKeepsSize(effect: Predefined, p: Picture, intensity: real)
    ensures Size(PredefinedImage(effect, p, intensity)) == Size(p)
    ensures PredefinedImage(WatercolorEffect, p, 1.0) == GaussianBlur(SmoothedMore(p), 0.2)
  {
    SmoothKeepsSize(p, Max(0, WatercolorPasses(intensity)));
    match effect {
      case PolaroidEffect =>
        assert Size(Enhanced(BrightnessEnhancer, p, 1.2 + intensity * 0.1)) == Size(p);
      case InvertColors =>
      case OilPainting =>
        assert Size(GaussianBlur(p, 0.1 * intensity)) == Size(p);
      case WatercolorEffect =>
        assert Size(PredefinedImage(effect, p, intensity)) == Size(SmoothTimes(p, Max(0, WatercolorPasses(intensity))));
    }
    assert WatercolorPasses(1.0) == 1;
    assert SmoothTimes(p, 1) == SmoothedMore(SmoothTimes(p, 0)) == SmoothedMore(p);
  }
}

=== FILE: morph_match.dfy ===
/**
 * The morphological matching tool (T24): a base image and a list of
 * uploaded images are turned into binary masks (grey scale, then strictly
 * above the Otsu threshold), skeletonised, and each upload is scored by the
 * Jaccard index |A ∧ B| / |A ∨ B| of its skeleton with the base's. The
 * uploads are shown in a grid four columns wide.
 *
 * `rgb2gray`, Otsu's threshold, `transform.resize` and `skeletonize` are
 * foreign; they are parameters, with only the sizes the script relies on.
 */
module MorphologicalMatching {
  import opened Common

  /** A decoded image: its shape (two dimensions for grey, three for colour) and its samples. */
  datatype Picture = Picture(shape: seq<nat>, samples: seq<real>)

  /** The pixels of a binary image, flattened row by row. */
  type Mask = seq<bool>

  /** A binary image: its (rows, columns) shape and its pixels. */
  datatype BinaryImage = BinaryImage(shape: (nat, nat), mask: Mask)

  /** The pixels fill the shape. */
  predicate Shaped(b: BinaryImage)
  {
    |b.mask| == b.shape.0 * b.shape.1
  }

  /**
   * `toGrayScale`: `rgb2gray` of a three-dimensional image; for any other
   * image the function falls off its end and returns None.
   */
  function ToGrayScale(image: Picture, rgb2gray: Picture -> seq<real>): (r: Option<seq<real>>)
    ensures r.Some? <==> |image.shape| == 3
  {
    if |image.shape| == 3 then Some(rgb2gray(image)) else None
  }

  /** `toBinary`: a pixel is foreground exactly when it is strictly above the threshold. */
  function ToBinary(gray: seq<real>, threshold: real): (r: Mask)
    ensures |r| == |gray|
  {
    seq(|gray|, i requires 0 <= i < |gray| => gray[i] > threshold)
  }

  /** A pixel equal to the threshold is background, and raising the threshold only removes foreground. */
  lemma BinaryStrict(gray: seq<real>, low: real, high: real)
    requires low <= high
    ensures forall i :: 0 <= i < |gray| && gray[i] == low ==> !ToBinary(gray, low)[i]
    ensures forall i :: 0 <= i < |gray| && ToBinary(gray, high)[i] ==> ToBinary(gray, low)[i]
    ensures forall i :: 0 <= i < |gray| ==> (ToBinary(gray, low)[i] <==> gray[i] > low)
  {
  }

  /** `np.sum` of a boolean array: the number of foreground pixels. */
  function Count(m: Mask): (r: nat)
    ensures r <= |m|
  {
    if m == [] then 0 else Count(m[..|m| - 1]) + (if m[|m| - 1] then 1 else 0)
  }

  /** `np.logical_and` of two masks of one shape. */
  function And(a: Mask, b: Mask): (r: Mask)
    requires |a| == |b|
    ensures |r| == |a|
  {
    seq(|a|, i requires 0 <= i < |a| => a[i] && b[i])
  }

  /** `np.logical_or` of two masks of one shape. */
  function Or(a: Mask, b: Mask): (r: Mask)
    requires |a| == |b|
    ensures |r| == |a|
  {
    seq(|a|, i requires 0 <= i < |a| => a[i] || b[i])
  }

  /**
   * The Jaccard similarity `np.sum(intersection) / np.sum(union)`. Two
   * masks with no foreground at all divide 0 by 0, which numpy answers
   * with NaN (a warning, not an exception); None stands for that NaN.
   */
  function Jaccard(a: Mask, b: Mask): Option<real>
    requires |a| == |b|
  {
    var union := Count(Or(a, b));
    if union == 0 then None else Some(Count(And(a, b)) as real / union as real)
  }

  /** Counting respects pointwise implication. */
  lemma {:induction false} CountMonotone(x: Mask, y: Mask)
    requires |x| == |y| && forall i :: 0 <= i < |x| ==> (x[i] ==> y[i])
    ensures Count(x) <= Count(y)
    ensures Count(x) == Count(y) ==> x == y
  {
    if x != [] {
      var n := |x| - 1;
      CountMonotone(x[..n], y[..n]);
      if Count(x) == Count(y) {
        assert x[..n] == y[..n];
        assert x == x[..n] + [x[n]] && y == y[..n] + [y[n]];
      }
    }
  }

  /** A mask has no foreground exactly when its count is zero. */
  lemma {:induction false} CountZero(m: Mask)
    ensures Count(m) == 0 <==> forall i :: 0 <= i < |m| ==> !m[i]
  {
    if m != [] {
      CountZero(m[..|m| - 1]);
      assert forall i :: 0 <= i < |m| - 1 ==> m[..|m| - 1][i] == m[i];
    }
  }

  /** Inclusion–exclusion: |A| + |B| = |A ∧ B| + |A ∨ B|. */
  lemma {:induction false} InclusionExclusion(a: Mask, b: Mask)
    requires |a| == |b|
    ensures Count(a) + Count(b) == Count(And(a, b)) + Count(Or(a, b))
  {
    if a != [] {
      var n := |a| - 1;
      InclusionExclusion(a[..n], b[..n]);
      assert And(a, b)[..n] == And(a[..n], b[..n]);
      assert Or(a, b)[..n] == Or(a[..n], b[..n]);
    }
  }

  /** The similarity is NaN exactly when neither mask has a foreground pixel. */
  lemma JaccardNaN(a: Mask, b: Mask)
    requires |a| == |b|
    ensures Jaccard(a, b).None? <==> forall i :: 0 <= i < |a| ==> !a[i] && !b[i]
  {
    var union := Or(a, b);
    CountZero(union);
    assert forall i :: 0 <= i < |a| ==> union[i] == (a[i] || b[i]);
  }

  /** A defined similarity lies in [0, 1]. */
  lemma JaccardRange(a: Mask, b: Mask)
    requires |a| == |b|
    ensures Jaccard(a, b).Some? ==> 0.0 <= Jaccard(a, b).value <= 1.0
  {
    var i, u := Count(And(a, b)), Count(Or(a, b));
    CountMonotone(And(a, b), Or(a, b));
    if u > 0 {
      RatioInUnit(i, u);
    }
  }

  lemma RatioInUnit(i: nat, u: nat)
    requires 0 < u && i <= u
    ensures 0.0 <= i as real / u as real <= 1.0
    ensures i as real / u as real == 1.0 ==> i == u
  {
    var q := i as real / u as real;
    assert q * u as real == i as real;
    MulSign(q, u as real);
    MulSign(0.0 - q, u as real);
    MulSign(q - 1.0, u as real);
    MulSign(1.0 - q, u as real);
  }

  lemma SelfRatio(u: nat)
    requires 0 < u
    ensures u as real / u as real == 1.0
  {
    var q := u as real / u as real;
    assert q * u as real == u as real;
    MulSign(q - 1.0, u as real);
    MulSign(1.0 - q, u as real);
  }

  /** The similarity is 1 exactly when the masks are equal and not empty. */
  lemma JaccardOne(a: Mask, b: Mask)
    requires |a| == |b|
    ensures Jaccard(a, b) == Some(1.0) <==> a == b && exists i :: 0 <= i < |a| && a[i]
  {
    var inter, union := And(a, b), Or(a, b);
    CountMonotone(inter, union);
    JaccardNaN(a, b);
    if Jaccard(a, b) == Some(1.0) {
      RatioInUnit(Count(inter), Count(union));
      assert inter == union;
      forall i | 0 <= i < |a|
        ensures a[i] == b[i]
      {
        assert inter[i] == union[i];
      }
    }
    if a == b && exists i :: 0 <= i < |a| && a[i] {
      assert inter == union;
      SelfRatio(Count(union));
    }
  }

  /** The similarity does not depend on the order of the two masks. */
  lemma JaccardSymmetric(a: Mask, b: Mask)
    requires |a| == |b|
    ensures Jaccard(a, b) == Jaccard(b, a)
  {
    assert And(a, b) == And(b, a);
    assert Or(a, b) == Or(b, a);
  }

  /** `math.ceil(x)` for a float. */
  function Ceil(x: real): (r: int)
    ensures r as real - 1.0 < x <= r as real
  {
    -((-x).Floor)
  }

  /**
   * The upload grid: `ceil(n / 4)` rows of four columns, slot `i·4 + k`
   * showing file `i·4 + k` when that index is below `n`. The result lists
   * the shown slots as (row, column, file index) in drawing order.
   */
  method DisplayGrid(n: nat) returns (slots: seq<(int, int, int)>)
    ensures |slots| == n
    ensures forall j :: 0 <= j < n ==> slots[j] == (j / 4, j % 4, j)
  {
    var rows := Ceil(n as real / 4.0);
    assert rows == (n + 3) / 4 by {
      var q := (n + 3) / 4;
      assert 4 * q <= n + 3 < 4 * q + 4;
    }
    slots := [];
    for i := 0 to rows
      invariant |slots| == Min(4 * i, n)
      invariant forall j :: 0 <= j < |slots| ==> slots[j] == (j / 4, j % 4, j)
    {
      for k := 0 to 4
        invariant |slots| == Min(4 * i + k, n)
        invariant forall j :: 0 <= j < |slots| ==> slots[j] == (j / 4, j % 4, j)
      {
        if i * 4 + k < n {
          var j := i * 4 + k;
          GridDivMod(i, k, 4);
          assert (j / 4, j % 4) == (i, k);
          slots := slots + [(i, k, j)];
        }
      }
    }
  }

  /** An uploaded file: its name and its decoded image. */
  datatype Upload = Upload(name: string, picture: Picture)

  /**
   * The foreign steps: `rgb2gray`, `threshold_otsu`, `transform.resize` of
   * a binary image to a (rows, columns) shape (the base's) and
   * `skeletonize`.
   */
  datatype World = World(
    rgb2gray: Picture -> seq<real>,
    otsu: seq<real> -> real,
    resize: (BinaryImage, (nat, nat)) -> BinaryImage,
    skeletonize: BinaryImage -> BinaryImage)

  /**
   * What the script relies on: `rgb2gray` of an (h, w, c) image gives h·w
   * grey pixels, resizing yields an image of the requested shape, and
   * skeletonising keeps the shape.
   */
  ghost predicate ValidWorld(w: World)
  {
    (forall p: Picture {:trigger w.rgb2gray(p)} :: |p.shape| == 3 ==> |w.rgb2gray(p)| == p.shape[0] * p.shape[1]) &&
    (forall m, s {:trigger w.resize(m, s)} :: w.resize(m, s).shape == s && Shaped(w.resize(m, s))) &&
    (forall m {:trigger w.skeletonize(m)} :: w.skeletonize(m).shape == m.shape && (Shaped(m) ==> Shaped(w.skeletonize(m))))
  }

  /** One row of the results table. */
  datatype Row = Row(name: string, similarity: Option<real>)

  /** What the page shows after a run: nothing (no click), the upload prompt, or the table. */
  datatype Screen = Idle | UploadPrompt | Table(rows: seq<Row>)

  /** What `threshold_otsu(None)` raises. */
  const OtsuWithoutImage := ForeignError("Either image or hist must be provided.")

  /**
   * The binary image of a picture: grey scale, then above Otsu's
   * threshold, with the picture's rows and columns. A grey
   * (two-dimensional) picture has no grey-scale conversion, and
   * `threshold_otsu(None)` raises scikit-image's own `Exception`.
   */
  function Binary(p: Picture, w: World): (r: Result<BinaryImage>)
    requires ValidWorld(w)
    ensures r.Err? <==> |p.shape| != 3
    ensures r.Err? ==> r.error == OtsuWithoutImage
    ensures r.Ok? ==> r.value.shape == (p.shape[0], p.shape[1]) && Shaped(r.value)
    ensures r.Ok? ==> forall i :: 0 <= i < |r.value.mask| ==>
      (r.value.mask[i] <==> w.rgb2gray(p)[i] > w.otsu(w.rgb2gray(p)))
  {
    match ToGrayScale(p, w.rgb2gray)
    case None => Err(OtsuWithoutImage)
    case Some(gray) => Ok(BinaryImage((p.shape[0], p.shape[1]), ToBinary(gray, w.otsu(gray))))
  }

  /** The table row of one upload compared with the base skeleton, or the error its conversion raises. */
  function CompareOne(base: BinaryImage, u: Upload, w: World): (r: Result<Row>)
    requires ValidWorld(w) && Shaped(base)
    ensures r.Err? <==> |u.picture.shape| != 3
    ensures r.Err? ==> r.error == OtsuWithoutImage
    ensures r.Ok? ==> r.value.name == u.name
    ensures r.Ok? && r.value.similarity.Some? ==> 0.0 <= r.value.similarity.value <= 1.0
  {
    match Binary(u.picture, w)
    case Err(e) => Err(e)
    case Ok(binary) =>
      var skeleton := w.skeletonize(w.resize(binary, base.shape));
      JaccardRange(base.mask, skeleton.mask);
      Ok(Row(u.name, Jaccard(base.mask, skeleton.mask)))
  }

  /** The rows for `uploads`, in upload order, or the first error. */
  function CompareAll(base: BinaryImage, uploads: seq<Upload>, w: World): Result<seq<Row>>
    requires ValidWorld(w) && Shaped(base)
  {
    if uploads == [] then Ok([])
    else match CompareAll(base, uploads[..|uploads| - 1], w)
      case Err(e) => Err(e)
      case Ok(rows) =>
        match CompareOne(base, uploads[|uploads| - 1], w)
        case Err(e) => Err(e)
        case Ok(row) => Ok(rows + [row])
  }

  /** The script's run after the Compare button, as a function of the uploads. */
  function CompareSpec(clicked: bool, base: Option<Upload>, images: Option<seq<Upload>>, w: World): Result<Screen>
    requires ValidWorld(w)
  {
    if !clicked then Ok(Idle)
    else if base.None? || images.None? then Ok(UploadPrompt)
    else match Binary(base.value.picture, w)
      case Err(e) => Err(e)
      case Ok(binary) =>
        var skeleton := w.skeletonize(binary);
        match CompareAll(skeleton, images.value, w)
        case Err(e) => Err(e)
        case Ok(rows) => Ok(Table(rows))
  }

  /**
   * The Compare run: skeletonise the base's mask, then for every upload
   * skeletonise its mask resized to the base's shape and append a row with
   * the Jaccard similarity to the table.
   */
  method Compare(clicked: bool, base: Option<Upload>, images: Option<seq<Upload>>, w: World) returns (r: Result<Screen>)
    requires ValidWorld(w)
    ensures r == CompareSpec(clicked, base, images, w)
  {
    if !clicked {
      return Ok(Idle);
    }
    if base.None? || images.None? {
      return Ok(UploadPrompt);
    }
    var baseGray := ToGrayScale(base.value.picture, w.rgb2gray);
    if baseGray.None? {
      return Err(OtsuWithoutImage);
    }
    var baseShape := (base.value.picture.shape[0], base.value.picture.shape[1]);
    var baseBinary := BinaryImage(baseShape, ToBinary(baseGray.value, w.otsu(baseGray.value)));
    var baseSkeleton := w.skeletonize(baseBinary);
    var uploads := images.value;
    var rows: seq<Row> := [];
    for k := 0 to |uploads|
      invariant CompareAll(baseSkeleton, uploads[..k], w) == Ok(rows)
    {
      assert uploads[..k + 1][..k] == uploads[..k];
      var gray := ToGrayScale(uploads[k].picture, w.rgb2gray);
      if gray.None? {
        CompareErrorSticks(baseSkeleton, uploads, k + 1, w);
        return Err(OtsuWithoutImage);
      }
      var shape := (uploads[k].picture.shape[0], uploads[k].picture.shape[1]);
      var binary := BinaryImage(shape, ToBinary(gray.value, w.otsu(gray.value)));
      var resized := w.resize(binary, baseBinary.shape);
      var skeleton := w.skeletonize(resized);
      var similarity := Jaccard(baseSkeleton.mask, skeleton.mask);
      rows := rows + [Row(uploads[k].name, similarity)];
    }
    assert uploads[..|uploads|] == uploads;
    return Ok(Table(rows));
  }

  /** Once an upload has failed, later uploads change nothing. */
  lemma {:induction false} CompareErrorSticks(base: BinaryImage, uploads: seq<Upload>, k: nat, w: World)
    requires ValidWorld(w) && Shaped(base)
    requires k <= |uploads| && CompareAll(base, uploads[..k], w).Err?
    ensures CompareAll(base, uploads, w) == CompareAll(base, uploads[..k], w)
    decreases |uploads| - k
  {
    if k < |uploads| {
      assert uploads[..k + 1][..k] == uploads[..k];
      CompareErrorSticks(base, uploads, k + 1, w);
    } else {
      assert uploads[..k] == uploads;
    }
  }

  /** The table has one row per upload, in upload order, each similarity NaN or in [0, 1]. */
  lemma {:induction false} CompareAllRows(base: BinaryImage, uploads: seq<Upload>, w: World)
    requires ValidWorld(w) && Shaped(base)
    requires CompareAll(base, uploads, w).Ok?
    ensures var rows := CompareAll(base, uploads, w).value;
      |rows| == |uploads| &&
      forall k :: 0 <= k < |rows| ==>
        rows[k].name == uploads[k].name &&
        (rows[k].similarity.Some? ==> 0.0 <= rows[k].similarity.value <= 1.0)
  {
    if uploads != [] {
      var n := |uploads| - 1;
      CompareAllRows(base, uploads[..n], w);
      var binary := Binary(uploads[n].picture, w).value;
      JaccardRange(base.mask, w.skeletonize(w.resize(binary, base.shape)).mask);
    }
  }
}

=== FILE: mosaic.dfy ===
/**
 * Tile matching and the mosaic grid of the mosaic generator
 * (T02 mosaic_gui.py).
 *
 * Each tile is a record whose `used` flag `match_tile` sets in place; the
 * list of tiles is modelled as one object holding the records' constant
 * parts and the sequence of their flags, which the methods reassign. A block of the input
 * image and a tile are compared through their average colour (squared
 * differences) or their histogram (absolute differences), and the tile with
 * the smallest score wins, the earliest one on ties. `create_mosaic` cuts the
 * input into whole blocks, row by row, and gives every block its own tile.
 * Computing averages and histograms, resizing, pasting and saving are PIL's
 * and are inputs or left symbolic here.
 */
module Mosaic {
  import opened Common

  /** What `match_tile` compares: the truncated mean colour and the histogram. */
  datatype Features = Features(avgColor: seq<int>, histogram: seq<int>)

  /** The parts of a tile record that never change: its path, features and image. */
  datatype TileInfo = TileInfo(path: string, features: Features, image: nat)

  /**
   * The list of tile records `load_tiles` builds, one fresh record per tile:
   * their constant parts, and their `used` flags, the only entries
   * `match_tile` changes.
   */
  class Tiles {
    const infos: seq<TileInfo>
    var used: seq<bool>

    predicate Valid()
      reads this
    {
      |used| == |infos|
    }

    constructor (infos: seq<TileInfo>, used: seq<bool>)
      requires |used| == |infos|
      ensures Valid() && this.infos == infos && this.used == used
    {
      this.infos := infos;
      this.used := used;
    }

    /**
     * `match_tile`: returns the chosen tile's image, marks that tile used and,
     * when a set of used paths is passed, adds its path. Nothing changes when
     * it fails.
     */
    method MatchTile(block: Features, mode: string, usedTiles: Option<set<string>>)
      returns (r: Result<nat>, usedTiles': Option<set<string>>)
      requires Valid()
      modifies this
      ensures Valid()
      ensures var m := MatchSpec(block, infos, old(used), ParseMode(mode), usedTiles.Some?);
        (m.Err? ==> r == Err(m.error) && used == old(used) && usedTiles' == usedTiles) &&
        (m.Ok? ==> r == Ok(infos[m.value].image) && used == MarkUsed(old(used), m.value) &&
                   usedTiles' == if usedTiles.Some? then Some(usedTiles.value + {infos[m.value].path}) else None)
    {
      var choice := SelectTile(block, infos, used, mode, usedTiles.Some?);
      if choice.Err? {
        return Err(choice.error), usedTiles;
      }
      var chosen := infos[choice.value];
      used := used[choice.value := true];
      usedTiles' := if usedTiles.Some? then Some(usedTiles.value + {chosen.path}) else None;
      r := Ok(chosen.image);
    }
  }

  datatype Mode = Average | Histogram

  /** The two accepted values of `mode`. */
  function ParseMode(mode: string): (r: Option<Mode>)
    ensures r == Some(Average) <==> mode == "average"
    ensures r == Some(Histogram) <==> mode == "histogram"
  {
    if mode == "average" then Some(Average) else if mode == "histogram" then Some(Histogram) else None
  }

  lemma SquareSign(d: int)
    ensures d * d >= 0
    ensures d * d == 0 <==> d == 0
  {
    if d > 0 {
      PositiveProduct(d, d);
    } else if d < 0 {
      PositiveProduct(-d, -d);
    }
  }

  lemma PositiveProduct(a: nat, b: nat)
    requires a > 0 && b > 0
    ensures a * b > 0
  {
  }

  /** `sum((bc - tc) ** 2 for bc, tc in zip(a, b))`: zip stops at the shorter sequence. */
  function SquaredDistance(a: seq<int>, b: seq<int>): (r: int)
    ensures r >= 0
    decreases |a|
  {
    if a == [] || b == [] then 0
    else
      SquareSign(a[0] - b[0]);
      (a[0] - b[0]) * (a[0] - b[0]) + SquaredDistance(a[1..], b[1..])
  }

  /** `sum(abs(bh - th) for bh, th in zip(a, b))`. */
  function AbsDistance(a: seq<int>, b: seq<int>): (r: int)
    ensures r >= 0
    decreases |a|
  {
    if a == [] || b == [] then 0
    else (if a[0] >= b[0] then a[0] - b[0] else b[0] - a[0]) + AbsDistance(a[1..], b[1..])
  }

  /** `a` and `b` agree on the positions `zip` pairs up. */
  predicate AgreeOnZip(a: seq<int>, b: seq<int>)
  {
    forall i :: 0 <= i < |a| && i < |b| ==> a[i] == b[i]
  }

  lemma AgreeOnZipStep(a: seq<int>, b: seq<int>)
    requires a != [] && b != []
    ensures AgreeOnZip(a, b) <==> a[0] == b[0] && AgreeOnZip(a[1..], b[1..])
  {
    if a[0] == b[0] && AgreeOnZip(a[1..], b[1..]) {
      forall i | 0 <= i < |a| && i < |b| ensures a[i] == b[i] {
        if i > 0 {
          assert a[1..][i - 1] == b[1..][i - 1];
        }
      }
    }
  }

  /** Both distances are zero exactly when the paired-up entries are equal. */
  lemma {:induction false} DistanceZeroIffAgree(a: seq<int>, b: seq<int>)
    ensures SquaredDistance(a, b) == 0 <==> AgreeOnZip(a, b)
    ensures AbsDistance(a, b) == 0 <==> AgreeOnZip(a, b)
    decreases |a|
  {
    if a != [] && b != [] {
      DistanceZeroIffAgree(a[1..], b[1..]);
      AgreeOnZipStep(a, b);
      SquareSign(a[0] - b[0]);
    }
  }

  /** The distances are symmetric. */
  lemma {:induction false} DistanceSymmetric(a: seq<int>, b: seq<int>)
    ensures SquaredDistance(a, b) == SquaredDistance(b, a)
    ensures AbsDistance(a, b) == AbsDistance(b, a)
    decreases |a|
  {
    if a != [] && b != [] {
      DistanceSymmetric(a[1..], b[1..]);
      assert (a[0] - b[0]) * (a[0] - b[0]) == (b[0] - a[0]) * (b[0] - a[0]);
    }
  }

  /** The score of a tile against a block in the given mode. */
  function Score(mode: Mode, block: Features, tile: TileInfo): int
  {
    match mode
    case Average => SquaredDistance(block.avgColor, tile.features.avgColor)
    case Histogram => AbsDistance(block.histogram, tile.features.histogram)
  }

  /** A tile already used is skipped only when the caller tracks used tiles. */
  predicate Eligible(used: bool, tracking: bool)
  {
    !(used && tracking)
  }

  /**
   * The loop's `best_match` after the first `n` tiles: a later tile replaces
   * it only with a strictly smaller score.
   */
  function Best(mode: Mode, block: Features, infos: seq<TileInfo>, used: seq<bool>, tracking: bool, n: nat)
    : (r: Option<nat>)
    requires n <= |infos| == |used|
    ensures r.Some? ==> r.value < n
  {
    if n == 0 then None
    else
      var b := Best(mode, block, infos, used, tracking, n - 1);
      if Eligible(used[n - 1], tracking) &&
         (b.None? || Score(mode, block, infos[n - 1]) < Score(mode, block, infos[b.value]))
      then Some(n - 1)
      else b
  }

  /**
   * `best_match` is the first eligible tile with the smallest score: no
   * eligible tile scores less, every eligible tile before it scores more, and
   * there is none only when no tile is eligible.
   */
  lemma {:induction false} BestIsFirstMinimum(mode: Mode, block: Features, infos: seq<TileInfo>, used: seq<bool>,
                                              tracking: bool, n: nat)
    requires n <= |infos| == |used|
    ensures var r := Best(mode, block, infos, used, tracking, n);
      (r.None? <==> forall j :: 0 <= j < n ==> !Eligible(used[j], tracking)) &&
      (r.Some? ==> Eligible(used[r.value], tracking)) &&
      (r.Some? ==> forall j :: 0 <= j < n && Eligible(used[j], tracking) ==>
                     Score(mode, block, infos[r.value]) <= Score(mode, block, infos[j])) &&
      (r.Some? ==> forall j :: 0 <= j < r.value && Eligible(used[j], tracking) ==>
                     Score(mode, block, infos[r.value]) < Score(mode, block, infos[j]))
  {
    if n > 0 {
      BestIsFirstMinimum(mode, block, infos, used, tracking, n - 1);
    }
  }

  /**
   * `match_tile`'s outcome as the index of the chosen tile: with no eligible
   * tile `best_match` stays `None` and reading its image fails; a bad mode
   * raises at the first eligible tile.
   */
  function MatchSpec(block: Features, infos: seq<TileInfo>, used: seq<bool>, parsed: Option<Mode>, tracking: bool)
    : (r: Result<nat>)
    requires |used| == |infos|
    ensures r.Ok? ==> r.value < |infos|
  {
    match parsed
    case Some(m) =>
      (match Best(m, block, infos, used, tracking, |infos|)
       case None => Err(TypeError)
       case Some(i) => Ok(i))
    case None =>
      if exists j :: 0 <= j < |used| && Eligible(used[j], tracking)
      then Err(ValueError("Invalid match mode. Choose 'average' or 'histogram'."))
      else Err(TypeError)
  }

  /**
   * The chosen tile is eligible, scores no worse than any eligible tile and
   * strictly better than every eligible tile before it; the lookup of the
   * missing match fails exactly when no tile is eligible, and an unknown
   * mode (`parsed` is `None`) fails exactly when some tile is.
   */
  lemma MatchChoosesFirstBest(block: Features, infos: seq<TileInfo>, used: seq<bool>, parsed: Option<Mode>,
                              tracking: bool)
    requires |used| == |infos|
    ensures var r := MatchSpec(block, infos, used, parsed, tracking);
      (r.Ok? ==> (r.value < |infos| && Eligible(used[r.value], tracking) && parsed.Some? &&
        (forall j :: 0 <= j < |infos| && Eligible(used[j], tracking) ==>
           Score(parsed.value, block, infos[r.value]) <= Score(parsed.value, block, infos[j])) &&
        (forall j :: 0 <= j < r.value && Eligible(used[j], tracking) ==>
           Score(parsed.value, block, infos[r.value]) < Score(parsed.value, block, infos[j])))) &&
      (r == Err(TypeError) <==> forall j :: 0 <= j < |used| ==> !Eligible(used[j], tracking)) &&
      (r.Err? && r.error != TypeError <==>
         parsed.None? && exists j :: 0 <= j < |used| && Eligible(used[j], tracking))
  {
    if parsed.Some? {
      BestIsFirstMinimum(parsed.value, block, infos, used, tracking, |infos|);
    }
  }

  /** `best_match["used"] = True`. */
  function MarkUsed(used: seq<bool>, i: nat): (r: seq<bool>)
    requires i < |used|
  {
    used[i := true]
  }

  /** `match_tile`'s loop over the tiles, on their records as they are when it starts. */
  method SelectTile(block: Features, infos: seq<TileInfo>, used: seq<bool>, mode: string, tracking: bool)
    returns (r: Result<nat>)
    requires |used| == |infos|
    ensures r == MatchSpec(block, infos, used, ParseMode(mode), tracking)
  {
    var parsed := ParseMode(mode);
    var best: Option<nat> := None;
    var k := 0;
    while k < |infos|
      invariant 0 <= k <= |infos|
      invariant parsed.None? ==> best.None? && forall j :: 0 <= j < k ==> !Eligible(used[j], tracking)
      invariant parsed.Some? ==> best == Best(parsed.value, block, infos, used, tracking, k)
    {
      if !(used[k] && tracking) {
        if parsed.None? {
          assert Eligible(used[k], tracking);
          return Err(ValueError("Invalid match mode. Choose 'average' or 'histogram'."));
        }
        var score := Score(parsed.value, block, infos[k]);
        if best.None? || score < Score(parsed.value, block, infos[best.value]) {
          best := Some(k);
        }
      }
      k := k + 1;
    }
    if parsed.None? {
      assert !exists j :: 0 <= j < |used| && Eligible(used[j], tracking);
      return Err(TypeError);
    }
    if best.None? {
      return Err(TypeError);
    }
    return Ok(best.value);
  }

  /** Python's `a // b`: the quotient rounded toward minus infinity. */
  function FloorDiv(a: int, b: int): (r: int)
    requires b != 0
    ensures b > 0 ==> r * b <= a < r * b + b
    ensures b < 0 ==> r * b + b < a <= r * b
  {
    if b > 0 then a / b else (-a) / (-b)
  }

  /** `len(range(0, stop, step))` for a stop that is not negative. */
  function RangeLen(stop: nat, step: int): (r: nat)
    requires step != 0
    ensures step > 0 ==> (r - 1) * step < stop <= r * step
    ensures step < 0 ==> r == 0
  {
    if step > 0 then (stop + step - 1) / step else 0
  }

  /**
   * The grid `create_mosaic` walks: the resized input size and, for each
   * axis, how many block origins its `range` produces.
   */
  datatype Grid = Grid(width: int, height: int, blockW: int, blockH: int, cols: nat, rows: nat)

  /** `(n // b) * b`, the side `create_mosaic` resizes an input side `n` to. */
  function Fitted(n: nat, b: int): (r: nat)
    requires b != 0
    ensures b > 0 ==> r <= n
  {
    var q := FloorDiv(n, b);
    assert q * b >= 0 by {
      if b > 0 {
        MulNonNegative(q, b);
      } else {
        MulNonNegative(-q, -b);
      }
    }
    q * b
  }

  /** With a positive block side, the fitted side is 0 exactly when the input side is shorter than a block. */
  lemma FittedZero(n: nat, b: int)
    requires b > 0
    ensures Fitted(n, b) == 0 <==> n < b
  {
    var q := n / b;
    assert Fitted(n, b) == q * b;
    if n >= b {
      assert q >= 1;
      MulMonotone(1, q, b);
    }
  }

  /**
   * Lines 118-120 and the two `range`s: a zero block side divides by zero,
   * and `resize` raises when the fitted size has a zero side (it returns a
   * copy, and so does not raise, when the size is unchanged).
   */
  function GridOf(inputWidth: nat, inputHeight: nat, blockW: int, blockH: int): (r: Result<Grid>)
  {
    if blockW == 0 || blockH == 0 then Err(ZeroDivision)
    else
      var width, height := Fitted(inputWidth, blockW), Fitted(inputHeight, blockH);
      if (width != inputWidth || height != inputHeight) && (width == 0 || height == 0) then
        Err(ValueError("height and width must be > 0"))
      else Ok(Grid(width, height, blockW, blockH, RangeLen(width, blockW), RangeLen(height, blockH)))
  }

  /**
   * With positive block sides the output is the largest multiple of the block
   * size not above the input on each axis, and the grid holds exactly
   * `(W // bw) · (H // bh)` blocks; an input narrower or shorter than one
   * block makes `resize` raise. A negative side leaves a `range` with no
   * steps, so there are no blocks at all.
   */
  lemma GridIsLargestMultiple(inputWidth: nat, inputHeight: nat, blockW: int, blockH: int)
    ensures var g := GridOf(inputWidth, inputHeight, blockW, blockH);
      g.Err? ==> (g.error == ZeroDivision <==> blockW == 0 || blockH == 0)
    ensures blockW > 0 && blockH > 0 && inputWidth > 0 && inputHeight > 0 ==>
      (GridOf(inputWidth, inputHeight, blockW, blockH).Ok? <==> inputWidth >= blockW && inputHeight >= blockH)
    ensures var g := GridOf(inputWidth, inputHeight, blockW, blockH);
      g.Ok? && blockW > 0 ==>
        0 <= g.value.width <= inputWidth < g.value.width + blockW && g.value.width % blockW == 0 &&
        g.value.cols == inputWidth / blockW && g.value.cols * blockW == g.value.width
    ensures var g := GridOf(inputWidth, inputHeight, blockW, blockH);
      g.Ok? && blockH > 0 ==>
        0 <= g.value.height <= inputHeight < g.value.height + blockH && g.value.height % blockH == 0 &&
        g.value.rows == inputHeight / blockH && g.value.rows * blockH == g.value.height
    ensures var g := GridOf(inputWidth, inputHeight, blockW, blockH);
      g.Ok? && (blockW < 0 || blockH < 0) ==> g.value.cols * g.value.rows == 0
  {
    if blockW > 0 {
      ExactMultiple(inputWidth, blockW);
      FittedZero(inputWidth, blockW);
    }
    if blockH > 0 {
      ExactMultiple(inputHeight, blockH);
      FittedZero(inputHeight, blockH);
    }
  }

  /** `(n // b) · b` is a multiple of `b` whose `range` has `n // b` steps. */
  lemma ExactMultiple(n: nat, b: int)
    requires b > 0
    ensures 0 <= (n / b) * b <= n < (n / b) * b + b
    ensures ((n / b) * b) % b == 0
    ensures RangeLen((n / b) * b, b) == n / b
  {
    var q := n / b;
    GridDivMod(q, 0, b);
    assert (q * b + b - 1) == (q * b) + (b - 1);
    GridDivMod(q, b - 1, b);
  }

  /** The row and column of the `k`-th block when rows are `cols` blocks wide. */
  function Cell(k: nat, cols: nat): (r: (nat, nat))
    requires cols > 0
    ensures r.1 < cols
    decreases k
  {
    if k < cols then (0, k) else (Cell(k - cols, cols).0 + 1, Cell(k - cols, cols).1)
  }

  /** The number of blocks in the rows above row `row`, counted row by row. */
  function BlocksBefore(g: Grid, row: nat): (r: nat)
  {
    if row == 0 then 0 else BlocksBefore(g, row - 1) + g.cols
  }

  /** Each row holds `cols` blocks. */
  lemma {:induction false} BlocksBeforeIsProduct(g: Grid, row: nat)
    ensures BlocksBefore(g, row) == row * g.cols
  {
    if row > 0 {
      BlocksBeforeIsProduct(g, row - 1);
      MulStep(row - 1, g.cols);
    }
  }

  /** Later rows start further on: a row ends no later than the next rows begin. */
  lemma {:induction false} BlocksBeforeMonotone(g: Grid, row: nat, later: nat)
    requires row <= later
    ensures BlocksBefore(g, row) <= BlocksBefore(g, later)
    decreases later - row
  {
    if row < later {
      BlocksBeforeMonotone(g, row, later - 1);
    }
  }

  /** Counting blocks row by row, the block `col` places after the start of row `row` is in that row and column. */
  lemma {:induction false} CellOfIndex(g: Grid, row: nat, col: nat)
    requires col < g.cols
    ensures Cell(BlocksBefore(g, row) + col, g.cols) == (row, col)
  {
    if row > 0 {
      CellOfIndex(g, row - 1, col);
    }
  }

  /** The origin of the `k`-th block, counted row by row. */
  function Origin(g: Grid, k: nat): (r: (int, int))
    requires g.cols > 0
  {
    (Cell(k, g.cols).1 * g.blockW, Cell(k, g.cols).0 * g.blockH)
  }

  /**
   * Blocks are visited row by row: the origin of the block `col` places after
   * the start of row `row` is
   * `(col · bw, row · bh)`, and with positive sides every block lies inside
   * the resized input.
   */
  lemma OriginRowMajor(g: Grid, row: nat, col: nat)
    requires col < g.cols && row < g.rows
    ensures Origin(g, BlocksBefore(g, row) + col) == (col * g.blockW, row * g.blockH)
    ensures g.blockW > 0 && g.blockH > 0 && g.width == g.cols * g.blockW && g.height == g.rows * g.blockH ==>
      0 <= col * g.blockW && col * g.blockW + g.blockW <= g.width &&
      0 <= row * g.blockH && row * g.blockH + g.blockH <= g.height
  {
    CellOfIndex(g, row, col);
    if g.blockW > 0 && g.blockH > 0 {
      MulStep(col, g.blockW);
      MulStep(row, g.blockH);
      MulMonotone(col + 1, g.cols, g.blockW);
      MulMonotone(row + 1, g.rows, g.blockH);
    }
  }

  /** The number of tiles not yet marked used. */
  function UnusedCount(used: seq<bool>): (r: nat)
    ensures r <= |used|
  {
    if used == [] then 0 else (if used[0] then 0 else 1) + UnusedCount(used[1..])
  }

  /** Marking an unused tile used takes exactly one tile out of the count. */
  lemma {:induction false} MarkUsedCounts(used: seq<bool>, i: nat)
    requires i < |used| && !used[i]
    ensures UnusedCount(MarkUsed(used, i)) == UnusedCount(used) - 1
  {
    if i > 0 {
      MarkUsedCounts(used[1..], i - 1);
      assert MarkUsed(used, i)[1..] == MarkUsed(used[1..], i - 1);
    }
  }

  /** Some tile is still unused exactly when the count is positive. */
  lemma {:induction false} UnusedCountPositive(used: seq<bool>)
    ensures UnusedCount(used) > 0 <==> exists j :: 0 <= j < |used| && !used[j]
  {
    if used != [] {
      UnusedCountPositive(used[1..]);
      if UnusedCount(used[1..]) > 0 {
        var j :| 0 <= j < |used[1..]| && !used[1..][j];
        assert !used[j + 1];
      }
      if !used[0] {
        assert UnusedCount(used) > 0;
      }
    }
  }

  /** The features of every block of the grid, row by row. */
  function BlockFeatures(g: Grid, features: (int, int) -> Features): (r: seq<Features>)
    requires g.cols > 0
    ensures |r| == BlocksBefore(g, g.rows)
  {
    seq(BlocksBefore(g, g.rows), k requires 0 <= k => features(Origin(g, k).0, Origin(g, k).1))
  }

  /**
   * The tile indices `create_mosaic` picks for its first `n` blocks, and the
   * `used` flags afterwards; `used_tiles` is always a set there, so used
   * tiles are always skipped. The first failure stops the walk with the
   * marks made so far.
   */
  function Placed(blocks: seq<Features>, infos: seq<TileInfo>, used: seq<bool>, parsed: Option<Mode>, n: nat)
    : (r: (Result<seq<nat>>, seq<bool>))
    requires n <= |blocks| && |used| == |infos|
    ensures |r.1| == |infos|
    ensures r.0.Ok? ==> |r.0.value| == n
  {
    if n == 0 then (Ok([]), used)
    else
      var (prev, state) := Placed(blocks, infos, used, parsed, n - 1);
      if prev.Err? then (prev, state)
      else
        var m := MatchSpec(blocks[n - 1], infos, state, parsed, true);
        if m.Err? then (Err(m.error), state)
        else (Ok(prev.value + [m.value]), MarkUsed(state, m.value))
  }

  /** One more block: the match against the flags as the previous blocks left them. */
  lemma PlacedStep(blocks: seq<Features>, infos: seq<TileInfo>, used: seq<bool>, parsed: Option<Mode>, n: nat,
                   chosen: seq<nat>, state: seq<bool>)
    requires n < |blocks| && |used| == |infos| && Placed(blocks, infos, used, parsed, n) == (Ok(chosen), state)
    ensures var m := MatchSpec(blocks[n], infos, state, parsed, true);
      Placed(blocks, infos, used, parsed, n + 1) ==
        if m.Err? then (Err(m.error), state) else (Ok(chosen + [m.value]), MarkUsed(state, m.value))
  {
  }

  /** Once a block fails, later blocks change nothing. */
  lemma {:induction false} PlacedErrStays(blocks: seq<Features>, infos: seq<TileInfo>, used: seq<bool>,
                                          parsed: Option<Mode>, n: nat, m: nat)
    requires n <= m <= |blocks| && |used| == |infos|
    requires Placed(blocks, infos, used, parsed, n).0.Err?
    ensures Placed(blocks, infos, used, parsed, m) == Placed(blocks, infos, used, parsed, n)
    decreases m
  {
    if n < m {
      PlacedErrStays(blocks, infos, used, parsed, n, m - 1);
    }
  }

  /**
   * Every block gets its own tile: the chosen indices are pairwise distinct,
   * each chosen tile was unused before the walk, and the chosen tiles and
   * only they become used.
   */
  lemma {:induction false} PlacedTilesDistinct(blocks: seq<Features>, infos: seq<TileInfo>, used: seq<bool>,
                                               parsed: Option<Mode>, n: nat)
    requires n <= |blocks| && |used| == |infos|
    ensures var (r, state) := Placed(blocks, infos, used, parsed, n);
      r.Ok? ==>
        (forall k :: 0 <= k < n ==> r.value[k] < |infos| && !used[r.value[k]]) &&
        (forall k, k' :: 0 <= k < k' < n ==> r.value[k] != r.value[k']) &&
        (forall j :: 0 <= j < |infos| ==> state[j] == (used[j] || j in r.value))
  {
    if n > 0 {
      PlacedTilesDistinct(blocks, infos, used, parsed, n - 1);
      var (prev, state) := Placed(blocks, infos, used, parsed, n - 1);
      if prev.Ok? {
        var m := MatchSpec(blocks[n - 1], infos, state, parsed, true);
        MatchChoosesFirstBest(blocks[n - 1], infos, state, parsed, true);
        if m.Ok? {
          var chosen := prev.value + [m.value];
          var flags := MarkUsed(state, m.value);
          assert Placed(blocks, infos, used, parsed, n) == (Ok(chosen), flags);
          assert m.value < |infos| && !state[m.value];
          assert !used[m.value] && m.value !in prev.value;
          forall j | 0 <= j < |infos|
            ensures flags[j] == (used[j] || j in chosen)
          {
            assert state[j] == (used[j] || j in prev.value);
            assert j in chosen <==> j in prev.value || j == m.value;
          }
          forall k, k' | 0 <= k < k' < n
            ensures chosen[k] != chosen[k']
          {
            if k' == n - 1 {
              assert chosen[k] == prev.value[k];
            }
          }
        }
      }
    }
  }

  /**
   * After `n` successful blocks exactly `n` fewer tiles are unused, and the
   * walk over `n` blocks succeeds exactly when there are none, or the mode
   * is valid and at least `n` tiles were unused to start with.
   */
  lemma {:induction false} PlacedSucceedsIff(blocks: seq<Features>, infos: seq<TileInfo>, used: seq<bool>,
                                             parsed: Option<Mode>, n: nat)
    requires n <= |blocks| && |used| == |infos|
    ensures var (r, state) := Placed(blocks, infos, used, parsed, n);
      (r.Ok? ==> UnusedCount(state) + n == UnusedCount(used)) &&
      (r.Ok? <==> n == 0 || (parsed.Some? && n <= UnusedCount(used)))
  {
    if n > 0 {
      PlacedSucceedsIff(blocks, infos, used, parsed, n - 1);
      var (prev, state) := Placed(blocks, infos, used, parsed, n - 1);
      if prev.Ok? {
        var m := MatchSpec(blocks[n - 1], infos, state, parsed, true);
        MatchChoosesFirstBest(blocks[n - 1], infos, state, parsed, true);
        UnusedCountPositive(state);
        if m.Ok? {
          MarkUsedCounts(state, m.value);
        }
      }
    }
  }

  /** A paste of a tile image at a block origin. */
  datatype Paste = Paste(x: int, y: int, image: nat)

  /** The output image: its size and the pastes in the order they happen. */
  datatype MosaicImage = MosaicImage(width: int, height: int, pastes: seq<Paste>)

  /**
   * The pastes for the chosen tiles: the `k`-th chosen tile's image at the
   * `k`-th block's origin (chosen indices are in range, `PlacedTilesDistinct`).
   */
  function Pastes(g: Grid, infos: seq<TileInfo>, chosen: seq<nat>): (r: seq<Paste>)
    requires g.cols > 0
    ensures |r| == |chosen|
  {
    seq(|chosen|, k requires 0 <= k < |chosen| =>
      Paste(Origin(g, k).0, Origin(g, k).1, if chosen[k] < |infos| then infos[chosen[k]].image else 0))
  }

  /** One more chosen tile adds one paste at the next block's origin. */
  lemma PastesStep(g: Grid, infos: seq<TileInfo>, chosen: seq<nat>, i: nat)
    requires g.cols > 0 && i < |infos|
    ensures Pastes(g, infos, chosen + [i]) ==
            Pastes(g, infos, chosen) + [Paste(Origin(g, |chosen|).0, Origin(g, |chosen|).1, infos[i].image)]
  {
    var longer := chosen + [i];
    assert forall k :: 0 <= k < |chosen| ==> longer[k] == chosen[k];
  }

  /** `create_mosaic`'s outcome and the `used` flags afterwards. */
  function MosaicSpec(inputWidth: nat, inputHeight: nat, blockW: int, blockH: int,
                      infos: seq<TileInfo>, used: seq<bool>, mode: string, features: (int, int) -> Features)
    : (r: (Result<MosaicImage>, seq<bool>))
    requires |used| == |infos|
  {
    var grid := GridOf(inputWidth, inputHeight, blockW, blockH);
    if grid.Err? then (Err(grid.error), used) else FillSpec(grid.value, infos, used, mode, features)
  }

  /** The block loops of `create_mosaic` once the grid `g` is known. */
  function FillSpec(g: Grid, infos: seq<TileInfo>, used: seq<bool>, mode: string, features: (int, int) -> Features)
    : (r: (Result<MosaicImage>, seq<bool>))
    requires |used| == |infos|
  {
    if g.cols == 0 then (Ok(MosaicImage(g.width, g.height, [])), used)
    else
      var blocks := BlockFeatures(g, features);
      var (r, state) := Placed(blocks, infos, used, ParseMode(mode), |blocks|);
      if r.Err? then (Err(r.error), state)
      else (Ok(MosaicImage(g.width, g.height, Pastes(g, infos, r.value))), state)
  }

  /**
   * `create_mosaic` on positive block sides: it succeeds exactly when the
   * grid is empty, or the mode is valid and at least one unused tile exists
   * per block; then one paste is made per block, the output has the resized
   * input's size, and exactly one tile per block is newly marked used.
   */
  lemma MosaicNeedsOneTilePerBlock(inputWidth: nat, inputHeight: nat, blockW: int, blockH: int,
                                   infos: seq<TileInfo>, used: seq<bool>, mode: string, features: (int, int) -> Features)
    requires blockW > 0 && blockH > 0 && |used| == |infos|
    ensures var blocks := (inputWidth / blockW) * (inputHeight / blockH);
      var (r, state) := MosaicSpec(inputWidth, inputHeight, blockW, blockH, infos, used, mode, features);
      (r.Ok? <==> GridOf(inputWidth, inputHeight, blockW, blockH).Ok? &&
                  (blocks == 0 || (ParseMode(mode).Some? && blocks <= UnusedCount(used)))) &&
      (inputWidth > 0 && inputHeight > 0 ==>
         (r.Ok? <==> inputWidth >= blockW && inputHeight >= blockH &&
                     ParseMode(mode).Some? && blocks <= UnusedCount(used))) &&
      (r.Ok? ==> (|r.value.pastes| == blocks &&
         r.value.width == (inputWidth / blockW) * blockW && r.value.height == (inputHeight / blockH) * blockH &&
         UnusedCount(state) + blocks == UnusedCount(used)))
  {
    GridIsLargestMultiple(inputWidth, inputHeight, blockW, blockH);
    var grid := GridOf(inputWidth, inputHeight, blockW, blockH);
    if grid.Ok? {
      var g := grid.value;
      var count := (inputWidth / blockW) * (inputHeight / blockH);
      assert count == g.cols * g.rows;
      if g.cols > 0 {
        BlocksBeforeIsProduct(g, g.rows);
        assert g.rows * g.cols == count;
        PlacedSucceedsIff(BlockFeatures(g, features), infos, used, ParseMode(mode), count);
        if g.rows > 0 {
          MulMonotone(1, g.cols, g.rows);
        }
      } else {
        assert count == 0;
      }
      if inputWidth >= blockW && inputHeight >= blockH {
        MulMonotone(1, g.cols, g.rows);
      }
    }
  }


  /**
   * `create_mosaic`'s nested loops, one row of blocks per call of `MatchRow`.
   * Tiles pasted before a failing block stay marked used.
   */
  method CreateMosaic(inputWidth: nat, inputHeight: nat, blockW: int, blockH: int,
                      tiles: Tiles, mode: string, features: (int, int) -> Features)
    returns (r: Result<MosaicImage>)
    requires tiles.Valid()
    modifies tiles
    ensures tiles.Valid()
    ensures (r, tiles.used) == MosaicSpec(inputWidth, inputHeight, blockW, blockH, tiles.infos, old(tiles.used), mode, features)
  {
    if blockW == 0 || blockH == 0 {
      return Err(ZeroDivision);
    }
    var width, height := Fitted(inputWidth, blockW), Fitted(inputHeight, blockH);
    if (width != inputWidth || height != inputHeight) && (width == 0 || height == 0) {
      return Err(ValueError("height and width must be > 0"));
    }
    var g := Grid(width, height, blockW, blockH, RangeLen(width, blockW), RangeLen(height, blockH));
    assert GridOf(inputWidth, inputHeight, blockW, blockH) == Ok(g);
    r := FillGrid(g, tiles, mode, features);
  }

  /**
   * The blocks before `n` were all matched, choosing `chosen` and leaving the
   * flags `flags`, and `pastes` holds their pastes.
   */
  ghost predicate Walked(g: Grid, blocks: seq<Features>, infos: seq<TileInfo>, used: seq<bool>, parsed: Option<Mode>,
                         n: nat, chosen: seq<nat>, flags: seq<bool>, pastes: seq<Paste>)
    requires g.cols > 0 && n <= |blocks| && |used| == |infos|
  {
    Placed(blocks, infos, used, parsed, n) == (Ok(chosen), flags) && pastes == Pastes(g, infos, chosen)
  }

  /** The block loops of `create_mosaic` over the grid `g`. */
  method FillGrid(g: Grid, tiles: Tiles, mode: string, features: (int, int) -> Features)
    returns (r: Result<MosaicImage>)
    requires tiles.Valid()
    modifies tiles
    ensures tiles.Valid()
    ensures (r, tiles.used) == FillSpec(g, tiles.infos, old(tiles.used), mode, features)
  {
    if g.cols == 0 {
      return Ok(MosaicImage(g.width, g.height, []));
    }
    ghost var used := tiles.used;
    ghost var blocks := BlockFeatures(g, features);
    ghost var parsed := ParseMode(mode);
    var usedTiles: set<string> := {};
    var pastes: seq<Paste> := [];
    ghost var chosen: seq<nat> := [];
    var row: nat, start: nat := 0, 0;
    while row < g.rows
      invariant row <= g.rows && start == BlocksBefore(g, row) && start <= |blocks|
      invariant tiles.Valid() && Walked(g, blocks, tiles.infos, used, parsed, start, chosen, tiles.used, pastes)
    {
      var failure;
      BlocksBeforeMonotone(g, row + 1, g.rows);
      pastes, usedTiles, failure, chosen, start :=
        MatchRow(g, row, start, features, blocks, tiles, mode, parsed, usedTiles, pastes, used, chosen);
      if failure.Some? {
        return Err(failure.value);
      }
      row := row + 1;
    }
    return Ok(MosaicImage(g.width, g.height, pastes));
  }

  /**
   * The inner loop of `create_mosaic` over the blocks of row `row`, which
   * follow the `start` blocks of the rows above.
   */
  method MatchRow(g: Grid, row: nat, start: nat, features: (int, int) -> Features, ghost blocks: seq<Features>,
                  tiles: Tiles, mode: string, ghost parsed: Option<Mode>,
                  usedTiles: set<string>, pastes: seq<Paste>, ghost used: seq<bool>, ghost chosen: seq<nat>)
    returns (pastes': seq<Paste>, usedTiles': set<string>, failure: Option<Failure>, ghost chosen': seq<nat>,
             next: nat)
    requires g.cols > 0 && row < g.rows && start == BlocksBefore(g, row)
    requires tiles.Valid() && |used| == |tiles.infos| && parsed == ParseMode(mode)
    requires blocks == BlockFeatures(g, features) && start + g.cols <= |blocks|
    requires Walked(g, blocks, tiles.infos, used, parsed, start, chosen, tiles.used, pastes)
    modifies tiles
    ensures tiles.Valid() && next == start + g.cols
    ensures failure.None? ==> Walked(g, blocks, tiles.infos, used, parsed, next, chosen', tiles.used, pastes')
    ensures failure.Some? ==>
              Placed(blocks, tiles.infos, used, parsed, |blocks|) == (Err(failure.value), tiles.used)
  {
    pastes', usedTiles', failure, chosen', next := pastes, usedTiles, None, chosen, start + g.cols;
    var k := start;
    while k < next
      invariant start <= k <= next && failure.None? && tiles.Valid()
      invariant Walked(g, blocks, tiles.infos, used, parsed, k, chosen', tiles.used, pastes')
    {
      pastes', usedTiles', failure, chosen' :=
        PlaceBlock(g, row, k - start, k, features, blocks, tiles, mode, parsed, usedTiles', pastes', used, chosen');
      if failure.Some? {
        return;
      }
      k := k + 1;
    }
  }

  /** One iteration of the inner loop: match the block in row `row` and column `col`, and paste its tile. */
  method PlaceBlock(g: Grid, row: nat, col: nat, k: nat, features: (int, int) -> Features, ghost blocks: seq<Features>,
                    tiles: Tiles, mode: string, ghost parsed: Option<Mode>,
                    usedTiles: set<string>, pastes: seq<Paste>, ghost used: seq<bool>, ghost chosen: seq<nat>)
    returns (pastes': seq<Paste>, usedTiles': set<string>, failure: Option<Failure>, ghost chosen': seq<nat>)
    requires col < g.cols && row < g.rows && k == BlocksBefore(g, row) + col
    requires tiles.Valid() && |used| == |tiles.infos| && parsed == ParseMode(mode)
    requires blocks == BlockFeatures(g, features)
    requires k < |blocks| && Walked(g, blocks, tiles.infos, used, parsed, k, chosen, tiles.used, pastes)
    modifies tiles
    ensures tiles.Valid()
    ensures failure.None? ==> Walked(g, blocks, tiles.infos, used, parsed, k + 1, chosen', tiles.used, pastes')
    ensures failure.Some? ==> Placed(blocks, tiles.infos, used, parsed, |blocks|) == (Err(failure.value), tiles.used)
  {
    OriginRowMajor(g, row, col);
    var x, y := col * g.blockW, row * g.blockH;
    var block := features(x, y);
    assert block == blocks[k];
    ghost var m := MatchSpec(block, tiles.infos, tiles.used, parsed, true);
    PlacedStep(blocks, tiles.infos, used, parsed, k, chosen, tiles.used);
    var image, usedTiles'' := tiles.MatchTile(block, mode, Some(usedTiles));
    if image.Err? {
      PlacedErrStays(blocks, tiles.infos, used, parsed, k + 1, |blocks|);
      return pastes, usedTiles, Some(image.error), chosen;
    }
    PastesStep(g, tiles.infos, chosen, m.value);
    return pastes + [Paste(x, y, image.value)], usedTiles''.value, None, chosen + [m.value];
  }
}

=== FILE: ranking.dfy ===
/**
 * Ranking of scored files as the frequency-matching tool (T21) and the
 * edge-matching tool (T25) do it: Python's `sorted(..., key=score,
 * reverse=True)` / `list.sort(...)`, which orders by descending score and
 * keeps entries with equal scores in their original order, followed by the
 * slice `[:n]`.
 */
module Ranking {
  import opened Common

  /** A file path and its similarity score. */
  datatype Scored = Scored(path: string, score: real)

  predicate SortedDesc(s: seq<Scored>)
  {
    forall i, j :: 0 <= i < j < |s| ==> s[i].score >= s[j].score
  }

  /** The entries of `s` scoring exactly `v`, in order. */
  function WithScore(s: seq<Scored>, v: real): (r: seq<Scored>)
    ensures |r| <= |s|
  {
    if s == [] then []
    else (if s[0].score == v then [s[0]] else []) + WithScore(s[1..], v)
  }

  lemma {:induction false} WithScoreAppend(s: seq<Scored>, t: seq<Scored>, v: real)
    ensures WithScore(s + t, v) == WithScore(s, v) + WithScore(t, v)
  {
    if s == [] {
      assert s + t == t;
    } else {
      var head := if s[0].score == v then [s[0]] else [];
      calc {
        WithScore(s + t, v);
        { assert (s + t)[0] == s[0]; }
        head + WithScore((s + t)[1..], v);
        { assert (s + t)[1..] == s[1..] + t; }
        head + WithScore(s[1..] + t, v);
        { WithScoreAppend(s[1..], t, v); }
        head + (WithScore(s[1..], v) + WithScore(t, v));
        (head + WithScore(s[1..], v)) + WithScore(t, v);
      }
    }
  }

  /** `x` placed after every entry of `s` scoring at least as much. */
  function Insert(s: seq<Scored>, x: Scored): (r: seq<Scored>)
    ensures |r| == |s| + 1
  {
    if s == [] then [x]
    else if s[0].score >= x.score then [s[0]] + Insert(s[1..], x)
    else [x] + s
  }

  /** Inserting adds exactly `x`. */
  lemma {:induction false} InsertAddsOne(s: seq<Scored>, x: Scored)
    ensures multiset(Insert(s, x)) == multiset(s) + multiset{x}
  {
    if s != [] && s[0].score >= x.score {
      InsertAddsOne(s[1..], x);
      assert s == [s[0]] + s[1..];
    }
  }

  /** Inserting into a sorted list keeps it sorted. */
  lemma {:induction false} InsertSorted(s: seq<Scored>, x: Scored)
    requires SortedDesc(s)
    ensures SortedDesc(Insert(s, x))
  {
    if s != [] && s[0].score >= x.score {
      InsertSorted(s[1..], x);
      InsertAddsOne(s[1..], x);
      var r := Insert(s, x);
      forall i, j | 0 <= i < j < |r|
        ensures r[i].score >= r[j].score
      {
        if i == 0 {
          assert r[j] in multiset(Insert(s[1..], x));
          assert r[j] in s[1..] || r[j] == x;
        }
      }
    }
  }

  /** Inserting into a sorted list puts `x` after every entry of its own score. */
  lemma {:induction false} InsertStable(s: seq<Scored>, x: Scored, v: real)
    requires SortedDesc(s)
    ensures WithScore(Insert(s, x), v) == WithScore(s, v) + WithScore([x], v)
  {
    if s == [] {
    } else if s[0].score >= x.score {
      var rest := s[1..];
      SortedTail(s);
      calc {
        WithScore(Insert(s, x), v);
        WithScore([s[0]] + Insert(rest, x), v);
        { WithScoreAppend([s[0]], Insert(rest, x), v); }
        WithScore([s[0]], v) + WithScore(Insert(rest, x), v);
        { InsertStable(rest, x, v); }
        WithScore([s[0]], v) + (WithScore(rest, v) + WithScore([x], v));
        (WithScore([s[0]], v) + WithScore(rest, v)) + WithScore([x], v);
        { WithScoreAppend([s[0]], rest, v); assert [s[0]] + rest == s; }
        WithScore(s, v) + WithScore([x], v);
      }
    } else {
      InsertStableFront(s, x, v);
    }
  }

  /** An entry placed before a sorted list scoring less than it comes first among its score. */
  lemma InsertStableFront(s: seq<Scored>, x: Scored, v: real)
    requires SortedDesc(s) && s != [] && s[0].score < x.score
    ensures WithScore([x] + s, v) == WithScore(s, v) + WithScore([x], v)
  {
    WithScoreAppend([x], s, v);
    if x.score == v {
      WithScoreAbove(s, v);
    }
  }

  lemma SortedTail(s: seq<Scored>)
    requires SortedDesc(s) && s != []
    ensures SortedDesc(s[1..])
  {
  }

  /** No entry of a list sorted below `v` scores `v`. */
  lemma {:induction false} WithScoreAbove(s: seq<Scored>, v: real)
    requires SortedDesc(s) && s != [] && s[0].score < v
    ensures WithScore(s, v) == []
  {
    if |s| > 1 {
      WithScoreAbove(s[1..], v);
    }
  }

  /** Python's stable descending sort by score. */
  function SortDesc(s: seq<Scored>): (r: seq<Scored>)
    ensures |r| == |s|
  {
    if s == [] then [] else Insert(SortDesc(s[..|s| - 1]), s[|s| - 1])
  }

  /** The sort orders by descending score. */
  lemma {:induction false} SortDescSorted(s: seq<Scored>)
    ensures SortedDesc(SortDesc(s))
  {
    if s != [] {
      SortDescSorted(s[..|s| - 1]);
      InsertSorted(SortDesc(s[..|s| - 1]), s[|s| - 1]);
    }
  }

  /** The sort keeps every entry exactly as often as it occurs. */
  lemma {:induction false} SortDescPermutes(s: seq<Scored>)
    ensures multiset(SortDesc(s)) == multiset(s)
  {
    if s != [] {
      var front, last := s[..|s| - 1], s[|s| - 1];
      SortDescPermutes(front);
      InsertAddsOne(SortDesc(front), last);
      assert s == front + [last];
    }
  }

  /** The sort keeps entries with equal scores in their original order (it is stable). */
  lemma {:induction false} SortDescStable(s: seq<Scored>, v: real)
    ensures WithScore(SortDesc(s), v) == WithScore(s, v)
  {
    if s != [] {
      var front, last := s[..|s| - 1], s[|s| - 1];
      SortDescStable(front, v);
      SortDescSorted(front);
      InsertStable(SortDesc(front), last, v);
      WithScoreAppend(front, [last], v);
      assert s == front + [last];
    }
  }

  /** Python's slice `s[:n]`, a negative `n` counting from the end. */
  function Prefix<T>(s: seq<T>, n: int): (r: seq<T>)
    ensures |r| <= |s|
    ensures n >= 0 ==> |r| == Min(n, |s|)
    ensures n < 0 ==> |r| == Max(0, |s| + n)
    ensures forall i :: 0 <= i < |r| ==> r[i] == s[i]
  {
    if n >= 0 then s[..Min(n, |s|)] else s[..Max(0, |s| + n)]
  }

  /** A prefix of a sorted list is sorted, drawn from the list, and beats the rest. */
  lemma PrefixOfSorted(sorted: seq<Scored>, n: nat)
    requires SortedDesc(sorted)
    ensures var top := Prefix(sorted, n);
      |top| == Min(n, |sorted|) && SortedDesc(top) &&
      multiset(top) <= multiset(sorted) &&
      forall i, j :: 0 <= i < |top| && |top| <= j < |sorted| ==> top[i].score >= sorted[j].score
  {
    var top := Prefix(sorted, n);
    assert top == sorted[..|top|];
    assert sorted == top + sorted[|top|..];
    assert multiset(sorted) == multiset(top) + multiset(sorted[|top|..]);
  }

  /** The top `n` of a ranking: the `n` best scores, best first, none left out that beats one kept. */
  lemma TopIsBest(s: seq<Scored>, n: nat)
    ensures var top := Prefix(SortDesc(s), n);
      |top| == Min(n, |s|) && SortedDesc(top) &&
      multiset(top) <= multiset(s) &&
      forall i, j :: 0 <= i < |top| && |top| <= j < |s| ==> top[i].score >= SortDesc(s)[j].score
  {
    SortDescSorted(s);
    SortDescPermutes(s);
    PrefixOfSorted(SortDesc(s), n);
  }
}

=== FILE: sepia.dfy ===
/**
 * The classic sepia pixel map shared by two of the editors: the sepia filter
 * loop of T18 EdiNity src/editing_screen3.py and the `sepia_data` list of
 * T27 filters.py compute each channel as `min(int(weighted sum), 255)` with
 * the same weights.
 */
module Sepia {
  import opened Common

  datatype Rgb = Rgb(r: int, g: int, b: int)

  /** The sepia loop's pixel map: `min(int(weighted sum), 255)` per channel. */
  function SepiaTone(p: Rgb): Rgb
  {
    var (x, y, z) := (p.r as real, p.g as real, p.b as real);
    Rgb(Min(Trunc(0.393 * x + 0.769 * y + 0.189 * z), 255),
        Min(Trunc(0.349 * x + 0.686 * y + 0.168 * z), 255),
        Min(Trunc(0.272 * x + 0.534 * y + 0.131 * z), 255))
  }

  predicate IsByte(v: int) { 0 <= v <= 255 }

  /** On 8-bit pixels the sepia map stays 8-bit: the sums are non-negative and capped at 255. */
  lemma SepiaToneIsByte(p: Rgb)
    requires IsByte(p.r) && IsByte(p.g) && IsByte(p.b)
    ensures IsByte(SepiaTone(p).r) && IsByte(SepiaTone(p).g) && IsByte(SepiaTone(p).b)
  {
    var (x, y, z) := (p.r as real, p.g as real, p.b as real);
    assert 0.0 <= 0.393 * x + 0.769 * y + 0.189 * z;
    assert 0.0 <= 0.349 * x + 0.686 * y + 0.168 * z;
    assert 0.0 <= 0.272 * x + 0.534 * y + 0.131 * z;
  }

  /** Without the cap a white pixel would overflow: its red sum is 344. */
  lemma SepiaCapsWhite()
    ensures Trunc(0.393 * 255.0 + 0.769 * 255.0 + 0.189 * 255.0) == 344
    ensures SepiaTone(Rgb(255, 255, 255)) == Rgb(255, 255, 238)
  {
  }
}

=== FILE: stipple_centroid.dfy ===
/**
 * Density-weighted centroid of one Voronoi cell (T12 get_density_centroid.py).
 *
 * The cell's vertices give a bounding box, truncated with `int()` and
 * clamped to the image. Candidate pixels are either every integer pixel of
 * the box or `10·width·height` uniform random draws in it. Candidates outside
 * the polygon are dropped, the rest are rounded to the nearest pixel and
 * weighted by the density there. Two fallbacks return the mean of the
 * vertices: no candidate inside the polygon, or zero total weight.
 *
 * The point-in-polygon test (matplotlib `Path.contains_points`) and the
 * random draw (`np.random.uniform`) are parameters.
 */
module StippleCentroid {
  import opened Common

  datatype Point = Point(x: real, y: real)

  /** A pixel position: column (x) and row (y). */
  datatype Pixel = Pixel(col: int, row: int)

  /** A density image of `height` rows of `width` values, stored row-major. */
  datatype Density = Density(width: nat, height: nat, values: seq<real>)

  predicate WellShaped(g: Density)
  {
    |g.values| == g.width * g.height
  }

  /** Inclusive integer bounding box `[minX, maxX] × [minY, maxY]`. */
  datatype Box = Box(minX: int, maxX: int, minY: int, maxY: int)

  predicate NonEmpty(b: Box)
  {
    b.minX <= b.maxX && b.minY <= b.maxY
  }

  predicate InBox(p: Pixel, b: Box)
  {
    b.minX <= p.col <= b.maxX && b.minY <= p.row <= b.maxY
  }

  predicate InImage(p: Pixel, g: Density)
  {
    0 <= p.col < g.width && 0 <= p.row < g.height
  }

  predicate BoxInImage(b: Box, g: Density)
  {
    0 <= b.minX && b.maxX < g.width && 0 <= b.minY && b.maxY < g.height
  }

  /** Every point of samples lies between the corners of box b. */
  predicate CoveredBy(samples: seq<Point>, b: Box)
  {
    forall k :: 0 <= k < |samples| ==>
      b.minX as real <= samples[k].x <= b.maxX as real && b.minY as real <= samples[k].y <= b.maxY as real
  }

  /** Every pixel of px lies in box b and in the image. */
  predicate AllIn(px: seq<Pixel>, b: Box, g: Density)
  {
    forall k :: 0 <= k < |px| ==> InBox(px[k], b) && InImage(px[k], g)
  }

  /** Between the two corners of the box, whichever way round they are. */
  predicate Spans(p: Point, b: Box)
  {
    MinR(b.minX as real, b.maxX as real) <= p.x <= MaxR(b.minX as real, b.maxX as real) &&
    MinR(b.minY as real, b.maxY as real) <= p.y <= MaxR(b.minY as real, b.maxY as real)
  }

  /** A uniform sampler: `draw(b, n)` gives n points between the corners of b. */
  ghost predicate UniformDraws(draw: (Box, nat) -> seq<Point>)
  {
    forall b: Box, n: nat :: |draw(b, n)| == n &&
      forall k :: 0 <= k < n ==> Spans(draw(b, n)[k], b)
  }

  function Xs(vs: seq<Point>): seq<real>
  {
    seq(|vs|, i requires 0 <= i < |vs| => vs[i].x)
  }

  function Ys(vs: seq<Point>): seq<real>
  {
    seq(|vs|, i requires 0 <= i < |vs| => vs[i].y)
  }

  /** The vertex bounding box, truncated to integers and clamped to the image. */
  function ClampBox(vs: seq<Point>, g: Density): Box
    requires |vs| > 0
  {
    Box(Max(Trunc(SeqMin(Xs(vs))), 0), Min(Trunc(SeqMax(Xs(vs))), g.width - 1),
        Max(Trunc(SeqMin(Ys(vs))), 0), Min(Trunc(SeqMax(Ys(vs))), g.height - 1))
  }

  predicate ColumnInBox(b: Box, x: int) { b.minX <= x <= b.maxX }
  predicate RowInBox(b: Box, y: int) { b.minY <= y <= b.maxY }

  /**
   * The clamped box is exactly the image's part of the truncated vertex box:
   * a column (row) is in it iff it is inside the image and between the
   * truncated smallest and largest vertex x (y).
   */
  lemma ClampBoxIsIntersection(vs: seq<Point>, g: Density)
    requires |vs| > 0
    ensures BoxInImage(ClampBox(vs, g), g)
    ensures forall x :: ColumnInBox(ClampBox(vs, g), x) <==>
              0 <= x < g.width && Trunc(SeqMin(Xs(vs))) <= x <= Trunc(SeqMax(Xs(vs)))
    ensures forall y :: RowInBox(ClampBox(vs, g), y) <==>
              0 <= y < g.height && Trunc(SeqMin(Ys(vs))) <= y <= Trunc(SeqMax(Ys(vs)))
  {
  }

  /** `10·(maxX-minX)·(maxY-minY)`: negative when exactly one side is reversed. */
  function SampleCount(b: Box): int
  {
    (b.maxX - b.minX) * (b.maxY - b.minY) * 10
  }

  /** Pixel centres `(minX, y), (minX+1, y), ..., (maxX, y)` of one grid row. */
  function GridRow(b: Box, y: int): (r: seq<Point>)
    requires NonEmpty(b)
    ensures |r| == b.maxX - b.minX + 1
  {
    seq(b.maxX - b.minX + 1, j requires 0 <= j <= b.maxX - b.minX => Point((b.minX + j) as real, y as real))
  }

  /** The grid rows y, y+1, ..., maxY, one after the other. */
  function GridFrom(b: Box, y: int): seq<Point>
    requires NonEmpty(b)
    decreases b.maxY - y
  {
    if y > b.maxY then [] else GridRow(b, y) + GridFrom(b, y + 1)
  }

  /**
   * `np.meshgrid(arange(minX, maxX+1), arange(minY, maxY+1))` raveled:
   * rows (y) outer, columns (x) inner; empty when the box is.
   */
  function GridSamples(b: Box): seq<Point>
  {
    if NonEmpty(b) then GridFrom(b, b.minY) else []
  }

  /** An integral point whose pixel lies in the box. */
  predicate PixelOf(p: Point, b: Box)
  {
    p.x.Floor as real == p.x && p.y.Floor as real == p.y && InBox(Pixel(p.x.Floor, p.y.Floor), b)
  }

  lemma {:induction false} GridFromLength(b: Box, y: int)
    requires NonEmpty(b) && y <= b.maxY + 1
    ensures |GridFrom(b, y)| == (b.maxY - y + 1) * (b.maxX - b.minX + 1)
    decreases b.maxY - y
  {
    if y <= b.maxY {
      GridFromLength(b, y + 1);
    }
  }

  lemma {:induction false} GridFromInBox(b: Box, y: int)
    requires NonEmpty(b) && b.minY <= y
    ensures forall k :: 0 <= k < |GridFrom(b, y)| ==> PixelOf(GridFrom(b, y)[k], b)
    decreases b.maxY - y
  {
    if y <= b.maxY {
      GridFromInBox(b, y + 1);
      var row, rest := GridRow(b, y), GridFrom(b, y + 1);
      forall k | 0 <= k < |row + rest| ensures PixelOf((row + rest)[k], b) {
        if k >= |row| {
          assert (row + rest)[k] == rest[k - |row|];
        }
      }
    }
  }

  /** Pixel (x, y') of the box sits at position `(y' - y)·nx + (x - minX)` of rows y.. on. */
  lemma {:induction false} GridFromAt(b: Box, y: int, x: int, y': int)
    requires InBox(Pixel(x, y'), b) && y <= y'
    ensures var k := (y' - y) * (b.maxX - b.minX + 1) + (x - b.minX);
      0 <= k < |GridFrom(b, y)| && GridFrom(b, y)[k] == Point(x as real, y' as real)
    decreases b.maxY - y
  {
    var nx, j := b.maxX - b.minX + 1, x - b.minX;
    var row, rest := GridRow(b, y), GridFrom(b, y + 1);
    assert GridFrom(b, y) == row + rest;
    if y == y' {
      assert (y' - y) * nx == 0;
      assert row[j] == Point(x as real, y' as real);
    } else {
      GridFromAt(b, y + 1, x, y');
      var m := (y' - (y + 1)) * nx + j;
      MulStep(y' - (y + 1), nx);
      assert (y' - y) * nx + j == |row| + m;
      assert (row + rest)[|row| + m] == rest[m];
    }
  }

  /**
   * Exhaustive mode enumerates exactly the integer pixels of the box: every
   * sample is one, every one is a sample, pixel (x, y) at position
   * `(y - minY)·nx + (x - minX)`, and there are nx·ny of them.
   */
  lemma GridSamplesEnumerateBox(b: Box)
    requires NonEmpty(b)
    ensures |GridSamples(b)| == (b.maxX - b.minX + 1) * (b.maxY - b.minY + 1)
    ensures forall k :: 0 <= k < |GridSamples(b)| ==> PixelOf(GridSamples(b)[k], b)
    ensures forall x, y :: InBox(Pixel(x, y), b) ==>
              var k := (y - b.minY) * (b.maxX - b.minX + 1) + (x - b.minX);
              0 <= k < |GridSamples(b)| && GridSamples(b)[k] == Point(x as real, y as real)
  {
    GridFromLength(b, b.minY);
    GridFromInBox(b, b.minY);
    forall x, y | InBox(Pixel(x, y), b)
      ensures var k := (y - b.minY) * (b.maxX - b.minX + 1) + (x - b.minX);
        0 <= k < |GridSamples(b)| && GridSamples(b)[k] == Point(x as real, y as real)
    {
      GridFromAt(b, b.minY, x, y);
    }
  }

  /** The candidate points of one call, or numpy's error for a negative count. */
  function Candidates(b: Box, randomSampling: bool, draw: (Box, nat) -> seq<Point>): Result<seq<Point>>
  {
    if randomSampling then
      var n := SampleCount(b);
      if n < 0 then Err(ValueError("negative dimensions are not allowed"))
      else Ok(draw(b, n))
    else Ok(GridSamples(b))
  }

  /** `samples[path.contains_points(samples)]`, order kept. */
  function Within(samples: seq<Point>, vs: seq<Point>, inside: (seq<Point>, Point) -> bool): (r: seq<Point>)
    ensures |r| <= |samples|
    ensures forall k :: 0 <= k < |r| ==> r[k] in samples && inside(vs, r[k])
    ensures forall k :: 0 <= k < |samples| && inside(vs, samples[k]) ==> samples[k] in r
    ensures (forall k :: 0 <= k < |samples| ==> !inside(vs, samples[k])) ==> r == []
  {
    if samples == [] then []
    else
      var rest := Within(samples[..|samples| - 1], vs, inside);
      var p := samples[|samples| - 1];
      assert forall k :: 0 <= k < |samples| - 1 ==> samples[k] == samples[..|samples| - 1][k];
      if inside(vs, p) then rest + [p] else rest
  }

  /** One sample is kept exactly when it is inside. */
  lemma WithinSingle(p: Point, vs: seq<Point>, inside: (seq<Point>, Point) -> bool)
    ensures Within([p], vs, inside) == if inside(vs, p) then [p] else []
  {
    assert [p][..0] == [];
  }

  /** The filter keeps the order of the samples: filtering a concatenation
      filters each part and concatenates the results. */
  lemma {:induction false} WithinAppend(a: seq<Point>, b: seq<Point>, vs: seq<Point>, inside: (seq<Point>, Point) -> bool)
    ensures Within(a + b, vs, inside) == Within(a, vs, inside) + Within(b, vs, inside)
    decreases |b|
  {
    if b == [] {
      assert a + b == a;
    } else {
      var b' := b[..|b| - 1];
      WithinAppend(a, b', vs, inside);
      assert (a + b)[..|a + b| - 1] == a + b';
      assert (a + b)[|a + b| - 1] == b[|b| - 1];
      var ra, rb := Within(a, vs, inside), Within(b', vs, inside);
      if inside(vs, b[|b| - 1]) {
        assert ra + rb + [b[|b| - 1]] == ra + (rb + [b[|b| - 1]]);
      }
    }
  }

  /** `np.round(coords).astype(int)`. */
  function RoundAll(ps: seq<Point>): (r: seq<Pixel>)
    ensures |r| == |ps|
  {
    seq(|ps|, i requires 0 <= i < |ps| => Pixel(RoundHalfEven(ps[i].x), RoundHalfEven(ps[i].y)))
  }

  /** numpy indexing of one axis of length n: negative indices count from the end. */
  function Wrap(i: int, n: nat): int
    requires -(n as int) <= i < n
  {
    if i < 0 then i + n else i
  }

  /** `gray_img[y, x]`, with numpy's negative-index wrap and `IndexError`. */
  function ReadPixel(g: Density, p: Pixel): (r: Result<real>)
    requires WellShaped(g)
  {
    if -(g.height as int) <= p.row < g.height && -(g.width as int) <= p.col < g.width then
      var row, col := Wrap(p.row, g.height), Wrap(p.col, g.width);
      GridIndex(row, col, g.width, g.height);
      Ok(g.values[row * g.width + col])
    else Err(IndexError)
  }

  /** Inside the image a read returns the pixel's own density; far outside it fails. */
  lemma ReadPixelInImage(g: Density, p: Pixel)
    requires WellShaped(g)
    ensures InImage(p, g) ==>
              0 <= p.row * g.width + p.col < |g.values| &&
              ReadPixel(g, p) == Ok(g.values[p.row * g.width + p.col])
    ensures (p.col >= g.width || p.row >= g.height) ==> ReadPixel(g, p) == Err(IndexError)
  {
    if InImage(p, g) {
      GridIndex(p.row, p.col, g.width, g.height);
    }
  }

  /** `gray_img[rows, cols]` for a list of pixels. */
  function Weights(px: seq<Pixel>, g: Density): (r: Result<seq<real>>)
    requires WellShaped(g)
    ensures r.Ok? ==> |r.value| == |px|
    ensures r.Ok? ==> forall k :: 0 <= k < |px| ==> ReadPixel(g, px[k]) == Ok(r.value[k])
    ensures (forall k :: 0 <= k < |px| ==> InImage(px[k], g)) ==> r.Ok?
  {
    assert forall k :: 0 <= k < |px| && InImage(px[k], g) ==> ReadPixel(g, px[k]).Ok?;
    if px == [] then Ok([])
    else
      var init := px[..|px| - 1];
      assert forall k :: 0 <= k < |init| ==> init[k] == px[k];
      match Weights(init, g)
      case Err(e) => Err(e)
      case Ok(ws) =>
        match ReadPixel(g, px[|px| - 1])
        case Err(e) => Err(e)
        case Ok(w) => Ok(ws + [w])
  }

  function Cols(px: seq<Pixel>): seq<real>
  {
    seq(|px|, i requires 0 <= i < |px| => px[i].col as real)
  }

  function Rows(px: seq<Pixel>): seq<real>
  {
    seq(|px|, i requires 0 <= i < |px| => px[i].row as real)
  }

  /** The products cs[i]·ws[i]. */
  function Products(cs: seq<real>, ws: seq<real>): (r: seq<real>)
    requires |cs| == |ws|
    ensures |r| == |cs|
  {
    seq(|cs|, i requires 0 <= i < |cs| => cs[i] * ws[i])
  }

  /** Σ cs[i]·ws[i]. */
  function WeightedSum(cs: seq<real>, ws: seq<real>): real
    requires |cs| == |ws|
  {
    SumR(Products(cs, ws))
  }

  /** `vertices.mean(axis=0)`. */
  function VertexMean(vs: seq<Point>): Point
    requires |vs| > 0
  {
    Point(SumR(Xs(vs)) / |vs| as real, SumR(Ys(vs)) / |vs| as real)
  }

  /** `np.average(coords, axis=0, weights=ws)`. */
  function WeightedMean(px: seq<Pixel>, ws: seq<real>): Point
    requires |px| == |ws| && SumR(ws) != 0.0
  {
    Point(WeightedSum(Cols(px), ws) / SumR(ws), WeightedSum(Rows(px), ws) / SumR(ws))
  }

  /** The weighted part of the estimator, once some candidates fell inside the polygon. */
  function PixelCentroid(px: seq<Pixel>, vs: seq<Point>, g: Density): Result<Point>
    requires |vs| > 0 && WellShaped(g)
  {
    match Weights(px, g)
    case Err(e) => Err(e)
    case Ok(ws) =>
      if SumR(ws) == 0.0 then Ok(VertexMean(vs)) else Ok(WeightedMean(px, ws))
  }

  /** The whole estimator: `get_density_centroid(vertices, gray_img, random_sampling)`. */
  function DensityCentroid(vs: seq<Point>, g: Density, randomSampling: bool,
                           inside: (seq<Point>, Point) -> bool,
                           draw: (Box, nat) -> seq<Point>): Result<Point>
    requires |vs| > 0 && WellShaped(g)
  {
    match Candidates(ClampBox(vs, g), randomSampling, draw)
    case Err(e) => Err(e)
    case Ok(samples) =>
      var within := Within(samples, vs, inside);
      if |within| == 0 then Ok(VertexMean(vs))
      else PixelCentroid(RoundAll(within), vs, g)
  }

  /** Every candidate of a non-empty box lies within the box. */
  lemma CandidatesInBox(b: Box, randomSampling: bool, draw: (Box, nat) -> seq<Point>)
    requires NonEmpty(b) && UniformDraws(draw)
    ensures Candidates(b, randomSampling, draw).Ok?
    ensures CoveredBy(Candidates(b, randomSampling, draw).value, b)
  {
    MulNonNegative(b.maxX - b.minX, b.maxY - b.minY);
    if randomSampling {
      var n := SampleCount(b);
      assert |draw(b, n)| == n;
      forall k | 0 <= k < n ensures Spans(draw(b, n)[k], b) { }
    } else {
      GridFromInBox(b, b.minY);
    }
  }

  /** Rounding candidates of a box that lies in the image gives pixels of the box. */
  lemma RoundedInBox(samples: seq<Point>, vs: seq<Point>, inside: (seq<Point>, Point) -> bool,
                     b: Box, g: Density)
    requires BoxInImage(b, g) && CoveredBy(samples, b)
    ensures AllIn(RoundAll(Within(samples, vs, inside)), b, g)
  {
    var within := Within(samples, vs, inside);
    var px := RoundAll(within);
    forall k | 0 <= k < |px| ensures InBox(px[k], b) && InImage(px[k], g) {
      var p := within[k];
      assert p in samples;
      RoundWithin(p.x, b.minX, b.maxX);
      RoundWithin(p.y, b.minY, b.maxY);
    }
  }

  /** Reading pixels of the image never fails and returns densities of the image. */
  lemma WeightsInImage(px: seq<Pixel>, b: Box, g: Density)
    requires WellShaped(g) && AllIn(px, b, g)
    ensures Weights(px, g).Ok?
    ensures forall k :: 0 <= k < |px| ==> Weights(px, g).value[k] in g.values
  {
    var ws := Weights(px, g).value;
    forall k | 0 <= k < |px| ensures ws[k] in g.values {
      ReadPixelInImage(g, px[k]);
    }
  }

  /** The pixels that the estimator weighs when some candidate is inside, all inside the box. */
  lemma CandidatePixels(vs: seq<Point>, g: Density, randomSampling: bool,
                        inside: (seq<Point>, Point) -> bool,
                        draw: (Box, nat) -> seq<Point>)
    requires |vs| > 0 && WellShaped(g) && UniformDraws(draw)
    requires NonEmpty(ClampBox(vs, g))
    ensures Candidates(ClampBox(vs, g), randomSampling, draw).Ok?
    ensures AllIn(RoundAll(Within(Candidates(ClampBox(vs, g), randomSampling, draw).value, vs, inside)),
                  ClampBox(vs, g), g)
  {
    var b := ClampBox(vs, g);
    ClampBoxIsIntersection(vs, g);
    CandidatesInBox(b, randomSampling, draw);
    RoundedInBox(Candidates(b, randomSampling, draw).value, vs, inside, b, g);
  }

  /**
   * When the clamped box is non-empty every pixel read lies inside the image,
   * so the estimator never fails.
   */
  lemma NonEmptyBoxSucceeds(vs: seq<Point>, g: Density, randomSampling: bool,
                            inside: (seq<Point>, Point) -> bool,
                            draw: (Box, nat) -> seq<Point>)
    requires |vs| > 0 && WellShaped(g) && UniformDraws(draw)
    requires NonEmpty(ClampBox(vs, g))
    ensures DensityCentroid(vs, g, randomSampling, inside, draw).Ok?
  {
    CandidatePixels(vs, g, randomSampling, inside, draw);
    var samples := Candidates(ClampBox(vs, g), randomSampling, draw).value;
    var within := Within(samples, vs, inside);
    var px := RoundAll(within);
    WeightsInImage(px, ClampBox(vs, g), g);
    assert PixelCentroid(px, vs, g).Ok?;
  }

  /**
   * In either sampling mode, a polygon that contains none of the candidates
   * drawn for its box falls back to the vertex mean.
   */
  lemma NothingInsideGivesVertexMean(vs: seq<Point>, g: Density, randomSampling: bool,
                                     inside: (seq<Point>, Point) -> bool,
                                     draw: (Box, nat) -> seq<Point>)
    requires |vs| > 0 && WellShaped(g)
    requires Candidates(ClampBox(vs, g), randomSampling, draw).Ok?
    requires forall p | p in Candidates(ClampBox(vs, g), randomSampling, draw).value :: !inside(vs, p)
    ensures DensityCentroid(vs, g, randomSampling, inside, draw) == Ok(VertexMean(vs))
  {
    var samples := Candidates(ClampBox(vs, g), randomSampling, draw).value;
    forall k | 0 <= k < |samples| ensures !inside(vs, samples[k]) {
      assert samples[k] in samples;
    }
  }

  lemma FlatSampleCount(b: Box)
    requires b.minX == b.maxX || b.minY == b.maxY
    ensures SampleCount(b) == 0
  {
  }

  /**
   * In random mode a box of zero width or zero height draws no samples, so
   * the result is the vertex mean.
   */
  lemma FlatBoxGivesVertexMean(vs: seq<Point>, g: Density,
                               inside: (seq<Point>, Point) -> bool,
                               draw: (Box, nat) -> seq<Point>)
    requires |vs| > 0 && WellShaped(g) && UniformDraws(draw)
    requires var b := ClampBox(vs, g); b.minX == b.maxX || b.minY == b.maxY
    ensures DensityCentroid(vs, g, true, inside, draw) == Ok(VertexMean(vs))
  {
    var b := ClampBox(vs, g);
    FlatSampleCount(b);
    assert Candidates(b, true, draw) == Ok(draw(b, 0));
    assert |draw(b, 0)| == 0;
  }

  /** On an all-zero density a non-empty box falls back to the vertex mean. */
  lemma ZeroDensityGivesVertexMean(vs: seq<Point>, g: Density, randomSampling: bool,
                                   inside: (seq<Point>, Point) -> bool,
                                   draw: (Box, nat) -> seq<Point>)
    requires |vs| > 0 && WellShaped(g) && UniformDraws(draw)
    requires NonEmpty(ClampBox(vs, g))
    requires forall i :: 0 <= i < |g.values| ==> g.values[i] == 0.0
    ensures DensityCentroid(vs, g, randomSampling, inside, draw) == Ok(VertexMean(vs))
  {
    CandidatePixels(vs, g, randomSampling, inside, draw);
    var samples := Candidates(ClampBox(vs, g), randomSampling, draw).value;
    var within := Within(samples, vs, inside);
    if |within| > 0 {
      var px := RoundAll(within);
      WeightsInImage(px, ClampBox(vs, g), g);
      var ws := Weights(px, g).value;
      ZeroSum(ws);
      assert PixelCentroid(px, vs, g) == Ok(VertexMean(vs));
    }
  }

  lemma {:induction false} ZeroSum(ws: seq<real>)
    requires forall k :: 0 <= k < |ws| ==> ws[k] == 0.0
    ensures SumR(ws) == 0.0
  {
    if ws != [] {
      ZeroSum(ws[..|ws| - 1]);
    }
  }

  lemma MulLeft(a: real, b: real, w: real)
    requires a <= b && w >= 0.0
    ensures a * w <= b * w
  {
    assert (b - a) * w >= 0.0;
  }

  lemma Distribute(a: real, s: real, w: real)
    ensures a * (s + w) == a * s + a * w
  {
  }

  predicate Between(cs: seq<real>, lo: real, hi: real)
  {
    forall k :: 0 <= k < |cs| ==> lo <= cs[k] <= hi
  }

  predicate NonNegative(ws: seq<real>)
  {
    forall k :: 0 <= k < |ws| ==> ws[k] >= 0.0
  }

  /** a·w for every weight w. */
  function Scale(a: real, ws: seq<real>): (r: seq<real>)
    ensures |r| == |ws|
  {
    seq(|ws|, i requires 0 <= i < |ws| => a * ws[i])
  }

  lemma ScalePrefix(a: real, ws: seq<real>, n: nat)
    requires n <= |ws|
    ensures Scale(a, ws)[..n] == Scale(a, ws[..n])
  {
    assert forall i :: 0 <= i < n ==> Scale(a, ws)[..n][i] == Scale(a, ws[..n])[i];
  }

  lemma {:induction false} SumScale(a: real, ws: seq<real>)
    ensures SumR(Scale(a, ws)) == a * SumR(ws)
  {
    if ws != [] {
      var n := |ws| - 1;
      SumScale(a, ws[..n]);
      ScalePrefix(a, ws, n);
      Distribute(a, SumR(ws[..n]), ws[n]);
    }
  }

  /** xs is pointwise at most ys. */
  predicate Dominated(xs: seq<real>, ys: seq<real>)
  {
    |xs| == |ys| && forall k :: 0 <= k < |xs| ==> xs[k] <= ys[k]
  }

  lemma {:induction false} SumMonotone(xs: seq<real>, ys: seq<real>)
    requires Dominated(xs, ys)
    ensures SumR(xs) <= SumR(ys)
  {
    if xs != [] {
      var n := |xs| - 1;
      SumMonotone(xs[..n], ys[..n]);
    }
  }

  lemma ProductsBetween(cs: seq<real>, ws: seq<real>, lo: real, hi: real)
    requires |cs| == |ws| && Between(cs, lo, hi) && NonNegative(ws)
    ensures Dominated(Scale(lo, ws), Products(cs, ws)) && Dominated(Products(cs, ws), Scale(hi, ws))
  {
    var ps := Products(cs, ws);
    forall k | 0 <= k < |ws| ensures Scale(lo, ws)[k] <= ps[k] <= Scale(hi, ws)[k] {
      MulLeft(lo, cs[k], ws[k]);
      MulLeft(cs[k], hi, ws[k]);
    }
  }

  /** A non-negatively weighted sum of values in [lo, hi] lies in [lo·Σw, hi·Σw]. */
  lemma WeightedSumBounds(cs: seq<real>, ws: seq<real>, lo: real, hi: real)
    requires |cs| == |ws| && Between(cs, lo, hi) && NonNegative(ws)
    ensures lo * SumR(ws) <= WeightedSum(cs, ws) <= hi * SumR(ws)
  {
    var ps := Products(cs, ws);
    ProductsBetween(cs, ws, lo, hi);
    SumMonotone(Scale(lo, ws), ps);
    SumMonotone(ps, Scale(hi, ws));
    SumScale(lo, ws);
    SumScale(hi, ws);
  }

  lemma DivideBounds(lo: real, hi: real, t: real, s: real)
    requires s > 0.0 && lo * s <= t <= hi * s
    ensures lo <= t / s <= hi
  {
    assert (t / s) * s == t;
    if t / s < lo {
      MulLeft(t / s, lo, s);
    }
    if t / s > hi {
      MulLeft(hi, t / s, s);
    }
  }

  /** A weighted mean of values in [lo, hi] with non-negative weights lies in [lo, hi]. */
  lemma AxisMeanInRange(cs: seq<real>, ws: seq<real>, lo: real, hi: real)
    requires |cs| == |ws| && SumR(ws) > 0.0 && Between(cs, lo, hi) && NonNegative(ws)
    ensures lo <= WeightedSum(cs, ws) / SumR(ws) <= hi
  {
    WeightedSumBounds(cs, ws, lo, hi);
    DivideBounds(lo, hi, WeightedSum(cs, ws), SumR(ws));
  }

  lemma WeightedMeanInBox(px: seq<Pixel>, ws: seq<real>, b: Box)
    requires |px| == |ws| && SumR(ws) > 0.0
    requires forall k :: 0 <= k < |px| ==> InBox(px[k], b)
    requires NonNegative(ws)
    ensures var c := WeightedMean(px, ws);
      b.minX as real <= c.x <= b.maxX as real && b.minY as real <= c.y <= b.maxY as real
  {
    assert Between(Cols(px), b.minX as real, b.maxX as real);
    assert Between(Rows(px), b.minY as real, b.maxY as real);
    AxisMeanInRange(Cols(px), ws, b.minX as real, b.maxX as real);
    AxisMeanInRange(Rows(px), ws, b.minY as real, b.maxY as real);
  }

  /**
   * On a non-negative density with a non-empty box the centroid is either
   * the vertex mean (one of the two fallbacks) or a point of the clamped box.
   */
  lemma CentroidInBoxOrVertexMean(vs: seq<Point>, g: Density, randomSampling: bool,
                                  inside: (seq<Point>, Point) -> bool,
                                  draw: (Box, nat) -> seq<Point>)
    requires |vs| > 0 && WellShaped(g) && UniformDraws(draw)
    requires NonEmpty(ClampBox(vs, g))
    requires forall i :: 0 <= i < |g.values| ==> g.values[i] >= 0.0
    ensures var r := DensityCentroid(vs, g, randomSampling, inside, draw);
      var b := ClampBox(vs, g);
      r.Ok? && (r.value == VertexMean(vs) ||
                (b.minX as real <= r.value.x <= b.maxX as real &&
                 b.minY as real <= r.value.y <= b.maxY as real))
  {
    var b := ClampBox(vs, g);
    CandidatePixels(vs, g, randomSampling, inside, draw);
    var samples := Candidates(b, randomSampling, draw).value;
    var within := Within(samples, vs, inside);
    if |within| > 0 {
      var px := RoundAll(within);
      WeightsInImage(px, ClampBox(vs, g), g);
      var ws := Weights(px, g).value;
      SumRNonNegative(ws);
      if SumR(ws) != 0.0 {
        WeightedMeanInBox(px, ws, b);
        assert PixelCentroid(px, vs, g) == Ok(WeightedMean(px, ws));
      }
    }
  }
}

=== FILE: stipple_gui.dfy ===
/**
 * The settings panel of the stippling GUI (T12 Voronoi_Gui.py).
 *
 * The Tk variables behind the widgets are the fields of `StippleSettings`.
 * Leaving an entry runs `validate_and_clamp` on the entry's text; the two
 * check boxes reset the value they disable; the Generate button refuses an
 * empty image path and otherwise calls `voronoi_stipple` with the panel's
 * values (never the seed).
 */
module StippleGui {
  import opened Common

  /** Python's whitespace among the ASCII characters: `\t\n\v\f\r`, the separators 0x1c-0x1f and space. */
  predicate IsSpace(c: char)
  {
    c == ' ' || 9 <= c as int <= 13 || 28 <= c as int <= 31
  }

  predicate IsDigit(c: char)
  {
    '0' <= c <= '9'
  }

  predicate AllDigits(s: string)
  {
    forall i :: 0 <= i < |s| ==> IsDigit(s[i])
  }

  predicate AllSpace(s: string)
  {
    forall i :: 0 <= i < |s| ==> IsSpace(s[i])
  }

  function TrimStart(s: string): (r: string)
    ensures r == [] || !IsSpace(r[0])
  {
    if s != [] && IsSpace(s[0]) then TrimStart(s[1..]) else s
  }

  function TrimEnd(s: string): (r: string)
    ensures r == [] || !IsSpace(r[|r| - 1])
  {
    if s != [] && IsSpace(s[|s| - 1]) then TrimEnd(s[..|s| - 1]) else s
  }

  /** The value of a string of decimal digits. */
  function DigitsValue(s: string): (v: nat)
    requires AllDigits(s)
  {
    if s == [] then 0 else DigitsValue(s[..|s| - 1]) * 10 + (s[|s| - 1] as int - '0' as int)
  }

  lemma {:induction false} TrimStartIsSuffix(s: string)
    ensures |TrimStart(s)| <= |s| && TrimStart(s) == s[|s| - |TrimStart(s)|..]
  {
    if s != [] && IsSpace(s[0]) {
      TrimStartIsSuffix(s[1..]);
    }
  }

  lemma {:induction false} TrimEndIsPrefix(s: string)
    ensures |TrimEnd(s)| <= |s| && TrimEnd(s) == s[..|TrimEnd(s)|]
  {
    if s != [] && IsSpace(s[|s| - 1]) {
      TrimEndIsPrefix(s[..|s| - 1]);
    }
  }

  /** `str.strip()` with Python's whitespace: no whitespace is left at either end. */
  function Strip(s: string): (r: string)
    ensures r == [] || (!IsSpace(r[0]) && !IsSpace(r[|r| - 1]))
  {
    TrimEndIsPrefix(TrimStart(s));
    TrimEnd(TrimStart(s))
  }

  /** What `strip` keeps is a contiguous piece of the text. */
  lemma StripIsSlice(s: string) returns (i: nat)
    ensures i + |Strip(s)| <= |s| && Strip(s) == s[i..i + |Strip(s)|]
  {
    TrimStartIsSuffix(s);
    TrimEndIsPrefix(TrimStart(s));
    i := |s| - |TrimStart(s)|;
  }

  /** An optional sign and one or more decimal digits, nothing else. */
  function ParseSigned(t: string): Option<int>
  {
    if t == [] then None
    else if t[0] == '-' || t[0] == '+' then
      var ds := t[1..];
      if ds != [] && AllDigits(ds) then
        var v: int := DigitsValue(ds);
        Some(if t[0] == '-' then -v else v)
      else None
    else if AllDigits(t) then Some(DigitsValue(t))
    else None
  }

  /**
   * Python's `int(text)` on a str: surrounding whitespace, an optional sign,
   * then one or more decimal digits; anything else is a ValueError (None).
   */
  function ParseInt(text: string): Option<int>
  {
    ParseSigned(Strip(text))
  }

  lemma {:induction false} DigitsOfNat(n: nat)
    ensures AllDigits(NatToString(n))
    ensures DigitsValue(NatToString(n)) == n
  {
    var s := NatToString(n);
    if n >= 10 {
      DigitsOfNat(n / 10);
      assert s[..|s| - 1] == NatToString(n / 10);
    }
  }

  /** Text that neither starts nor ends with whitespace is left as it is by the trimming. */
  lemma TrimUnpadded(s: string)
    requires s != [] && !IsSpace(s[0]) && !IsSpace(s[|s| - 1])
    ensures Strip(s) == s
  {
  }

  lemma ParseNatText(n: nat)
    ensures ParseSigned(NatToString(n)) == Some(n)
  {
    DigitsOfNat(n);
    assert IsDigit(NatToString(n)[0]);
  }

  lemma ParseNegativeText(n: nat)
    requires n > 0
    ensures ParseSigned("-" + NatToString(n)) == Some(-(n as int))
  {
    DigitsOfNat(n);
    assert ("-" + NatToString(n))[1..] == NatToString(n);
  }

  /** `int(str(n)) == n`: the parser reads back every integer the program prints. */
  lemma ParsePrinted(n: int)
    ensures ParseInt(IntToString(n)) == Some(n)
  {
    var s := IntToString(n);
    var ds := NatToString(if n < 0 then -n else n);
    assert s[|s| - 1] == ds[|ds| - 1];
    TrimUnpadded(s);
    if n < 0 {
      ParseNegativeText(-n);
    } else {
      ParseNatText(n);
    }
  }

  lemma {:induction false} TrimStartSpaces(ws: string, s: string)
    requires AllSpace(ws)
    ensures TrimStart(ws + s) == TrimStart(s)
  {
    if ws == [] {
      assert ws + s == s;
    } else {
      assert (ws + s)[0] == ws[0];
      assert (ws + s)[1..] == ws[1..] + s;
      TrimStartSpaces(ws[1..], s);
    }
  }

  lemma {:induction false} TrimEndSpaces(s: string, ws: string)
    requires AllSpace(ws)
    ensures TrimEnd(s + ws) == TrimEnd(s)
  {
    if ws == [] {
      assert s + ws == s;
    } else {
      var n := |ws| - 1;
      assert (s + ws)[|s| + n] == ws[n];
      assert (s + ws)[..|s| + n] == s + ws[..n];
      TrimEndSpaces(s, ws[..n]);
    }
  }

  lemma {:induction false} TrimStartAppendSpaces(s: string, ws: string)
    requires AllSpace(ws)
    ensures TrimStart(s + ws) == (if TrimStart(s) == [] then TrimStart(ws) else TrimStart(s) + ws)
  {
    if s != [] {
      assert (s + ws)[0] == s[0];
      if IsSpace(s[0]) {
        assert (s + ws)[1..] == s[1..] + ws;
        TrimStartAppendSpaces(s[1..], ws);
      }
    } else {
      assert s + ws == ws;
    }
  }

  lemma {:induction false} TrimStartAllSpace(ws: string)
    requires AllSpace(ws)
    ensures TrimStart(ws) == []
  {
    if ws != [] {
      TrimStartAllSpace(ws[1..]);
    }
  }

  /** Whitespace around the entry's text does not change what `int()` reads. */
  lemma ParseIgnoresPadding(before: string, text: string, after: string)
    requires AllSpace(before) && AllSpace(after)
    ensures ParseInt(before + text + after) == ParseInt(text)
  {
    assert before + text + after == before + (text + after);
    TrimStartSpaces(before, text + after);
    TrimStartAppendSpaces(text, after);
    var ts := TrimStart(text);
    if ts == [] {
      TrimStartAllSpace(after);
    } else {
      TrimEndSpaces(ts, after);
    }
  }

  /** Text with no digit at all is never an integer. */
  lemma NoDigitsNoInt(text: string)
    requires forall i :: 0 <= i < |text| ==> !IsDigit(text[i])
    ensures ParseInt(text) == None
  {
    var t := Strip(text);
    var i := StripIsSlice(text);
    if t != [] {
      assert !IsDigit(t[0]) by {
        assert t[0] == text[i];
      }
      if |t| > 1 {
        assert !IsDigit(t[1]) by {
          assert t[1] == text[i + 1];
        }
      }
    }
  }

  /**
   * Tk's own reading of a variable's text, `IntVar.get`: Tcl's integer
   * parse, then `int()` of Tcl's double parse, so "5.5" reads as 5 and
   * "0x1F" as 31. None stands for the TclError it raises when both fail.
   */
  type TclReader = string -> Option<int>

  /** What `validate_and_clamp` leaves behind. */
  datatype Validation =
    | Stored(value: int)   // `variable.set(value)` ran
    | Unreadable           // `variable.get()` raised TclError, which `except ValueError` lets through

  /**
   * `validate_and_clamp(text, lo, hi, variable)`. Text that `int()` accepts
   * is clamped into [lo, hi]. Otherwise the fallback `variable.get()` reads
   * the entry's own variable, which holds the same text, so the value Tk
   * makes of that text is stored unclamped, or the TclError escapes.
   */
  function Validated(text: string, lo: int, hi: int, tcl: TclReader): (r: Validation)
    requires lo <= hi
    ensures ParseInt(text).Some? ==> r.Stored? && lo <= r.value <= hi
    ensures ParseInt(text).Some? && lo <= ParseInt(text).value <= hi ==> r == Stored(ParseInt(text).value)
    ensures ParseInt(text).None? ==> (r.Stored? <==> tcl(text).Some?)
    ensures ParseInt(text).None? && r.Stored? ==> r.value == tcl(text).value
  {
    match ParseInt(text)
    case Some(v) => Stored(Clamp(v, lo, hi))
    case None =>
      match tcl(text)
      case Some(v) => Stored(v)
      case None => Unreadable
  }

  /**
   * The stored value is in range exactly when `int()` accepted the text or
   * Tk's own reading of it happens to be in range: the fallback is not clamped.
   */
  lemma ValidatedInRangeIff(text: string, lo: int, hi: int, tcl: TclReader)
    requires lo <= hi
    ensures var r := Validated(text, lo, hi, tcl);
      (r.Stored? && lo <= r.value <= hi) <==>
      (ParseInt(text).Some? || (tcl(text).Some? && lo <= tcl(text).value <= hi))
  {
  }

  /** "5.5" is no integer for `int()`, so Tk's reading of it is stored as it is, below the range. */
  lemma FallbackIsUnclamped(tcl: TclReader)
    requires tcl("5.5") == Some(5)
    ensures Validated("5.5", 100, 50000, tcl) == Stored(5)
  {
    TrimUnpadded("5.5");
    assert !IsDigit("5.5"[1]);
  }

  /** Typing a number the program printed gives that number, clamped. */
  lemma ValidatedPrinted(n: int, lo: int, hi: int, tcl: TclReader)
    requires lo <= hi
    ensures Validated(IntToString(n), lo, hi, tcl) == Stored(Clamp(n, lo, hi))
  {
    ParsePrinted(n);
  }

  /**
   * What a Tk integer variable holds: the integer it was last set to, or the
   * text typed into the entry whose `textvariable` it is.
   */
  datatype TkValue = IntValue(n: int) | TextValue(text: string)

  /** The entry's text for a variable: `str(n)` of an integer, or the typed text. */
  function EntryText(v: TkValue): (r: string)
    ensures v.IntValue? ==> ParseInt(r) == Some(v.n)
  {
    match v
    case IntValue(n) => ParsePrinted(n); IntToString(n)
    case TextValue(t) => t
  }

  /** `variable.get()`: an integer, or Tk's reading of the text (None: TclError). */
  function Read(v: TkValue, tcl: TclReader): Option<int>
  {
    match v
    case IntValue(n) => Some(n)
    case TextValue(t) => tcl(t)
  }

  /** The variable after `validate_and_clamp`: the stored integer, or unchanged when TclError escaped. */
  function AfterValidation(v: TkValue, r: Validation): TkValue
  {
    match r
    case Stored(n) => IntValue(n)
    case Unreadable => v
  }

  /** The variable holds an integer in [lo, hi]. */
  predicate InRange(v: TkValue, lo: int, hi: int)
  {
    v.IntValue? && lo <= v.n <= hi
  }

  /**
   * Leaving an entry puts its variable in range exactly when `int()` accepts
   * its text or Tk reads that text as an in-range integer; a variable that
   * still holds an integer always ends in range.
   */
  lemma FocusOutRange(v: TkValue, lo: int, hi: int, tcl: TclReader)
    requires lo <= hi
    ensures var after := AfterValidation(v, Validated(EntryText(v), lo, hi, tcl));
      (InRange(after, lo, hi) <==>
        ParseInt(EntryText(v)).Some? || (tcl(EntryText(v)).Some? && lo <= tcl(EntryText(v)).value <= hi)) &&
      (v.IntValue? ==> after == IntValue(Clamp(v.n, lo, hi)))
  {
    var text := EntryText(v);
    ValidatedInRangeIff(text, lo, hi, tcl);
    if v.IntValue? {
      ValidatedPrinted(v.n, lo, hi, tcl);
    }
  }

  /** The integer variables behind the entries. */
  datatype IntSetting = StipplePoints | LloydIters | QuantizationLevels | Seed

  /** What the Generate button passes to `voronoi_stipple`; the seed is not among it. */
  datatype StippleRequest = StippleRequest(imgPath: string, stipplePoints: int, grayLevels: int,
                                           lloydIters: int, randomSampling: bool, plot: bool, save: bool)

  datatype GenerateOutcome =
    | MissingImage           // "Please select an image file."
    | ReadFailed             // a variable's `get()` raised; "An error occurred: ..."
    | Generate(request: StippleRequest)

  class StippleSettings {
    var imgPath: string
    var stipplePoints: TkValue
    var lloydIters: TkValue
    var qlevels: TkValue
    var seed: TkValue
    var randomSampling: bool
    var plot: bool
    var save: bool
    var quantizationEnabled: bool
    var customSeedEnabled: bool
    /** Whether the quantisation slider and entry, and the seed entry, accept input. */
    var qlevelsEditable: bool
    var seedEditable: bool

    /** The ranges the sliders and the focus-out clamps aim to keep the values in. */
    predicate Valid()
      reads this
    {
      InRange(stipplePoints, 100, 50000) && InRange(lloydIters, 0, 100) && InRange(qlevels, 0, 128)
    }

    function Get(which: IntSetting): TkValue
      reads this
    {
      match which
      case StipplePoints => stipplePoints
      case LloydIters => lloydIters
      case QuantizationLevels => qlevels
      case Seed => seed
    }

    /** The variables as the application creates them. */
    constructor ()
      ensures imgPath == "" && stipplePoints == IntValue(8000) && lloydIters == IntValue(30)
      ensures qlevels == IntValue(0) && seed == IntValue(111)
      ensures randomSampling && plot && !save && !quantizationEnabled && !customSeedEnabled
      ensures !qlevelsEditable && !seedEditable
      ensures Valid()
    {
      imgPath := "";
      stipplePoints := IntValue(8000);
      lloydIters := IntValue(30);
      qlevels := IntValue(0);
      seed := IntValue(111);
      randomSampling := true;
      plot := true;
      save := false;
      quantizationEnabled := false;
      customSeedEnabled := false;
      qlevelsEditable := false;
      seedEditable := false;
    }

    /** Typing into an entry: its `textvariable` now holds the typed text. */
    method TypeText(which: IntSetting, text: string)
      modifies this
      ensures Get(which) == TextValue(text)
      ensures !which.StipplePoints? ==> stipplePoints == old(stipplePoints)
      ensures !which.LloydIters? ==> lloydIters == old(lloydIters)
      ensures !which.QuantizationLevels? ==> qlevels == old(qlevels)
      ensures !which.Seed? ==> seed == old(seed)
      ensures imgPath == old(imgPath) && randomSampling == old(randomSampling) && plot == old(plot)
      ensures save == old(save) && quantizationEnabled == old(quantizationEnabled)
      ensures customSeedEnabled == old(customSeedEnabled)
      ensures qlevelsEditable == old(qlevelsEditable) && seedEditable == old(seedEditable)
    {
      match which
      case StipplePoints => stipplePoints := TextValue(text);
      case LloydIters => lloydIters := TextValue(text);
      case QuantizationLevels => qlevels := TextValue(text);
      case Seed => seed := TextValue(text);
    }

    /** `validate_and_clamp(entry.get(), lo, hi, variable)` on one of the integer variables. */
    method ValidateAndClamp(lo: int, hi: int, which: IntSetting, tcl: TclReader) returns (r: Validation)
      requires lo <= hi
      modifies this
      ensures r == Validated(EntryText(old(Get(which))), lo, hi, tcl)
      ensures Get(which) == AfterValidation(old(Get(which)), r)
      ensures !which.StipplePoints? ==> stipplePoints == old(stipplePoints)
      ensures !which.LloydIters? ==> lloydIters == old(lloydIters)
      ensures !which.QuantizationLevels? ==> qlevels == old(qlevels)
      ensures !which.Seed? ==> seed == old(seed)
      ensures imgPath == old(imgPath) && randomSampling == old(randomSampling) && plot == old(plot)
      ensures save == old(save) && quantizationEnabled == old(quantizationEnabled)
      ensures customSeedEnabled == old(customSeedEnabled)
      ensures qlevelsEditable == old(qlevelsEditable) && seedEditable == old(seedEditable)
    {
      var v := Get(which);
      r := Validated(EntryText(v), lo, hi, tcl);
      var after := AfterValidation(v, r);
      match which
      case StipplePoints => stipplePoints := after;
      case LloydIters => lloydIters := after;
      case QuantizationLevels => qlevels := after;
      case Seed => seed := after;
    }

    /**
     * Focus leaves the stipple-points entry: clamp to [100, 50000]. The count
     * ends in range exactly when `int()` or Tk's fallback reads an in-range
     * integer; an escaping TclError leaves the typed text in place.
     */
    method StipplePointsFocusOut(tcl: TclReader) returns (r: Validation)
      modifies this
      ensures r == Validated(EntryText(old(stipplePoints)), 100, 50000, tcl)
      ensures stipplePoints == AfterValidation(old(stipplePoints), r)
      ensures old(stipplePoints).IntValue? ==> stipplePoints == IntValue(Clamp(old(stipplePoints).n, 100, 50000))
      ensures lloydIters == old(lloydIters) && qlevels == old(qlevels) && seed == old(seed)
      ensures imgPath == old(imgPath) && randomSampling == old(randomSampling) && plot == old(plot)
      ensures save == old(save) && quantizationEnabled == old(quantizationEnabled)
      ensures customSeedEnabled == old(customSeedEnabled)
      ensures qlevelsEditable == old(qlevelsEditable) && seedEditable == old(seedEditable)
    {
      r := ValidateAndClamp(100, 50000, StipplePoints, tcl);
      FocusOutRange(old(stipplePoints), 100, 50000, tcl);
    }

    /** Focus leaves the Lloyd-iterations entry: clamp to [0, 100], with the same fallback. */
    method LloydItersFocusOut(tcl: TclReader) returns (r: Validation)
      modifies this
      ensures r == Validated(EntryText(old(lloydIters)), 0, 100, tcl)
      ensures lloydIters == AfterValidation(old(lloydIters), r)
      ensures old(lloydIters).IntValue? ==> lloydIters == IntValue(Clamp(old(lloydIters).n, 0, 100))
      ensures stipplePoints == old(stipplePoints) && qlevels == old(qlevels) && seed == old(seed)
      ensures imgPath == old(imgPath) && randomSampling == old(randomSampling) && plot == old(plot)
      ensures save == old(save) && quantizationEnabled == old(quantizationEnabled)
      ensures customSeedEnabled == old(customSeedEnabled)
      ensures qlevelsEditable == old(qlevelsEditable) && seedEditable == old(seedEditable)
    {
      r := ValidateAndClamp(0, 100, LloydIters, tcl);
      FocusOutRange(old(lloydIters), 0, 100, tcl);
    }

    /** Focus leaves the quantisation entry: clamp to [0, 128], with the same fallback. */
    method QuantizationFocusOut(tcl: TclReader) returns (r: Validation)
      modifies this
      ensures r == Validated(EntryText(old(qlevels)), 0, 128, tcl)
      ensures qlevels == AfterValidation(old(qlevels), r)
      ensures old(qlevels).IntValue? ==> qlevels == IntValue(Clamp(old(qlevels).n, 0, 128))
      ensures stipplePoints == old(stipplePoints) && lloydIters == old(lloydIters) && seed == old(seed)
      ensures imgPath == old(imgPath) && randomSampling == old(randomSampling) && plot == old(plot)
      ensures save == old(save) && quantizationEnabled == old(quantizationEnabled)
      ensures customSeedEnabled == old(customSeedEnabled)
      ensures qlevelsEditable == old(qlevelsEditable) && seedEditable == old(seedEditable)
    {
      r := ValidateAndClamp(0, 128, QuantizationLevels, tcl);
      FocusOutRange(old(qlevels), 0, 128, tcl);
    }

    /**
     * `toggle_quantization`, run after the check box has flipped its
     * variable: enabling makes the slider and entry editable, disabling
     * locks them and sets the levels back to 0.
     */
    method ToggleQuantization()
      modifies this
      ensures qlevelsEditable == quantizationEnabled
      ensures qlevels == (if quantizationEnabled then old(qlevels) else IntValue(0))
      ensures stipplePoints == old(stipplePoints) && lloydIters == old(lloydIters) && seed == old(seed)
      ensures quantizationEnabled == old(quantizationEnabled) && seedEditable == old(seedEditable)
      ensures imgPath == old(imgPath) && randomSampling == old(randomSampling) && plot == old(plot)
      ensures save == old(save) && customSeedEnabled == old(customSeedEnabled)
      ensures old(Valid()) ==> Valid()
    {
      if quantizationEnabled {
        qlevelsEditable := true;
      } else {
        qlevelsEditable := false;
        qlevels := IntValue(0);
      }
    }

    /**
     * `toggle_seed`: enabling makes the seed entry editable, disabling locks
     * it and sets the seed back to 111.
     */
    method ToggleSeed()
      modifies this
      ensures seedEditable == customSeedEnabled
      ensures seed == (if customSeedEnabled then old(seed) else IntValue(111))
      ensures stipplePoints == old(stipplePoints) && lloydIters == old(lloydIters) && qlevels == old(qlevels)
      ensures customSeedEnabled == old(customSeedEnabled) && qlevelsEditable == old(qlevelsEditable)
      ensures imgPath == old(imgPath) && randomSampling == old(randomSampling) && plot == old(plot)
      ensures save == old(save) && quantizationEnabled == old(quantizationEnabled)
    {
      if customSeedEnabled {
        seedEditable := true;
      } else {
        seedEditable := false;
        seed := IntValue(111);
      }
    }

    /**
     * `generate_voronoi`: with no image path it reports an error; a variable
     * whose `get()` raises is reported through the catch-all handler;
     * otherwise the stippler gets the panel's values, and never the seed.
     */
    method GenerateVoronoi(tcl: TclReader) returns (r: GenerateOutcome)
      ensures r.MissingImage? <==> imgPath == ""
      ensures r.ReadFailed? <==>
        (imgPath != "" &&
         (Read(stipplePoints, tcl).None? || Read(qlevels, tcl).None? || Read(lloydIters, tcl).None?))
      ensures r.Generate? ==> r.request == StippleRequest(imgPath, Read(stipplePoints, tcl).value,
        Read(qlevels, tcl).value, Read(lloydIters, tcl).value, randomSampling, plot, save)
      ensures Valid() && imgPath != "" ==>
        r.Generate? && 100 <= r.request.stipplePoints <= 50000 && 0 <= r.request.grayLevels <= 128 &&
        0 <= r.request.lloydIters <= 100
    {
      if imgPath == "" {
        return MissingImage;
      }
      var points := Read(stipplePoints, tcl);
      var levels := Read(qlevels, tcl);
      var iters := Read(lloydIters, tcl);
      if points.None? || levels.None? || iters.None? {
        return ReadFailed;
      }
      r := Generate(StippleRequest(imgPath, points.value, levels.value, iters.value, randomSampling, plot, save));
    }
  }
}

=== FILE: stipple_lloyd.dfy ===
/**
 * Lloyd relaxation with density centroids (T12 lloyds_method.py).
 *
 * A fixed number of passes: each pass walks the Voronoi diagram's
 * `point_region` in index order and moves point i to the density centroid of
 * its cell, except that a cell that is unbounded (its region lists vertex -1)
 * or empty keeps the point's position in the ORIGINAL input, then rebuilds
 * the diagram from the new points and records them.
 *
 * scipy's `Voronoi` is the parameter `build` (None stands for a Qhull error).
 * `get_density_centroid(vertices, gray_img, random_sampling)` is the
 * parameter `estimate(vertices, t, i)`: t and i say which pass and which point
 * the call is for, so that each call may use its own random draws. The
 * stippler instantiates it with StippleCentroid.DensityCentroid.
 */
module StippleLloyd {
  import opened Common
  import opened StippleCentroid

  /** A centroid estimator: cell vertices, pass number and point index to a centroid. */
  type Estimator = (seq<Point>, nat, nat) -> Result<Point>

  datatype Diagram = Diagram(vertices: seq<Point>, regions: seq<seq<int>>, pointRegion: seq<int>)

  /** What scipy promises about the diagram of n input points. */
  predicate DiagramOf(d: Diagram, n: nat)
  {
    |d.pointRegion| == n &&
    (forall i :: 0 <= i < n ==> 0 <= d.pointRegion[i] < |d.regions|) &&
    (forall r, j :: 0 <= r < |d.regions| && 0 <= j < |d.regions[r]| ==>
       -1 <= d.regions[r][j] < |d.vertices|)
  }

  ghost predicate ScipyVoronoi(build: seq<Point> -> Option<Diagram>)
  {
    forall ps :: build(ps).Some? ==> DiagramOf(build(ps).value, |ps|)
  }

  function Region(d: Diagram, i: nat): seq<int>
    requires DiagramOf(d, |d.pointRegion|) && i < |d.pointRegion|
  {
    d.regions[d.pointRegion[i]]
  }

  /** A cell with at least one vertex and no vertex at infinity. */
  predicate Bounded(region: seq<int>)
  {
    |region| > 0 && -1 !in region
  }

  /** `vor.vertices[region]`. */
  function CellVertices(d: Diagram, region: seq<int>): (vs: seq<Point>)
    requires forall j :: 0 <= j < |region| ==> 0 <= region[j] < |d.vertices|
    ensures |vs| == |region|
  {
    seq(|region|, j requires 0 <= j < |region| => d.vertices[region[j]])
  }

  /** The new position of point i in pass t. */
  function NewPosition(points: seq<Point>, d: Diagram, i: nat, t: nat, estimate: Estimator): Result<Point>
    requires DiagramOf(d, |points|) && i < |points|
  {
    var region := Region(d, i);
    if !Bounded(region) then Ok(points[i])
    else
      assert forall j :: 0 <= j < |region| ==> 0 <= region[j] < |d.vertices| by {
        assert forall j :: 0 <= j < |region| ==> region[j] != -1;
      }
      estimate(CellVertices(d, region), t, i)
  }

  /** The first n new positions of pass t, or the first failure among them. */
  function PassUpTo(points: seq<Point>, d: Diagram, n: nat, t: nat, estimate: Estimator): (r: Result<seq<Point>>)
    requires DiagramOf(d, |points|) && n <= |points|
    ensures r.Ok? ==> |r.value| == n
  {
    if n == 0 then Ok([])
    else
      match PassUpTo(points, d, n - 1, t, estimate)
      case Err(e) => Err(e)
      case Ok(ps) =>
        match NewPosition(points, d, n - 1, t, estimate)
        case Err(e) => Err(e)
        case Ok(p) => Ok(ps + [p])
  }

  function Pass(points: seq<Point>, d: Diagram, t: nat, estimate: Estimator): Result<seq<Point>>
    requires DiagramOf(d, |points|)
  {
    PassUpTo(points, d, |points|, t, estimate)
  }

  /** Passes t, t+1, ... up to `iterations`, from diagram d and history so far. */
  function LloydFrom(points: seq<Point>, build: seq<Point> -> Option<Diagram>, estimate: Estimator,
                     iterations: nat, t: nat, d: Diagram, history: seq<seq<Point>>)
    : Result<(Diagram, seq<seq<Point>>)>
    requires ScipyVoronoi(build)
    requires t <= iterations && DiagramOf(d, |points|)
    decreases iterations - t
  {
    if t == iterations then Ok((d, history))
    else
      match Pass(points, d, t, estimate)
      case Err(e) => Err(e)
      case Ok(next) =>
        match build(next)
        case None => Err(ForeignError("Qhull"))
        case Some(d') => LloydFrom(points, build, estimate,
                                   iterations, t + 1, d', history + [next])
  }

  /** `lloyds_method_density(points, gray_img, iterations, random_sampling)`. */
  function Lloyd(points: seq<Point>, iterations: int, build: seq<Point> -> Option<Diagram>, estimate: Estimator)
    : Result<(Diagram, seq<seq<Point>>)>
    requires ScipyVoronoi(build)
  {
    match build(points)
    case None => Err(ForeignError("Qhull"))
    case Some(d) => LloydFrom(points, build, estimate,
                              Max(iterations, 0), 0, d, [points])
  }

  /** Once a prefix of a pass fails, the whole pass fails the same way. */
  lemma {:induction false} PassErrorPersists(points: seq<Point>, d: Diagram, m: nat, n: nat, t: nat,
                                             estimate: Estimator)
    requires DiagramOf(d, |points|) && m <= n <= |points|
    requires PassUpTo(points, d, m, t, estimate).Err?
    ensures PassUpTo(points, d, n, t, estimate) ==
            PassUpTo(points, d, m, t, estimate)
    decreases n - m
  {
    if m < n {
      PassErrorPersists(points, d, m, n - 1, t, estimate);
    }
  }

  /** The body of the inner loop for point i: the cell policy. */
  method Reposition(points: seq<Point>, vor: Diagram, i: nat, t: nat, estimate: Estimator)
    returns (c: Result<Point>)
    requires DiagramOf(vor, |points|) && i < |points|
    ensures c == NewPosition(points, vor, i, t, estimate)
  {
    var region := vor.regions[vor.pointRegion[i]];
    if -1 in region || |region| == 0 {
      return Ok(points[i]);
    }
    assert forall j :: 0 <= j < |region| ==> 0 <= region[j] < |vor.vertices| by {
      assert forall j :: 0 <= j < |region| ==> region[j] != -1;
    }
    c := estimate(CellVertices(vor, region), t, i);
  }

  /** One pass: the inner loop over `enumerate(vor.point_region)`. */
  method RunPass(points: seq<Point>, vor: Diagram, t: nat, estimate: Estimator)
    returns (r: Result<seq<Point>>)
    requires DiagramOf(vor, |points|)
    ensures r == Pass(points, vor, t, estimate)
  {
    var newPoints := [];
    var i := 0;
    while i < |vor.pointRegion|
      invariant 0 <= i <= |points|
      invariant PassUpTo(points, vor, i, t, estimate) == Ok(newPoints)
      decreases |points| - i
    {
      var c := Reposition(points, vor, i, t, estimate);
      if c.Err? {
        PassErrorPersists(points, vor, i + 1, |points|, t, estimate);
        return Err(c.error);
      }
      newPoints := newPoints + [c.value];
      i := i + 1;
    }
    return Ok(newPoints);
  }

  /** The relaxation loop, as the source runs it. */
  method LloydsMethodDensity(points: seq<Point>, iterations: int, build: seq<Point> -> Option<Diagram>, estimate: Estimator)
    returns (r: Result<(Diagram, seq<seq<Point>>)>)
    requires ScipyVoronoi(build)
    ensures r == Lloyd(points, iterations, build, estimate)
  {
    var first := build(points);
    if first.None? {
      return Err(ForeignError("Qhull"));
    }
    var vor := first.value;
    var history := [points];
    var n := Max(iterations, 0);
    var t := 0;
    while t < n
      invariant 0 <= t <= n
      invariant DiagramOf(vor, |points|)
      invariant Lloyd(points, iterations, build, estimate) ==
                LloydFrom(points, build, estimate, n, t, vor, history)
      decreases n - t
    {
      var newPoints := RunPass(points, vor, t, estimate);
      if newPoints.Err? {
        return Err(newPoints.error);
      }
      var next := build(newPoints.value);
      if next.None? {
        return Err(ForeignError("Qhull"));
      }
      vor := next.value;
      history := history + [newPoints.value];
      t := t + 1;
    }
    return Ok((vor, history));
  }

  /** The shape of a history after t passes. */
  ghost predicate HistoryShape(points: seq<Point>, build: seq<Point> -> Option<Diagram>, estimate: Estimator,
                               t: nat, d: Diagram, history: seq<seq<Point>>)
    requires ScipyVoronoi(build)
  {
    |history| == t + 1 && history[0] == points &&
    (forall k :: 0 <= k <= t ==> |history[k]| == |points|) &&
    build(history[t]) == Some(d) &&
    (forall k :: 0 <= k < t ==>
       build(history[k]).Some? &&
       Pass(points, build(history[k]).value, k, estimate) == Ok(history[k + 1]))
  }

  /** One more pass extends a history of t passes to one of t + 1. */
  lemma HistoryStep(points: seq<Point>, build: seq<Point> -> Option<Diagram>, estimate: Estimator,
                    t: nat, d: Diagram, history: seq<seq<Point>>, next: seq<Point>, d': Diagram)
    requires ScipyVoronoi(build) && DiagramOf(d, |points|)
    requires HistoryShape(points, build, estimate, t, d, history)
    requires Pass(points, d, t, estimate) == Ok(next) && build(next) == Some(d')
    ensures HistoryShape(points, build, estimate, t + 1, d', history + [next])
  {
    var h' := history + [next];
    forall k | 0 <= k < t + 1
      ensures build(h'[k]).Some? && Pass(points, build(h'[k]).value, k, estimate) == Ok(h'[k + 1])
    {
      if k == t {
        assert h'[k] == history[t] && h'[k + 1] == next;
      } else {
        assert h'[k] == history[k] && h'[k + 1] == history[k + 1];
      }
    }
  }

  lemma {:induction false} LloydFromShape(points: seq<Point>, build: seq<Point> -> Option<Diagram>,
                                          estimate: Estimator,
                                          iterations: nat, t: nat, d: Diagram, history: seq<seq<Point>>)
    requires ScipyVoronoi(build)
    requires t <= iterations && DiagramOf(d, |points|)
    requires HistoryShape(points, build, estimate, t, d, history)
    ensures var r := LloydFrom(points, build, estimate, iterations, t, d, history);
      r.Ok? ==> HistoryShape(points, build, estimate, iterations, r.value.0, r.value.1)
    decreases iterations - t
  {
    if t < iterations {
      var p := Pass(points, d, t, estimate);
      if p.Ok? && build(p.value).Some? {
        var d' := build(p.value).value;
        HistoryStep(points, build, estimate, t, d, history, p.value, d');
        LloydFromShape(points, build, estimate, iterations, t + 1, d', history + [p.value]);
      }
    }
  }

  /**
   * A successful relaxation returns `max(iterations, 0) + 1` point sets
   * (just the input when `iterations` is negative), the first being the input, every one as long
   * as the input, each obtained by one pass over the diagram of the one
   * before, and the returned diagram is built from the last.
   */
  lemma LloydHistory(points: seq<Point>, iterations: int, build: seq<Point> -> Option<Diagram>, estimate: Estimator)
    requires ScipyVoronoi(build)
    requires Lloyd(points, iterations, build, estimate).Ok?
    ensures var (d, history) := Lloyd(points, iterations, build, estimate).value;
      |history| == Max(iterations, 0) + 1 && history[0] == points &&
      (forall k :: 0 <= k < |history| ==> |history[k]| == |points|) &&
      build(history[|history| - 1]) == Some(d) &&
      (forall k :: 0 <= k < |history| - 1 ==>
         build(history[k]).Some? &&
         Pass(points, build(history[k]).value, k, estimate) == Ok(history[k + 1]))
  {
    var d := build(points).value;
    LloydFromShape(points, build, estimate, Max(iterations, 0), 0, d, [points]);
  }

  /** A successful prefix of a pass is built position by position. */
  lemma {:induction false} PassUpToAt(points: seq<Point>, d: Diagram, n: nat, t: nat, estimate: Estimator)
    requires DiagramOf(d, |points|) && n <= |points|
    requires PassUpTo(points, d, n, t, estimate).Ok?
    ensures forall i :: 0 <= i < n ==>
              NewPosition(points, d, i, t, estimate) ==
              Ok(PassUpTo(points, d, n, t, estimate).value[i])
  {
    if n > 0 {
      var prev := PassUpTo(points, d, n - 1, t, estimate);
      var last := NewPosition(points, d, n - 1, t, estimate);
      assert prev.Ok? && last.Ok?;
      PassUpToAt(points, d, n - 1, t, estimate);
      var all := PassUpTo(points, d, n, t, estimate).value;
      assert all == prev.value + [last.value];
      forall i | 0 <= i < n
        ensures NewPosition(points, d, i, t, estimate) == Ok(all[i])
      {
        if i < n - 1 {
          assert all[i] == prev.value[i];
        }
      }
    }
  }

  /**
   * The cell policy of one pass, in input order: point i of an unbounded or
   * empty cell goes back to its position in the original input; point i of a
   * bounded cell becomes the estimated centroid of that cell's vertices.
   */
  lemma PassPolicy(points: seq<Point>, d: Diagram, t: nat, estimate: Estimator)
    requires DiagramOf(d, |points|)
    requires Pass(points, d, t, estimate).Ok?
    ensures var next := Pass(points, d, t, estimate).value;
      |next| == |points| &&
      forall i :: 0 <= i < |points| ==>
        var region := d.regions[d.pointRegion[i]];
        (!Bounded(region) ==> next[i] == points[i]) &&
        (Bounded(region) ==>
           (forall j :: 0 <= j < |region| ==> 0 <= region[j] < |d.vertices|) &&
           estimate(CellVertices(d, region), t, i) == Ok(next[i]))
  {
    PassUpToAt(points, d, |points|, t, estimate);
    var next := Pass(points, d, t, estimate).value;
    forall i | 0 <= i < |points|
      ensures var region := d.regions[d.pointRegion[i]];
        Bounded(region) ==> forall j :: 0 <= j < |region| ==> 0 <= region[j] < |d.vertices|
    {
      var region := d.regions[d.pointRegion[i]];
      assert forall j :: 0 <= j < |region| ==> -1 <= region[j] < |d.vertices|;
    }
  }
}

=== FILE: stipple_preprocess.dfy ===
/**
 * Density preprocessing of the Weighted Voronoi stippler
 * (T12 preprocess_image.py).
 *
 * The blurred grayscale image (skimage `gaussian` then `rgb2gray`, both
 * outside this model) arrives as its row-major pixel values. It is inverted so
 * that dark parts become dense, divided by its maximum, and, when a positive
 * number of gray levels is asked for, quantised with `np.digitize` against
 * `np.linspace(0, 1, levels)`.
 */
module StipplePreprocess {
  import opened Common

  function Invert(gray: seq<real>): seq<real>
  {
    seq(|gray|, i requires 0 <= i < |gray| => 1.0 - gray[i])
  }

  /** Bin edge k of `np.linspace(0, 1, q)`. */
  function Bin(k: nat, q: nat): real
    requires q >= 1
  {
    if q == 1 then 0.0 else k as real / (q - 1) as real
  }

  /** ⌊v·(q-1)⌋: the index of the last edge of `np.linspace(0, 1, q)` at or below v. */
  function Level(v: real, q: nat): int
    requires q >= 1
  {
    (v * (q - 1) as real).Floor
  }

  /** Number of the first n bin edges that are at most v. */
  function CountEdges(v: real, q: nat, n: nat): nat
    requires q >= 1
  {
    if n == 0 then 0
    else CountEdges(v, q, n - 1) + (if Bin(n - 1, q) <= v then 1 else 0)
  }

  /** `np.digitize(v, np.linspace(0, 1, q))` with increasing edges. */
  function Digitize(v: real, q: nat): nat
    requires q >= 1
  {
    CountEdges(v, q, q)
  }

  /** One quantised value: `(np.digitize(v, bins) - 1) / q`. */
  function Quantize(v: real, q: nat): real
    requires q >= 1
  {
    (Digitize(v, q) - 1) as real / q as real
  }

  function QuantizeAll(s: seq<real>, q: nat): seq<real>
    requires q >= 1
  {
    seq(|s|, i requires 0 <= i < |s| => Quantize(s[i], q))
  }

  function Normalize(inv: seq<real>, m: real): seq<real>
    requires m != 0.0
  {
    seq(|inv|, i requires 0 <= i < |inv| => inv[i] / m)
  }

  /**
   * The whole preprocessing step on the grayscale pixels. `np.max` of an
   * empty array raises; a zero maximum is numpy's division by zero, which
   * the code does not guard.
   */
  function Preprocess(gray: seq<real>, grayLevels: int): (r: Result<seq<real>>)
    ensures r.Ok? ==> |r.value| == |gray|
    ensures |gray| == 0 ==> r.Err?
  {
    var inv := Invert(gray);
    if |inv| == 0 then Err(ValueError("zero-size array"))
    else
      var m := SeqMax(inv);
      if m == 0.0 then Err(ZeroDivision)
      else
        var norm := Normalize(inv, m);
        if grayLevels > 0 then Ok(QuantizeAll(norm, grayLevels)) else Ok(norm)
  }

  predicate UnitRange(s: seq<real>)
  {
    forall i :: 0 <= i < |s| ==> 0.0 <= s[i] <= 1.0
  }

  /**
   * For a grayscale image with values in [0, 1], preprocessing fails exactly
   * when the image is empty or pure white (nothing to invert).
   */
  lemma PreprocessFailsIffBlank(gray: seq<real>, grayLevels: int)
    requires UnitRange(gray)
    ensures Preprocess(gray, grayLevels).Err? <==>
              (|gray| == 0 || forall i :: 0 <= i < |gray| ==> gray[i] == 1.0)
  {
    if |gray| > 0 {
      var inv := Invert(gray);
      var m := SeqMax(inv);
      if m == 0.0 {
        forall i | 0 <= i < |gray| ensures gray[i] == 1.0 {
          assert inv[i] <= m;
        }
      } else {
        var i :| 0 <= i < |inv| && inv[i] == m;
        assert gray[i] != 1.0;
      }
    }
  }

  /**
   * Without quantisation the density is `(1 - g) / max(1 - g)`: it lies in
   * [0, 1] and reaches 1 somewhere.
   */
  lemma NormalizedDensity(gray: seq<real>, grayLevels: int)
    requires UnitRange(gray)
    requires grayLevels <= 0
    requires Preprocess(gray, grayLevels).Ok?
    ensures UnitRange(Preprocess(gray, grayLevels).value)
    ensures exists i :: 0 <= i < |gray| && Preprocess(gray, grayLevels).value[i] == 1.0
    ensures forall i :: 0 <= i < |gray| ==>
              Preprocess(gray, grayLevels).value[i] == (1.0 - gray[i]) / SeqMax(Invert(gray))
  {
    var inv := Invert(gray);
    var m := SeqMax(inv);
    var r := Preprocess(gray, grayLevels).value;
    assert m > 0.0 by {
      assert inv[0] >= 0.0 && inv[0] <= m;
    }
    assert r == Normalize(inv, m);
    forall i | 0 <= i < |gray| ensures 0.0 <= r[i] <= 1.0 {
      assert r[i] == inv[i] / m;
      DivMono(0.0, inv[i], m);
      DivMono(inv[i], m, m);
      DivSelf(m);
    }
    var k :| 0 <= k < |inv| && inv[k] == m;
    DivSelf(m);
    assert r[k] == 1.0;
  }

  lemma ScaleByPositive(a: real, b: real, d: real)
    requires d > 0.0
    ensures a <= b <==> a * d <= b * d
  {
    if a <= b {
      assert (b - a) * d >= 0.0;
    } else {
      assert (a - b) * d > 0.0;
    }
  }

  lemma DivMono(a: real, b: real, c: real)
    requires c > 0.0 && a <= b
    ensures a / c <= b / c
  {
    ScaleByPositive(a / c, b / c, c);
    DivMulCancel(a, c);
    DivMulCancel(b, c);
  }

  lemma DivSelf(m: real)
    requires m != 0.0
    ensures m / m == 1.0
  {
  }

  lemma DivMulCancel(k: real, d: real)
    requires d != 0.0
    ensures (k / d) * d == k
  {
  }

  /** Edge k/(q-1) is at most v exactly when k ≤ ⌊v·(q-1)⌋. */
  lemma EdgeBelow(v: real, q: nat, k: nat)
    requires q >= 2
    ensures Bin(k, q) <= v <==> k <= Level(v, q)
  {
    var d := (q - 1) as real;
    var b := Bin(k, q);
    DivMulCancel(k as real, d);
    ScaleByPositive(b, v, d);
  }

  /** Counting edges k/(q-1) ≤ v gives min(n, ⌊v·(q-1)⌋ + 1). */
  lemma {:induction false} CountEdgesClosed(v: real, q: nat, n: nat)
    requires q >= 2 && v >= 0.0 && n <= q
    ensures CountEdges(v, q, n) == Min(n, Level(v, q) + 1)
  {
    if n > 0 {
      CountEdgesClosed(v, q, n - 1);
      EdgeBelow(v, q, n - 1);
    }
  }

  /**
   * The quantisation level formula: for q ≥ 2 levels and v in [0, 1] the
   * output is ⌊v·(q-1)⌋ / q, so it is k/q with 0 ≤ k ≤ q-1.
   */
  lemma QuantizeFormula(v: real, q: nat)
    requires q >= 2 && 0.0 <= v <= 1.0
    ensures Quantize(v, q) == Level(v, q) as real / q as real
    ensures 0 <= Level(v, q) <= q - 1
  {
    CountEdgesClosed(v, q, q);
    var d := (q - 1) as real;
    ScaleByPositive(0.0, v, d);
    ScaleByPositive(v, 1.0, d);
    assert 0.0 <= v * d <= d;
  }

  /** With one gray level every non-negative density quantises to 0. */
  lemma QuantizeSingleLevel(v: real)
    requires v >= 0.0
    ensures Quantize(v, 1) == 0.0
  {
    assert CountEdges(v, 1, 1) == CountEdges(v, 1, 0) + 1;
  }

  lemma {:induction false} CountEdgesMonotone(v: real, w: real, q: nat, n: nat)
    requires q >= 1 && v <= w
    ensures CountEdges(v, q, n) <= CountEdges(w, q, n)
  {
    if n > 0 {
      CountEdgesMonotone(v, w, q, n - 1);
    }
  }

  /** A quantised density in [0, 1] lies in [0, (q-1)/q]. */
  lemma QuantizeBound(v: real, q: nat)
    requires q >= 2 && 0.0 <= v <= 1.0
    ensures 0.0 <= Quantize(v, q) <= (q - 1) as real / q as real
  {
    QuantizeFormula(v, q);
    var f := Level(v, q);
    DivMono(0.0, f as real, q as real);
    DivMono(f as real, (q - 1) as real, q as real);
  }

  /** Quantisation is monotone in the density. */
  lemma QuantizeMonotone(v: real, w: real, q: nat)
    requires q >= 1 && v <= w
    ensures Quantize(v, q) <= Quantize(w, q)
  {
    CountEdgesMonotone(v, w, q, q);
    var a := (Digitize(v, q) - 1) as real;
    var b := (Digitize(w, q) - 1) as real;
    DivMono(a, b, q as real);
  }

  /** Quantisation is applied to the normalised density, pixel by pixel. */
  lemma QuantizeAfterNormalize(gray: seq<real>, q: nat)
    requires q >= 1
    requires Preprocess(gray, q).Ok?
    ensures Preprocess(gray, 0).Ok?
    ensures Preprocess(gray, q).value == QuantizeAll(Preprocess(gray, 0).value, q)
  {
  }

  /** Quantising a density field in [0, 1] with q ≥ 2 levels, pixel by pixel. */
  lemma QuantizedPixels(norm: seq<real>, q: nat)
    requires UnitRange(norm) && q >= 2
    ensures forall i :: 0 <= i < |norm| ==>
              QuantizeAll(norm, q)[i] == Level(norm[i], q) as real / q as real
    ensures forall i :: 0 <= i < |norm| ==>
              0.0 <= QuantizeAll(norm, q)[i] <= (q - 1) as real / q as real
  {
    forall i | 0 <= i < |norm|
      ensures QuantizeAll(norm, q)[i] == Level(norm[i], q) as real / q as real
      ensures 0.0 <= QuantizeAll(norm, q)[i] <= (q - 1) as real / q as real
    {
      QuantizeFormula(norm[i], q);
      QuantizeBound(norm[i], q);
    }
  }

  /**
   * With q ≥ 2 levels every output is ⌊d·(q-1)⌋/q of the normalised density
   * d, it lies in [0, (q-1)/q], and (q-1)/q is reached.
   */
  lemma QuantizedDensity(gray: seq<real>, q: nat)
    requires UnitRange(gray)
    requires q >= 2
    requires Preprocess(gray, q).Ok?
    ensures Preprocess(gray, 0).Ok?
    ensures forall i :: 0 <= i < |gray| ==>
              Preprocess(gray, q).value[i] ==
                Level(Preprocess(gray, 0).value[i], q) as real / q as real
    ensures forall i :: 0 <= i < |gray| ==>
              0.0 <= Preprocess(gray, q).value[i] <= (q - 1) as real / q as real
    ensures exists i :: 0 <= i < |gray| && Preprocess(gray, q).value[i] == (q - 1) as real / q as real
  {
    QuantizeAfterNormalize(gray, q);
    NormalizedDensity(gray, 0);
    var norm := Preprocess(gray, 0).value;
    QuantizedPixels(norm, q);
    var k :| 0 <= k < |gray| && norm[k] == 1.0;
    assert Level(norm[k], q) == q - 1;
  }
}

=== FILE: stipple_stipple.dfy ===
/**
 * The stippling driver (T12 weighted_voronoi_stippling.py, `voronoi_stipple`).
 *
 * Preprocess the blurred grayscale image, turn the density into sampling
 * weights `density^weight_scale / Σ`, draw `stipple_points` flat pixel
 * indices with those weights, turn each index into its (x, y) pixel and run
 * the Lloyd relaxation with the density centroid estimator. The file names
 * used for the plot titles and the GIF are modelled as string functions; the
 * plotting itself is not.
 *
 * Image loading with skimage (and the blur and grayscale conversion inside
 * preprocessing) happen before the model starts: the driver receives the
 * grayscale pixels row-major. `np.random.choice` is the parameter `choose`.
 */
module StippleDriver {
  import opened Common
  import opened StipplePreprocess
  import opened StippleCentroid
  import opened StippleLloyd

  /** x^n for a natural exponent. */
  function Pow(x: real, n: nat): (r: real)
    ensures x >= 0.0 ==> r >= 0.0
  {
    if n == 0 then 1.0 else x * Pow(x, n - 1)
  }

  function Powers(d: seq<real>, n: nat): (r: seq<real>)
    ensures |r| == |d|
  {
    seq(|d|, i requires 0 <= i < |d| => Pow(d[i], n))
  }

  function Divided(ps: seq<real>, s: real): (r: seq<real>)
    requires s != 0.0
    ensures |r| == |ps|
  {
    seq(|ps|, i requires 0 <= i < |ps| => ps[i] / s)
  }

  /**
   * `weights = density ** weight_scale; weights / np.sum(weights)`. A zero
   * total is numpy's division by zero, which the code does not guard.
   */
  function SamplingWeights(density: seq<real>, weightScale: nat): (r: Result<seq<real>>)
    ensures r.Ok? ==> |r.value| == |density|
  {
    var ps := Powers(density, weightScale);
    var s := SumR(ps);
    if s == 0.0 then Err(ZeroDivision) else Ok(Divided(ps, s))
  }

  lemma DivAdd(a: real, b: real, s: real)
    requires s != 0.0
    ensures (a + b) / s == a / s + b / s
  {
  }

  lemma DividedPrefix(ps: seq<real>, s: real, n: nat)
    requires s != 0.0 && n <= |ps|
    ensures Divided(ps, s)[..n] == Divided(ps[..n], s)
  {
    assert forall i :: 0 <= i < n ==> Divided(ps, s)[..n][i] == Divided(ps[..n], s)[i];
  }

  lemma {:induction false} SumDivided(ps: seq<real>, s: real)
    requires s != 0.0
    ensures SumR(Divided(ps, s)) == SumR(ps) / s
  {
    if ps != [] {
      var n := |ps| - 1;
      SumDivided(ps[..n], s);
      DividedPrefix(ps, s, n);
      DivAdd(SumR(ps[..n]), ps[n], s);
    }
  }

  /** The sampling weights form a probability vector: they sum to 1 and none is negative. */
  lemma WeightsSumToOne(density: seq<real>, weightScale: nat)
    requires SamplingWeights(density, weightScale).Ok?
    requires forall i :: 0 <= i < |density| ==> density[i] >= 0.0
    ensures SumR(SamplingWeights(density, weightScale).value) == 1.0
    ensures forall i :: 0 <= i < |density| ==> SamplingWeights(density, weightScale).value[i] >= 0.0
  {
    var ps := Powers(density, weightScale);
    var s := SumR(ps);
    SumDivided(ps, s);
    assert s != 0.0;
    DivSelf(s);
    SumRNonNegative(ps);
    forall i | 0 <= i < |density| ensures Divided(ps, s)[i] >= 0.0 {
      assert ps[i] >= 0.0;
    }
  }

  lemma {:induction false} ZeroSumOfZeros(ps: seq<real>)
    requires forall i :: 0 <= i < |ps| ==> ps[i] == 0.0
    ensures SumR(ps) == 0.0
  {
    if ps != [] {
      ZeroSumOfZeros(ps[..|ps| - 1]);
    }
  }

  /** An all-zero density with a positive exponent has no weights: the division by zero. */
  lemma ZeroDensityHasNoWeights(density: seq<real>, weightScale: nat)
    requires weightScale >= 1
    requires forall i :: 0 <= i < |density| ==> density[i] == 0.0
    ensures SamplingWeights(density, weightScale).Err?
  {
    ZeroSumOfZeros(Powers(density, weightScale));
  }

  /** `(idx % width, idx // width)`. */
  function IndexToPixel(idx: int, width: nat): Pixel
    requires width > 0
  {
    Pixel(idx % width, idx / width)
  }

  /**
   * A flat index of a width×height image maps to a pixel of the image whose
   * row-major index is the flat index again.
   */
  lemma IndexToPixelRoundTrip(idx: int, width: nat, height: nat)
    requires width > 0 && 0 <= idx < width * height
    ensures var p := IndexToPixel(idx, width);
      0 <= p.col < width && 0 <= p.row < height && p.row * width + p.col == idx
  {
    GridRowBound(idx, width, height);
  }

  /** Conversely every pixel is reached from its own row-major index. */
  lemma PixelToIndexRoundTrip(col: int, row: int, width: nat)
    requires 0 <= col < width
    ensures IndexToPixel(row * width + col, width) == Pixel(col, row)
  {
    GridDivMod(row, col, width);
  }

  function PixelPoint(p: Pixel): Point
  {
    Point(p.col as real, p.row as real)
  }

  /** `np.array([[idx % width, idx // width] for idx in chosen_indices])`. */
  function InitialPoints(chosen: seq<int>, width: nat): (r: seq<Point>)
    requires width > 0
    ensures |r| == |chosen|
  {
    seq(|chosen|, k requires 0 <= k < |chosen| => PixelPoint(IndexToPixel(chosen[k], width)))
  }

  /** A probability vector: no entry is negative and the entries sum to 1. */
  ghost predicate ProbabilityVector(p: seq<real>)
  {
    (forall i :: 0 <= i < |p| ==> p[i] >= 0.0) && SumR(p) == 1.0
  }

  /**
   * What `np.random.choice(np.arange(len(p)), size=n, p=p)` guarantees for a
   * probability vector p: n indices into p, each with positive probability.
   */
  ghost predicate WeightedChoice(choose: (seq<real>, nat) -> seq<int>)
  {
    forall p: seq<real>, n: nat | ProbabilityVector(p) :: |choose(p, n)| == n &&
      forall k :: 0 <= k < n ==> 0 <= choose(p, n)[k] < |p| && p[choose(p, n)[k]] > 0.0
  }

  /** The first index of a positive entry of p, or |p| when there is none. */
  function FirstPositive(p: seq<real>): (r: nat)
    ensures r <= |p|
    ensures r < |p| ==> p[r] > 0.0
    ensures forall i :: 0 <= i < r ==> p[i] <= 0.0
  {
    if p == [] then 0 else if p[0] > 0.0 then 0 else 1 + FirstPositive(p[1..])
  }

  /** A probability vector has a positive entry. */
  lemma ProbabilityVectorHasPositiveEntry(p: seq<real>)
    requires ProbabilityVector(p)
    ensures FirstPositive(p) < |p|
  {
    if FirstPositive(p) == |p| {
      ZeroSumOfZeros(p);
      assert false;
    }
  }

  /** A choice that always draws the first index of positive probability. */
  function ChooseFirstPositive(p: seq<real>, n: nat): seq<int>
  {
    seq(n, _ => FirstPositive(p))
  }

  /** Some choice meets WeightedChoice, so the premise is not vacuous. */
  lemma WeightedChoiceSatisfiable()
    ensures WeightedChoice(ChooseFirstPositive)
  {
    forall p: seq<real>, n: nat | ProbabilityVector(p)
      ensures |ChooseFirstPositive(p, n)| == n &&
        forall k :: 0 <= k < n ==> 0 <= ChooseFirstPositive(p, n)[k] < |p| && p[ChooseFirstPositive(p, n)[k]] > 0.0
    {
      ProbabilityVectorHasPositiveEntry(p);
    }
  }

  /**
   * For a grayscale image with values in [0, 1] (what `rgb2gray` produces)
   * the sampling weights are a probability vector, so `np.random.choice`
   * never rejects them as negative.
   */
  lemma UnitGrayGivesProbabilityWeights(gray: seq<real>, grayLevels: int, weightScale: nat)
    requires UnitRange(gray)
    requires Preprocess(gray, grayLevels).Ok?
    requires SamplingWeights(Preprocess(gray, grayLevels).value, weightScale).Ok?
    ensures ProbabilityVector(SamplingWeights(Preprocess(gray, grayLevels).value, weightScale).value)
  {
    var adjusted := Preprocess(gray, grayLevels).value;
    if grayLevels <= 0 {
      NormalizedDensity(gray, grayLevels);
    } else {
      QuantizeAfterNormalize(gray, grayLevels);
      NormalizedDensity(gray, 0);
      var norm := Preprocess(gray, 0).value;
      forall i | 0 <= i < |adjusted| ensures adjusted[i] >= 0.0 {
        if grayLevels == 1 {
          QuantizeSingleLevel(norm[i]);
        } else {
          QuantizeBound(norm[i], grayLevels);
        }
      }
    }
    WeightsSumToOne(adjusted, weightScale);
  }

  /** The centroid estimator of the driver: `get_density_centroid` on the preprocessed image. */
  function CentroidEstimator(g: Density, randomSampling: bool,
                             inside: (seq<Point>, Point) -> bool,
                             sample: (nat, nat) -> (Box, nat) -> seq<Point>): Estimator
  {
    (vs: seq<Point>, t: nat, i: nat) =>
      if |vs| > 0 && WellShaped(g) then DensityCentroid(vs, g, randomSampling, inside, sample(t, i))
      else Err(ValueError("zero-size array"))
  }

  /** What a run computes: the density, the initial points, and the relaxation's result. */
  datatype Stipple = Stipple(density: Density, initial: seq<Point>, diagram: Diagram, history: seq<seq<Point>>)

  /**
   * `voronoi_stipple(img_path, stipple_points, gray_levels, lloyd_iters,
   * random_sampling, weight_scale, plot, save, seed)` up to the plots, on
   * the grayscale pixels of the image. `seed` is accepted and never used.
   */
  function VoronoiStipple(gray: seq<real>, width: nat, height: nat,
                          stipplePoints: int, grayLevels: int, lloydIters: int,
                          randomSampling: bool, weightScale: nat, seed: int,
                          choose: (seq<real>, nat) -> seq<int>,
                          build: seq<Point> -> Option<Diagram>,
                          inside: (seq<Point>, Point) -> bool,
                          sample: (nat, nat) -> (Box, nat) -> seq<Point>): Result<Stipple>
    requires |gray| == width * height && ScipyVoronoi(build)
  {
    match Preprocess(gray, grayLevels)
    case Err(e) => Err(e)
    case Ok(adjusted) =>
      match SamplingWeights(adjusted, weightScale)
      case Err(e) => Err(e)
      case Ok(ws) =>
        if exists i :: 0 <= i < |ws| && ws[i] < 0.0 then Err(ValueError("probabilities are not non-negative"))
        else if stipplePoints < 0 then Err(ValueError("negative dimensions are not allowed"))
        else if width == 0 then Err(ValueError("zero-size array"))
        else
          var g := Density(width, height, adjusted);
          var initial := InitialPoints(choose(ws, stipplePoints), width);
          match Lloyd(initial, lloydIters, build, CentroidEstimator(g, randomSampling, inside, sample))
          case Err(e) => Err(e)
          case Ok((d, history)) => Ok(Stipple(g, initial, d, history))
  }

  /**
   * Points drawn from flat indices of positive weight sit at integer
   * coordinates of image pixels whose weight is positive.
   */
  lemma InitialPointsOnWeightedPixels(chosen: seq<int>, ws: seq<real>, g: Density)
    requires WellShaped(g) && g.width > 0 && |ws| == |g.values|
    requires forall k :: 0 <= k < |chosen| ==> 0 <= chosen[k] < |ws| && ws[chosen[k]] > 0.0
    ensures var initial := InitialPoints(chosen, g.width);
      forall k :: 0 <= k < |initial| ==>
        InImage(Pixel(initial[k].x.Floor, initial[k].y.Floor), g) &&
        initial[k].x == initial[k].x.Floor as real && initial[k].y == initial[k].y.Floor as real &&
        var idx := initial[k].y.Floor * g.width + initial[k].x.Floor;
        0 <= idx < |ws| && ws[idx] > 0.0
  {
    var initial := InitialPoints(chosen, g.width);
    forall k | 0 <= k < |initial|
      ensures InImage(Pixel(initial[k].x.Floor, initial[k].y.Floor), g) &&
              initial[k].x == initial[k].x.Floor as real && initial[k].y == initial[k].y.Floor as real
      ensures var idx := initial[k].y.Floor * g.width + initial[k].x.Floor;
              0 <= idx < |ws| && ws[idx] > 0.0
    {
      IndexToPixelRoundTrip(chosen[k], g.width, g.height);
    }
  }

  /**
   * A successful run draws exactly `stipple_points` initial points, each at
   * the integer coordinates `(idx % width, idx // width)` of a pixel of the
   * image whose sampling weight is positive, relaxes them with the
   * preprocessed image (which has the image's shape), keeps
   * `lloyd_iters + 1` point sets starting with the initial ones, and each
   * later set is a pass over the diagram of the one before.
   */
  lemma StippleRun(gray: seq<real>, width: nat, height: nat,
                   stipplePoints: int, grayLevels: int, lloydIters: int,
                   randomSampling: bool, weightScale: nat, seed: int,
                   choose: (seq<real>, nat) -> seq<int>,
                   build: seq<Point> -> Option<Diagram>,
                   inside: (seq<Point>, Point) -> bool,
                   sample: (nat, nat) -> (Box, nat) -> seq<Point>)
    requires |gray| == width * height && ScipyVoronoi(build) && WeightedChoice(choose)
    requires VoronoiStipple(gray, width, height, stipplePoints, grayLevels, lloydIters, randomSampling,
                            weightScale, seed, choose, build, inside, sample).Ok?
    ensures var s := VoronoiStipple(gray, width, height, stipplePoints, grayLevels, lloydIters, randomSampling,
                                    weightScale, seed, choose, build, inside, sample).value;
      WellShaped(s.density) && s.density.width == width && s.density.height == height &&
      |s.initial| == stipplePoints &&
      (forall k :: 0 <= k < |s.initial| ==>
         InImage(Pixel(s.initial[k].x.Floor, s.initial[k].y.Floor), s.density) &&
         s.initial[k].x == s.initial[k].x.Floor as real && s.initial[k].y == s.initial[k].y.Floor as real) &&
      SamplingWeights(s.density.values, weightScale).Ok? &&
      (forall k :: 0 <= k < |s.initial| ==>
         var idx := s.initial[k].y.Floor * width + s.initial[k].x.Floor;
         0 <= idx < |s.density.values| && SamplingWeights(s.density.values, weightScale).value[idx] > 0.0) &&
      |s.history| == Max(lloydIters, 0) + 1 && s.history[0] == s.initial &&
      (forall k :: 0 <= k < |s.history| ==> |s.history[k]| == stipplePoints) &&
      (forall k :: 0 <= k < |s.history| - 1 ==>
         build(s.history[k]).Some? &&
         Pass(s.initial, build(s.history[k]).value, k,
              CentroidEstimator(s.density, randomSampling, inside, sample)) == Ok(s.history[k + 1]))
  {
    var adjusted := Preprocess(gray, grayLevels).value;
    var ws := SamplingWeights(adjusted, weightScale).value;
    var g := Density(width, height, adjusted);
    var ps := Powers(adjusted, weightScale);
    SumDivided(ps, SumR(ps));
    DivSelf(SumR(ps));
    assert ProbabilityVector(ws);
    var chosen := choose(ws, stipplePoints);
    var initial := InitialPoints(chosen, width);
    InitialPointsOnWeightedPixels(chosen, ws, g);
    LloydHistory(initial, lloydIters, build, CentroidEstimator(g, randomSampling, inside, sample));
  }

  /**
   * In a pass of the driver's relaxation a bounded cell's point moves to the
   * density centroid of the cell's vertices, computed on the preprocessed
   * image with the draws of that pass and point.
   */
  lemma DriverPassUsesDensityCentroid(points: seq<Point>, d: Diagram, t: nat, g: Density, randomSampling: bool,
                                      inside: (seq<Point>, Point) -> bool,
                                      sample: (nat, nat) -> (Box, nat) -> seq<Point>, i: nat)
    requires DiagramOf(d, |points|) && WellShaped(g) && i < |points|
    requires Pass(points, d, t, CentroidEstimator(g, randomSampling, inside, sample)).Ok?
    requires Bounded(d.regions[d.pointRegion[i]])
    ensures var region := d.regions[d.pointRegion[i]];
      (forall j :: 0 <= j < |region| ==> 0 <= region[j] < |d.vertices|) &&
      DensityCentroid(CellVertices(d, region), g, randomSampling, inside, sample(t, i)) ==
        Ok(Pass(points, d, t, CentroidEstimator(g, randomSampling, inside, sample)).value[i])
  {
    PassPolicy(points, d, t, CentroidEstimator(g, randomSampling, inside, sample));
  }

  /** Python's `s.rfind(c)` for one character: the last index of c, or -1. */
  function RFind(s: string, c: char): (r: int)
    ensures -1 <= r < |s|
    ensures r >= 0 ==> s[r] == c
    ensures forall j :: r < j < |s| ==> s[j] != c
  {
    if s == [] then -1
    else if s[|s| - 1] == c then |s| - 1
    else RFind(s[..|s| - 1], c)
  }

  /** Where a Python slice bound i lands in a string of length n. */
  function SliceBound(i: int, n: nat): (r: nat)
    ensures r <= n
  {
    if i < 0 then (if i + n < 0 then 0 else i + n) else if i > n then n else i
  }

  /** Python's `s[a:b]`. */
  function Slice(s: string, a: int, b: int): string
  {
    var lo, hi := SliceBound(a, |s|), SliceBound(b, |s|);
    if lo < hi then s[lo..hi] else ""
  }

  /** `img_path[img_path.rfind("/") + 1:]`: the name shown in the plot titles. */
  function DisplayName(path: string): string
  {
    Slice(path, RFind(path, '/') + 1, |path|)
  }

  /** The GIF stem `img_path[img_path.rfind("/") + 1: img_path.rfind(".")]`. */
  function GifStem(path: string): string
  {
    Slice(path, RFind(path, '/') + 1, RFind(path, '.'))
  }

  /** `f'{stem}_voronoi_stippled_{stipple_points}_{lloyd_iters}.gif'`. */
  function GifName(path: string, stipplePoints: int, lloydIters: int): string
  {
    GifStem(path) + "_voronoi_stippled_" + IntToString(stipplePoints) + "_" + IntToString(lloydIters) + ".gif"
  }

  /**
   * The display name is what follows the last '/', the whole path when there
   * is none; it never contains '/'.
   */
  lemma DisplayNameIsLastSegment(path: string)
    ensures DisplayName(path) == path[RFind(path, '/') + 1..]
    ensures '/' !in DisplayName(path)
    ensures '/' !in path ==> DisplayName(path) == path
  {
    var k := RFind(path, '/');
    var n := path[k + 1..];
    assert Slice(path, k + 1, |path|) == n;
    forall j | 0 <= j < |n| ensures n[j] != '/' {
      assert n[j] == path[k + 1 + j];
    }
  }

  /**
   * The GIF stem lies between the last '/' and the last '.'. With a '.'
   * after the last '/' it is the file name without its extension; with no
   * '.' at all the slice end -1 cuts the last character of the file name.
   */
  lemma GifStemCases(path: string)
    ensures var slash, dot := RFind(path, '/'), RFind(path, '.');
      (slash < dot ==> GifStem(path) == path[slash + 1..dot]) &&
      (dot == -1 && slash + 1 < |path| - 1 ==> GifStem(path) == path[slash + 1..|path| - 1]) &&
      (0 <= dot < slash ==> GifStem(path) == "")
  {
  }

}
